=== FILE: README.md ===
# Diaco MES core, modelled in Dafny

Diaco is a manufacturing execution system for a carpet-yarn mill, written in Python and Django. The fibre runs through this chain: blow room, carding, drawing passages, finisher, ring spinning, winding, two-for-one twisting (TFO), heat-setting and dyeing. Each stage records its production batches, and the system computes figures from those records. It issues batch identifiers, derives metadata and quality alerts on every save, reports OEE and downtime, keeps the fibre store and its transaction log, and shows the live dashboards.

This project models the rule-bearing core of that system as pure Dafny functions over immutable datatypes and proves properties about it. Database rows are given as sequences of records. Query aggregates become folds:
- `Records.SqlSum` and `Records.SqlAvg` skip `NULL`s and give `NULL` on an empty set.

Python values are modelled this way:
- Python truthiness is explicit: `Truthy` treats 0, `None` and the empty text as false.
- `float` and `Decimal` values are `real`.
- `round(x, n)` is `Numeric.RoundTo`, exact half-to-even rounding on reals.
- Dates are day numbers and times of day are seconds.
- "today", "now" and the six-digit calendar bucket of an identifier are parameters.

The modules follow the program:

| module | models |
|---|---|
| `BatchIds` | `apps/core/batch_utils.py`: batch, order and work-order numbers, fibre prefixes, the demo batch numbers |
| `Lineage` | `apps/passage/models.py`: the input edges of a drawing passage |
| `StageMetrics` | `apps/ai_ready/signals.py`: the seven metadata calculators and their flags |
| `Oee`, `DowntimePattern`, `Fleet` | `apps/ai_ready/utils.py` and `apps/ai_ready/views.py`: OEE, time series, the downtime pattern, fleet health |
| `Heatset`, `HeatsetSignals` | heat-set batches: phase durations, status changes, and the temperature and shrinkage alerts |
| `Winding`, `WindingSignals` | winding batches: waste share, quality grade, and the cuts and efficiency alerts |
| `Tfo`, `TfoSignals` | twisting batches: waste share, output count, and the breakage and efficiency alerts |
| `ProductionRecords` | the shared status-change and default rules of the winding and twisting views |
| `Blowroom` | the blow-room batch's waste share |
| `Inventory` | fibre lots and the receive, issue and adjust transactions |
| `Validators` | the national-code and machine-code validators |
| `Core` | production statuses, shift durations and the current shift |
| `RelativeDate` | the date template filters |
| `Orders`, `Accounts`, `Maintenance` | their models and views |
| `Reports`, `Dashboard`, `ConfigApi`, `Tablet` | the report, dashboard, REST and tablet views |
| `Records`, `Numeric`, `Text`, `Forms`, `Json`, `Sorting`, `Wrappers` | the shared machinery: SQL aggregates, Python rounding and parsing, text, JSON metadata, a stable sort, `Option` and `Result` |

Proofs are in two forms:
- `ensures` clauses on the operations themselves;
- lemmas that tie an operation to its partner, which can be:
  - a reference definition (for example, each week is counted once, and the recipe holds per-category weights);
  - an inverse (parsers against printers, identifiers against their counters);
  - an invariant it keeps (the fibre ledger, the alert skeleton).

## Model

| member | source | states |
|---|---|---|
| BatchIds.StagePrefix | apps/core/batch_utils.py:47-62 | every record kind has a fixed prefix of two or three letters |
| BatchIds.FiberPrefix | apps/core/batch_utils.py:164-169 | a category code that upper-cases to one of the six known fibre codes gives that code; any other code gives `FB` |
| BatchIds.FiberPrefixCaseInsensitive | apps/core/batch_utils.py:37-44 | the fibre prefix does not depend on letter case, and each known code maps to itself |
| BatchIds.DateBucketShape | apps/core/batch_utils.py:65-72 | for a four-digit year and a valid month and day the bucket is exactly six digits that read back as year mod 100, month and day |
| BatchIds.GreatestMatch | apps/core/batch_utils.py:102-109 | the chosen identifier is absent exactly when no identifier starts with the pattern; otherwise it is one that does and no matching identifier sorts above it |
| BatchIds.CounterAfter | apps/core/batch_utils.py:111-116 | the counter is one past what `int()` reads from the last `-` segment (surrounding blanks and a `+` sign allowed), or 1 when that segment is not an integer |
| BatchIds.SuffixValue | apps/core/batch_utils.py:114-115 | the suffix has a value exactly when the stripped last segment parses as an integer, and then it is that integer, never negative because the segment holds no `-` |
| BatchIds.CounterAfterSigned | apps/core/batch_utils.py:114-116 | a last segment written with a `+` sign still gives one past its number |
| BatchIds.CounterAfterPadded | apps/core/batch_utils.py:114-116 | a last segment padded with spaces still gives one past its number |
| BatchIds.NextIdentifier | apps/core/batch_utils.py:87-118 | the identifier starts with `PREFIX-BUCKET-`, ends in at least three digits worth at least 1, and is `…-001` when nothing matches the pattern |
| BatchIds.NextIdentifierCounter | apps/core/batch_utils.py:111-118 | with a greatest match present, the counter is one past its last segment's number, or 1 when that segment does not parse |
| BatchIds.CounterOfId | apps/core/batch_utils.py:114-118 | the counter written into an identifier is read back from its last segment, so the next counter is one more |
| BatchIds.GreatestIssued | apps/core/batch_utils.py:102-105 | among the identifiers 001…k of one day (k ≤ 999) the greatest by string order is the k-th |
| BatchIds.SequentialIssue | apps/core/batch_utils.py:98-118 | issuing and storing identifiers one after another in one bucket gives 001, 002, … up to 999 |
| BatchIds.IssuedIncreasing | apps/core/batch_utils.py:118 | below 1000, identifiers issued later sort strictly after earlier ones |
| BatchIds.IdInjective | apps/core/batch_utils.py:118 | different counters give different identifiers |
| BatchIds.StuckAtThousand | apps/core/batch_utils.py:102-118 | once 1000 identifiers of a day are stored, the rule as written returns `…-1000` again, which already exists |
| BatchIds.NextIdentifierNumeric | apps/core/batch_utils.py:111-118 | with the counter taken from the numerically greatest suffix, the result starts with the pattern and never equals an existing identifier |
| BatchIds.SequentialIssueNumeric | apps/core/batch_utils.py:98-118 | with the numeric maximum, sequential issue gives counter k+1 after k identifiers for every k, also past 999 |
| BatchIds.NextOrderNumber | apps/core/batch_utils.py:121-141 | an order number starts with `ORD-BUCKET-` and differs from every existing order number |
| BatchIds.NextWorkOrderNumber | apps/core/batch_utils.py:144-161 | a work-order number starts with `WO-BUCKET-` and differs from every existing work-order number |
| BatchIds.NextFiberBatch | apps/core/batch_utils.py:172-179 | a fibre lot number starts with the category's fibre prefix and the bucket, and is new |
| BatchIds.DemoBatchTail | apps/core/management/commands/generate_demo.py:600-604 | the last segment of a demo batch number has at most six digits and reads back as the millisecond clock mod 10^6 |
| BatchIds.ClockTail | apps/core/management/commands/generate_demo.py:602 | the last six characters of the clock's decimal form (or all of it when shorter) read back as the clock mod 10^6 |
| Text.ParseFormatPadded | apps/core/batch_utils.py:118 | a zero-padded counter parses back to the counter |
| Text.LastSegment | apps/core/batch_utils.py:114 | the result is a suffix of the text without the separator, and is preceded by the separator when shorter than the text |
| Text.LexLessTotal | apps/core/batch_utils.py:105 | string order is total on different strings, so the greatest match is well defined |
| Text.Upper | apps/core/batch_utils.py:169 | each ASCII lower-case letter becomes its capital in place and every other character is kept |
| Lineage.PassageNumberOf | apps/passage/models.py:34-44 | a stored passage number is accepted exactly when it is 1 or 2, and reads back to the same integer |
| Lineage.PassageNumberRoundTrip | apps/passage/models.py:34-36 | each passage number survives storing and reading back |
| Lineage.NewProduction | apps/passage/models.py:39-51 | a new production is a first passage with six inputs unless the caller says otherwise |
| Lineage.ParseSourceTag | apps/passage/models.py:112-114 | exactly the tags `carding` and `passage` are accepted, each read back to its tag |
| Lineage.EdgeFor | apps/passage/models.py:122-147 | an edge keeps its position and weight, and its tag is `carding` or `passage` |
| Lineage.EdgeRoundTrip | apps/passage/models.py:128-141 | an edge gives back its source's kind, id and denormalised batch number |
| Lineage.AddProduction | apps/passage/models.py:31 | a new production starts with no inputs, keeps the store's invariant and leaves every other production's inputs alone |
| Lineage.Attach | apps/passage/models.py:157 | attaching succeeds exactly when the production exists and the position is free; it adds only that edge and keeps the invariant (positions 1 to 8 are a precondition) |
| Lineage.AttachTwiceRefused | apps/passage/models.py:157 | a second edge at a position just filled is refused |
| Lineage.RemoveProduction | apps/passage/models.py:116-121 | deleting a production removes all its input edges and touches no other production |
| StageMetrics.StampAt | apps/ai_ready/signals.py:31-35 | every bundle carries version `1.0` and the time it was computed |
| Numeric.DecimalLimit | apps/maintenance/models.py:258-262 | the first magnitude a `DECIMAL(digits, places)` column refuses is positive: 10^(digits − places) less half a step of the last place |
| Numeric.DecimalLimitWeight | apps/inventory/models.py:153-162 | the weight and quantity columns, `DECIMAL(12, 3)`, refuse exactly from 999999999.9995 kg up |
| Numeric.Percentage | apps/ai_ready/signals.py:74-75 | a percentage is recorded exactly when the whole is positive and the part truthy, within half a step of part/whole·100 at two decimals |
| StageMetrics.BlowroomMetrics | apps/ai_ready/signals.py:47-63 | `yield_pct` and `waste_pct` exist only for a positive input; each is null when its numerator is missing or zero; waste comes from the waste weight only; HIGH_WASTE is the only flag, raised exactly when waste % is present and above 8 |
| StageMetrics.CardingMetrics | apps/ai_ready/signals.py:68-88 | yield as in the yield rule; neps copied when present; HIGH_NEPS exactly when neps > 200; the flag list always exists |
| StageMetrics.PassageMetrics | apps/ai_ready/signals.py:93-111 | evenness CV is copied when present and HIGH_CV raised exactly when it exceeds 5.0; the draft ratio is kept only when non-zero |
| StageMetrics.FinisherMetrics | apps/ai_ready/signals.py:116-127 | yield as in the yield rule, and no flags |
| StageMetrics.SpinningMetrics | apps/ai_ready/signals.py:132-172 | performance is the truthy efficiency; availability exists exactly for positive active spindles and is active/total·100 with total falling back to active; simple OEE exists exactly when both do and is computed from the rounded availability; breakage per 1000 uses max(active, 1); the three flags fire exactly on their thresholds, each at most once |
| StageMetrics.SpindleAvailability | apps/ai_ready/signals.py:149-151 | availability exists exactly when spindles are positive, with the total falling back to the active count when missing or zero |
| StageMetrics.OeeSimple | apps/ai_ready/signals.py:152-154 | simple OEE exists exactly when efficiency is truthy and availability exists, and is near availability·efficiency/100 |
| StageMetrics.BreakagePer1000 | apps/ai_ready/signals.py:159 | breakages per thousand spindles, dividing by at least one spindle, rounded to one decimal |
| StageMetrics.SpinningFlags | apps/ai_ready/signals.py:163-169 | LOW_EFFICIENCY exactly for a non-zero efficiency below 70, HIGH_BREAKAGE exactly above 50 breaks, LOW_OEE exactly for a non-zero simple OEE below 60; no flag twice |
| StageMetrics.SpinningExample | apps/ai_ready/signals.py:149-154 | 400 of 480 spindles at 92% give availability 83.33 and simple OEE 76.66, because the OEE uses the rounded availability |
| StageMetrics.DyeingMetrics | apps/ai_ready/signals.py:177-199 | process parameters are copied; QUALITY_FAIL exactly for result `fail`, HIGH_TEMPERATURE exactly above 130, EXTREME_PH exactly for a non-zero pH outside [3, 11] |
| StageMetrics.Recent | apps/ai_ready/signals.py:213-216 | the window holds exactly the machine's stops starting at or after the cut-off |
| StageMetrics.Downtime | apps/ai_ready/signals.py:204-230 | the 30-day count and minute sum are over the machine's recent stops; FREQUENT_DOWNTIME exactly for more than 10 stops and EXCESSIVE_DOWNTIME exactly for more than 500 minutes |
| StageMetrics.DowntimeAppend | apps/ai_ready/signals.py:213-224 | one more stop of the machine inside the window adds one to the count and its minutes to the sum; any other stop changes nothing |
| StageMetrics.DowntimeOtherMachine | apps/ai_ready/signals.py:213-215 | stops of other machines never count towards a machine's health |
| StageMetrics.Persist | apps/ai_ready/signals.py:62-63 | the stored metadata becomes the computed bundle, written through a separate update only when it differs |
| StageMetrics.PersistIdempotent | apps/ai_ready/signals.py:62-63 | saving the same bundle again issues no write |
| StageMetrics.RecomputeChangesOnlyStamp | apps/ai_ready/signals.py:31-35 | recomputing a bundle at another time changes only its computation time |
| Blowroom.CalculatedWastePct | apps/blowroom/models.py:63-68 | a percentage exists exactly when input and output are both non-zero, and is (input − output)/input·100 to two decimals; the stored waste weight plays no part |
| Blowroom.CalculatedWasteBounds | apps/blowroom/models.py:65-67 | output no larger than a positive input gives a percentage in [0, 100] |
| Blowroom.CalculatedWasteUnclamped | apps/blowroom/models.py:66-67 | output larger than input gives a percentage at or below zero: nothing clamps it |
| Blowroom.AgreesWithMetadata | apps/ai_ready/signals.py:54-56 | the derived percentage equals the analytics bundle's only when the waste weight is exactly input − output; with no waste weight the bundle has null where the property has a value |
| Oee.DayStops | apps/ai_ready/utils.py:32-34 | the day's stops are exactly the machine's stops that started on that day |
| Oee.DayDowntime | apps/ai_ready/utils.py:32-35 | the day's downtime is the SQL sum of durations, 0 when every duration is missing |
| Oee.Availability | apps/ai_ready/utils.py:29-37 | availability is never negative, is 100 with no downtime, at most 100 for non-negative downtime, and 0 once downtime reaches the 480-minute shift |
| Oee.AvailabilityNonIncreasing | apps/ai_ready/utils.py:37 | more downtime never raises availability; inside the shift each minute costs exactly 100/480 points |
| Oee.Quality | apps/ai_ready/utils.py:56-57 | quality lies in [0, 100]: 100 with no breakage, 0 from 100 breaks per thousand spindles, and quality plus rate is 100 in between |
| Oee.QualityNonIncreasing | apps/ai_ready/utils.py:57 | a higher breakage rate never raises quality |
| Oee.OeeBounds | apps/ai_ready/utils.py:59 | with each factor in [0, 100] the OEE is in [0, 100], and a zero factor gives 0 |
| Oee.DayBatches | apps/ai_ready/utils.py:40-44 | the selected records are exactly the machine's completed records of the day |
| Oee.Calculate | apps/ai_ready/utils.py:14-71 | the report is for the machine and day asked for |
| Oee.CalculateBounds | apps/ai_ready/utils.py:29-70 | availability is the downtime's, rounded; quality is in [0, 100]; with no completed record performance and OEE are 0; with non-negative durations and percentage efficiencies all four figures are in [0, 100] |
| Oee.NoStopFullAvailability | apps/ai_ready/utils.py:35-37 | a day with no stop of the machine has availability 100 |
| Oee.ParseMetric | apps/ai_ready/views.py:56-59 | a metric outside the allow-list, or none, becomes `output_weight`; each allowed name selects its metric |
| Oee.MetricRoundTrip | apps/ai_ready/views.py:57 | every allowed metric is accepted under its own name |
| Oee.EfficiencyPointBetween | apps/ai_ready/utils.py:87-91 | a day's mean efficiency stays within the range of the day's recorded efficiencies (or is the 0 a missing value becomes) |
| Oee.RecordDays | apps/ai_ready/utils.py:86-88 | the listed dates are strictly ascending, each inside the range and carrying a record |
| Oee.RecordDaysComplete | apps/ai_ready/utils.py:86-88 | every record dated inside the range has its date listed |
| Oee.SeriesRecords | apps/ai_ready/utils.py:82-86 | the series reads exactly the machine's completed records dated on or after the start |
| Oee.TimeSeries | apps/ai_ready/utils.py:74-93 | points are in strictly ascending date order |
| Oee.TimeSeriesSound | apps/ai_ready/utils.py:86-92 | each point is a date on or after the start with a completed record, valued by the mean efficiency or the sum of the metric, 0 when missing |
| Oee.TimeSeriesComplete | apps/ai_ready/utils.py:82-92 | every completed record of the machine on or after the start has a point for its date |
| Oee.Points | apps/ai_ready/utils.py:90-93 | one point per listed date, valued by that date's records |
| Oee.RequestedDay | apps/ai_ready/views.py:20-24 | a missing, empty or unparseable date parameter gives today; otherwise the parsed date |
| Oee.DaysParam | apps/ai_ready/views.py:34 | an absent `days` gives the default, and a digit string (with surrounding blanks) gives its value |
| Oee.OeeRange | apps/ai_ready/views.py:29-47 | exactly `days` reports (none when not positive), oldest first, one per day ending today, each the day's OEE report |
| Oee.Window | apps/ai_ready/views.py:36-46 | the n days ending today, oldest first |
| DowntimePattern.PatternStops | apps/ai_ready/utils.py:102-106 | exactly the machine's stops dated on or after the start |
| DowntimePattern.Tally | apps/ai_ready/utils.py:108-110 | one row per distinct reason, each counting that reason's stops (at least one) with the SQL sum of their minutes, and every stop's reason has a row |
| DowntimePattern.TallyCountsAll | apps/ai_ready/utils.py:108-110 | the reason rows together count every stop exactly once |
| DowntimePattern.ByReason | apps/ai_ready/utils.py:108-111 | the same rows as the grouping, ordered by total minutes descending, with rows that have no sum after those that do |
| DowntimePattern.CountBetweenSplit | apps/ai_ready/utils.py:118 | counts over adjacent non-overlapping day ranges add up |
| DowntimePattern.TrendAsWritten | apps/ai_ready/utils.py:114-122 | `days // 7` weeks oldest first; week i starts 7(n−i) days back and counts stops in a range closed at both ends, so its last day is the next week's first |
| DowntimePattern.BoundaryDayCountedTwice | apps/ai_ready/utils.py:116-118 | one stop dated exactly a week ago is counted in both of two weeks, so the weeks sum to more stops than exist |
| DowntimePattern.Trend | apps/ai_ready/utils.py:114-122 | the same weeks with seven days each and no shared day |
| DowntimePattern.TrendCountsOnce | apps/ai_ready/utils.py:114-122 | the corrected weeks count each stop of the last 7n days exactly once, never more stops than exist |
| DowntimePattern.Mtbf | apps/ai_ready/utils.py:125-127 | hours of the period per failure, at least one failure assumed, to one decimal; with at most one failure it is the whole period |
| DowntimePattern.Mttr | apps/ai_ready/utils.py:129-131 | repair minutes per failure, at least one failure assumed, to one decimal |
| DowntimePattern.RiskOf | apps/ai_ready/utils.py:134-140 | critical below 48 hours, high in [48, 120), medium in [120, 240), low from 240: exactly one level for every MTBF |
| DowntimePattern.RiskMonotone | apps/ai_ready/utils.py:134-140 | a longer MTBF never makes the risk more urgent |
| DowntimePattern.RiskUsesRoundedMtbf | apps/ai_ready/utils.py:127-136 | 961 days with 481 failures is below 48 hours unrounded, but the rounded 48.0 makes the level high |
| DowntimePattern.Summarize | apps/ai_ready/utils.py:96-151 | total failures count the window's stops; the MTBF is the period in hours over the failures and the MTTR the summed stop durations over the failures; the risk is the ladder on the rounded MTBF; the weekly trend is the as-written count of `days // 7` closed weeks, oldest first, starting 7, 14, … days before today; no failures give MTTR 0 and the whole period as MTBF; the reason rows are the grouping's; the weekly counts add up to at most twice the failures |
| DowntimePattern.TrendAsWrittenAtMostTwice | apps/ai_ready/utils.py:114-122 | the closed weeks count at most what the two half-open readings of the weeks count, and so at most twice the stops |
| Fleet.RowOf | apps/ai_ready/views.py:84-98 | each row is the machine's own id and code |
| Fleet.Rows | apps/ai_ready/views.py:79-98 | every row comes from a listed machine, and every listed machine has its row |
| Fleet.RiskRank | apps/ai_ready/views.py:101-102 | rank at most 4, and 4 exactly for a level outside the four known ones |
| Fleet.RankOfLevels | apps/ai_ready/views.py:101 | the four levels rank critical < high < medium < low, each below the unknown rank |
| Fleet.Health | apps/ai_ready/views.py:100-104 | the rows are a permutation of the listed machines' rows in non-decreasing risk rank, and `total` is their number |
| Fleet.HealthCoversListed | apps/ai_ready/views.py:79-104 | only listed machines appear, and every listed machine does |
| Fleet.HealthStable | apps/ai_ready/views.py:102 | machines of equal risk keep their listing order: no secondary key |
| Sorting.SortBy | apps/ai_ready/views.py:102 | the result is a permutation of the input ordered by the key |
| Sorting.SortByStable | apps/ai_ready/views.py:102 | elements with equal keys keep their input order |
| Sorting.InsertBucket | apps/ai_ready/views.py:102 | inserting one element appends it to the end of its key's group and leaves every other group alone |
| Heatset.ParseBatchStatus | apps/heatset/models.py:82-87 | a posted status is accepted exactly when it is one of the five batch statuses, and names the status it reads as |
| Heatset.BatchStatusRoundTrip | apps/heatset/models.py:269-275 | every status, the default `loading` among them, is accepted under its own name |
| Heatset.IsPassedOnlyPass | apps/heatset/models.py:328-330 | a batch has passed exactly when its result is `pass`, not `fail` or `conditional` |
| Heatset.DropZeros | apps/heatset/models.py:319-323 | a zero phase counts the same as a missing one |
| Heatset.PhaseSumDropZeros | apps/heatset/models.py:319-323 | the phase sum ignores zero-valued phases |
| Heatset.PhaseSumCovers | apps/heatset/models.py:319-323 | with no negative phase, the sum is at least every recorded phase |
| Heatset.DurationOnSave | apps/heatset/models.py:317-326 | a positive phase sum becomes the duration; otherwise the previous duration stays |
| Heatset.DurationCoversPhase | apps/heatset/models.py:319-325 | with non-negative phases, one positive phase makes the stored duration at least that phase |
| Heatset.DurationKeptWithoutPhases | apps/heatset/models.py:324-325 | a batch without phase minutes keeps whatever duration it had |
| Heatset.ChangeStatus | apps/heatset/views.py:274-296 | an unknown status is rejected with no change; otherwise the status is set, `started_at` is stamped only on the first move to processing and `completed_at` only on the first move to completed, neither is ever overwritten, and quality, shrinkage and twist change only when posted non-empty |
| Heatset.BlankShrinkageClears | apps/heatset/views.py:291-293 | a shrinkage of blanks is non-empty, fails to parse and so clears the stored shrinkage |
| Heatset.StampsStable | apps/heatset/views.py:282-285 | once set, the start and completion times survive any later sequence of status changes |
| Heatset.Create | apps/heatset/views.py:129-157 | a blank batch number gets a new `HS` identifier; a missing or zero temperature becomes 120 and a missing weight 0 |
| Heatset.Edit | apps/heatset/views.py:221-246 | a blank, unparseable or zero temperature or weight keeps the stored value and a truthy one replaces it; the steam pressure, vacuum, humidity, phase minutes, package count and shrinkage are read from the form alone, blank or unparseable ones becoming empty; the quality result and twist stability are set exactly when posted non-empty; the duration is the save's phase sum or the stored one |
| Heatset.EditBlankKeeps | apps/heatset/views.py:221-246 | an edit with every field blank keeps the batch number, temperature, weight and duration and clears every other measurement and both results |
| Heatset.EditIgnoresStoredMeasures | apps/heatset/views.py:231-244 | two batches that differ only in their measurements and results come out of the same form identical |
| Heatset.EditIdempotent | apps/heatset/views.py:221-246 | posting the same form twice gives the row the first post gave |
| Heatset.EditView | apps/heatset/views.py:219-249 | the edit is stored exactly when the machine and shift keys are posted and the edited row fits its columns (phases and duration 0 to 65535, packages 0 to 4294967295, result words up to 15 characters); a missing key is refused as missing, and a stored edit is the edited row |
| Heatset.EditViewLongCycle | apps/heatset/models.py:319-326 | two phases of 40000 minutes make the save refuse the edit, because their sum does not fit the duration column |
| HeatsetSignals.FiberTempRange | apps/heatset/signals.py:29-36 | exactly the six listed fibres have a range, each within [100, 180] with min below max |
| HeatsetSignals.TemperatureAlerts | apps/heatset/signals.py:87-106 | at most one alert: LOW_TEMPERATURE exactly below the fibre's min and HIGH_TEMPERATURE exactly above its max, both only for a non-zero temperature of a listed fibre |
| HeatsetSignals.ShrinkageAlerts | apps/heatset/signals.py:109-122 | a recorded shrinkage below 0.5 gives LOW_SHRINKAGE and above 3.5 HIGH_SHRINKAGE; nothing else gives an alert |
| HeatsetSignals.Alerts | apps/heatset/signals.py:71-122 | at most three alerts; QUALITY_FAIL exactly for result `fail`, and the temperature and shrinkage alerts exactly as their checks decide |
| HeatsetSignals.InRangeNoTemperatureAlert | apps/heatset/signals.py:89-102 | a temperature inside its fibre's inclusive range raises no temperature alert |
| HeatsetSignals.AtMostOneTemperatureAlert | apps/heatset/signals.py:91-102 | low and high temperature never occur together |
| HeatsetSignals.Skeleton | apps/heatset/signals.py:53-59 | the skeleton holds the three curves and the alert list |
| HeatsetSignals.PreSave | apps/heatset/signals.py:42-59 | the metadata becomes an object holding `ai_quality`; an existing one is left exactly as it was, otherwise the skeleton is added |
| HeatsetSignals.PostSave | apps/heatset/signals.py:62-136 | the alert list under `ai_quality` is replaced by this save's alerts and `has_alerts` is true iff there are any; the checked fields are copied, shrinkage only when non-zero; a non-object `ai_quality` raises |
| HeatsetSignals.Snapshot | apps/heatset/signals.py:130-134 | the checked fields are written as their text, shrinkage only when non-zero, and every other key is left alone |
| Json.AlertRoundTrip | apps/heatset/signals.py:75-79 | an alert written as `{level, code}` reads back as the same alert |
| Json.EnsureSkeleton | apps/heatset/signals.py:49-59 | the result keeps every key of an object input, adds only `ai_quality`, and adds the skeleton exactly when it was missing |
| Json.EnsureSkeletonIdempotent | apps/heatset/signals.py:49-59 | running the pre-save step on its own output changes nothing |
| Json.WithAlerts | apps/heatset/signals.py:125-129 | the write-back replaces `ai_quality.alerts`, sets `has_alerts` iff the list is non-empty, keeps every other key, and raises for a non-object `ai_quality` |
| Json.WithAlertsReplaces | apps/heatset/signals.py:127-129 | writing a second alert list over the first is the same as writing only the second: alerts are replaced, never appended |
| Json.LogSkeleton | apps/winding/signals.py:40-45 | a stage skeleton holds exactly its two sensor logs and the alert list, all empty |
| Json.WastePreSave | apps/winding/signals.py:36-55 | the metadata is normalised and holds `ai_quality`, the skeleton added only when missing; `waste_pct_calculated` is waste/input·100 to two decimals, set only when input and waste are both non-zero |
| Json.AlertsPostSave | apps/winding/signals.py:100-107 | metadata is written back only when there are alerts, replacing the alert list and setting `has_alerts` true |
| Winding.QualityGrade | apps/winding/models.py:172-183 | unknown exactly when cuts are missing; A below 20, B in [20, 40), C in [40, 60), D from 60: one grade for every value |
| Winding.GradeMonotone | apps/winding/models.py:176-183 | more cuts never give a better grade |
| WindingSignals.Alerts | apps/winding/signals.py:66-98 | at most two alerts: HIGH_CUTS exactly from 80 cuts, ELEVATED_CUTS exactly in [50, 80), LOW_EFFICIENCY exactly for a recorded efficiency below 65 |
| WindingSignals.CleanSaveKeepsStaleAlerts | apps/winding/signals.py:101 | a save with no alert writes nothing, so earlier alerts and `has_alerts` stay |
| Tfo.CalculatedOutputCount | apps/tfo/models.py:179-184 | a count exists exactly when the input count is non-zero and the ply count is non-zero, and is input/ply to three decimals |
| Tfo.OutputCountAtMostInput | apps/tfo/models.py:181-183 | for a stored input count and at least one ply the output count is at most the input count |
| Tfo.FormYarnFields | apps/tfo/views.py:136-152 | a missing, unparseable or zero ply count becomes 2; a missing twist 0 and a missing breakage count 0; parsed values are kept (the same on create and edit) |
| TfoSignals.Alerts | apps/tfo/signals.py:63-91 | at most two alerts: HIGH_BREAKAGE exactly from 25 breaks, ELEVATED_BREAKAGE exactly in [10, 25), LOW_EFFICIENCY exactly for a recorded efficiency below 70 |
| TfoSignals.ThresholdsInclusive | apps/tfo/signals.py:67-77 | exactly at 25 and 10 breaks the higher alert applies; 9 breaks give none |
| ProductionRecords.ChangeStatus | apps/winding/views.py:258-269 | an invalid status is rejected with no change; otherwise the status is set and `completed_at` is stamped only on the first move to completed, never overwritten |
| ProductionRecords.CompletedAtStable | apps/tfo/views.py:261-264 | once stamped, the completion time survives any later sequence of status changes |
| ProductionRecords.BatchNumberOrNext | apps/winding/views.py:129 | a posted batch number is kept without surrounding blanks; a blank one is replaced by a new identifier of the stage |
| ProductionRecords.WastePctBounds | apps/winding/models.py:165-170 | a positive waste no larger than the input gives a waste percentage, and it lies in [0, 100] |
| Forms.ParseInt | apps/tablet/views.py:121-128 | a parsed integer comes from non-empty text, and a digit string reads as its value |
| Forms.ParseDecimal | apps/tablet/views.py:111-118 | a digit string reads as its value |
| Forms.SafeInt | apps/winding/views.py:32-38 | a missing or blank value, or one that does not parse, gives the default; otherwise the parsed integer |
| Forms.SafeDecimal | apps/winding/views.py:23-29 | a missing or blank value, or one that does not parse, gives the default; otherwise the parsed decimal |
| Forms.KnownKey | apps/tablet/views.py:521-566 | a posted foreign key names a row exactly when the key is present, its text reads as an integer, and that integer is an existing id; the row named is that id |
| Forms.SafeParsersRoundTrip | apps/tablet/views.py:111-128 | a rendered natural number is read back by both parsers |
| Forms.DecimalExample | apps/tablet/views.py:116 | "12.5" reads as 12.5 |
| Forms.SignedDecimalExample | apps/tablet/views.py:116 | "-0.25" reads as −0.25 |
| Forms.RejectedDecimals | apps/tablet/views.py:115-118 | "12a" and a lone point do not parse, so they give the default |
| Core.ParseProductionStatus | apps/core/models.py:62-66 | a posted status is accepted exactly when it names one of the four production statuses |
| Core.ProductionStatusRoundTrip | apps/core/models.py:110-116 | every status, the default `in_progress` among them, is accepted under its own name |
| Core.ShiftDurationHours | apps/core/models.py:420-428 | the duration is end − start in hours, plus a day when end is before start; it lies in [0, 24) and is 0 when start equals end |
| Core.ShiftAndComplement | apps/core/models.py:426-428 | a shift and its complement together last 24 hours |
| Core.CurrentShift | apps/core/management/commands/generate_demo.py:585-598 | the first shift covering now (start ≤ now < end by day, now ≥ start or now < end overnight) wins; with none covering, the first shift; none only when there are no shifts |
| Core.ShiftPartition | apps/core/management/commands/generate_demo.py:592-597 | every time of day is covered by exactly one of a shift and its complement |
| Core.ShiftByHour | apps/dashboard/views.py:307-313 | [6, 14) is morning, [14, 22) evening, every other hour night |
| Inventory.ConsumedPct | apps/inventory/models.py:224-234 | for a positive initial weight, (initial − current)/initial·100 to one decimal; 0 when the initial weight is not positive |
| Inventory.ConsumedPctBounds | apps/inventory/models.py:229-234 | with 0 ≤ current ≤ initial and initial > 0 the percentage is in [0, 100], 0 for an untouched lot and 100 for an empty one |
| Inventory.Fifo | apps/inventory/models.py:212-215 | the lots are a permutation of the input in ascending receipt date |
| Inventory.FifoHeadOldest | apps/inventory/models.py:174-177 | the first lot in FIFO order was received no later than any other |
| Inventory.ReceiptBatchNumber | apps/inventory/views.py:121 | a posted batch number is kept without surrounding blanks; a blank one gets a new identifier with the category's fibre prefix, different from every stored lot's |
| Inventory.Receive | apps/inventory/views.py:104-160 | a missing weight, or one not positive, is rejected; a batch number already stored is rejected, never a generated one; a missing category key is rejected; the receipt succeeds exactly when, in addition, the category names a known category, the weight fits the `DECIMAL(12, 3)` column and the batch number its 50 characters; then exactly one lot is appended with current = initial and status available, and one receive transaction of the initial weight is logged; the store invariant and the ledger are kept |
| Inventory.CategoryCode | apps/inventory/views.py:113-121 | the code of the posted category when the key names a known one, and empty otherwise, so a failed lookup only changes the generated prefix |
| Inventory.Take | apps/inventory/views.py:178-180 | taking q lowers the weight by exactly q, never below 0, and keeps the lot valid (consumed exactly when empty) |
| Inventory.Issue | apps/inventory/views.py:163-202 | an unknown lot, a quantity that is missing or not positive, and a quantity above the lot's weight are each rejected with no change; a valid quantity with a reference the transaction row cannot hold (type over 50 characters, id not an integer within 64 bits) is rejected with no change, so lot and transaction are written together or not at all; otherwise only that lot changes, by exactly the quantity, and one issue transaction of that quantity is logged; the invariant and ledger are kept |
| Inventory.IssueAsWritten | apps/inventory/views.py:176-202 | as written, the issue agrees with the corrected one except for an unstorable reference: then the view reports an error while the lot has already lost the quantity and the log is unchanged |
| Inventory.IssueLosesLedger | apps/inventory/views.py:176-193 | issuing from a never-adjusted lot with an unstorable reference reports an error and leaves a store that breaks the ledger |
| Inventory.TextReferenceUnstorable | apps/inventory/models.py:556-560 | a reference id posted as `abc` cannot be stored in the big integer column |
| Inventory.Issued1 | apps/inventory/views.py:178-194 | a validated issue changes only the lot taken from, logs it once, and keeps the invariant and the ledger |
| Inventory.Reweigh | apps/inventory/views.py:215-221 | the count becomes the new weight; the lot is consumed exactly when it is 0; a non-empty count returns a consumed lot to available and otherwise keeps the status |
| Inventory.Gap | apps/inventory/views.py:216-228 | the logged quantity is the absolute difference between new and old weight |
| Inventory.Adjust | apps/inventory/views.py:205-240 | an adjustment succeeds exactly for a known lot and a parsed weight ≥ 0 that fits the `DECIMAL(12, 3)` column; every other refusal of a known lot is an invalid weight; it changes only that lot and logs one adjust transaction of the absolute difference; the invariant is kept |
| Inventory.OneTransactionPerMovement | apps/inventory/views.py:183-232 | every successful issue or adjustment logs exactly one transaction naming its lot |
| Inventory.IssueAllConsumes | apps/inventory/views.py:178-180 | issuing a lot's whole weight empties it and marks it consumed |
| Validators.CodeVerdict | apps/core/validators.py:21-35 | for ten leading digits the verdict is never a format error, and it accepts exactly when the digits are not all one repeated character and the tenth digit equals the checksum digit |
| Validators.NationalCodeAsWritten | apps/core/validators.py:15-35 | an empty value passes; a value the anchored ten-digit pattern does not match (allowing one trailing newline, as `$` does) is a format error; otherwise the verdict is that of the digit checks |
| Validators.RepeatedDigitsSlipThrough | apps/core/validators.py:18-23 | "1111111111" is refused as a repeated-digit code, yet the same code with a trailing newline is accepted |
| Validators.NationalCode | apps/core/validators.py:10-35 | accepted exactly when empty, or ten digits, not all the same, with the tenth digit equal to the checksum digit; any other non-ten-digit value is a format error |
| Validators.NationalCodeAgrees | apps/core/validators.py:15-35 | on every value that does not end in a newline the intended validator and the validator as written give the same verdict |
| Validators.CheckDigitUnique | apps/core/validators.py:26-35 | for any nine leading digits exactly one tenth digit passes the checksum |
| Validators.MachineCode | apps/core/validators.py:38-47 | a machine code is accepted exactly when it is two capital letters, a hyphen and one to three digits (one trailing newline allowed); it is never rejected as a bad code |
| Validators.MachineCodeShapeMatches | apps/core/validators.py:44 | the shape test accepts exactly the strings the pattern `[A-Z]{2}-\d{1,3}`, read as pieces with repeat bounds, matches in full |
| Validators.MachineCodeAgrees | apps/core/validators.py:40-47 | a value is accepted exactly when the pattern matches it in full, or matches it once one trailing newline is removed |
| Validators.MachineCodeExamples | apps/core/validators.py:41-42 | CR-01 and RG-150 pass; lower-case letters, four digits and a missing number are format errors |
| RelativeDate.ToJalali | apps/core/templatetags/jalali_tags.py:21-70 | a readable value shows as its formatted day; an unreadable non-empty text shows as itself, and a missing or empty value shows as "-" |
| RelativeDate.Bucket | apps/core/templatetags/jalali_tags.py:123-145 | the relative buckets partition the day difference: today, yesterday, tomorrow, 2-6 days ago, 2-6 days later, last week (7-13), weeks ago (14-29, count delta div 7 between 2 and 4), months ago (≥ 30, count delta div 30), and the full date for a week or more ahead |
| RelativeDate.MonthsMonotone | apps/core/templatetags/jalali_tags.py:140-142 | an older date never shows fewer months ago than a newer one |
| RelativeDate.ToJalaliRelative | apps/core/templatetags/jalali_tags.py:114-145 | a readable date shows the bucket of today minus that date; an unreadable value falls back to what the plain date filter shows |
| Orders.StatusNamesComplete | apps/orders/models.py:295-304 | every order status has its stored name among the nine valid names |
| Orders.NewOrder | apps/orders/views.py:236-250 | a new order is a draft with zero progress under a fresh "ORD-<day>-" number not already issued, for the given customer, quantity and delivery date |
| Orders.ChangeStatusAsWritten | apps/orders/views.py:334-359 | a missing or unknown status is refused; moving to production is refused exactly when the order is neither confirmed nor in the old "shade_approved" status; otherwise only status and progress change, production keeps the progress and the other statuses take the progress of the old-named table |
| Orders.ApprovedOrderRefused | apps/orders/views.py:342-344 | an order the customer has approved cannot be put into production as written, while the corrected change accepts it |
| Orders.ProgressAsWritten | apps/orders/views.py:348-359 | under the old key names the sample-sent and customer-approved statuses keep the current progress; the others take the intended table value |
| Orders.Progress | apps/orders/views.py:348-357 | draft 0, sample sent 5, customer approved 10, confirmed 15, quality check 90, ready 95, delivered 100, and any other status keeps the current progress |
| Orders.ChangeStatus | apps/orders/views.py:331-363 | as written, except that production may start from a confirmed or customer-approved order and the progress table uses the current status names |
| Orders.CorrectedAllowsMore | apps/orders/views.py:337-346 | from any valid status, every change the written version allows the corrected version allows too, to the same status |
| Orders.Cancel | apps/orders/views.py:368-378 | cancelling is refused exactly while the order is in production; otherwise only the status becomes cancelled |
| Orders.CancelBypass | apps/orders/views.py:342-378 | an order in production that the cancel action refuses can still be cancelled through the status-change action |
| Orders.Edit | apps/orders/views.py:291-314 | delivered and cancelled orders are not editable; a missing customer or quantity key is refused, then a progress that is not an integer; a status longer than 20 characters is refused; an accepted edit keeps the number, stores a storable row with an existing customer and the posted quantity, clears the delivery date when none is posted, sets the posted status unchecked (or keeps it), the posted priority (or `normal`), and the posted progress (or keeps it) within 0 to 65535 |
| Orders.EditOutcome | apps/orders/views.py:291-314 | an edit succeeds exactly when the order is editable, the customer is posted and exists, the quantity is posted and reads as a number, the date is readable, the yarn, priority and status texts fit their columns and the progress is an integer from 0 to 65535; an accepted edit keeps the number and clears an empty delivery date, and unstorable progress is always refused |
| Orders.EditIdempotent | apps/orders/views.py:296-312 | posting the same form again to the edited order, while it is still editable, gives the same order |
| Orders.EditProgressRange | apps/orders/views.py:308-310 | on a form the edit accepts without a progress, a progress written as a number is accepted exactly up to 65535 and stored as that number |
| Orders.EditStoresUncheckedStatus | apps/orders/views.py:307 | on a form the edit accepts, posting the status `shade_approved` stores a status outside the valid list |
| Orders.EditBlankDateClears | apps/orders/views.py:305 | on a form the edit accepts, leaving the date empty clears the delivery date, so the order is overdue on no day |
| Orders.CanDeactivate | apps/orders/views.py:150-157 | a customer may be deactivated exactly when none of their orders is confirmed or in production |
| Orders.CanDeactivateAppend | apps/orders/views.py:150-157 | one more order blocks the deactivation exactly when it is confirmed or in production, and otherwise leaves the answer unchanged |
| Orders.CanDeactivateUnordered | apps/orders/views.py:150-157 | the answer depends only on the multiset of statuses, not on the order of the rows |
| Orders.OverduePersists | apps/orders/models.py:457-462 | an overdue order stays overdue on every later day and stops being overdue once delivered |
| Orders.CustomerLabel | apps/orders/models.py:115-118 | the customer label is the name alone without a company, otherwise the name followed by the company in parentheses |
| Orders.ShadeLabel | apps/orders/models.py:192-194 | a shade label starts with a check mark exactly when approved (a circle otherwise), then a space, the code, " - " and the name |
| Accounts.RolesNest | apps/accounts/models.py:157-179 | admin implies manager, manager implies supervisor, supervisor implies may edit production |
| Accounts.RolePermissions | apps/accounts/models.py:169-179 | among the five roles only a viewer may not edit production data and only an operator may not view reports; an unknown role may view reports but not edit |
| Accounts.FullName | apps/accounts/models.py:149-151 | the full name is at most the two names and a space long and neither starts nor ends with whitespace |
| Accounts.FullNameJoin | apps/accounts/models.py:149-151 | two unpadded names are joined by one space; with no last name the first name alone remains; two empty names give the empty name |
| Accounts.CreateUser | apps/accounts/managers.py:17-29 | an empty username is refused; otherwise every field passed is kept and staff, superuser default to false, role to operator, active to true, department to production |
| Accounts.CreateSuperuser | apps/accounts/managers.py:31-43 | succeeds exactly for a non-empty username unless staff or superuser is explicitly false (each with its own error, staff checked first); the result is staff and superuser with role defaulting to admin |
| Accounts.CreateDefaults | apps/accounts/managers.py:22-36 | with nothing passed a user is an active non-staff operator and a superuser an active staff admin |
| Maintenance.OverdueCount | apps/dashboard/views.py:66-69 | the overdue count is at most the number of schedules, zero exactly when none is active and past due, and all of them exactly when every one is |
| Maintenance.OverdueCountGrows | apps/maintenance/models.py:110-112 | as time passes the overdue count never falls |
| Maintenance.OverdueCountEventually | apps/maintenance/models.py:110-112 | once every due time has passed the overdue count is the number of active schedules |
| Maintenance.Stats | apps/reports/views.py:207-210 | the report counts every work order, completed ones among them, and gives no cost total for none, otherwise the parts and labour columns summed |
| Maintenance.CostSumColumns | apps/reports/views.py:209 | summing each order's parts plus labour is summing the two columns and adding |
| Maintenance.OpenAndCompletedApart | apps/dashboard/views.py:65 | the open and completed counts together never exceed the number of work orders |
| Maintenance.NewWorkOrderCounted | apps/maintenance/models.py:174-186 | opening a new work order adds one to the dashboard's open count and leaves the completed count and the cost total unchanged |
| Maintenance.NewWorkOrder | apps/maintenance/models.py:174-186 | a new work order is open and, with both costs at their default of zero, costs nothing |
| Maintenance.ParseReason | apps/maintenance/models.py:224-231 | a stored reason text reads back as the category whose name it is, and none is read exactly when no category has that name |
| Reports.ParseDateRange | apps/reports/views.py:36-49 | each bound is the parsed date when it parses; with neither parsed the range is the eight days ending today |
| Reports.DailyOutput | apps/reports/views.py:138-144 | the chart has one point per day of the range, oldest first and none for an inverted range, each holding that day's completed ring output |
| Reports.DayWeightIsTotal | apps/reports/views.py:141-142 | a day's chart value equals the reference total of the completed records dated that day |
| Reports.ChartTotal | apps/reports/views.py:138-144 | the chart's values add up to the completed ring output of the whole range |
| Reports.DefaultChart | apps/reports/views.py:42-48 | with no parameters the chart shows eight days, from a week ago to today |
| Reports.PlannedMinutes | apps/reports/views.py:375-376 | eight planned hours for every day of the range, and for one day when the range is inverted |
| Reports.PeriodAvailability | apps/reports/views.py:372-379 | availability is a percentage: 100 without downtime, 0 when downtime reaches the planned minutes, and in between the share of planned minutes not lost |
| Reports.PeriodAvailabilityNonIncreasing | apps/reports/views.py:377-379 | more downtime over the same range never raises availability |
| Reports.InvertedRangeIsOneDay | apps/reports/views.py:375-376 | an inverted range is planned, and scored, as a single day |
| Reports.WindingQuality | apps/reports/views.py:366-368 | winding quality is 100 up to 20 cuts per 100 km, falls linearly by 4/3 per cut, and is 20 from 80 cuts on |
| Reports.WindingQualityNonIncreasing | apps/reports/views.py:368 | more cuts never score a better quality |
| Reports.BreaksPerBatch | apps/reports/views.py:410-413 | no recorded breakage gives zero; otherwise the breakage over the batch count, with a count of zero read as one |
| Reports.TfoQuality | apps/reports/views.py:414 | twisting quality is 100 up to 5 breaks per batch, falls by 10/3 per break, and is 50 from 20 on |
| Reports.TfoQualityNonIncreasing | apps/reports/views.py:414 | more breaks per batch never score a better quality |
| Reports.PassCount | apps/reports/views.py:447 | the pass count is at most the batch count and equals it exactly when every batch passed |
| Reports.PassRate | apps/reports/views.py:452-455 | the pass rate is the percentage of passing batches to one decimal, 0 without batches, and 100 when all passed |
| Reports.HeatsetPerformance | apps/reports/views.py:457-459 | heat-set performance is a percentage: 0 without a positive average cycle and 100 when the average cycle is at most the 120-minute standard |
| Reports.HeatsetPerformanceNonIncreasing | apps/reports/views.py:457-459 | a longer average cycle never scores a better performance |
| Reports.SectionRow | apps/reports/views.py:380-385 | each figure of a section row is its factor to one decimal and the OEE is the product of the three factors in percent to one decimal; percentages in give percentages out |
| Reports.WindingOee | apps/reports/views.py:355-391 | a winding row stays within percentages when the recorded efficiencies do, and its quality scores the average cuts |
| Reports.TfoOee | apps/reports/views.py:400-434 | a twisting row stays within percentages when the recorded efficiencies do, and with no breakage its quality is 100 |
| Reports.HeatsetOee | apps/reports/views.py:440-479 | a heat-set row always stays within percentages, its quality is the pass rate, and without batches its OEE is 0 |
| Reports.ParsePeriod | apps/reports/views.py:554-563 | a compared period is the two parsed bounds, or the default period when either bound does not parse |
| Reports.DefaultPeriodsAdjacent | apps/reports/views.py:558-563 | the default periods are seven and eight days long and the first ends the day before the second starts |
| Reports.Compare | apps/reports/views.py:574-579 | the change is the relative change from A to B in percent of the absolute value of A to one decimal (0 when A is 0); a positive change means B grew, and the verdict is better exactly when the direction of change matches the metric's direction |
| Reports.BetterFlips | apps/reports/views.py:578 | flipping whether higher is better always flips the verdict |
| Reports.UnchangedLowerIsBetter | apps/reports/views.py:576-579 | an unchanged metric for which lower is better is reported as better |
| Reports.LossRowAsWritten | apps/reports/views.py:845-848 | the loss and its percentage are never negative; the weights are kept to 0.1 kg; no input gives no percentage and an output at least the input gives no loss; for a positive input the percentage exceeds 100 by at most the rounding of the loss |
| Reports.LossPctOverHundred | apps/reports/views.py:846-848 | with 0.06 kg in and nothing out, the rounded loss is 0.1 kg and the loss percentage exceeds 100 |
| Reports.LossRowOf | apps/reports/views.py:845-848 | with the percentage taken of the unrounded loss, a stage that lost nothing shows no loss, and any positive input with non-negative output gives a loss between 0 and 100 percent |
| Reports.ChainLosses | apps/reports/views.py:850-855 | four rows from ring spinning to heat-setting, each stage's output the next stage's input, every loss non-negative, each percentage bounded as in the row rule when the weights are positive, and no ring-to-winding loss when winding received at least the ring output |
| Dashboard.CapacityPct | apps/dashboard/views.py:160-166 | capacity use is at most 100; it is 0 without a positive target, 100 once the target is reached, and otherwise the produced share of the target in percent to one decimal |
| Dashboard.CapacityMonotone | apps/dashboard/views.py:160-166 | producing more never lowers the capacity figure |
| Dashboard.TodayProduction | apps/dashboard/views.py:250-284 | each stage's figure is the sum of its present output cells, and the line total is spinning, winding, twisting and heat-set output together |
| Dashboard.TotalIgnoresBlowroomAndDyeing | apps/dashboard/views.py:284 | blowroom and dyeing output never change the line total |
| Dashboard.ActiveStatuses | apps/dashboard/views.py:185-204 | no stage counts a completed batch as running |
| Dashboard.Latest | apps/dashboard/views.py:205 | the latest of the batches exists exactly when there are batches, is one of them, and has a key no smaller than any other's |
| Dashboard.StageInfoOf | apps/dashboard/views.py:211-246 | a stage has data exactly when it has batches; without data it shows "-" and idle; it shows as running only when no batch is dated after today and a batch dated today carries the shown status, one of the stage's running statuses |
| Dashboard.StageActiveWhenNewest | apps/dashboard/views.py:205-214 | a running batch dated today that is newer than every other batch makes its stage show as running |
| Dashboard.HeatOf | apps/dashboard/views.py:360-365 | for a running or processing batch the level is good from 90 percent efficiency, warning from 70, critical below; otherwise good exactly for a completed batch with positive efficiency and idle else |
| Dashboard.TileOf | apps/dashboard/views.py:326-367 | a tile shows maintenance exactly for a machine under maintenance; other non-active machines are idle; a good, warning or critical level needs an active machine of a tracked type with records today; an active machine without records stays idle at zero efficiency |
| Dashboard.FloorMap | apps/dashboard/views.py:326-367 | one tile per machine, in machine order |
| Dashboard.Summarize | apps/dashboard/views.py:375-382 | the summary counts every tile under exactly one level and the counts add up to the total |
| Dashboard.CountsPartition | apps/dashboard/views.py:376-382 | the five level counts of any tiles add up to their number |
| Dashboard.MaintenanceCounted | apps/dashboard/views.py:337-343 | the maintenance count equals the number of machines under maintenance |
| ConfigApi.GradeDistribution | config/api/views.py:317-322 | the four grade counts add up to the number of recorded cut values |
| ConfigApi.GradesPartition | config/api/views.py:317-322 | every recorded cut value falls in exactly one of the four grade bands |
| ConfigApi.GradeBandsAgree | config/api/views.py:317-322 | on a whole cut count each band is exactly the grade the winding record assigns |
| ConfigApi.KpiWastePct | config/api/views.py:324-326 | no waste share exactly when the input total is missing or zero; otherwise the waste over the input in percent to two decimals, between 0 and 100 when the waste is within the input |
| ConfigApi.KpiPassRate | config/api/views.py:481-482 | no pass rate exactly for a period without batches; otherwise the percentage of passing batches to one decimal |
| ConfigApi.ByMachineType | config/api/views.py:485-495 | the breakdown lists a known machine type exactly when the period has a batch of that type, each entry with that type's batch count, pass count (never above it) and pass rate |
| ConfigApi.SectionAlerts | config/api/views.py:642-662 | a section's feed entries carry that section, a date in the range and, when a level is asked for, that level |
| ConfigApi.SectionAlertsComplete | config/api/views.py:642-662 | every kept alert of every flagged batch of the range appears in its section's feed |
| ConfigApi.LevelRank | config/api/views.py:712 | critical ranks first, warning second, any other or missing level after both |
| ConfigApi.CountsFit | config/api/views.py:715-716 | the critical and warning counts together never exceed the number of alerts |
| ConfigApi.QualityAlerts | config/api/views.py:632-723 | the feed is a permutation of the collected alerts sorted by level rank then date; the total is their number; with a level asked for every alert has it and the other level counts zero |
| ConfigApi.FeedComplete | config/api/views.py:642-710 | every stored alert with the asked level (or any level when none is asked) of a flagged batch in the range of an included section is in the feed |
| ConfigApi.FeedStable | config/api/views.py:713 | alerts of equal rank and date keep the order in which they were collected |
| Tablet.AutoWaste | apps/tablet/views.py:212-217 | with input and output given and no waste, the stored waste is what the output leaves of the input, and zero when the output exceeds the input; otherwise the posted waste is kept |
| Tablet.Zip | apps/tablet/views.py:242 | the posted lists are paired position by position up to the shorter list |
| Tablet.AcceptedLots | apps/tablet/views.py:242-252 | exactly the rows with a non-blank id, a positive weight and an available stock become lots, each with a positive weight and its stock's fiber category |
| Tablet.WeightWithinTotal | apps/tablet/views.py:249 | with positive weights every lot weighs at most the total, and the total is positive exactly when some lot was accepted |
| Tablet.PutFacts | apps/tablet/views.py:248 | storing a category entry sets that entry, leaves every other entry alone, keeps keys distinct and changes the amount total by the difference |
| Tablet.RecipeAsWrittenKeepsLast | apps/tablet/views.py:248 | the recipe as written holds, for each category, only the weight of its last lot |
| Tablet.OverwriteLosesWeight | apps/tablet/views.py:248-259 | two lots of one category weighing 60 and 40 give a recipe of 40 percent as written and 100 percent corrected |
| Tablet.RecipeIsPerCategory | apps/tablet/views.py:242-259 | the corrected recipe has one entry per category of the accepted lots, each holding that category's total weight, and its amounts add up to the total fiber |
| Tablet.Percentages | apps/tablet/views.py:255-259 | each recipe entry becomes its percentage of the total to one decimal, in the same order |
| Tablet.SharesMakeHundred | apps/tablet/views.py:254-259 | the exact shares of a recipe that makes up the total add up to 100, and the rounded ones are within 0.05 per entry of it |
| Tablet.Inputs | apps/tablet/views.py:264-270 | one batch input per accepted lot, with its stock and weight, and a share between 0 and 100 percent |
| Tablet.BlendOf | apps/tablet/views.py:236-270 | the total fiber is the accepted lots' weight; a recipe is stored exactly when some lot was accepted, and then holds one entry per category, each within rounding of the share of the total that the category's last lot weighs |
| Tablet.RecipeAsWrittenShares | apps/tablet/views.py:248-259 | the percentages of the recipe as written have the lots' categories as keys, each the last lot's weight over the total, within rounding |
| Tablet.LastWeightPresent | apps/tablet/views.py:248 | a category has a last lot weight exactly when some accepted lot is of that category |
| Tablet.AutoEfficiency | apps/tablet/views.py:443-448 | with no efficiency posted and positive spindle counts the efficiency is the active share of spindles in percent to two decimals, at most 100 and exactly 100 when all run; otherwise the posted value is kept |
| Tablet.AutoEfficiencyMonotone | apps/tablet/views.py:447-448 | more active spindles never give a lower computed efficiency |
| Tablet.GetShift | apps/tablet/views.py:45-65 | no shift is found exactly when none is defined; a shift named for the hour's part of the day (morning 6-14, evening 14-22, else night) is picked whenever one exists, the form's own line's first, then one of no line; otherwise the first shift |
| Tablet.LineShiftPreferred | apps/tablet/views.py:54-59 | an evening form of a line with its own evening shift records that shift even when a shift of no line is listed first, and a form of no line takes the latter |
| Tablet.ReasonDetail | apps/tablet/views.py:523-528 | the posted detail without surrounding whitespace when any is left; otherwise the reason's display label, or the reason code itself when it is not a known category |
| Tablet.DowntimeEnd | apps/tablet/views.py:543-546 | a stop has an end exactly when a non-zero duration is posted, that many minutes after the start |
| Tablet.DurationRecovered | apps/tablet/views.py:543-546 | the posted duration is recovered from the stored start and end |
| Tablet.RecordDowntime | apps/tablet/views.py:513-590 | the stop is refused exactly when no shift is defined or the save would fail: a missing, non-integer or unknown machine, a missing reason, a reason code over 15 characters, a stored detail over 500, a duration outside the signed 32-bit column or whose end leaves the datetime range, or a loss the `DECIMAL(12, 3)` column cannot hold; otherwise the logged row fits every column and holds the machine, parsed duration, end, detail and loss, and a work order is raised exactly for a mechanical or electrical stop: open, corrective, high priority, costing nothing, under a fresh "WO-<day>-" number |
| Tablet.BillionLossRefused | apps/maintenance/models.py:258-262 | a stop posted with a loss of a billion kilograms is never logged, whatever the other fields |
| Tablet.ReadsBillion | apps/tablet/views.py:525 | the posted text "1000000000" reads as a billion |
| Tablet.WorkOrderReasons | apps/tablet/views.py:569 | of the reason categories exactly mechanical and electrical raise a work order |

## Left out

- Database and HTTP: querysets, aggregates, `select_related`, `update()`, request parsing, rendering, flash messages, redirects, JSON responses, REST serializers and login checks are not modelled. Rows come in as sequences or maps and each view is modelled by what it computes.
- Jalali calendar conversion and the clocks (`jdatetime`, `date.today()`, `datetime.now()`, `timezone.now()`) are not modelled, because they are a foreign library and non-deterministic. "Today", "now", the hour and the six-digit date bucket are parameters.
- `to_jalali_dt`, `to_jalali_long` and `to_jalali_short` only format text. `RelativeDate.ToJalali` returns the day number where the filter returns its Jalali text.
- Binary floating point is not modelled: `float` arithmetic and `round` are exact on reals (`Numeric.RoundTo`, half to even). A result that differs only in the last binary digit, or a tie that a binary float breaks the other way, is not captured.
- Concurrency is not modelled. This includes the read-greatest-then-insert race of the identifier generator and the database unique constraints. Uniqueness is stated as a store invariant (`Lineage`, `Inventory`) or as freshness against the existing identifiers (`BatchIds`).
- Logging, the human-readable alert messages (`msg`), work-order titles and every user-facing message text are left out, because they carry no rule.
- The Excel exports, the seeding and demo-data commands (apart from `_get_current_shift` and `_make_batch_num`), `rebuild_metadata`, migrations, admin classes, settings and the front-end assets are I/O or configuration, and are not modelled.
- apps/maintenance/views.py is not part of this model. Its work-order numbering calls the identifier generator with one argument and would raise before doing anything else.
- Forms.ParseDecimal: Python's `Decimal` also reads exponent forms ("1e3"), `NaN`, `Infinity` and underscore digit groups. These are treated as unparseable, so the safe parsers return their default for them.
- Forms.ParseInt: `int()` also reads underscore digit groups, non-ASCII decimal digits and text padded with Unicode whitespace other than the ASCII blanks. These are treated as unparseable.
- BatchIds.CounterAfter: a last segment in Persian digits, with underscore groups or padded with non-ASCII whitespace is read by `int()` but gives 1 in the model.
- BatchIds.GreatestMatch: the greatest identifier is taken in code-point order (`Text.LexLess`). The database query sorts by the column's collation (utf8mb4_0900_ai_ci, the MySQL 8 default for the configured `utf8mb4` charset), which ignores case and puts punctuation before digits. With `BL-040929-001` and `BL-040929-_` stored, the query returns `-001` and the source issues `-002`, while the model picks `-_` and issues `-001`. The two orders agree on identifiers whose counters are digits.
- Text.Upper: only ASCII letters are upper-cased and the length is kept. Python's `str.upper()` also maps other letters, some to several characters: "ß" becomes "SS" and "ſ" becomes "S".
- Text.Strip: only ASCII whitespace is removed. Python's `str.strip()` also removes Unicode whitespace such as the no-break space.
- BatchIds.FiberPrefix: a code such as "PEſ" upper-cases to "PES" in Python and gets that prefix, while the model gives `FB`.
- Accounts.FullName: names padded with Unicode whitespace such as the no-break space keep that padding in the model.
- Validators.NationalCode: only ASCII digits count as digits. Python's `\d` and `int()` also accept other Unicode decimal digits, such as Persian ones, so the source accepts a code written in Persian digits that the model rejects. The same holds for Validators.NationalCodeAsWritten and Validators.MachineCode.
- Tablet.AcceptedLots: the lookup of a fibre lot by primary key is a map from id to category code. An id that is not a number makes the source's lookup raise, which aborts the whole form. The model treats that row as not found.
- Tablet.RecordDowntime: the start time is a parameter, counted in seconds from 0001-01-01, and is not parsed from `HH:MM` with a fallback to now. The shift is a parameter whose value `Tablet.GetShift` computes. The work-order number uses the corrected numeric counter rule.
- Tablet.RecordDowntime: an end before the year 1000 is accepted, although it lies outside the documented range of the MySQL datetime column. The loss is compared with the column exactly, without the rounding to three places that the driver then applies to what is stored. The notes field and the operator and line keys are not modelled.
- Tablet.GetShift: `icontains` is modelled as plain containment, because case folding does not affect the Persian shift words.
- Tablet.AutoEfficiency: the ring form later takes a missing spindle total from the machine's specs. That happens after the efficiency is computed, so it does not affect the efficiency, and it is not modelled.
- Dashboard.TodayProduction: the count of active batches and the per-stage batch counts are not modelled. The machine counts of a line are not modelled either.
- Dashboard.TileOf: when several of today's records share the newest creation time, the earliest listed wins. The database leaves that order open.
- Reports: only the ring-output chart of the day walks is modelled. The other report pages repeat the same walk over other aggregates. The final sorting of the OEE table and the fleet average OEE are not modelled.
- ConfigApi.GradeDistribution: the first grade loop in the KPI view (config/api/views.py:306-314) is overwritten before use. Only the four counts that replace it are modelled.
- DowntimePattern.ByReason: stops without a duration give a reason row whose total is `NULL`. Those rows sort after every row with a total, as they do on MySQL, the configured backend.
- Oee.DaysParam: a `days` parameter that `int()` cannot read raises a server error in the source. The model returns `None`.
- BatchIds.NextOrderNumber: uses the corrected numeric counter rule, so it never repeats a number past 999 as the source does. `BatchIds.NextIdentifier` models the lexicographic rule as written; see the findings.
- BatchIds.NextWorkOrderNumber: uses the corrected numeric counter rule, as for order numbers.
- BatchIds.NextFiberBatch: uses the corrected numeric counter rule, as for order numbers.
- Heatset.Create: the batch number it issues uses the corrected numeric counter rule.
- ProductionRecords.BatchNumberOrNext: a blank batch number is replaced under the corrected numeric counter rule.
- Inventory.ReceiptBatchNumber: the lot number of a receipt uses the corrected numeric counter rule.
- Orders.NewOrder: the order number uses the corrected numeric counter rule.
- Inventory.Receive: the lot number, supplier, colour, denier, staple length, unit price, dates, warehouse location, quality grade and notes of a receipt are not modelled, and neither are the save's refusals of those values when they do not fit their columns. The lot keeps no link to its category.
- Inventory.Receive: when a receipt fails for several reasons at once, a duplicate batch number is reported first. In the source a missing category key raises before the insert, and the database names whichever constraint it checks first.
- Inventory.Receive: a category key is read as `int()` of its text, so underscore groups or non-ASCII digits are treated as an unknown category.
- Inventory.Issue: weights and quantities are exact reals. The columns keep three decimals, so a quantity with more places is stored rounded, and the ledger is stated on the exact values.
- Inventory.Issue: a reference id is read with the integer syntax of `Forms.ParseInt`; the notes text of the transaction is not modelled.
- Inventory.Adjust: the save's refusal of a weight too large for its column is reported as an invalid weight, while the view answers with the database's message.
- Orders.Edit: the shade and production line keys, and the unit and total prices are not modelled. Neither are the save's refusals of an unknown shade or line and of a quantity or price with more digits than its column holds. The posted date is abstracted to empty, a day, or unreadable text.
- Orders.Edit: the customer key is matched against the existing customers as text, not as the integer the database reads.
- Orders.Edit: every refusal is one of three kinds (missing key, progress that is not an integer, save refused). The view shows the exception's message instead. A progress that is not an integer is no longer reported as such when the customer or quantity key is also missing, because the missing key raises first.
- Orders.NewOrder: the create form's own refusals (missing keys, values the columns do not hold) are not modelled.
- Heatset.Edit: the machine, shift, production date, line, order, TFO link, machine type, fiber and cycle type fields are not modelled. Heatset.EditView checks only that the machine and shift keys are present, not that they name existing rows, and does not model the save's refusal of decimals with more digits than their columns hold.

## Findings

| source | as written | input that shows it | evidently intended | confidence | as-written member | corrected member |
|---|---|---|---|---|---|---|
| apps/inventory/views.py:176-193 | the issue saves the lot's lowered weight, then inserts its transaction, with no database transaction around the two | an issue of 1 kg posted with `ref_id` = `abc` (or a `ref_type` longer than 50 characters): the insert fails, the view answers 400, and the lot keeps the lowered weight with no transaction recording it | the lot and its transaction are written together or not at all, so the ledger holds | high (not executed) | Inventory.IssueLosesLedger | Inventory.Issue |
| apps/core/batch_utils.py:102-118 | the next identifier continues from the lexicographically greatest existing one | one day's 1000 identifiers `P-B-001` … `P-B-1000`: `P-B-999` sorts above `P-B-1000`, so the next is `P-B-1000` again, a duplicate | continue from the numerically greatest counter, so sequential issue gives 1, 2, 3, … without repeats | high (not executed) | BatchIds.StuckAtThousand | BatchIds.SequentialIssueNumeric |
| apps/orders/views.py:342-344 | production may start only from `confirmed` or `shade_approved` | an order in `customer_approved` is refused, because `shade_approved` is not a status of the current list and `customer_approved` is its renamed form | production may start from `confirmed` or `customer_approved`, with the progress table under the current names | medium (not executed) | Orders.ApprovedOrderRefused | Orders.ChangeStatus |
| apps/ai_ready/utils.py:115-120 | each weekly window is closed at both ends, [today − 7(k+1), today − 7k] | one stop dated today − 7 with `days` = 14 is counted in both weeks, so the trend sums to 2 | half-open weeks that count every stop once | medium (not executed) | DowntimePattern.BoundaryDayCountedTwice | DowntimePattern.TrendCountsOnce |
| apps/core/validators.py:18-23 | the ten-digit test uses `re.match` with `$`, which also matches before a final newline | `"1111111111\n"`: the set of its characters has two elements, so the repeated-digit test passes and the code is accepted | only exactly ten digits are accepted | low (not executed) | Validators.RepeatedDigitsSlipThrough | Validators.NationalCodeAgrees |
| apps/reports/views.py:845-848 | the loss percentage divides the loss, already rounded to 0.1 kg, by the unrounded input | 0.06 kg in and nothing out: the loss rounds to 0.1 kg and the percentage to about 166.7 | a loss percentage between 0 and 100 | medium (not executed) | Reports.LossPctOverHundred | Reports.LossRowOf |
| apps/tablet/views.py:248-249 | each accepted lot overwrites its category's recipe entry, while the total counts every lot | two lots of one category, 60 kg and 40 kg: the recipe records 40 %, and the percentages no longer sum to 100 | add each lot's weight to its category, so the recipe sums to 100 % | high (not executed) | Tablet.OverwriteLosesWeight | Tablet.RecipeIsPerCategory |

=== FILE: accounts.dfy ===
/** Users: roles and what they allow, the displayed full name, and the
    defaults and guards of creating users and superusers. A role is kept as
    the stored text, which the managers do not check against the list. */
module Accounts {
  import opened Wrappers
  import opened Text

  datatype Role = Admin | Manager | Supervisor | Operator | Viewer

  function RoleName(r: Role): string {
    match r
    case Admin => "admin"
    case Manager => "manager"
    case Supervisor => "supervisor"
    case Operator => "operator"
    case Viewer => "viewer"
  }

  const DefaultRole := "operator"
  const DefaultDepartment := "production"

  predicate IsAdmin(role: string) {
    role == "admin"
  }

  predicate IsManager(role: string) {
    role in {"admin", "manager"}
  }

  predicate IsSupervisor(role: string) {
    role in {"admin", "manager", "supervisor"}
  }

  predicate CanEditProduction(role: string) {
    role in {"admin", "manager", "supervisor", "operator"}
  }

  predicate CanViewReports(role: string) {
    role != "operator"
  }

  /** The role predicates nest: admin, then manager, then supervisor. */
  lemma RolesNest(role: string)
    ensures IsAdmin(role) ==> IsManager(role)
    ensures IsManager(role) ==> IsSupervisor(role)
    ensures IsSupervisor(role) ==> CanEditProduction(role)
  {
  }

  /** Among the listed roles only a viewer may not edit production data and
      only an operator may not see reports; a role outside the list may see
      reports but not edit. */
  lemma RolePermissions(r: Role, other: string)
    requires other !in {"admin", "manager", "supervisor", "operator", "viewer"}
    ensures CanEditProduction(RoleName(r)) <==> r != Viewer
    ensures CanViewReports(RoleName(r)) <==> r != Operator
    ensures !CanEditProduction(other) && CanViewReports(other)
  {
  }

  /** "first last" without surrounding whitespace. */
  function FullName(first: string, last: string): (s: string)
    ensures |s| <= |first| + 1 + |last|
    ensures |s| > 0 ==> !IsSpace(s[0]) && !IsSpace(s[|s| - 1])
  {
    Strip(first + " " + last)
  }

  /** Names without surrounding blanks are joined by one space; a missing
      last name leaves the first name alone, and two missing names give the
      empty string. */
  lemma FullNameJoin(first: string, last: string)
    requires |first| > 0 && !IsSpace(first[0]) && !IsSpace(first[|first| - 1])
    requires |last| > 0 && !IsSpace(last[0]) && !IsSpace(last[|last| - 1])
    ensures FullName(first, last) == first + " " + last
    ensures FullName(first, "") == first
    ensures FullName("", "") == ""
  {
    var s := first + " " + last;
    assert s[0] == first[0] && s[|s| - 1] == last[|last| - 1];
    StripUnpadded(s);
    var t := first + " ";
    assert first + " " + "" == t;
    assert t[0] == first[0];
    assert StripLeft(t) == t;
    assert t[..|t| - 1] == first;
    StripUnpadded(first);
    assert "" + " " + "" == " ";
    assert " "[1..] == "";
  }

  /** A text that neither starts nor ends with whitespace is unchanged by
      stripping. */
  lemma StripUnpadded(s: string)
    requires |s| > 0 && !IsSpace(s[0]) && !IsSpace(s[|s| - 1])
    ensures Strip(s) == s
  {
    assert StripLeft(s) == s;
  }

  /** The fields a caller may pass when creating a user. */
  datatype Extra = Extra(isStaff: Option<bool>, isSuperuser: Option<bool>, isActive: Option<bool>,
                         role: Option<string>, department: Option<string>)

  datatype User = User(username: string, isStaff: bool, isSuperuser: bool, isActive: bool,
                       role: string, department: string)

  datatype AccountError = EmptyUsername | NotStaff | NotSuperuser

  /** A user: the username is required; staff and superuser default to
      false and the role to operator; active and department take the
      column defaults; anything passed wins. */
  function CreateUser(username: string, extra: Extra): (r: Result<User, AccountError>)
    ensures r.Err? <==> username == ""
    ensures r.Err? ==> r.error == EmptyUsername
    ensures r.Ok? ==> r.value.username == username
    ensures r.Ok? ==> r.value.isStaff == extra.isStaff.GetOr(false) && r.value.isSuperuser == extra.isSuperuser.GetOr(false)
    ensures r.Ok? ==> r.value.role == extra.role.GetOr(DefaultRole) && r.value.isActive == extra.isActive.GetOr(true)
    ensures r.Ok? ==> r.value.department == extra.department.GetOr(DefaultDepartment)
  {
    if username == "" then Err(EmptyUsername)
    else Ok(User(username, extra.isStaff.GetOr(false), extra.isSuperuser.GetOr(false),
                 extra.isActive.GetOr(true), extra.role.GetOr(DefaultRole), extra.department.GetOr(DefaultDepartment)))
  }

  /** A superuser: staff, superuser and active default to true and the role
      to admin; passing staff or superuser other than true is refused before
      the username is looked at. */
  function CreateSuperuser(username: string, extra: Extra): (r: Result<User, AccountError>)
    ensures extra.isStaff == Some(false) ==> r == Err(NotStaff)
    ensures extra.isStaff != Some(false) && extra.isSuperuser == Some(false) ==> r == Err(NotSuperuser)
    ensures extra.isStaff != Some(false) && extra.isSuperuser != Some(false) && username == "" ==> r == Err(EmptyUsername)
    ensures r.Ok? ==> r.value.isStaff && r.value.isSuperuser
    ensures r.Ok? ==> r.value.role == extra.role.GetOr("admin") && r.value.isActive == extra.isActive.GetOr(true)
    ensures r.Ok? <==> username != "" && extra.isStaff != Some(false) && extra.isSuperuser != Some(false)
  {
    var staff := extra.isStaff.GetOr(true);
    var super := extra.isSuperuser.GetOr(true);
    if !staff then Err(NotStaff)
    else if !super then Err(NotSuperuser)
    else CreateUser(username, Extra(Some(staff), Some(super), Some(extra.isActive.GetOr(true)),
                                    Some(extra.role.GetOr("admin")), extra.department))
  }

  /** With nothing passed, a user is a plain operator and a superuser an
      administrator, and only the latter sees the admin site. */
  lemma CreateDefaults(username: string)
    requires username != ""
    ensures var none := Extra(None, None, None, None, None);
      var u := CreateUser(username, none).value;
      var a := CreateSuperuser(username, none).value;
      u.role == "operator" && !u.isStaff && u.isActive && IsAdmin(a.role) && a.isStaff && a.isActive
  {
  }
}

=== FILE: batch_ids.dfy ===
/** Batch, order and work-order identifiers of the form
    `PREFIX-YYMMDD-NNN`, where YYMMDD is the (Jalali) date bucket of the day
    and NNN a per-day counter. */
module BatchIds {
  import opened Wrappers
  import opened Text
  import Numeric
  import Forms

  /** Production stages and other record kinds that carry an identifier. */
  datatype Stage =
    | BlowroomKind | CardingKind | PassageKind | FinisherKind | SpinningKind
    | WindingKind | TfoKind | HeatsetKind | DyeingKind | OrderKind | WorkOrderKind | Fiber

  /** The fixed prefix of each record kind. */
  function StagePrefix(s: Stage): (p: string)
    ensures 2 <= |p| <= 3
  {
    match s
    case BlowroomKind => "BL"
    case CardingKind => "CR"
    case PassageKind => "PS"
    case FinisherKind => "FN"
    case SpinningKind => "SP"
    case WindingKind => "WD"
    case TfoKind => "TFO"
    case HeatsetKind => "HS"
    case DyeingKind => "DY"
    case OrderKind => "ORD"
    case WorkOrderKind => "WO"
    case Fiber => "FB"
  }

  /** Category codes that name their own fibre prefix. */
  const FiberCodes: set<string> := {"PES", "ACR", "WOL", "VIS", "NYL", "COT"}

  /** The prefix of a fibre lot: its category code, compared without regard
      to case, when it is a known code; `FB` otherwise. */
  function FiberPrefix(categoryCode: string): (p: string)
    ensures p in FiberCodes || p == StagePrefix(Fiber)
    ensures Upper(categoryCode) in FiberCodes ==> p == Upper(categoryCode)
    ensures Upper(categoryCode) !in FiberCodes ==> p == "FB"
  {
    var u := Upper(categoryCode);
    if u in FiberCodes then u else "FB"
  }

  lemma {:induction false} UpperIdempotent(s: string)
    ensures Upper(Upper(s)) == Upper(s)
  {
  }

  /** The category code is compared case-insensitively: upper-casing the code
      first never changes the prefix, and a known code maps to itself. */
  lemma {:induction false} FiberPrefixCaseInsensitive(categoryCode: string)
    ensures FiberPrefix(Upper(categoryCode)) == FiberPrefix(categoryCode)
    ensures categoryCode in FiberCodes ==> FiberPrefix(categoryCode) == categoryCode
  {
    UpperIdempotent(categoryCode);
    if categoryCode in FiberCodes {
      FiberCodeUpper(categoryCode);
    }
  }

  lemma FiberCodeUpper(code: string)
    requires code in FiberCodes
    ensures Upper(code) == code
  {
    assert Upper("PES") == "PES" && Upper("ACR") == "ACR" && Upper("WOL") == "WOL";
    assert Upper("VIS") == "VIS" && Upper("NYL") == "NYL" && Upper("COT") == "COT";
  }

  /** The date bucket YYMMDD: the calendar year without its first two digits,
      then the month and the day padded to two digits. */
  function DateBucket(year: nat, month: nat, day: nat): (b: string)
  {
    var y := NatToString(year);
    (if |y| >= 2 then y[2..] else "") + FormatPadded(month, 2) + FormatPadded(day, 2)
  }

  /** For a four-digit year and a valid month and day the bucket is exactly
      six digits, and reads back as year mod 100, month and day. */
  lemma {:induction false} DateBucketShape(year: nat, month: nat, day: nat)
    requires 1000 <= year <= 9999 && 1 <= month <= 12 && 1 <= day <= 31
    ensures var b := DateBucket(year, month, day);
      |b| == 6 && AllDigits(b)
      && ParseDigits(b[..2]) == Some(year % 100)
      && ParseDigits(b[2..4]) == Some(month)
      && ParseDigits(b[4..]) == Some(day)
  {
    var y := NatToString(year);
    NatToStringLength(year);
    NatToStringLength(month);
    NatToStringLength(day);
    ParseNatToString(year);
    DigitsValueSplit(y, 2);
    assert Numeric.Pow10(2) == 100;
    ModOfSplit(year, DigitsValue(y[..|y| - 2]), DigitsValue(y[|y| - 2..]), 100);
    var b := DateBucket(year, month, day);
    assert b[..2] == y[2..];
    assert b[2..4] == FormatPadded(month, 2);
    assert b[4..] == FormatPadded(day, 2);
    ParseFormatPadded(month, 2);
    ParseFormatPadded(day, 2);
  }

  lemma {:induction false} ModOfSplit(n: nat, a: nat, b: nat, q: nat)
    requires q > 0 && n == a * q + b && b < q
    ensures n % q == b
  {
    assert n / q == a && n % q == b by {
      var d, r := n / q, n % q;
      assert n == d * q + r && 0 <= r < q;
      if d > a {
        MulLe(a + 1, d, q);
      } else if d < a {
        MulLe(d + 1, a, q);
      }
    }
  }

  lemma {:induction false} MulLe(x: int, y: int, q: nat)
    requires x <= y
    ensures x * q <= y * q
  {
  }

  /** The number of decimal digits of `n`. */
  lemma {:induction false} NatToStringLength(n: nat)
    ensures n < 100 ==> |NatToString(n)| <= 2
    ensures 1000 <= n <= 9999 ==> |NatToString(n)| == 4
    ensures n < 1000 ==> |NatToString(n)| <= 3
    decreases n
  {
    if n >= 10 {
      NatToStringLength(n / 10);
    }
  }

  /** Splitting a digit string: the whole is the leading part shifted by m
      digits plus the value of the last `m` digits. */
  lemma {:induction false} DigitsValueSplit(s: string, m: nat)
    requires AllDigits(s) && m <= |s|
    ensures DigitsValue(s) == DigitsValue(s[..|s| - m]) * Numeric.Pow10(m) + DigitsValue(s[|s| - m..])
    ensures DigitsValue(s[|s| - m..]) < Numeric.Pow10(m)
  {
    var a, b := s[..|s| - m], s[|s| - m..];
    assert s == a + b;
    DigitsValueAppend(a, b);
    DigitsValueBound(b);
  }

  /** The common beginning `PREFIX-BUCKET-` of every identifier of one kind
      on one day. */
  function Pattern(prefix: string, bucket: string): (p: string)
    ensures |p| > 0 && p[|p| - 1] == '-'
  {
    prefix + "-" + bucket + "-"
  }

  /** The identifier with counter `n` in pattern `p`: the counter is
      zero-padded to at least three digits. */
  function Id(p: string, n: nat): string {
    p + FormatPadded(n, 3)
  }

  /** The greatest identifier that starts with `p` in code-point order.
      The descending order-by-then-first query sorts by the database
      collation instead, which ignores case and puts punctuation before
      digits; the two agree on identifiers whose counters are digits. */
  function GreatestMatch(ids: seq<string>, p: string): (r: Option<string>)
    ensures r.None? <==> forall i :: 0 <= i < |ids| ==> !StartsWith(ids[i], p)
    ensures r.Some? ==> r.value in ids && StartsWith(r.value, p)
    ensures r.Some? ==> forall i :: 0 <= i < |ids| && StartsWith(ids[i], p) ==> !LexLess(r.value, ids[i])
  {
    if |ids| == 0 then None
    else
      var rest := GreatestMatch(ids[..|ids| - 1], p);
      var x := ids[|ids| - 1];
      if !StartsWith(x, p) then rest
      else if rest.None? then
        LexLessIrreflexive(x);
        Some(x)
      else if LexLess(rest.value, x) then
        LexLessAfterGreatest(ids[..|ids| - 1], p, rest.value, x);
        LexLessIrreflexive(x);
        Some(x)
      else
        LexLessIrreflexive(rest.value);
        rest
  }

  lemma {:induction false} LexLessAfterGreatest(ids: seq<string>, p: string, m: string, x: string)
    requires forall i :: 0 <= i < |ids| && StartsWith(ids[i], p) ==> !LexLess(m, ids[i])
    requires LexLess(m, x)
    ensures forall i :: 0 <= i < |ids| && StartsWith(ids[i], p) ==> !LexLess(x, ids[i])
  {
    forall i | 0 <= i < |ids| && StartsWith(ids[i], p)
      ensures !LexLess(x, ids[i])
    {
      if LexLess(x, ids[i]) {
        LexLessTrans(m, x, ids[i]);
      }
    }
  }

  /** `int()` of the text after the last `-` of an identifier, if it reads
      as an integer: surrounding whitespace and a `+` sign are allowed. The
      text holds no `-`, so the value is never negative. */
  function SuffixValue(id: string): (r: Option<nat>)
    ensures r.Some? <==> Forms.ParseInt(Strip(LastSegment(id, '-'))).Some?
    ensures r.Some? ==> r.value == Forms.ParseInt(Strip(LastSegment(id, '-'))).value
  {
    var t := Strip(LastSegment(id, '-'));
    StripKeepsOut(LastSegment(id, '-'), '-');
    match Forms.ParseInt(t)
    case Some(v) => assert t[0] != '-'; Some(v as nat)
    case None => None
  }

  /** The counter after identifier `last`: the number after its last `-`
      plus one, or 1 when that text is not a number. */
  function CounterAfter(last: string): (n: nat)
    ensures n >= 1
    ensures SuffixValue(last).None? ==> n == 1
    ensures SuffixValue(last).Some? ==> n == SuffixValue(last).value + 1
  {
    match SuffixValue(last)
    case Some(v) => v + 1
    case None => 1
  }

  /** The next identifier as the source computes it: one past the counter of
      the lexicographically greatest identifier of the same day. */
  function NextIdentifier(prefix: string, bucket: string, existing: seq<string>): (r: string)
    ensures StartsWith(r, Pattern(prefix, bucket))
    ensures var suffix := r[|Pattern(prefix, bucket)|..];
      |suffix| >= 3 && AllDigits(suffix) && ParseDigits(suffix).value >= 1
    ensures (forall i :: 0 <= i < |existing| ==> !StartsWith(existing[i], Pattern(prefix, bucket)))
      ==> r == Pattern(prefix, bucket) + "001"
  {
    var p := Pattern(prefix, bucket);
    var n := match GreatestMatch(existing, p)
      case None => 1
      case Some(last) => CounterAfter(last);
    ParseFormatPadded(n, 3);
    assert (p + FormatPadded(n, 3))[..|p|] == p;
    assert (p + FormatPadded(n, 3))[|p|..] == FormatPadded(n, 3);
    assert FormatPadded(1, 3) == "001" by { ThreeDigits(1); }
    p + FormatPadded(n, 3)
  }

  /** The counter rule: the identifier carries one past the number in the
      greatest existing identifier, and falls back to 1 when that identifier
      does not end in a number. */
  lemma {:induction false} NextIdentifierCounter(prefix: string, bucket: string, existing: seq<string>, last: string)
    requires GreatestMatch(existing, Pattern(prefix, bucket)) == Some(last)
    ensures SuffixValue(last).None? ==>
      NextIdentifier(prefix, bucket, existing) == Id(Pattern(prefix, bucket), 1)
    ensures SuffixValue(last).Some? ==>
      NextIdentifier(prefix, bucket, existing) == Id(Pattern(prefix, bucket), SuffixValue(last).value + 1)
  {
  }

  /** Order numbers: the same rule with prefix `ORD` over the existing order
      numbers (with the numeric maximum defined below). */
  function NextOrderNumber(bucket: string, orderNumbers: seq<string>): (r: string)
    ensures StartsWith(r, "ORD-" + bucket + "-")
    ensures r !in orderNumbers
  {
    assert Pattern("ORD", bucket) == "ORD-" + bucket + "-";
    NextIdentifierNumeric(StagePrefix(OrderKind), bucket, orderNumbers)
  }

  /** Work-order numbers: the same rule with prefix `WO` over the existing
      work-order numbers. */
  function NextWorkOrderNumber(bucket: string, woNumbers: seq<string>): (r: string)
    ensures StartsWith(r, "WO-" + bucket + "-")
    ensures r !in woNumbers
  {
    assert Pattern("WO", bucket) == "WO-" + bucket + "-";
    NextIdentifierNumeric(StagePrefix(WorkOrderKind), bucket, woNumbers)
  }

  // ---------------------------------------------------------------------
  // Issuing identifiers one after another in one day.

  /** The identifiers 1..k of pattern `p`, in issue order. */
  function Issued(p: string, k: nat): (ids: seq<string>)
    ensures |ids| == k
    ensures forall i :: 0 <= i < k ==> ids[i] == Id(p, i + 1)
  {
    if k == 0 then [] else Issued(p, k - 1) + [Id(p, k)]
  }

  /** The three digits of a counter below 1000. */
  lemma {:induction false} ThreeDigits(n: nat)
    requires n < 1000
    ensures FormatPadded(n, 3) == [DigitChar(n / 100), DigitChar(n / 10 % 10), DigitChar(n % 10)]
  {
    var s := NatToString(n);
    var r := FormatPadded(n, 3);
    if n < 10 {
      assert s == [DigitChar(n)];
      assert r == Zeros(2) + s;
    } else if n < 100 {
      assert NatToString(n / 10) == [DigitChar(n / 10)];
      assert s == [DigitChar(n / 10), DigitChar(n % 10)];
      assert r == Zeros(1) + s;
    } else {
      assert NatToString(n / 100) == [DigitChar(n / 100)];
      assert NatToString(n / 10) == [DigitChar(n / 100), DigitChar(n / 10 % 10)];
      assert s == [DigitChar(n / 100), DigitChar(n / 10 % 10), DigitChar(n % 10)];
    }
  }

  /** Below 1000, the padded counters are ordered like the numbers. */
  lemma {:induction false} PaddedOrder(a: nat, b: nat)
    requires a < b < 1000
    ensures LexLess(FormatPadded(a, 3), FormatPadded(b, 3))
  {
    ThreeDigits(a);
    ThreeDigits(b);
    DigitTriples(a, b);
    LexLessThree(FormatPadded(a, 3), FormatPadded(b, 3));
  }

  /** Lexicographic order of two three-character strings, spelled out. */
  lemma {:induction false} LexLessThree(x: string, y: string)
    requires |x| == 3 && |y| == 3
    ensures LexLess(x, y) <==>
      x[0] < y[0] || (x[0] == y[0] && (x[1] < y[1] || (x[1] == y[1] && x[2] < y[2])))
  {
    var x1, y1 := x[1..], y[1..];
    var x2, y2 := x1[1..], y1[1..];
    assert LexLess(x, y) == if x[0] != y[0] then x[0] < y[0] else LexLess(x1, y1);
    assert LexLess(x1, y1) == if x1[0] != y1[0] then x1[0] < y1[0] else LexLess(x2, y2);
    assert LexLess(x2, y2) == if x2[0] != y2[0] then x2[0] < y2[0] else LexLess(x2[1..], y2[1..]);
    assert LexLess(x2[1..], y2[1..]) == false;
  }

  /** The decimal digits of two numbers below 1000 compare like the numbers. */
  lemma {:induction false} DigitTriples(a: nat, b: nat)
    requires a < b < 1000
    ensures a / 100 < b / 100 || (a / 100 == b / 100 && (a / 10 % 10 < b / 10 % 10
      || (a / 10 % 10 == b / 10 % 10 && a % 10 < b % 10)))
  {
    assert a == 100 * (a / 100) + 10 * (a / 10 % 10) + a % 10;
    assert b == 100 * (b / 100) + 10 * (b / 10 % 10) + b % 10;
  }

  /** While the counter stays below 1000, the greatest identifier of the day
      is the last one issued. */
  lemma {:induction false} GreatestIssued(p: string, k: nat)
    requires 1 <= k <= 999
    ensures GreatestMatch(Issued(p, k), p) == Some(Id(p, k))
  {
    var ids := Issued(p, k);
    assert ids[..k - 1] == Issued(p, k - 1);
    assert StartsWith(Id(p, k), p) by {
      assert (p + FormatPadded(k, 3))[..|p|] == p;
    }
    if k > 1 {
      GreatestIssued(p, k - 1);
      PaddedOrder(k - 1, k);
      LexLessCommonPrefix(p, FormatPadded(k - 1, 3), FormatPadded(k, 3));
    } else {
      assert Issued(p, 0) == [];
    }
  }

  /** Issuing and storing identifiers one after another gives 001, 002, …
      while the counter stays below 1000. */
  lemma {:induction false} SequentialIssue(prefix: string, bucket: string, k: nat)
    requires k <= 998
    ensures NextIdentifier(prefix, bucket, Issued(Pattern(prefix, bucket), k))
         == Id(Pattern(prefix, bucket), k + 1)
  {
    var p := Pattern(prefix, bucket);
    if k == 0 {
      assert FormatPadded(1, 3) == "001" by { ThreeDigits(1); }
    } else {
      GreatestIssued(p, k);
      CounterOfId(p, k);
    }
  }

  /** The counter of an identifier is read back from its last segment. */
  lemma {:induction false} CounterOfId(p: string, n: nat)
    requires |p| > 0 && p[|p| - 1] == '-'
    ensures LastSegment(Id(p, n), '-') == FormatPadded(n, 3)
    ensures CounterAfter(Id(p, n)) == n + 1
  {
    var f := FormatPadded(n, 3);
    NoDash(f);
    LastSegmentAfter(p, f, '-');
    ParseFormatPadded(n, 3);
    StripUnpadded(f);
  }

  /** A counter written with a `+` sign is read as `int()` reads it. */
  lemma CounterAfterSigned(p: string, n: nat)
    requires |p| > 0 && p[|p| - 1] == '-'
    ensures CounterAfter(p + ("+" + NatToString(n))) == n + 1
  {
    var t := NatToString(n);
    var u := "+" + t;
    NoDash(t);
    LastSegmentAfter(p, u, '-');
    StripUnpadded(u);
    assert u[1..] == t;
    ParseNatToString(n);
  }

  /** A counter padded with spaces is read as `int()` reads it. */
  lemma CounterAfterPadded(p: string, n: nat)
    requires |p| > 0 && p[|p| - 1] == '-'
    ensures CounterAfter(p + (" " + NatToString(n) + " ")) == n + 1
  {
    var t := NatToString(n);
    var u := " " + t + " ";
    NoDash(t);
    assert '-' !in u;
    LastSegmentAfter(p, u, '-');
    StripPadded(t);
    ParseNatToString(n);
    assert Forms.ParseInt(t) == Some(n);
  }

  lemma {:induction false} NoDash(s: string)
    requires AllDigits(s)
    ensures '-' !in s
  {
  }

  /** Identifiers issued in sequence are strictly increasing. */
  lemma {:induction false} IssuedIncreasing(p: string, i: nat, j: nat)
    requires 1 <= i < j <= 999
    ensures LexLess(Id(p, i), Id(p, j))
  {
    PaddedOrder(i, j);
    LexLessCommonPrefix(p, FormatPadded(i, 3), FormatPadded(j, 3));
  }

  /** Different counters give different identifiers. */
  lemma {:induction false} IdInjective(p: string, i: nat, j: nat)
    requires i != j
    ensures Id(p, i) != Id(p, j)
  {
    ParseFormatPadded(i, 3);
    ParseFormatPadded(j, 3);
    assert Id(p, i)[|p|..] == FormatPadded(i, 3);
    assert Id(p, j)[|p|..] == FormatPadded(j, 3);
  }

  /** At counter 1000 the rule breaks: `…-1000` sorts below `…-999`, so once
      1000 identifiers exist the next call returns `…-1000` again. */
  lemma {:induction false} StuckAtThousand(prefix: string, bucket: string)
    ensures var p := Pattern(prefix, bucket);
      NextIdentifier(prefix, bucket, Issued(p, 1000)) == Id(p, 1000)
      && Id(p, 1000) in Issued(p, 1000)
  {
    var p := Pattern(prefix, bucket);
    var ids := Issued(p, 1000);
    GreatestIssued(p, 999);
    assert ids[..999] == Issued(p, 999);
    var f999, f1000 := FormatPadded(999, 3), FormatPadded(1000, 3);
    ThreeDigits(999);
    assert f1000 == NatToString(1000);
    assert NatToString(1000) == NatToString(100) + "0";
    assert NatToString(100) == NatToString(10) + "0";
    assert NatToString(10) == "10";
    assert f1000[0] == '1';
    assert !LexLess(f999, f1000);
    LexLessCommonPrefix(p, f999, f1000);
    assert StartsWith(Id(p, 1000), p) by {
      assert (p + f1000)[..|p|] == p;
    }
    assert GreatestMatch(ids, p) == Some(Id(p, 999));
    CounterOfId(p, 999);
    assert ids[999] == Id(p, 1000);
  }

  // ---------------------------------------------------------------------
  // The counter as evidently intended: numerically one past every counter
  // of the day.

  /** The counter an identifier holds within pattern `p` (0 when it is not
      of that pattern or does not end in a number). */
  function CounterIn(id: string, p: string): nat {
    if StartsWith(id, p) && SuffixValue(id).Some? then SuffixValue(id).value else 0
  }

  /** The counters the identifiers hold within pattern `p`, in order. */
  function Counters(ids: seq<string>, p: string): (cs: seq<nat>)
    ensures |cs| == |ids|
    ensures forall i :: 0 <= i < |ids| ==> cs[i] == CounterIn(ids[i], p)
  {
    seq(|ids|, i requires 0 <= i < |ids| => CounterIn(ids[i], p))
  }

  /** The greatest of a sequence of counters, 0 for none. */
  function MaxOf(cs: seq<nat>): (m: nat)
    ensures forall i :: 0 <= i < |cs| ==> cs[i] <= m
    ensures |cs| > 0 ==> exists i :: 0 <= i < |cs| && cs[i] == m
    ensures |cs| == 0 ==> m == 0
  {
    if |cs| == 0 then 0
    else
      var init := cs[..|cs| - 1];
      var rest := MaxOf(init);
      assert forall i :: 0 <= i < |init| ==> init[i] == cs[i];
      if cs[|cs| - 1] > rest then cs[|cs| - 1] else rest
  }

  /** The greatest counter among identifiers of pattern `p`. */
  function MaxCounter(ids: seq<string>, p: string): (m: nat)
    ensures forall i :: 0 <= i < |ids| ==> CounterIn(ids[i], p) <= m
    ensures |ids| > 0 ==> exists i :: 0 <= i < |ids| && CounterIn(ids[i], p) == m
    ensures |ids| == 0 ==> m == 0
  {
    var cs := Counters(ids, p);
    var m := MaxOf(cs);
    assert |ids| > 0 ==> exists i :: 0 <= i < |ids| && CounterIn(ids[i], p) == m by {
      if |ids| > 0 {
        var j :| 0 <= j < |cs| && cs[j] == m;
        assert CounterIn(ids[j], p) == m;
      }
    }
    m
  }

  /** The next identifier with a numeric maximum: never one that exists. */
  function NextIdentifierNumeric(prefix: string, bucket: string, existing: seq<string>): (r: string)
    ensures StartsWith(r, Pattern(prefix, bucket))
    ensures r !in existing
  {
    var p := Pattern(prefix, bucket);
    var n := MaxCounter(existing, p) + 1;
    IdCounter(p, n);
    assert StartsWith(Id(p, n), p) by {
      assert (p + FormatPadded(n, 3))[..|p|] == p;
    }
    AboveMaxIsNew(existing, p, Id(p, n));
    Id(p, n)
  }

  /** An identifier whose counter exceeds every existing one is not among them. */
  lemma AboveMaxIsNew(ids: seq<string>, p: string, x: string)
    requires CounterIn(x, p) > MaxCounter(ids, p)
    ensures x !in ids
  {
  }

  lemma {:induction false} MaxCounterIssued(p: string, k: nat)
    requires |p| > 0 && p[|p| - 1] == '-'
    ensures MaxCounter(Issued(p, k), p) == k
  {
    IssuedCounters(p, k);
    MaxOfCounting(Counters(Issued(p, k), p));
  }

  /** The k identifiers issued in sequence hold the counters 1 to k. */
  lemma {:induction false} IssuedCounters(p: string, k: nat)
    requires |p| > 0 && p[|p| - 1] == '-'
    ensures forall i :: 0 <= i < k ==> Counters(Issued(p, k), p)[i] == i + 1
  {
    forall i | 0 <= i < k
      ensures Counters(Issued(p, k), p)[i] == i + 1
    {
      IssuedCounterAt(p, k, i);
    }
  }

  lemma {:induction false} IssuedCounterAt(p: string, k: nat, i: nat)
    requires |p| > 0 && p[|p| - 1] == '-'
    requires i < k
    ensures Counters(Issued(p, k), p)[i] == i + 1
  {
    var ids := Issued(p, k);
    var x := ids[i];
    assert x == Id(p, i + 1);
    IdCounter(p, i + 1);
    assert Counters(ids, p)[i] == CounterIn(x, p);
  }

  /** The greatest of 1, 2, ..., k is k. */
  lemma {:induction false} MaxOfCounting(cs: seq<nat>)
    requires forall i :: 0 <= i < |cs| ==> cs[i] == i + 1
    ensures MaxOf(cs) == |cs|
  {
    if |cs| > 0 {
      var j :| 0 <= j < |cs| && cs[j] == MaxOf(cs);
      assert cs[|cs| - 1] <= MaxOf(cs);
    }
  }

  /** An identifier of pattern `p` holds its own counter. */
  lemma {:induction false} IdCounter(p: string, n: nat)
    requires |p| > 0 && p[|p| - 1] == '-'
    ensures CounterIn(Id(p, n), p) == n
  {
    CounterOfId(p, n);
    assert StartsWith(Id(p, n), p) by {
      assert (p + FormatPadded(n, 3))[..|p|] == p;
    }
  }

  /** With the numeric maximum, sequential issue continues past 999: the
      k-th call returns counter k + 1 for every k. */
  lemma {:induction false} SequentialIssueNumeric(prefix: string, bucket: string, k: nat)
    ensures NextIdentifierNumeric(prefix, bucket, Issued(Pattern(prefix, bucket), k))
         == Id(Pattern(prefix, bucket), k + 1)
  {
    MaxCounterIssued(Pattern(prefix, bucket), k);
  }

  /** A fibre lot's batch number: the numeric-maximum rule with the prefix
      of the lot's category. */
  function NextFiberBatch(categoryCode: string, bucket: string, existing: seq<string>): (r: string)
    ensures StartsWith(r, Pattern(FiberPrefix(categoryCode), bucket))
    ensures r !in existing
  {
    NextIdentifierNumeric(FiberPrefix(categoryCode), bucket, existing)
  }

  // ---------------------------------------------------------------------
  // Demo data batch numbers.

  /** `PREFIX-YYYYMMDD-NNNNNN`: the Gregorian date and the last six digits of
      the millisecond clock. */
  function DemoBatchNumber(prefix: string, year: nat, month: nat, day: nat, millis: nat): (r: string)
  {
    var ms := NatToString(millis);
    var tail := if |ms| >= 6 then ms[|ms| - 6..] else ms;
    prefix + "-" + NatToString(year) + FormatPadded(month, 2) + FormatPadded(day, 2) + "-" + tail
  }

  /** The tail of a demo batch number is at most six digits and reads back as
      the millisecond clock modulo 10^6. */
  lemma {:induction false} DemoBatchTail(prefix: string, year: nat, month: nat, day: nat, millis: nat)
    ensures var r := DemoBatchNumber(prefix, year, month, day, millis);
      var tail := LastSegment(r, '-');
      |tail| <= 6 && ParseDigits(tail) == Some(millis % 1000000)
  {
    var ms := NatToString(millis);
    var tail := if |ms| >= 6 then ms[|ms| - 6..] else ms;
    var head := prefix + "-" + NatToString(year) + FormatPadded(month, 2) + FormatPadded(day, 2) + "-";
    assert DemoBatchNumber(prefix, year, month, day, millis) == head + tail;
    assert AllDigits(tail);
    NoDash(tail);
    LastSegmentAfter(head, tail, '-');
    ClockTail(millis);
  }

  /** The last six digits of a number read back as the number mod 10^6. */
  lemma {:induction false} ClockTail(millis: nat)
    ensures var ms := NatToString(millis);
      var tail := if |ms| >= 6 then ms[|ms| - 6..] else ms;
      ParseDigits(tail) == Some(millis % 1000000)
  {
    var ms := NatToString(millis);
    ParseNatToString(millis);
    if |ms| >= 6 {
      LongClockTail(ms, millis);
    } else {
      ShortClockTail(ms, millis);
    }
  }

  lemma LongClockTail(ms: string, millis: nat)
    requires AllDigits(ms) && DigitsValue(ms) == millis && |ms| >= 6
    ensures ParseDigits(ms[|ms| - 6..]) == Some(millis % 1000000)
  {
    DigitsValueSplit(ms, 6);
    assert Numeric.Pow10(6) == 1000000;
    ModOfSplit(millis, DigitsValue(ms[..|ms| - 6]), DigitsValue(ms[|ms| - 6..]), 1000000);
  }

  lemma ShortClockTail(ms: string, millis: nat)
    requires AllDigits(ms) && |ms| > 0 && DigitsValue(ms) == millis && |ms| < 6
    ensures ParseDigits(ms) == Some(millis % 1000000)
  {
    DigitsValueBound(ms);
    Pow10Monotone(|ms|, 5);
    assert Numeric.Pow10(5) == 100000;
  }

  lemma {:induction false} Pow10Monotone(a: nat, b: nat)
    requires a <= b
    ensures Numeric.Pow10(a) <= Numeric.Pow10(b)
    decreases b
  {
    if a < b {
      Pow10Monotone(a, b - 1);
    }
  }
}

=== FILE: blowroom.dfy ===
/** Blowroom batches: the waste percentage derived from input and output. */
module Blowroom {
  import opened Wrappers
  import opened Numeric
  import StageMetrics

  /** Input minus output over input, percent to two decimals; none when
      either weight is missing or zero. The stored waste weight plays no
      part, and the result is not clamped. */
  function CalculatedWastePct(input: Option<real>, output: Option<real>): (r: Option<real>)
    ensures r.Some? <==> Truthy(input) && Truthy(output)
    ensures r.Some? ==> WithinHalfStep(r.value, (input.value - output.value) / input.value * 100.0, 2)
  {
    if Truthy(input) && Truthy(output) then
      Some(RoundTo((input.value - output.value) / input.value * 100.0, 2))
    else None
  }

  /** Output no larger than a positive input gives a percentage in [0, 100]. */
  lemma CalculatedWasteBounds(input: real, output: real)
    requires 0.0 < output <= input
    ensures var r := CalculatedWastePct(Some(input), Some(output));
      r.Some? && 0.0 <= r.value <= 100.0
  {
    var x := (input - output) / input * 100.0;
    assert 0.0 <= (input - output) / input <= 1.0;
    RoundToBetween(x, 0, 100, 2);
  }

  /** More output than input gives a negative or zero percentage. */
  lemma CalculatedWasteUnclamped(input: real, output: real)
    requires 0.0 < input < output
    ensures var r := CalculatedWastePct(Some(input), Some(output));
      r.Some? && r.value <= 0.0
  {
    var x := (input - output) / input * 100.0;
    assert (input - output) / input < 0.0;
    RoundToMonotone(x, 0.0, 2);
    RoundToInt(0, 2);
  }

  /** When the recorded waste weight is exactly input minus output, the
      metadata's waste percentage and this property agree; without a
      recorded waste weight the metadata has none while this one does. */
  lemma AgreesWithMetadata(now: string, input: real, output: real, waste: Option<real>)
    requires input > 0.0 && output != 0.0 && output != input
    requires waste == Some(input - output) || waste.None?
    ensures var m := StageMetrics.BlowroomMetrics(now, Some(input), Some(output), waste);
      var r := CalculatedWastePct(Some(input), Some(output));
      (waste.Some? ==> m.wastePct == StageMetrics.Val(r.value)) &&
      (waste.None? ==> m.wastePct == StageMetrics.Null && r.Some?)
  {
  }
}

=== FILE: config_api.dfy ===
/** The REST endpoints' derived figures: the winding grade distribution,
    the KPI waste percentage, the heat-set pass rate and its breakdown by
    machine type, and the quality-alert feed with its filters, ordering and
    counts. */
module ConfigApi {
  import opened Wrappers
  import opened Numeric
  import opened Records
  import Sorting
  import Heatset
  import Reports
  import Winding

  // ---------------------------------------------------------------
  // Winding KPI
  // ---------------------------------------------------------------

  /** The number of present cells that satisfy `p`; `NULL` cells match no
      filter. */
  function CountWhere(cells: seq<Option<real>>, p: real -> bool): (n: nat)
    ensures n <= |cells|
  {
    if |cells| == 0 then 0
    else
      var last := cells[|cells| - 1];
      CountWhere(cells[..|cells| - 1], p) + (if last.Some? && p(last.value) then 1 else 0)
  }

  /** The number of present cells. */
  function CountPresent(cells: seq<Option<real>>): (n: nat)
    ensures n <= |cells|
  {
    if |cells| == 0 then 0 else CountPresent(cells[..|cells| - 1]) + (if cells[|cells| - 1].Some? then 1 else 0)
  }

  datatype Grades = Grades(a: nat, b: nat, c: nat, d: nat)

  /** The grade bands of the winding record, on a real cut count. */
  predicate InBandA(c: real) { c < Winding.GradeBFrom as real }
  predicate InBandB(c: real) { Winding.GradeBFrom as real <= c < Winding.GradeCFrom as real }
  predicate InBandC(c: real) { Winding.GradeCFrom as real <= c < Winding.GradeDFrom as real }
  predicate InBandD(c: real) { c >= Winding.GradeDFrom as real }

  /** Grades by cuts per 100 km: A below 20, B from 20 below 40, C from 40
      below 60, D from 60. */
  function GradeDistribution(cuts: seq<Option<real>>): (g: Grades)
    ensures g.a + g.b + g.c + g.d == CountPresent(cuts)
  {
    GradesPartition(cuts);
    Grades(CountWhere(cuts, InBandA), CountWhere(cuts, InBandB),
           CountWhere(cuts, InBandC), CountWhere(cuts, InBandD))
  }

  /** Every recorded cut value falls in exactly one grade. */
  lemma {:induction false} GradesPartition(cuts: seq<Option<real>>)
    ensures CountWhere(cuts, InBandA) + CountWhere(cuts, InBandB)
          + CountWhere(cuts, InBandC) + CountWhere(cuts, InBandD) == CountPresent(cuts)
    decreases |cuts|
  {
    if |cuts| > 0 {
      GradesPartition(cuts[..|cuts| - 1]);
    }
  }

  /** On a whole cut count the distribution's bands are the grades the
      winding record assigns. */
  lemma GradeBandsAgree(c: nat)
    ensures InBandA(c as real) <==> Winding.QualityGrade(Some(c)) == Winding.GradeA
    ensures InBandB(c as real) <==> Winding.QualityGrade(Some(c)) == Winding.GradeB
    ensures InBandC(c as real) <==> Winding.QualityGrade(Some(c)) == Winding.GradeC
    ensures InBandD(c as real) <==> Winding.QualityGrade(Some(c)) == Winding.GradeD
  {
  }

  /** The KPI waste share in percent to two decimals, or `None` when the
      input total is missing or zero. */
  function KpiWastePct(totalIn: Option<real>, totalWaste: Option<real>): (r: Option<real>)
    ensures r.None? <==> !Truthy(totalIn)
    ensures r.Some? ==> WithinHalfStep(r.value, OrElse(totalWaste, 0.0) / totalIn.value * 100.0, 2)
    ensures r.Some? && totalIn.value > 0.0 && 0.0 <= OrElse(totalWaste, 0.0) <= totalIn.value ==> 0.0 <= r.value <= 100.0
  {
    if Truthy(totalIn) then
      WasteShare(OrElse(totalWaste, 0.0), totalIn.value);
      Some(RoundTo(OrElse(totalWaste, 0.0) / totalIn.value * 100.0, 2))
    else None
  }

  lemma WasteShare(waste: real, inp: real)
    requires inp != 0.0
    ensures inp > 0.0 && 0.0 <= waste <= inp ==> 0.0 <= RoundTo(waste / inp * 100.0, 2) <= 100.0
  {
    if inp > 0.0 && 0.0 <= waste <= inp {
      DivBetween(waste, inp, 0.0, 1.0);
      RoundToBetween(waste / inp * 100.0, 0, 100, 2);
    }
  }

  // ---------------------------------------------------------------
  // Heat-set KPI
  // ---------------------------------------------------------------

  /** The KPI pass rate: `None` for a period without batches, else the
      period report's pass rate. */
  function KpiPassRate(results: seq<Option<string>>): (r: Option<real>)
    ensures r.None? <==> |results| == 0
    ensures r.Some? ==> r.value == Reports.PassRate(results) && 0.0 <= r.value <= 100.0
    ensures r.Some? ==> WithinHalfStep(r.value, Reports.PassCount(results) as real / |results| as real * 100.0, 1)
  {
    if |results| > 0 then Some(Reports.PassRate(results)) else None
  }

  /** A heat-set batch as the breakdown sees it. */
  datatype HsBatch = HsBatch(machineType: string, result: Option<string>)

  /** The machine types the breakdown reports on, in order. */
  const MachineTypes: seq<string> := ["autoclave", "superba", "suessen", "other"]

  datatype TypeStats = TypeStats(machineType: string, count: nat, pass: nat, passRate: real)

  function ResultsOf(bs: seq<HsBatch>, mt: string): (rs: seq<Option<string>>)
    ensures |rs| <= |bs|
    ensures |rs| > 0 <==> HasType(bs, mt)
  {
    if |bs| == 0 then []
    else
      var init := bs[..|bs| - 1];
      assert HasType(bs, mt) <==> HasType(init, mt) || bs[|bs| - 1].machineType == mt by {
        if HasType(bs, mt) && bs[|bs| - 1].machineType != mt {
          var j :| 0 <= j < |bs| && bs[j].machineType == mt;
          assert init[j].machineType == mt;
        }
        if HasType(init, mt) {
          var j :| 0 <= j < |init| && init[j].machineType == mt;
          assert bs[j].machineType == mt;
        }
      }
      ResultsOf(init, mt) + (if bs[|bs| - 1].machineType == mt then [bs[|bs| - 1].result] else [])
  }

  /** Some batch of the period is of type `mt`. */
  predicate HasType(bs: seq<HsBatch>, mt: string) {
    exists j :: 0 <= j < |bs| && bs[j].machineType == mt
  }

  /** The breakdown lists type `mt`. */
  predicate HasEntry(r: seq<TypeStats>, mt: string) {
    exists i :: 0 <= i < |r| && r[i].machineType == mt
  }

  /** An entry states its type's count, passes and pass rate. */
  predicate Describes(bs: seq<HsBatch>, e: TypeStats) {
    var rs := ResultsOf(bs, e.machineType);
    e.count == |rs| && e.count > 0 && e.pass == Reports.PassCount(rs) && e.passRate == Reports.PassRate(rs)
  }

  function StatsFor(bs: seq<HsBatch>, types: seq<string>): (r: seq<TypeStats>)
    ensures |r| <= |types|
    ensures forall i :: 0 <= i < |r| ==> r[i].machineType in types && Describes(bs, r[i])
    ensures forall t :: t in types && HasType(bs, t) ==> HasEntry(r, t)
  {
    if |types| == 0 then []
    else
      var init := StatsFor(bs, types[..|types| - 1]);
      var t := types[|types| - 1];
      if HasType(bs, t) then
        var e := TypeEntry(bs, t);
        StatsAppend(bs, types, init, e);
        init + [e]
      else
        StatsSkip(bs, types, init);
        init
  }

  /** The entry of a type that has batches. */
  function TypeEntry(bs: seq<HsBatch>, t: string): (e: TypeStats)
    requires HasType(bs, t)
    ensures e.machineType == t && Describes(bs, e)
  {
    var rs := ResultsOf(bs, t);
    TypeStats(t, |rs|, Reports.PassCount(rs), Reports.PassRate(rs))
  }

  lemma StatsAppend(bs: seq<HsBatch>, types: seq<string>, init: seq<TypeStats>, e: TypeStats)
    requires |types| > 0 && e.machineType == types[|types| - 1] && Describes(bs, e)
    requires forall i :: 0 <= i < |init| ==> init[i].machineType in types[..|types| - 1] && Describes(bs, init[i])
    requires forall t :: t in types[..|types| - 1] && HasType(bs, t) ==> HasEntry(init, t)
    ensures forall i :: 0 <= i < |init + [e]| ==> (init + [e])[i].machineType in types && Describes(bs, (init + [e])[i])
    ensures forall t :: t in types && HasType(bs, t) ==> HasEntry(init + [e], t)
  {
    var r := init + [e];
    assert types == types[..|types| - 1] + [e.machineType];
    assert r[|r| - 1] == e;
    forall u | HasEntry(init, u)
      ensures HasEntry(r, u)
    {
      var i :| 0 <= i < |init| && init[i].machineType == u;
      assert r[i] == init[i];
    }
  }

  lemma StatsSkip(bs: seq<HsBatch>, types: seq<string>, init: seq<TypeStats>)
    requires |types| > 0 && !HasType(bs, types[|types| - 1])
    requires forall i :: 0 <= i < |init| ==> init[i].machineType in types[..|types| - 1]
    requires forall t :: t in types[..|types| - 1] && HasType(bs, t) ==> HasEntry(init, t)
    ensures forall i :: 0 <= i < |init| ==> init[i].machineType in types
    ensures forall t :: t in types && HasType(bs, t) ==> HasEntry(init, t)
  {
    assert types == types[..|types| - 1] + [types[|types| - 1]];
  }

  /** `by_machine_type`: one entry per listed machine type that has a batch
      in the period, with its count, passes and pass rate. */
  function ByMachineType(bs: seq<HsBatch>): (r: seq<TypeStats>)
    ensures forall i :: 0 <= i < |r| ==> r[i].machineType in MachineTypes && Describes(bs, r[i])
    ensures forall i :: 0 <= i < |r| ==> r[i].pass <= r[i].count
    ensures forall t :: t in MachineTypes ==> (HasEntry(r, t) <==> HasType(bs, t))
  {
    var r := StatsFor(bs, MachineTypes);
    StatsPresence(bs, r);
    r
  }

  lemma StatsPresence(bs: seq<HsBatch>, r: seq<TypeStats>)
    requires forall i :: 0 <= i < |r| ==> Describes(bs, r[i])
    requires forall t :: t in MachineTypes && HasType(bs, t) ==> HasEntry(r, t)
    ensures forall t :: t in MachineTypes ==> (HasEntry(r, t) <==> HasType(bs, t))
  {
    forall t | t in MachineTypes && HasEntry(r, t)
      ensures HasType(bs, t)
    {
      var i :| 0 <= i < |r| && r[i].machineType == t;
      assert Describes(bs, r[i]);
    }
  }

  // ---------------------------------------------------------------
  // Quality alerts
  // ---------------------------------------------------------------

  datatype Section = WindingSection | TfoSection | HeatsetSection

  function SectionName(s: Section): string {
    match s
    case WindingSection => "winding"
    case TfoSection => "tfo"
    case HeatsetSection => "heatset"
  }

  /** An alert as stored in a batch's metadata; either key may be missing. */
  datatype StoredAlert = StoredAlert(level: Option<string>, code: Option<string>)

  /** A batch with its alert flag and stored alerts. */
  datatype FlaggedBatch = FlaggedBatch(batchNumber: string, machine: string, day: int, hasAlerts: bool, alerts: seq<StoredAlert>)

  /** One entry of the feed. */
  datatype FeedAlert = FeedAlert(section: Section, batchNumber: string, machine: string, day: int, level: Option<string>, code: Option<string>)

  /** Whether a filter parameter is given (present and non-empty). */
  predicate Given(p: Option<string>) {
    p.Some? && p.value != ""
  }

  /** The level filter keeps an alert when no level is asked for or when
      the alert's level is the one asked for. */
  predicate Kept(level: Option<string>, a: StoredAlert) {
    !Given(level) || a.level == level
  }

  predicate Included(section: Option<string>, s: Section) {
    !Given(section) || section.value == SectionName(s)
  }

  /** The batches the feed reads: dated in the range and flagged. */
  predicate Read(b: FlaggedBatch, from: int, to: int) {
    from <= b.day <= to && b.hasAlerts
  }

  function Entry(s: Section, b: FlaggedBatch, a: StoredAlert): FeedAlert {
    FeedAlert(s, b.batchNumber, b.machine, b.day, a.level, a.code)
  }

  function BatchAlerts(s: Section, b: FlaggedBatch, stored: seq<StoredAlert>, level: Option<string>): (r: seq<FeedAlert>)
    ensures forall i :: 0 <= i < |r| ==> r[i].section == s && r[i].day == b.day && (!Given(level) || r[i].level == level)
    ensures forall a :: a in stored && Kept(level, a) ==> Entry(s, b, a) in r
  {
    if |stored| == 0 then []
    else
      var a := stored[|stored| - 1];
      var init := BatchAlerts(s, b, stored[..|stored| - 1], level);
      assert stored == stored[..|stored| - 1] + [a];
      init + (if Kept(level, a) then [Entry(s, b, a)] else [])
  }

  /** One section's alerts, batch by batch in the given order. */
  function SectionAlerts(s: Section, batches: seq<FlaggedBatch>, from: int, to: int, level: Option<string>): (r: seq<FeedAlert>)
    ensures forall i :: 0 <= i < |r| ==> r[i].section == s && from <= r[i].day <= to && (!Given(level) || r[i].level == level)
  {
    if |batches| == 0 then []
    else
      var b := batches[|batches| - 1];
      SectionAlerts(s, batches[..|batches| - 1], from, to, level)
        + (if Read(b, from, to) then BatchAlerts(s, b, b.alerts, level) else [])
  }

  /** Every kept alert of every batch the section reads is in the feed. */
  lemma {:induction false} SectionAlertsComplete(s: Section, batches: seq<FlaggedBatch>, from: int, to: int, level: Option<string>,
                                                 b: FlaggedBatch, a: StoredAlert)
    requires b in batches && Read(b, from, to) && a in b.alerts && Kept(level, a)
    ensures Entry(s, b, a) in SectionAlerts(s, batches, from, to, level)
    decreases |batches|
  {
    var init := batches[..|batches| - 1];
    assert batches == init + [batches[|batches| - 1]];
    if b != batches[|batches| - 1] {
      SectionAlertsComplete(s, init, from, to, level, b, a);
    }
  }

  /** The three sections' alerts, each only when the section filter allows it. */
  function Collected(winding: seq<FlaggedBatch>, tfo: seq<FlaggedBatch>, heatset: seq<FlaggedBatch>,
                     from: int, to: int, level: Option<string>, section: Option<string>): (r: seq<FeedAlert>)
    ensures forall i :: 0 <= i < |r| ==> !Given(level) || r[i].level == level
  {
    (if Included(section, WindingSection) then SectionAlerts(WindingSection, winding, from, to, level) else [])
    + (if Included(section, TfoSection) then SectionAlerts(TfoSection, tfo, from, to, level) else [])
    + (if Included(section, HeatsetSection) then SectionAlerts(HeatsetSection, heatset, from, to, level) else [])
  }

  /** Critical first, then warning, then any other or missing level. */
  function LevelRank(level: Option<string>): (k: nat)
    ensures k == 0 <==> level == Some("critical")
    ensures k == 1 <==> level == Some("warning")
  {
    if level == Some("critical") then 0 else if level == Some("warning") then 1 else 9
  }

  /** The feed's sort key: the level's rank, then the date ascending. */
  function AlertKey(a: FeedAlert): Sorting.Key {
    Sorting.Key(LevelRank(a.level), a.day)
  }

  function CountLevel(alerts: seq<FeedAlert>, l: string): (n: nat)
    ensures n <= |alerts|
  {
    if |alerts| == 0 then 0
    else CountLevel(alerts[..|alerts| - 1], l) + (if alerts[|alerts| - 1].level == Some(l) then 1 else 0)
  }

  /** No alert has two levels, so the two counts fit in the total. */
  lemma {:induction false} CountsFit(alerts: seq<FeedAlert>)
    ensures CountLevel(alerts, "critical") + CountLevel(alerts, "warning") <= |alerts|
    decreases |alerts|
  {
    if |alerts| > 0 {
      CountsFit(alerts[..|alerts| - 1]);
    }
  }

  /** With a level asked for, the other level is never counted. */
  lemma {:induction false} CountOtherLevel(alerts: seq<FeedAlert>, level: string, other: string)
    requires level != other
    requires forall i :: 0 <= i < |alerts| ==> alerts[i].level == Some(level)
    ensures CountLevel(alerts, other) == 0
    decreases |alerts|
  {
    if |alerts| > 0 {
      CountOtherLevel(alerts[..|alerts| - 1], level, other);
    }
  }

  datatype AlertFeed = AlertFeed(totalAlerts: nat, criticalCount: nat, warningCount: nat, alerts: seq<FeedAlert>)

  /** The feed: the collected alerts sorted by level rank and date (a
      stable sort), with their counts. */
  function QualityAlerts(winding: seq<FlaggedBatch>, tfo: seq<FlaggedBatch>, heatset: seq<FlaggedBatch>,
                         from: int, to: int, level: Option<string>, section: Option<string>): (f: AlertFeed)
    ensures f.totalAlerts == |f.alerts|
    ensures f.criticalCount + f.warningCount <= f.totalAlerts
    ensures multiset(f.alerts) == multiset(Collected(winding, tfo, heatset, from, to, level, section))
    ensures Sorting.SortedBy(f.alerts, AlertKey)
    ensures Given(level) ==> forall i :: 0 <= i < |f.alerts| ==> f.alerts[i].level == level
    ensures Given(level) && level.value != "warning" ==> f.warningCount == 0
    ensures Given(level) && level.value != "critical" ==> f.criticalCount == 0
  {
    Feed(Collected(winding, tfo, heatset, from, to, level, section), level)
  }

  /** The feed of the collected alerts `c`. */
  function Feed(c: seq<FeedAlert>, level: Option<string>): (f: AlertFeed)
    requires Given(level) ==> forall i :: 0 <= i < |c| ==> c[i].level == level
    ensures f.totalAlerts == |f.alerts|
    ensures f.criticalCount + f.warningCount <= f.totalAlerts
    ensures multiset(f.alerts) == multiset(c)
    ensures Sorting.SortedBy(f.alerts, AlertKey)
    ensures Given(level) ==> forall i :: 0 <= i < |f.alerts| ==> f.alerts[i].level == level
    ensures Given(level) && level.value != "warning" ==> f.warningCount == 0
    ensures Given(level) && level.value != "critical" ==> f.criticalCount == 0
  {
    var sorted := Sorting.SortBy(c, AlertKey);
    CountsFit(sorted);
    SortedKeepsLevel(c, sorted, level);
    AlertFeed(|sorted|, CountLevel(sorted, "critical"), CountLevel(sorted, "warning"), sorted)
  }

  /** The sorted feed keeps the level filter of what it sorts, so only the
      asked level is ever counted. */
  lemma SortedKeepsLevel(c: seq<FeedAlert>, sorted: seq<FeedAlert>, level: Option<string>)
    requires multiset(sorted) == multiset(c)
    requires Given(level) ==> forall i :: 0 <= i < |c| ==> c[i].level == level
    ensures Given(level) ==> forall i :: 0 <= i < |sorted| ==> sorted[i].level == level
    ensures Given(level) && level.value != "warning" ==> CountLevel(sorted, "warning") == 0
    ensures Given(level) && level.value != "critical" ==> CountLevel(sorted, "critical") == 0
  {
    if Given(level) {
      forall i | 0 <= i < |sorted|
        ensures sorted[i].level == level
      {
        assert sorted[i] in multiset(c);
        var j :| 0 <= j < |c| && c[j] == sorted[i];
      }
      if level.value != "warning" {
        CountOtherLevel(sorted, level.value, "warning");
      }
      if level.value != "critical" {
        CountOtherLevel(sorted, level.value, "critical");
      }
    }
  }

  /** The level filter drops nothing else: a stored alert with the asked
      level, on a batch the feed reads, of a section it includes, appears. */
  lemma FeedComplete(winding: seq<FlaggedBatch>, tfo: seq<FlaggedBatch>, heatset: seq<FlaggedBatch>,
                     from: int, to: int, level: Option<string>, section: Option<string>,
                     s: Section, b: FlaggedBatch, a: StoredAlert)
    requires Included(section, s) && Read(b, from, to) && a in b.alerts && Kept(level, a)
    requires b in (match s case WindingSection => winding case TfoSection => tfo case HeatsetSection => heatset)
    ensures Entry(s, b, a) in QualityAlerts(winding, tfo, heatset, from, to, level, section).alerts
  {
    var batches := match s case WindingSection => winding case TfoSection => tfo case HeatsetSection => heatset;
    SectionAlertsComplete(s, batches, from, to, level, b, a);
    CollectedHas(winding, tfo, heatset, from, to, level, section, s, Entry(s, b, a));
    InFeed(Collected(winding, tfo, heatset, from, to, level, section), level, Entry(s, b, a));
  }

  /** The alerts of an included section are all collected. */
  lemma CollectedHas(winding: seq<FlaggedBatch>, tfo: seq<FlaggedBatch>, heatset: seq<FlaggedBatch>,
                     from: int, to: int, level: Option<string>, section: Option<string>, s: Section, e: FeedAlert)
    requires Included(section, s)
    requires e in SectionAlerts(s, match s case WindingSection => winding case TfoSection => tfo case HeatsetSection => heatset,
                                from, to, level)
    ensures e in Collected(winding, tfo, heatset, from, to, level, section)
  {
    var w := if Included(section, WindingSection) then SectionAlerts(WindingSection, winding, from, to, level) else [];
    var t := if Included(section, TfoSection) then SectionAlerts(TfoSection, tfo, from, to, level) else [];
    var h := if Included(section, HeatsetSection) then SectionAlerts(HeatsetSection, heatset, from, to, level) else [];
    assert Collected(winding, tfo, heatset, from, to, level, section) == w + t + h;
  }

  lemma InFeed(c: seq<FeedAlert>, level: Option<string>, e: FeedAlert)
    requires Given(level) ==> forall i :: 0 <= i < |c| ==> c[i].level == level
    requires e in c
    ensures e in Feed(c, level).alerts
  {
    assert e in multiset(Feed(c, level).alerts);
  }

  /** Alerts of equal rank and date keep the order they were collected in. */
  lemma FeedStable(winding: seq<FlaggedBatch>, tfo: seq<FlaggedBatch>, heatset: seq<FlaggedBatch>,
                   from: int, to: int, level: Option<string>, section: Option<string>, k: Sorting.Key)
    ensures Sorting.Bucket(QualityAlerts(winding, tfo, heatset, from, to, level, section).alerts, AlertKey, k)
         == Sorting.Bucket(Collected(winding, tfo, heatset, from, to, level, section), AlertKey, k)
  {
    Sorting.SortByStable(Collected(winding, tfo, heatset, from, to, level, section), AlertKey, k);
  }
}

=== FILE: core.dfy ===
/** Shared vocabulary of the plant: production statuses, machine and line
    status, and shift times. */
module Core {
  import opened Wrappers

  /** Status of every production record; a new record is in progress. */
  datatype ProductionStatus = InProgress | Completed | QualityHold | Cancelled

  const DefaultProductionStatus := InProgress

  function ProductionStatusName(s: ProductionStatus): string {
    match s
    case InProgress => "in_progress"
    case Completed => "completed"
    case QualityHold => "quality_hold"
    case Cancelled => "cancelled"
  }

  /** A posted status value, accepted only when it names a status. */
  function ParseProductionStatus(s: Option<string>): (r: Option<ProductionStatus>)
    ensures r.Some? <==> s.Some? && s.value in {"in_progress", "completed", "quality_hold", "cancelled"}
    ensures r.Some? ==> ProductionStatusName(r.value) == s.value
  {
    if s == Some("in_progress") then Some(InProgress)
    else if s == Some("completed") then Some(Completed)
    else if s == Some("quality_hold") then Some(QualityHold)
    else if s == Some("cancelled") then Some(Cancelled)
    else None
  }

  lemma ProductionStatusRoundTrip(s: ProductionStatus)
    ensures ParseProductionStatus(Some(ProductionStatusName(s))) == Some(s)
  {
  }

  datatype MachineStatus = MachineActive | MachineInactive | MachineMaintenance | Decommissioned
  datatype LineStatus = LineActive | LineInactive | LineMaintenance

  /** A machine counts as operational only while active. */
  predicate MachineOperational(s: MachineStatus) {
    s == MachineActive
  }

  predicate LineOperational(s: LineStatus) {
    s == LineActive
  }

  /** Time of day in seconds since midnight. */
  type TimeOfDay = t: int | 0 <= t < 86400

  /** Length of a shift in hours: end minus start, plus a day when the shift
      ends before it starts. */
  function ShiftDurationHours(start: TimeOfDay, end: TimeOfDay): (h: real)
    ensures 0.0 <= h < 24.0
    ensures h * 3600.0 == (if end < start then end + 86400 - start else end - start) as real
    ensures start == end ==> h == 0.0
  {
    var secs := if end < start then end + 86400 - start else end - start;
    secs as real / 3600.0
  }

  /** Durations of a shift and its complement make up a whole day. */
  lemma ShiftAndComplement(start: TimeOfDay, end: TimeOfDay)
    requires start != end
    ensures ShiftDurationHours(start, end) + ShiftDurationHours(end, start) == 24.0
  {
  }

  datatype Shift = Shift(code: string, start: TimeOfDay, end: TimeOfDay)

  /** A day shift contains the half-open interval from start to end; an
      overnight shift (start not before end) wraps past midnight. */
  predicate ShiftCovers(s: Shift, now: TimeOfDay) {
    if s.start < s.end then s.start <= now < s.end
    else now >= s.start || now < s.end
  }

  /** The first shift in start-time order that covers `now`, falling back to
      the first shift, or none when there are no shifts. */
  function CurrentShift(shifts: seq<Shift>, now: TimeOfDay): (r: Option<Shift>)
    ensures r.None? <==> |shifts| == 0
    ensures r.Some? ==> r.value in shifts
    ensures (exists i :: 0 <= i < |shifts| && ShiftCovers(shifts[i], now)) ==>
      ShiftCovers(r.value, now) && FirstCovering(shifts, now, r.value)
    ensures (forall i :: 0 <= i < |shifts| ==> !ShiftCovers(shifts[i], now)) && |shifts| > 0 ==>
      r == Some(shifts[0])
  {
    match FirstCover(shifts, now)
    case Some(s) => Some(s)
    case None => if |shifts| == 0 then None else Some(shifts[0])
  }

  /** `s` covers `now` and no earlier shift does. */
  predicate FirstCovering(shifts: seq<Shift>, now: TimeOfDay, s: Shift) {
    exists i :: 0 <= i < |shifts| && shifts[i] == s
      && forall j :: 0 <= j < i ==> !ShiftCovers(shifts[j], now)
  }

  function FirstCover(shifts: seq<Shift>, now: TimeOfDay): (r: Option<Shift>)
    ensures r.None? <==> forall i :: 0 <= i < |shifts| ==> !ShiftCovers(shifts[i], now)
    ensures r.Some? ==> ShiftCovers(r.value, now) && FirstCovering(shifts, now, r.value)
  {
    if |shifts| == 0 then None
    else if ShiftCovers(shifts[0], now) then
      assert shifts[0] == shifts[0];
      Some(shifts[0])
    else
      var r := FirstCover(shifts[1..], now);
      if r.Some? then
        assert FirstCovering(shifts[1..], now, r.value);
        var i :| 0 <= i < |shifts[1..]| && shifts[1..][i] == r.value
          && forall j :: 0 <= j < i ==> !ShiftCovers(shifts[1..][j], now);
        assert shifts[i + 1] == r.value;
        assert forall j :: 0 <= j < i + 1 ==> !ShiftCovers(shifts[j], now) by {
          forall j | 0 <= j < i + 1
            ensures !ShiftCovers(shifts[j], now)
          {
            if j > 0 {
              assert shifts[j] == shifts[1..][j - 1];
            }
          }
        }
        r
      else
        assert forall i :: 0 <= i < |shifts| ==> !ShiftCovers(shifts[i], now) by {
          forall i | 0 <= i < |shifts|
            ensures !ShiftCovers(shifts[i], now)
          {
            if i > 0 {
              assert shifts[i] == shifts[1..][i - 1];
            }
          }
        }
        None
  }

  /** Every time of day lies in exactly one of the two halves of a day split
      at two distinct times. */
  lemma ShiftPartition(a: TimeOfDay, b: TimeOfDay, now: TimeOfDay)
    requires a != b
    ensures ShiftCovers(Shift("", a, b), now) != ShiftCovers(Shift("", b, a), now)
  {
  }

  datatype ShiftName = Morning | Evening | Night

  /** Shift by clock hour: 6 to 14 morning, 14 to 22 evening, otherwise
      night. */
  function ShiftByHour(h: int): (s: ShiftName)
    requires 0 <= h < 24
    ensures s == Morning <==> 6 <= h < 14
    ensures s == Evening <==> 14 <= h < 22
    ensures s == Night <==> h < 6 || h >= 22
  {
    if 6 <= h < 14 then Morning else if 14 <= h < 22 then Evening else Night
  }
}

=== FILE: dashboard.dfy ===
/** The live dashboards: a line's capacity use and today's output, the
    "active now" badge of each production stage, and the floor map's heat
    level per machine with its summary counts. */
module Dashboard {
  import opened Wrappers
  import opened Numeric
  import opened Records
  import Core
  import Sorting

  // ---------------------------------------------------------------
  // Line monitor
  // ---------------------------------------------------------------

  /** The share of the target capacity produced today, in percent to one
      decimal and capped at 100; 0 for a line without a positive target. */
  function CapacityPct(target: Option<real>, produced: real): (c: real)
    ensures c <= 100.0
    ensures !(target.Some? && target.value > 0.0) ==> c == 0.0
    ensures target.Some? && target.value > 0.0 && produced >= 0.0 ==> c >= 0.0
    ensures target.Some? && target.value > 0.0 && produced >= target.value ==> c == 100.0
    ensures target.Some? && target.value > 0.0 && produced < target.value ==>
      WithinHalfStep(c, produced / target.value * 100.0, 1)
  {
    if target.Some? && target.value > 0.0 then
      ShareOfTarget(produced, target.value);
      Min(RoundTo(produced / target.value * 100.0, 1), 100.0)
    else 0.0
  }

  lemma ShareOfTarget(produced: real, target: real)
    requires target > 0.0
    ensures produced >= 0.0 ==> RoundTo(produced / target * 100.0, 1) >= 0.0
    ensures produced >= target ==> RoundTo(produced / target * 100.0, 1) >= 100.0
    ensures produced < target ==> RoundTo(produced / target * 100.0, 1) <= 100.0
  {
    if produced >= 0.0 {
      PercentFrom(produced, target, 0);
    }
    if produced >= target {
      PercentFrom(produced, target, 1);
    }
    if produced < target {
      PercentUpTo(produced, target, 1);
    }
  }

  lemma PercentFrom(produced: real, target: real, k: int)
    requires target > 0.0 && produced >= k as real * target
    ensures RoundTo(produced / target * 100.0, 1) >= (k * 100) as real
  {
    DivAtLeast(produced, target, k as real);
    RoundToInt(k * 100, 1);
    RoundToMonotone((k * 100) as real, produced / target * 100.0, 1);
  }

  lemma PercentUpTo(produced: real, target: real, k: int)
    requires target > 0.0 && produced <= k as real * target
    ensures RoundTo(produced / target * 100.0, 1) <= (k * 100) as real
  {
    DivAtMost(produced, target, k as real);
    RoundToInt(k * 100, 1);
    RoundToMonotone(produced / target * 100.0, (k * 100) as real, 1);
  }

  /** Producing more never lowers the capacity figure. */
  lemma CapacityMonotone(target: Option<real>, p1: real, p2: real)
    requires p1 <= p2
    ensures CapacityPct(target, p1) <= CapacityPct(target, p2)
  {
    if target.Some? && target.value > 0.0 {
      var t := target.value;
      var q1, q2 := p1 / t, p2 / t;
      assert q1 * t == p1;
      assert q2 * t == p2;
      if q2 < q1 {
        MulLess(q2, q1, t);
      }
      assert q1 <= q2;
      RoundToMonotone(q1 * 100.0, q2 * 100.0, 1);
    }
  }

  /** Today's output of one line per stage, each a `Coalesce(SUM, 0)`. */
  datatype TodayOutput = TodayOutput(
    blowroomKg: real,
    spinningKg: real,
    windingKg: real,
    tfoKg: real,
    heatsetKg: real,
    dyeingKg: real,
    totalOutputKg: real)

  /** Today's production from each stage's output cells; the line total
      counts spinning, winding, twisting and heat-set only. */
  function TodayProduction(blowroom: seq<Option<real>>, spinning: seq<Option<real>>, winding: seq<Option<real>>,
                           tfo: seq<Option<real>>, heatset: seq<Option<real>>, dyeing: seq<Option<real>>): (t: TodayOutput)
    ensures t.blowroomKg == Total(Present(blowroom)) && t.dyeingKg == Total(Present(dyeing))
    ensures t.spinningKg == Total(Present(spinning)) && t.windingKg == Total(Present(winding))
    ensures t.tfoKg == Total(Present(tfo)) && t.heatsetKg == Total(Present(heatset))
    ensures t.totalOutputKg == t.spinningKg + t.windingKg + t.tfoKg + t.heatsetKg
  {
    var sp, wd, tw, hs := SumOrZero(spinning), SumOrZero(winding), SumOrZero(tfo), SumOrZero(heatset);
    TodayOutput(SumOrZero(blowroom), sp, wd, tw, hs, SumOrZero(dyeing), sp + wd + tw + hs)
  }

  /** Blowroom and dyeing output never reach the line total, which is what
      the capacity figure is measured on. */
  lemma TotalIgnoresBlowroomAndDyeing(blowroom: seq<Option<real>>, blowroom2: seq<Option<real>>,
                                      spinning: seq<Option<real>>, winding: seq<Option<real>>, tfo: seq<Option<real>>,
                                      heatset: seq<Option<real>>, dyeing: seq<Option<real>>, dyeing2: seq<Option<real>>)
    ensures TodayProduction(blowroom, spinning, winding, tfo, heatset, dyeing).totalOutputKg
         == TodayProduction(blowroom2, spinning, winding, tfo, heatset, dyeing2).totalOutputKg
  {
  }

  // ---------------------------------------------------------------
  // Stage badges
  // ---------------------------------------------------------------

  /** The nine stages of the chain, in the order the monitor lists them. */
  datatype Stage = BlowroomStage | CardingStage | PassageStage | FinisherStage | SpinningStage
                 | WindingStage | TfoStage | HeatsetStage | DyeingStage

  /** The statuses that make a stage's latest batch count as running:
      heat-set batches are running while loading, processing or cooling,
      the others while in progress. */
  function ActiveStatuses(st: Stage): (a: set<string>)
    ensures "completed" !in a
  {
    if st == HeatsetStage then {"processing", "loading", "cooling"} else {"in_progress"}
  }

  /** A stage's batch as the badge sees it. */
  datatype StageBatch = StageBatch(day: int, createdAt: int, status: string, batchNumber: string)

  /** The element with the greatest key; the earliest such one on ties. */
  function Latest<T>(s: seq<T>, key: T -> Sorting.Key): (r: Option<T>)
    ensures r.None? <==> |s| == 0
    ensures r.Some? ==> r.value in s
    ensures r.Some? ==> forall i :: 0 <= i < |s| ==> Sorting.KeyLe(key(s[i]), key(r.value))
  {
    if |s| == 0 then None
    else
      var last := s[|s| - 1];
      match Latest(s[..|s| - 1], key)
      case None => Some(last)
      case Some(m) => if Sorting.KeyLe(key(last), key(m)) then Some(m) else Some(last)
  }

  /** Newest production date first, then newest creation. */
  function StageKey(b: StageBatch): Sorting.Key {
    Sorting.Key(b.day, b.createdAt)
  }

  datatype StageInfo = StageInfo(hasData: bool, activeNow: bool, lastBatch: string, lastStatus: string)

  /** The badge of one stage: its latest batch, and whether that batch is
      dated today and running. */
  function StageInfoOf(st: Stage, batches: seq<StageBatch>, today: int): (i: StageInfo)
    ensures i.hasData <==> |batches| > 0
    ensures !i.hasData ==> !i.activeNow && i.lastBatch == "-" && i.lastStatus == "idle"
    ensures i.activeNow ==> forall k :: 0 <= k < |batches| ==> batches[k].day <= today
    ensures i.activeNow ==> exists b :: b in batches && b.day == today && b.status == i.lastStatus && i.lastStatus in ActiveStatuses(st)
  {
    match Latest(batches, StageKey)
    case None => StageInfo(false, false, "-", "idle")
    case Some(b) =>
      StageInfo(true, b.day == today && b.status in ActiveStatuses(st), b.batchNumber, b.status)
  }

  /** A running batch dated today that is newer than every other batch of
      the stage makes the stage active. */
  lemma StageActiveWhenNewest(st: Stage, batches: seq<StageBatch>, today: int, b: StageBatch)
    requires b in batches && b.day == today && b.status in ActiveStatuses(st)
    requires forall c :: c in batches && c != b ==> c.day < today || (c.day == today && c.createdAt < b.createdAt)
    ensures StageInfoOf(st, batches, today).activeNow
  {
    var m := Latest(batches, StageKey).value;
    var k :| 0 <= k < |batches| && batches[k] == b;
    assert Sorting.KeyLe(StageKey(b), StageKey(m));
  }

  // ---------------------------------------------------------------
  // Floor map
  // ---------------------------------------------------------------

  datatype HeatLevel = Good | Warning | Critical | InMaintenance | Idle

  /** A production record of today on one machine. */
  datatype TileRecord = TileRecord(createdAt: int, status: string, batchNumber: string, efficiency: Option<real>, output: Option<real>)

  /** A machine of the floor with today's records on it. */
  datatype FloorMachine = FloorMachine(code: string, machineType: string, status: Core.MachineStatus, today: seq<TileRecord>)

  datatype Tile = Tile(code: string, batchStatus: string, lastBatch: string, efficiency: real, outputKg: real, heat: HeatLevel)

  /** The machine types whose records the floor map reads; other machines
      show no batch. */
  predicate TracksRecords(machineType: string) {
    machineType in {"blowroom", "carding", "passage", "finisher", "ring", "winding", "tfo"}
  }

  function TileKey(r: TileRecord): Sorting.Key {
    Sorting.Key(r.createdAt, 0)
  }

  function Efficiencies(rs: seq<TileRecord>): (xs: seq<Option<real>>)
    ensures |xs| == |rs| && forall i :: 0 <= i < |rs| ==> xs[i] == rs[i].efficiency
  {
    seq(|rs|, i requires 0 <= i < |rs| => rs[i].efficiency)
  }

  function Outputs(rs: seq<TileRecord>): (xs: seq<Option<real>>)
    ensures |xs| == |rs| && forall i :: 0 <= i < |rs| ==> xs[i] == rs[i].output
  {
    seq(|rs|, i requires 0 <= i < |rs| => rs[i].output)
  }

  /** The heat level of an active machine from its latest batch's status
      and the efficiency shown. */
  function HeatOf(batchStatus: string, eff: real): (h: HeatLevel)
    ensures h != InMaintenance
    ensures batchStatus in {"in_progress", "processing"} ==>
      (h == Good <==> eff >= 90.0) && (h == Warning <==> 70.0 <= eff < 90.0) && (h == Critical <==> eff < 70.0)
    ensures batchStatus !in {"in_progress", "processing"} ==>
      (h == Good <==> batchStatus == "completed" && eff > 0.0) && (h == Good || h == Idle)
  {
    if batchStatus in {"in_progress", "processing"} then
      (if eff >= 90.0 then Good else if eff >= 70.0 then Warning else Critical)
    else if batchStatus == "completed" && eff > 0.0 then Good
    else Idle
  }

  /** One machine's tile: a machine in maintenance shows so, any other
      inactive one stays idle, and an active one is judged by today's
      latest record. */
  function TileOf(m: FloorMachine): (t: Tile)
    ensures t.heat == InMaintenance <==> m.status == Core.MachineMaintenance
    ensures m.status != Core.MachineActive && m.status != Core.MachineMaintenance ==> t.heat == Idle
    ensures t.heat in {Good, Warning, Critical} ==> m.status == Core.MachineActive && |m.today| > 0 && TracksRecords(m.machineType)
    ensures m.status == Core.MachineActive && (|m.today| == 0 || !TracksRecords(m.machineType)) ==>
      t.heat == Idle && t.batchStatus == "idle" && t.efficiency == 0.0
  {
    var blank := Tile(m.code, "idle", "-", 0.0, 0.0, Idle);
    if m.status == Core.MachineMaintenance then blank.(heat := InMaintenance)
    else if m.status != Core.MachineActive then blank
    else if !TracksRecords(m.machineType) then blank
    else
      match Latest(m.today, TileKey)
      case None => blank
      case Some(last) =>
        var eff := if Truthy(last.efficiency) then RoundTo(OrElse(SqlAvg(Efficiencies(m.today)), 0.0), 1) else 0.0;
        Tile(m.code, last.status, last.batchNumber, eff, SumOrZero(Outputs(m.today)), HeatOf(last.status, eff))
  }

  function FloorMap(ms: seq<FloorMachine>): (ts: seq<Tile>)
    ensures |ts| == |ms| && forall i :: 0 <= i < |ms| ==> ts[i] == TileOf(ms[i])
  {
    Each(ms, TileOf)
  }

  function CountHeat(ts: seq<Tile>, h: HeatLevel): (n: nat)
    ensures n <= |ts|
  {
    if |ts| == 0 then 0 else CountHeat(ts[..|ts| - 1], h) + (if ts[|ts| - 1].heat == h then 1 else 0)
  }

  datatype Summary = Summary(total: nat, active: nat, warning: nat, critical: nat, maintenance: nat, idle: nat)

  /** The summary counts: every tile is counted under exactly one level. */
  function Summarize(ts: seq<Tile>): (s: Summary)
    ensures s.total == |ts|
    ensures s.active + s.warning + s.critical + s.maintenance + s.idle == s.total
  {
    CountsPartition(ts);
    Summary(|ts|, CountHeat(ts, Good), CountHeat(ts, Warning), CountHeat(ts, Critical),
            CountHeat(ts, InMaintenance), CountHeat(ts, Idle))
  }

  lemma {:induction false} CountsPartition(ts: seq<Tile>)
    ensures CountHeat(ts, Good) + CountHeat(ts, Warning) + CountHeat(ts, Critical)
          + CountHeat(ts, InMaintenance) + CountHeat(ts, Idle) == |ts|
    decreases |ts|
  {
    if |ts| > 0 {
      CountsPartition(ts[..|ts| - 1]);
    }
  }

  function CountStatus(ms: seq<FloorMachine>, st: Core.MachineStatus): nat {
    if |ms| == 0 then 0 else CountStatus(ms[..|ms| - 1], st) + (if ms[|ms| - 1].status == st then 1 else 0)
  }

  /** The maintenance count is the number of machines under maintenance. */
  lemma {:induction false} MaintenanceCounted(ms: seq<FloorMachine>)
    ensures Summarize(FloorMap(ms)).maintenance == CountStatus(ms, Core.MachineMaintenance)
    decreases |ms|
  {
    if |ms| > 0 {
      var init := ms[..|ms| - 1];
      MaintenanceCounted(init);
      assert FloorMap(ms)[..|ms| - 1] == FloorMap(init);
    }
  }
}

=== FILE: downtime_pattern.dfy ===
/** The predictive-maintenance summary of one machine's stops over the last
    `days` days: failures by reason, a weekly trend, MTBF, MTTR and a risk
    level. */
module DowntimePattern {
  import opened Wrappers
  import opened Numeric
  import opened Records
  import Sorting

  /** The machine's stops dated on or after `start`. */
  function PatternStops(stops: seq<Stop>, machine: int, start: int): (r: seq<Stop>)
    ensures forall s :: s in r <==> s in stops && s.machine == machine && s.day >= start
  {
    Filter(stops, (s: Stop) => s.machine == machine && s.day >= start)
  }

  // ── By reason ────────────────────────────────────────────

  /** One row of the per-reason aggregate: how many stops and the sum of
      their durations (`NULL` when none is recorded). */
  datatype ReasonRow = ReasonRow(reason: string, count: nat, totalMin: Option<int>)

  /** The number of stops with `reason`. */
  function CountOf(sel: seq<Stop>, reason: string): nat {
    if |sel| == 0 then 0
    else CountOf(sel[..|sel| - 1], reason) + (if sel[|sel| - 1].reason == reason then 1 else 0)
  }

  /** `SUM(duration_min)` over the stops with `reason`. */
  function TotalOf(sel: seq<Stop>, reason: string): Option<int> {
    if |sel| == 0 then None
    else
      var acc := TotalOf(sel[..|sel| - 1], reason);
      if sel[|sel| - 1].reason == reason then AddSql(acc, sel[|sel| - 1].durationMin) else acc
  }

  predicate DistinctReasons(rows: seq<ReasonRow>) {
    forall i, j :: 0 <= i < j < |rows| ==> rows[i].reason != rows[j].reason
  }

  /** Some row is for `reason`. */
  predicate HasRow(rows: seq<ReasonRow>, reason: string) {
    exists i :: 0 <= i < |rows| && rows[i].reason == reason
  }

  function IndexOf(rows: seq<ReasonRow>, reason: string): (k: nat)
    ensures k <= |rows|
    ensures k < |rows| ==> rows[k].reason == reason
    ensures k == |rows| ==> forall i :: 0 <= i < |rows| ==> rows[i].reason != reason
  {
    if |rows| == 0 then 0
    else if rows[|rows| - 1].reason == reason then |rows| - 1
    else
      var k := IndexOf(rows[..|rows| - 1], reason);
      if k == |rows| - 1 then |rows| else k
  }

  /** Counts one more stop in its reason's row, opening the row if needed. */
  function Bump(rows: seq<ReasonRow>, s: Stop): seq<ReasonRow> {
    var k := IndexOf(rows, s.reason);
    if k == |rows| then rows + [ReasonRow(s.reason, 1, s.durationMin)]
    else rows[k := ReasonRow(s.reason, rows[k].count + 1, AddSql(rows[k].totalMin, s.durationMin))]
  }

  /** The `GROUP BY reason_category` rows, in order of first appearance:
      one row per reason, each with its count and minute sum. */
  function Tally(sel: seq<Stop>): (rows: seq<ReasonRow>)
    ensures DistinctReasons(rows)
    ensures forall i :: 0 <= i < |rows| ==>
      rows[i].count == CountOf(sel, rows[i].reason) && rows[i].count >= 1
      && rows[i].totalMin == TotalOf(sel, rows[i].reason)
    ensures forall k :: 0 <= k < |sel| ==> HasRow(rows, sel[k].reason)
    decreases |sel|
  {
    if |sel| == 0 then []
    else
      var init, last := sel[..|sel| - 1], sel[|sel| - 1];
      var prev := Tally(init);
      assert sel == init + [last];
      BumpFacts(init, prev, last);
      Bump(prev, last)
  }

  lemma BumpFacts(init: seq<Stop>, prev: seq<ReasonRow>, last: Stop)
    requires DistinctReasons(prev)
    requires forall i :: 0 <= i < |prev| ==>
      prev[i].count == CountOf(init, prev[i].reason) && prev[i].count >= 1
      && prev[i].totalMin == TotalOf(init, prev[i].reason)
    requires forall k :: 0 <= k < |init| ==> HasRow(prev, init[k].reason)
    ensures var sel, rows := init + [last], Bump(prev, last);
      && DistinctReasons(rows)
      && (forall i :: 0 <= i < |rows| ==>
            rows[i].count == CountOf(sel, rows[i].reason) && rows[i].count >= 1
            && rows[i].totalMin == TotalOf(sel, rows[i].reason))
      && (forall k :: 0 <= k < |sel| ==> HasRow(rows, sel[k].reason))
  {
    var sel, rows := init + [last], Bump(prev, last);
    assert sel[..|sel| - 1] == init;
    var k := IndexOf(prev, last.reason);
    if k == |prev| {
      assert CountOf(init, last.reason) == 0 by {
        CountOfAbsent(init, last.reason, prev);
      }
      assert TotalOf(init, last.reason) == None by {
        CountZeroTotalNone(init, last.reason);
      }
    }
    forall j | 0 <= j < |sel|
      ensures HasRow(rows, sel[j].reason)
    {
      if j < |init| {
        assert HasRow(prev, init[j].reason);
        var i :| 0 <= i < |prev| && prev[i].reason == init[j].reason;
        assert rows[i].reason == sel[j].reason;
      } else {
        var i := if k == |prev| then |prev| else k;
        assert rows[i].reason == sel[j].reason;
      }
    }
  }

  /** A reason without a row has no stop. */
  lemma {:induction false} CountOfAbsent(sel: seq<Stop>, reason: string, rows: seq<ReasonRow>)
    requires forall k :: 0 <= k < |sel| ==> HasRow(rows, sel[k].reason)
    requires forall i :: 0 <= i < |rows| ==> rows[i].reason != reason
    ensures CountOf(sel, reason) == 0
    decreases |sel|
  {
    if |sel| > 0 {
      var init := sel[..|sel| - 1];
      forall k | 0 <= k < |init|
        ensures HasRow(rows, init[k].reason)
      {
        assert init[k] == sel[k];
      }
      CountOfAbsent(init, reason, rows);
      assert HasRow(rows, sel[|sel| - 1].reason);
    }
  }

  lemma {:induction false} CountZeroTotalNone(sel: seq<Stop>, reason: string)
    requires CountOf(sel, reason) == 0
    ensures TotalOf(sel, reason) == None
    decreases |sel|
  {
    if |sel| > 0 {
      CountZeroTotalNone(sel[..|sel| - 1], reason);
    }
  }

  function SumCounts(rows: seq<ReasonRow>): nat {
    if |rows| == 0 then 0 else SumCounts(rows[..|rows| - 1]) + rows[|rows| - 1].count
  }

  lemma {:induction false} SumCountsBump(rows: seq<ReasonRow>, k: nat, row: ReasonRow)
    requires k < |rows| && row.count == rows[k].count + 1
    ensures SumCounts(rows[k := row]) == SumCounts(rows) + 1
    decreases |rows|
  {
    var rows' := rows[k := row];
    if k < |rows| - 1 {
      assert rows'[..|rows'| - 1] == rows[..|rows| - 1][k := row];
      SumCountsBump(rows[..|rows| - 1], k, row);
    } else {
      assert rows'[..|rows'| - 1] == rows[..|rows| - 1];
    }
  }

  /** Counting a stop adds one to the rows' total count. */
  lemma SumCountsAfterBump(rows: seq<ReasonRow>, s: Stop)
    ensures SumCounts(Bump(rows, s)) == SumCounts(rows) + 1
  {
    var k := IndexOf(rows, s.reason);
    if k == |rows| {
      var rows' := rows + [ReasonRow(s.reason, 1, s.durationMin)];
      assert rows'[..|rows'| - 1] == rows;
    } else {
      SumCountsBump(rows, k, ReasonRow(s.reason, rows[k].count + 1, AddSql(rows[k].totalMin, s.durationMin)));
    }
  }

  /** The reason rows together count every stop exactly once. */
  lemma {:induction false} TallyCountsAll(sel: seq<Stop>)
    ensures SumCounts(Tally(sel)) == |sel|
    decreases |sel|
  {
    if |sel| > 0 {
      var init, last := sel[..|sel| - 1], sel[|sel| - 1];
      TallyCountsAll(init);
      SumCountsAfterBump(Tally(init), last);
    }
  }

  /** `ORDER BY -total_min`: larger sums first, rows without a sum last. */
  function ReasonKey(row: ReasonRow): Sorting.Key {
    match row.totalMin
    case Some(t) => Sorting.Key(0, -t)
    case None => Sorting.Key(1, 0)
  }

  /** The per-reason rows ordered by total minutes, descending. */
  function ByReason(sel: seq<Stop>): (rows: seq<ReasonRow>)
    ensures multiset(rows) == multiset(Tally(sel))
    ensures forall i, j :: 0 <= i < j < |rows| && rows[j].totalMin.Some? ==>
      rows[i].totalMin.Some? && rows[i].totalMin.value >= rows[j].totalMin.value
  {
    var rows := Sorting.SortBy(Tally(sel), ReasonKey);
    forall i, j | 0 <= i < j < |rows| && rows[j].totalMin.Some?
      ensures rows[i].totalMin.Some? && rows[i].totalMin.value >= rows[j].totalMin.value
    {
      ReasonKeyOrder(rows[i], rows[j]);
    }
    rows
  }

  /** Rows in key order: a row with a sum comes after only rows with a
      larger or equal sum. */
  lemma ReasonKeyOrder(a: ReasonRow, b: ReasonRow)
    requires Sorting.KeyLe(ReasonKey(a), ReasonKey(b)) && b.totalMin.Some?
    ensures a.totalMin.Some? && a.totalMin.value >= b.totalMin.value
  {
  }

  // ── Weekly trend ─────────────────────────────────────────

  /** The number of stops dated in `lo..hi`, both ends included. */
  function CountBetween(sel: seq<Stop>, lo: int, hi: int): (n: nat)
    ensures n <= |sel|
  {
    if |sel| == 0 then 0
    else CountBetween(sel[..|sel| - 1], lo, hi) + (if lo <= sel[|sel| - 1].day <= hi then 1 else 0)
  }

  /** Adjacent ranges that do not overlap add up. */
  lemma {:induction false} CountBetweenSplit(sel: seq<Stop>, lo: int, mid: int, hi: int)
    requires lo <= mid + 1 && mid <= hi
    ensures CountBetween(sel, lo, mid) + CountBetween(sel, mid + 1, hi) == CountBetween(sel, lo, hi)
    decreases |sel|
  {
    if |sel| > 0 {
      CountBetweenSplit(sel[..|sel| - 1], lo, mid, hi);
    }
  }

  lemma {:induction false} CountBetweenEmpty(sel: seq<Stop>, lo: int, hi: int)
    requires lo > hi
    ensures CountBetween(sel, lo, hi) == 0
    decreases |sel|
  {
    if |sel| > 0 {
      CountBetweenEmpty(sel[..|sel| - 1], lo, hi);
    }
  }

  datatype WeekCount = WeekCount(weekStart: int, count: nat)

  /** `days // 7` for the positive counts that produce weeks. */
  function Weeks(days: int): nat {
    if days <= 0 then 0 else days / 7
  }

  /** The trend as written, oldest week first (the reversed list): week `w`
      back from today spans `today - 7(w+1) .. today - 7w` with both ends
      counted, so consecutive weeks share their boundary day. */
  function TrendAsWritten(sel: seq<Stop>, today: int, n: nat): (r: seq<WeekCount>)
    ensures |r| == n
    ensures forall i :: 0 <= i < n ==>
      r[i].weekStart == today - 7 * (n - i)
      && r[i].count == CountBetween(sel, today - 7 * (n - i), today - 7 * (n - 1 - i))
    decreases n
  {
    if n == 0 then []
    else
      var w := n - 1;
      [WeekCount(today - 7 * (w + 1), CountBetween(sel, today - 7 * (w + 1), today - 7 * w))] + TrendAsWritten(sel, today, w)
  }

  function SumWeeks(r: seq<WeekCount>): nat {
    if |r| == 0 then 0 else r[0].count + SumWeeks(r[1..])
  }

  /** A single stop on the day a week ago is counted in two weeks: the trend
      adds up to two failures while the period has one. */
  lemma BoundaryDayCountedTwice(today: int)
    ensures var sel := [Stop(1, today - 7, Some(30), "mechanical")];
      var r := TrendAsWritten(sel, today, Weeks(14));
      && |r| == 2 && r[0].count == 1 && r[1].count == 1
      && SumWeeks(r) == 2 > |sel|
  {
    var sel := [Stop(1, today - 7, Some(30), "mechanical")];
    var r := TrendAsWritten(sel, today, 2);
    assert sel[..0] == [];
    assert CountBetween(sel, today - 14, today - 7) == 1;
    assert CountBetween(sel, today - 7, today) == 1;
    assert r[1..][1..] == [];
    assert SumWeeks(r[1..][1..]) == 0;
    assert SumWeeks(r[1..]) == 1;
  }

  /** The trend with seven-day weeks that do not overlap: week `w` back from
      today spans `today - 7w - 6 .. today - 7w` and starts on its first
      day. Oldest week first. */
  function Trend(sel: seq<Stop>, today: int, n: nat): (r: seq<WeekCount>)
    ensures |r| == n
    ensures forall i :: 0 <= i < n ==>
      r[i].weekStart == today - 7 * (n - i) + 1
      && r[i].count == CountBetween(sel, today - 7 * (n - i) + 1, today - 7 * (n - 1 - i))
    decreases n
  {
    if n == 0 then []
    else
      var w := n - 1;
      [WeekCount(today - 7 * w - 6, CountBetween(sel, today - 7 * w - 6, today - 7 * w))] + Trend(sel, today, w)
  }

  /** The weeks of the corrected trend count each stop of the last `7n`
      days exactly once, so they never add up to more than the failures. */
  lemma {:induction false} TrendCountsOnce(sel: seq<Stop>, today: int, n: nat)
    ensures SumWeeks(Trend(sel, today, n)) == CountBetween(sel, today - 7 * n + 1, today)
    ensures SumWeeks(Trend(sel, today, n)) <= |sel|
    decreases n
  {
    if n > 0 {
      var r := Trend(sel, today, n);
      assert r[1..] == Trend(sel, today, n - 1);
      assert r[0].count == CountBetween(sel, today - 7 * n + 1, today - 7 * (n - 1));
      assert SumWeeks(r) == r[0].count + SumWeeks(r[1..]);
      TrendCountsOnce(sel, today, n - 1);
      CountBetweenSplit(sel, today - 7 * n + 1, today - 7 * (n - 1), today);
    } else {
      CountBetweenEmpty(sel, today + 1, today);
    }
  }

  /** The weeks as written count every stop at most twice: each closed
      week is a corrected week one day earlier plus its own last day, and
      those last days lie in distinct corrected weeks. */
  lemma {:induction false} TrendAsWrittenAtMostTwice(sel: seq<Stop>, today: int, n: nat)
    ensures SumWeeks(TrendAsWritten(sel, today, n)) <=
      SumWeeks(Trend(sel, today - 1, n)) + SumWeeks(Trend(sel, today, n))
    ensures SumWeeks(TrendAsWritten(sel, today, n)) <= 2 * |sel|
  {
    TrendAsWrittenBelowSum(sel, today, n);
    TrendCountsOnce(sel, today - 1, n);
    TrendCountsOnce(sel, today, n);
  }

  /** Week by week, the as-written count is at most the counts of the two
      half-open readings of that week. */
  lemma {:induction false} TrendAsWrittenBelowSum(sel: seq<Stop>, today: int, n: nat)
    ensures SumWeeks(TrendAsWritten(sel, today, n)) <=
      SumWeeks(Trend(sel, today - 1, n)) + SumWeeks(Trend(sel, today, n))
    decreases n
  {
    if n > 0 {
      var r, e, c := TrendAsWritten(sel, today, n), Trend(sel, today - 1, n), Trend(sel, today, n);
      assert r[1..] == TrendAsWritten(sel, today, n - 1);
      assert e[1..] == Trend(sel, today - 1, n - 1);
      assert c[1..] == Trend(sel, today, n - 1);
      TrendAsWrittenBelowSum(sel, today, n - 1);
      TrendAsWrittenFirstWeek(sel, today, n);
    }
  }

  lemma TrendAsWrittenFirstWeek(sel: seq<Stop>, today: int, n: nat)
    requires n > 0
    ensures TrendAsWritten(sel, today, n)[0].count <= Trend(sel, today - 1, n)[0].count + Trend(sel, today, n)[0].count
  {
    var lo, last := today - 7 * n, today - 7 * (n - 1);
    assert TrendAsWritten(sel, today, n)[0].count == CountBetween(sel, lo, last);
    assert Trend(sel, today - 1, n)[0].count == CountBetween(sel, lo, last - 1);
    assert Trend(sel, today, n)[0].count == CountBetween(sel, lo + 1, last);
    CountBetweenSplit(sel, lo, last - 1, last);
    CountBetweenSplit(sel, lo + 1, last - 1, last);
  }

  // ── MTBF, MTTR, risk ─────────────────────────────────────

  function AtLeastOne(n: nat): nat {
    if n >= 1 then n else 1
  }

  /** Hours of the period per failure, to one decimal. */
  function Mtbf(days: int, failures: nat): (h: real)
    ensures WithinHalfStep(h, (days * 24) as real / AtLeastOne(failures) as real, 1)
    ensures failures <= 1 ==> h == (days * 24) as real
  {
    RoundToInt(days * 24, 1);
    assert failures <= 1 ==> (days * 24) as real / AtLeastOne(failures) as real == (days * 24) as real;
    RoundTo((days * 24) as real / AtLeastOne(failures) as real, 1)
  }

  /** Repair minutes per failure, to one decimal. */
  function Mttr(repairMin: int, failures: nat): (m: real)
    ensures WithinHalfStep(m, repairMin as real / AtLeastOne(failures) as real, 1)
    ensures failures <= 1 ==> m == repairMin as real
  {
    RoundToInt(repairMin, 1);
    assert failures <= 1 ==> repairMin as real / AtLeastOne(failures) as real == repairMin as real;
    RoundTo(repairMin as real / AtLeastOne(failures) as real, 1)
  }

  datatype RiskLevel = Critical | High | Medium | Low

  function RiskName(r: RiskLevel): string {
    match r
    case Critical => "critical"
    case High => "high"
    case Medium => "medium"
    case Low => "low"
  }

  /** The ladder on the (rounded) MTBF: below 48 hours critical, below 120
      high, below 240 medium, otherwise low. */
  function RiskOf(mtbf: real): (r: RiskLevel)
    ensures r == Critical <==> mtbf < 48.0
    ensures r == High <==> 48.0 <= mtbf < 120.0
    ensures r == Medium <==> 120.0 <= mtbf < 240.0
    ensures r == Low <==> mtbf >= 240.0
  {
    if mtbf < 48.0 then Critical
    else if mtbf < 120.0 then High
    else if mtbf < 240.0 then Medium
    else Low
  }

  /** Position of a level in the ranking, most urgent first. */
  function Urgency(r: RiskLevel): nat {
    match r
    case Critical => 0
    case High => 1
    case Medium => 2
    case Low => 3
  }

  /** A longer MTBF never makes the risk more urgent. */
  lemma RiskMonotone(m1: real, m2: real)
    requires m1 <= m2
    ensures Urgency(RiskOf(m1)) <= Urgency(RiskOf(m2))
  {
  }

  /** The ladder reads the rounded MTBF: 961 days with 481 failures give
      47.95… hours between failures, which rounds to 48.0 and so ranks high
      rather than critical. */
  lemma RiskUsesRoundedMtbf()
    ensures (961 * 24) as real / 481 as real < 48.0
    ensures Mtbf(961, 481) == 48.0
    ensures RiskOf(Mtbf(961, 481)) == High
  {
    var x := (961 * 24) as real / 481 as real;
    assert x * 10.0 == 230640.0 / 481.0;
    RoundToNear(x, 1, 480);
  }

  // ── The pattern ──────────────────────────────────────────

  datatype Pattern = Pattern(
    machine: int,
    periodDays: int,
    totalFailures: nat,
    mtbfHours: real,
    mttrMinutes: real,
    risk: RiskLevel,
    byReason: seq<ReasonRow>,
    weeklyTrend: seq<WeekCount>)

  /** The summary over the stops dated on or after `today - days`, with
      the weekly trend in the closed weeks the source counts. */
  function Summarize(stops: seq<Stop>, machine: int, today: int, days: int): (p: Pattern)
    ensures p.totalFailures == |PatternStops(stops, machine, today - days)|
    ensures p.risk == RiskOf(p.mtbfHours)
    ensures |p.weeklyTrend| == Weeks(days)
    ensures forall i :: 0 <= i < |p.weeklyTrend| ==> p.weeklyTrend[i].weekStart == today - 7 * (Weeks(days) - i)
    ensures p.totalFailures == 0 ==> p.mttrMinutes == 0.0 && p.mtbfHours == (days * 24) as real
    ensures multiset(p.byReason) == multiset(Tally(PatternStops(stops, machine, today - days)))
    ensures SumWeeks(p.weeklyTrend) <= 2 * p.totalFailures
    ensures p.mtbfHours == Mtbf(days, p.totalFailures)
    ensures p.mttrMinutes == Mttr(OrElseInt(SqlSum(StopDurations(PatternStops(stops, machine, today - days))), 0), p.totalFailures)
    ensures p.weeklyTrend == TrendAsWritten(PatternStops(stops, machine, today - days), today, Weeks(days))
  {
    var sel := PatternStops(stops, machine, today - days);
    var failures := |sel|;
    var repair := OrElseInt(SqlSum(StopDurations(sel)), 0);
    var mtbf := Mtbf(days, failures);
    assert failures == 0 ==> SqlSum(StopDurations(sel)) == None;
    var trend := TrendAsWritten(sel, today, Weeks(days));
    TrendAsWrittenAtMostTwice(sel, today, Weeks(days));
    assert SumWeeks(trend) <= 2 * failures;
    var byReason := ByReason(sel);
    assert multiset(byReason) == multiset(Tally(sel));
    Pattern(machine, days, failures, mtbf, Mttr(repair, failures), RiskOf(mtbf), byReason, trend)
  }

  function StopDurations(sel: seq<Stop>): (r: seq<Option<int>>)
    ensures |r| == |sel|
  {
    seq(|sel|, i requires 0 <= i < |sel| => sel[i].durationMin)
  }
}

=== FILE: fleet.dfy ===
/** The fleet-health endpoint: every active machine (optionally of one
    production line) with today's OEE and its 30-day downtime risk, most
    urgent first. */
module Fleet {
  import opened Wrappers
  import opened Records
  import Core
  import Oee
  import DowntimePattern
  import Sorting

  datatype Machine = Machine(id: int, code: string, status: Core.MachineStatus, line: Option<int>)

  datatype FleetRow = FleetRow(
    machine: int,
    code: string,
    oeeToday: real,
    availability: real,
    risk: string,
    mtbfHours: real,
    failures30d: nat)

  /** Active, and on the requested line when one is given. */
  predicate Listed(m: Machine, line: Option<int>) {
    m.status == Core.MachineActive && (line.None? || m.line == line)
  }

  /** The window the endpoint asks the downtime pattern for. */
  const RiskWindowDays: int := 30

  function RowOf(m: Machine, stops: seq<Stop>, batches: seq<SpinningBatch>, today: int): (r: FleetRow)
    ensures r.machine == m.id && r.code == m.code
  {
    var o := Oee.Calculate(stops, batches, m.id, today);
    var p := DowntimePattern.Summarize(stops, m.id, today, RiskWindowDays);
    FleetRow(m.id, m.code, o.oee, o.availability, DowntimePattern.RiskName(p.risk), p.mtbfHours, p.totalFailures)
  }

  /** The row is the one of some listed machine. */
  predicate FromListed(row: FleetRow, machines: seq<Machine>, line: Option<int>, stops: seq<Stop>, batches: seq<SpinningBatch>, today: int) {
    exists m :: m in machines && Listed(m, line) && row == RowOf(m, stops, batches, today)
  }

  /** The rows of the listed machines, in the machines' order. */
  function Rows(machines: seq<Machine>, line: Option<int>, stops: seq<Stop>, batches: seq<SpinningBatch>, today: int): (r: seq<FleetRow>)
    ensures |r| <= |machines|
    ensures forall x :: x in r ==> FromListed(x, machines, line, stops, batches, today)
    ensures forall m :: m in machines && Listed(m, line) ==> RowOf(m, stops, batches, today) in r
  {
    var r := Keep(machines, (m: Machine) => Listed(m, line), (m: Machine) => RowOf(m, stops, batches, today));
    forall x | x in r
      ensures FromListed(x, machines, line, stops, batches, today)
    {
      var m :| m in machines && Listed(m, line) && x == RowOf(m, stops, batches, today);
    }
    r
  }

  /** `risk_order.get(level, 4)`: the four levels in order of urgency, any
      other text after them. */
  function RiskRank(risk: string): (k: nat)
    ensures k <= 4
    ensures k == 4 <==> risk !in {"critical", "high", "medium", "low"}
  {
    match risk
    case "critical" => 0
    case "high" => 1
    case "medium" => 2
    case "low" => 3
    case _ => 4
  }

  /** The rank of every level the pattern produces is its urgency. */
  lemma RankOfLevels(l: DowntimePattern.RiskLevel)
    ensures RiskRank(DowntimePattern.RiskName(l)) == DowntimePattern.Urgency(l) < 4
  {
  }

  function RiskKey(r: FleetRow): Sorting.Key {
    Sorting.Key(RiskRank(r.risk), 0)
  }

  datatype Report = Report(machines: seq<FleetRow>, total: nat)

  /** The rows sorted by risk rank alone (a stable sort), with their count. */
  function Health(machines: seq<Machine>, line: Option<int>, stops: seq<Stop>, batches: seq<SpinningBatch>, today: int): (rep: Report)
    ensures rep.total == |rep.machines|
    ensures multiset(rep.machines) == multiset(Rows(machines, line, stops, batches, today))
    ensures forall i, j :: 0 <= i < j < |rep.machines| ==> RiskRank(rep.machines[i].risk) <= RiskRank(rep.machines[j].risk)
  {
    var sorted := Sorting.SortBy(Rows(machines, line, stops, batches, today), RiskKey);
    assert forall i, j :: 0 <= i < j < |sorted| ==> Sorting.KeyLe(RiskKey(sorted[i]), RiskKey(sorted[j]));
    Report(sorted, |sorted|)
  }

  /** Only listed machines appear, and every listed machine does. */
  lemma HealthCoversListed(machines: seq<Machine>, line: Option<int>, stops: seq<Stop>, batches: seq<SpinningBatch>, today: int)
    ensures var rep := Health(machines, line, stops, batches, today);
      && (forall r :: r in rep.machines ==> FromListed(r, machines, line, stops, batches, today))
      && (forall m :: m in machines && Listed(m, line) ==> RowOf(m, stops, batches, today) in rep.machines)
  {
    var rows := Rows(machines, line, stops, batches, today);
    var rep := Health(machines, line, stops, batches, today);
    SameElements(rows, rep.machines);
  }

  /** Sequences with the same multiset have the same elements. */
  lemma SameElements<T>(a: seq<T>, b: seq<T>)
    requires multiset(a) == multiset(b)
    ensures forall x :: x in a <==> x in b
  {
    forall x
      ensures x in a <==> x in b
    {
      assert x in a <==> x in multiset(a);
      assert x in b <==> x in multiset(b);
    }
  }

  /** Machines of equal risk keep the order they were listed in: the
      ranking has no other key. */
  lemma HealthStable(machines: seq<Machine>, line: Option<int>, stops: seq<Stop>, batches: seq<SpinningBatch>, today: int, rank: nat)
    ensures Sorting.Bucket(Health(machines, line, stops, batches, today).machines, RiskKey, Sorting.Key(rank, 0))
         == Sorting.Bucket(Rows(machines, line, stops, batches, today), RiskKey, Sorting.Key(rank, 0))
  {
    Sorting.SortByStable(Rows(machines, line, stops, batches, today), RiskKey, Sorting.Key(rank, 0));
  }
}

=== FILE: forms.dfy ===
/** The form-field parsers every data-entry view uses: a posted value that is
    missing, blank or unparseable yields the caller's default instead of an
    error. */
module Forms {
  import opened Wrappers
  import opened Text
  import Numeric

  /** An optional sign followed by one or more digits, the integer syntax
      `int()` accepts once surrounding whitespace is removed. */
  function ParseInt(s: string): (r: Option<int>)
    ensures r.Some? ==> |s| >= 1
    ensures AllDigits(s) && |s| >= 1 ==> r == Some(DigitsValue(s))
    ensures r.Some? && r.value < 0 ==> s[0] == '-'
  {
    if |s| >= 2 && s[0] == '-' && AllDigits(s[1..]) then Some(-(DigitsValue(s[1..]) as int))
    else if |s| >= 2 && s[0] == '+' && AllDigits(s[1..]) then Some(DigitsValue(s[1..]))
    else if |s| >= 1 && AllDigits(s) then Some(DigitsValue(s))
    else None
  }

  /** Unsigned decimal syntax: digits, optionally a point and more digits,
      with at least one digit overall. */
  function ParseUnsignedDecimal(s: string): (r: Option<real>)
    ensures r.Some? ==> r.value >= 0.0
    ensures AllDigits(s) && |s| >= 1 ==> r == Some(DigitsValue(s) as real)
  {
    if AllDigits(s) then
      if |s| >= 1 then Some(DigitsValue(s) as real) else None
    else
      var i := PointIndex(s);
      if i < |s| && AllDigits(s[..i]) && AllDigits(s[i + 1..]) && |s| >= 2 then
        Some(DigitsValue(s[..i]) as real + DigitsValue(s[i + 1..]) as real / Numeric.Pow10(|s| - i - 1) as real)
      else None
  }

  /** Position of the first '.', or |s| when there is none. */
  function PointIndex(s: string): (i: nat)
    ensures i <= |s|
    ensures i < |s| ==> s[i] == '.'
    ensures forall j :: 0 <= j < i ==> s[j] != '.'
  {
    if |s| == 0 then 0
    else if s[0] == '.' then 0
    else 1 + PointIndex(s[1..])
  }

  /** An optional sign followed by unsigned decimal syntax. */
  function ParseDecimal(s: string): (r: Option<real>)
    ensures AllDigits(s) && |s| >= 1 ==> r == Some(DigitsValue(s) as real)
  {
    if |s| >= 1 && s[0] == '-' then
      match ParseUnsignedDecimal(s[1..])
      case Some(v) => Some(-v)
      case None => None
    else if |s| >= 1 && s[0] == '+' then ParseUnsignedDecimal(s[1..])
    else ParseUnsignedDecimal(s)
  }

  /** A missing or blank posted value, or one that does not parse, gives the
      default; otherwise the parsed integer. */
  function SafeInt(posted: Option<string>, default: Option<int>): (r: Option<int>)
    ensures posted.None? ==> r == default
    ensures posted.Some? && Strip(posted.value) == "" ==> r == default
    ensures posted.Some? && ParseInt(Strip(posted.value)).None? ==> r == default
    ensures posted.Some? && ParseInt(Strip(posted.value)).Some? ==> r == ParseInt(Strip(posted.value))
  {
    if posted.None? || Strip(posted.value) == "" then default
    else match ParseInt(Strip(posted.value))
      case Some(v) => Some(v)
      case None => default
  }

  /** The decimal counterpart of `SafeInt`. */
  function SafeDecimal(posted: Option<string>, default: Option<real>): (r: Option<real>)
    ensures posted.None? ==> r == default
    ensures posted.Some? && Strip(posted.value) == "" ==> r == default
    ensures posted.Some? && ParseDecimal(Strip(posted.value)).None? ==> r == default
    ensures posted.Some? && ParseDecimal(Strip(posted.value)).Some? ==> r == ParseDecimal(Strip(posted.value))
  {
    if posted.None? || Strip(posted.value) == "" then default
    else match ParseDecimal(Strip(posted.value))
      case Some(v) => Some(v)
      case None => default
  }

  /** The row a posted foreign key names, read as the key column reads it
      (`int()` of the text), when it is one of the existing `ids`; `None`
      for a missing key, text that is not an integer, or an unknown id, each
      of which makes the save fail. */
  function KnownKey(posted: Option<string>, ids: set<int>): (r: Option<int>)
    ensures r.Some? <==> posted.Some? && ParseInt(Strip(posted.value)).Some?
                         && ParseInt(Strip(posted.value)).value in ids
    ensures r.Some? ==> r == ParseInt(Strip(posted.value)) && r.value in ids
  {
    if posted.Some? && ParseInt(Strip(posted.value)).Some?
       && ParseInt(Strip(posted.value)).value in ids
    then ParseInt(Strip(posted.value))
    else None
  }

  /** A rendered natural number is read back by both parsers. */
  lemma {:induction false} SafeParsersRoundTrip(n: nat, d: Option<int>, e: Option<real>)
    ensures SafeInt(Some(NatToString(n)), d) == Some(n)
    ensures SafeDecimal(Some(NatToString(n)), e) == Some(n as real)
  {
    var s := NatToString(n);
    ParseNatToString(n);
    StripDigits(s);
  }

  /** Stripping does not change a digit string. */
  lemma {:induction false} StripDigits(s: string)
    requires |s| >= 1 && AllDigits(s)
    ensures Strip(s) == s
  {
    assert !IsSpace(s[0]);
    assert StripLeft(s) == s;
    assert !IsSpace(s[|s| - 1]);
  }

  /** Decimal text with a fractional part: "12.5" reads as 12.5. */
  lemma DecimalExample()
    ensures ParseDecimal("12.5") == Some(12.5)
  {
    assert PointIndex("12.5") == 2;
    assert "12.5"[..2] == "12" && "12.5"[3..] == "5";
    assert DigitsValue("12") == 12 by {
      assert "12"[..1] == "1";
    }
    assert DigitsValue("5") == 5 by {
      assert "5"[..0] == "";
    }
  }

  /** A sign in front of the digits: "-0.25" reads as -0.25. */
  lemma SignedDecimalExample()
    ensures ParseDecimal("-0.25") == Some(-0.25)
  {
    assert "-0.25"[1..] == "0.25";
    assert PointIndex("0.25") == 1;
    assert "0.25"[..1] == "0" && "0.25"[2..] == "25";
    assert DigitsValue("0") == 0 by {
      assert "0"[..0] == "";
    }
    assert DigitsValue("25") == 25 by {
      assert "25"[..1] == "2";
      assert "2"[..0] == "";
    }
  }

  /** Trailing letters and a lone point are not decimals. */
  lemma RejectedDecimals()
    ensures ParseDecimal("12a").None? && ParseDecimal(".").None?
  {
    assert !AllDigits("12a") by {
      assert !IsDigit("12a"[2]);
    }
    assert PointIndex("12a") == 3 by {
      assert "12a"[1..] == "2a";
      assert "2a"[1..] == "a";
      assert "a"[1..] == "";
    }
    assert !AllDigits(".") by {
      assert !IsDigit("."[0]);
    }
  }

}

=== FILE: heatset.dfy ===
/** Heat-set batches: status and quality vocabularies, the cycle duration
    computed on save, the status change with its one-time stamps, and the
    form defaults of create and edit. */
module Heatset {
  import opened Wrappers
  import opened Numeric
  import opened Text
  import opened Forms
  import opened BatchIds

  datatype BatchStatus = Loading | Processing | Cooling | Completed | Failed

  const DefaultBatchStatus := Loading

  function BatchStatusName(s: BatchStatus): string {
    match s
    case Loading => "loading"
    case Processing => "processing"
    case Cooling => "cooling"
    case Completed => "completed"
    case Failed => "failed"
  }

  /** A posted status, accepted only when it names one of the five. */
  function ParseBatchStatus(s: Option<string>): (r: Option<BatchStatus>)
    ensures r.Some? <==> s.Some? && s.value in {"loading", "processing", "cooling", "completed", "failed"}
    ensures r.Some? ==> BatchStatusName(r.value) == s.value
  {
    if s == Some("loading") then Some(Loading)
    else if s == Some("processing") then Some(Processing)
    else if s == Some("cooling") then Some(Cooling)
    else if s == Some("completed") then Some(Completed)
    else if s == Some("failed") then Some(Failed)
    else None
  }

  lemma BatchStatusRoundTrip(s: BatchStatus)
    ensures ParseBatchStatus(Some(BatchStatusName(s))) == Some(s)
  {
  }

  /** The quality result field is optional; when set it is one of three words. */
  datatype QualityResult = Pass | Fail | Conditional

  function QualityResultName(q: QualityResult): string {
    match q
    case Pass => "pass"
    case Fail => "fail"
    case Conditional => "conditional"
  }

  /** A batch has passed exactly when its stored result is `pass`. */
  predicate IsPassed(quality: Option<string>) {
    quality == Some(QualityResultName(Pass))
  }

  lemma IsPassedOnlyPass(q: QualityResult)
    ensures IsPassed(Some(QualityResultName(q))) <==> q == Pass
  {
  }

  /** Minutes of the five cycle phases, each optional: pre-heat, vacuum,
      steam, dwell and cooldown. */
  datatype Phases = Phases(preHeat: Option<int>, vacuum: Option<int>, steam: Option<int>,
                           dwell: Option<int>, cooldown: Option<int>)

  function PhaseList(p: Phases): seq<Option<int>> {
    [p.preHeat, p.vacuum, p.steam, p.dwell, p.cooldown]
  }

  /** Sum of the phase minutes that are set and non-zero. */
  function PhaseSum(s: seq<Option<int>>): int
    decreases |s|
  {
    if |s| == 0 then 0 else (if TruthyInt(s[0]) then s[0].value else 0) + PhaseSum(s[1..])
  }

  /** Zero-valued phases are the same as missing ones. */
  function DropZeros(s: seq<Option<int>>): (r: seq<Option<int>>)
    ensures |r| == |s|
    ensures forall i :: 0 <= i < |s| ==> r[i] == (if TruthyInt(s[i]) then s[i] else None)
    decreases |s|
  {
    if |s| == 0 then [] else [if TruthyInt(s[0]) then s[0] else None] + DropZeros(s[1..])
  }

  lemma {:induction false} PhaseSumDropZeros(s: seq<Option<int>>)
    ensures PhaseSum(DropZeros(s)) == PhaseSum(s)
    decreases |s|
  {
    if |s| > 0 {
      PhaseSumDropZeros(s[1..]);
      assert DropZeros(s)[1..] == DropZeros(s[1..]);
    }
  }

  lemma {:induction false} PhaseSumNonNegative(s: seq<Option<int>>)
    requires forall j :: 0 <= j < |s| && s[j].Some? ==> s[j].value >= 0
    ensures PhaseSum(s) >= 0
    decreases |s|
  {
    if |s| > 0 {
      PhaseSumNonNegative(s[1..]);
    }
  }

  /** With no negative phase, the sum is at least every recorded phase. */
  lemma {:induction false} PhaseSumCovers(s: seq<Option<int>>, i: nat)
    requires forall j :: 0 <= j < |s| && s[j].Some? ==> s[j].value >= 0
    requires i < |s| && s[i].Some?
    ensures PhaseSum(s) >= s[i].value
    decreases |s|
  {
    if i > 0 {
      PhaseSumCovers(s[1..], i - 1);
      assert s[1..][i - 1] == s[i];
      PhaseSumNonNegative([s[0]]);
    } else {
      PhaseSumNonNegative(s[1..]);
    }
  }

  /** The duration stored on save: the phase sum when it is positive,
      otherwise the previous duration. */
  function DurationOnSave(p: Phases, previous: Option<int>): (d: Option<int>)
    ensures PhaseSum(PhaseList(p)) > 0 ==> d == Some(PhaseSum(PhaseList(p)))
    ensures PhaseSum(PhaseList(p)) <= 0 ==> d == previous
  {
    var total := PhaseSum(PhaseList(p));
    if total > 0 then Some(total) else previous
  }

  /** With non-negative phases, a recorded positive phase makes the stored
      duration the sum, and the sum is at least that phase. */
  lemma DurationCoversPhase(p: Phases, previous: Option<int>, i: nat)
    requires forall j :: 0 <= j < 5 && PhaseList(p)[j].Some? ==> PhaseList(p)[j].value >= 0
    requires i < 5 && PhaseList(p)[i].Some? && PhaseList(p)[i].value > 0
    ensures DurationOnSave(p, previous).Some?
    ensures DurationOnSave(p, previous).value >= PhaseList(p)[i].value
  {
    PhaseSumCovers(PhaseList(p), i);
  }

  /** A batch with no phase minutes keeps whatever duration it had. */
  lemma DurationKeptWithoutPhases(previous: Option<int>)
    ensures DurationOnSave(Phases(None, Some(0), None, Some(0), None), previous) == previous
  {
  }

  /** The fields a status change reads and writes. */
  datatype Batch = Batch(
    status: BatchStatus,
    startedAt: Option<int>,
    completedAt: Option<int>,
    qualityResult: Option<string>,
    shrinkagePct: Option<real>,
    twistStability: Option<string>)

  datatype StatusError = InvalidStatus

  /** Truthiness of a posted text value. */
  predicate Posted(v: Option<string>) {
    v.Some? && v.value != ""
  }

  /** The status change: an unknown status is rejected with no change; the
      start and completion times are set on the first move to processing and
      to completed; quality result, shrinkage and twist stability change
      only when posted non-empty. */
  function ChangeStatus(b: Batch, posted: Option<string>, quality: Option<string>,
                        shrinkage: Option<string>, twist: Option<string>, now: int): (r: Result<Batch, StatusError>)
    ensures r.Err? <==> ParseBatchStatus(posted).None?
    ensures r.Ok? ==> r.value.status == ParseBatchStatus(posted).value
    ensures r.Ok? && b.startedAt.Some? ==> r.value.startedAt == b.startedAt
    ensures r.Ok? && b.startedAt.None? ==> (r.value.startedAt == Some(now) <==> r.value.status == Processing)
    ensures r.Ok? && b.startedAt.None? && r.value.status != Processing ==> r.value.startedAt.None?
    ensures r.Ok? && b.completedAt.Some? ==> r.value.completedAt == b.completedAt
    ensures r.Ok? && b.completedAt.None? ==> (r.value.completedAt == Some(now) <==> r.value.status == Completed)
    ensures r.Ok? && b.completedAt.None? && r.value.status != Completed ==> r.value.completedAt.None?
    ensures r.Ok? ==> r.value.qualityResult == (if Posted(quality) then quality else b.qualityResult)
    ensures r.Ok? ==> r.value.shrinkagePct == (if Posted(shrinkage) then SafeDecimal(shrinkage, None) else b.shrinkagePct)
    ensures r.Ok? ==> r.value.twistStability == (if Posted(twist) then twist else b.twistStability)
  {
    match ParseBatchStatus(posted)
    case None => Err(InvalidStatus)
    case Some(s) =>
      Ok(Batch(
        s,
        if s == Processing && b.startedAt.None? then Some(now) else b.startedAt,
        if s == Completed && b.completedAt.None? then Some(now) else b.completedAt,
        if Posted(quality) then quality else b.qualityResult,
        if Posted(shrinkage) then SafeDecimal(shrinkage, None) else b.shrinkagePct,
        if Posted(twist) then twist else b.twistStability))
  }

  /** A posted shrinkage of blanks passes the truthiness test, parses to
      nothing and so clears a stored shrinkage. */
  lemma BlankShrinkageClears(b: Batch, now: int)
    requires b.shrinkagePct.Some?
    ensures ChangeStatus(b, Some("cooling"), None, Some(" "), None, now).value.shrinkagePct.None?
  {
    assert Strip(" ") == "";
  }

  /** Once the start and completion times are set, no later sequence of
      status changes moves them. */
  function ApplyAll(b: Batch, moves: seq<(Option<string>, int)>): Batch
    decreases |moves|
  {
    if |moves| == 0 then b
    else
      var next := match ChangeStatus(b, moves[0].0, None, None, None, moves[0].1)
                  case Ok(b') => b'
                  case Err(_) => b;
      ApplyAll(next, moves[1..])
  }

  lemma {:induction false} StampsStable(b: Batch, moves: seq<(Option<string>, int)>)
    ensures b.startedAt.Some? ==> ApplyAll(b, moves).startedAt == b.startedAt
    ensures b.completedAt.Some? ==> ApplyAll(b, moves).completedAt == b.completedAt
    decreases |moves|
  {
    if |moves| > 0 {
      var next := match ChangeStatus(b, moves[0].0, None, None, None, moves[0].1)
                  case Ok(b') => b'
                  case Err(_) => b;
      StampsStable(next, moves[1..]);
    }
  }

  const DefaultTemperature: real := 120.0
  const BatchPrefix := "HS"

  /** The stored fields of a new batch that have defaults. */
  datatype Created = Created(batchNumber: string, temperature: real, weight: real)

  /** Create: a blank batch number gets the next heat-set identifier, and a
      missing, unparseable or zero temperature and weight become 120 and 0. */
  function Create(batchNumber: string, temperature: Option<string>, weight: Option<string>,
                  bucket: string, existing: seq<string>): (c: Created)
    ensures Strip(batchNumber) != "" ==> c.batchNumber == Strip(batchNumber)
    ensures Strip(batchNumber) == "" ==>
      StartsWith(c.batchNumber, Pattern(BatchPrefix, bucket)) && c.batchNumber !in existing
    ensures c.temperature != 0.0 && c.temperature == OrElse(SafeDecimal(temperature, None), DefaultTemperature)
    ensures !Truthy(SafeDecimal(weight, None)) ==> c.weight == 0.0
    ensures Truthy(SafeDecimal(weight, None)) ==> c.weight == SafeDecimal(weight, None).value
  {
    Created(
      if Strip(batchNumber) != "" then Strip(batchNumber) else NextIdentifierNumeric(BatchPrefix, bucket, existing),
      OrElse(SafeDecimal(temperature, None), DefaultTemperature),
      OrElse(SafeDecimal(weight, None), 0.0))
  }

  /** The heat-set row as the edit form leaves it: the fields with defaults,
      the process measurements, the phase minutes with the duration the save
      computes from them, and the quality results. */
  datatype Row = Row(
    head: Created,
    steamPressure: Option<real>, vacuumLevel: Option<real>, humidity: Option<real>,
    phases: Phases, durationMin: Option<int>, packages: Option<int>,
    qualityResult: Option<string>, shrinkagePct: Option<real>, twistStability: Option<string>,
    notes: string)

  /** The required keys and the numeric and result fields of the edit form
      as posted; `None` is a missing key. */
  datatype EditForm = EditForm(
    machine: Option<string>, shift: Option<string>,
    temperature: Option<string>, weight: Option<string>,
    steamPressure: Option<string>, vacuumLevel: Option<string>, humidity: Option<string>,
    preHeat: Option<string>, vacuumTime: Option<string>, steamTime: Option<string>,
    dwellTime: Option<string>, cooldown: Option<string>, packages: Option<string>,
    qualityResult: Option<string>, shrinkage: Option<string>, twistStability: Option<string>,
    notes: Option<string>)

  /** The form with every field left empty. */
  const BlankForm := EditForm(Some(""), Some(""), Some(""), Some(""), Some(""), Some(""), Some(""), Some(""), Some(""),
                              Some(""), Some(""), Some(""), Some(""), Some(""), Some(""), Some(""), Some(""))

  /** The phase minutes as posted, each read on its own. */
  function PostedPhases(f: EditForm): (p: Phases)
    ensures p.preHeat == SafeInt(f.preHeat, None) && p.vacuum == SafeInt(f.vacuumTime, None)
    ensures p.steam == SafeInt(f.steamTime, None) && p.dwell == SafeInt(f.dwellTime, None)
    ensures p.cooldown == SafeInt(f.cooldown, None)
  {
    Phases(SafeInt(f.preHeat, None), SafeInt(f.vacuumTime, None), SafeInt(f.steamTime, None),
           SafeInt(f.dwellTime, None), SafeInt(f.cooldown, None))
  }

  /** Edit: a blank, unparseable or zero temperature or weight keeps the
      stored value; every other numeric and result field is overwritten
      from the form, a blank or unparseable one becoming empty; the save
      then recomputes the duration from the new phase minutes. */
  function Edit(stored: Row, f: EditForm): (r: Row)
    ensures r.head.batchNumber == stored.head.batchNumber
    ensures !Truthy(SafeDecimal(f.temperature, None)) ==> r.head.temperature == stored.head.temperature
    ensures !Truthy(SafeDecimal(f.weight, None)) ==> r.head.weight == stored.head.weight
    ensures Truthy(SafeDecimal(f.temperature, None)) ==> r.head.temperature == SafeDecimal(f.temperature, None).value
    ensures Truthy(SafeDecimal(f.weight, None)) ==> r.head.weight == SafeDecimal(f.weight, None).value
    ensures r.steamPressure == SafeDecimal(f.steamPressure, None) && r.vacuumLevel == SafeDecimal(f.vacuumLevel, None)
    ensures r.humidity == SafeDecimal(f.humidity, None) && r.shrinkagePct == SafeDecimal(f.shrinkage, None)
    ensures r.packages == SafeInt(f.packages, None)
    ensures r.qualityResult.Some? <==> Posted(f.qualityResult)
    ensures r.qualityResult.Some? ==> r.qualityResult == f.qualityResult
    ensures r.twistStability.Some? <==> Posted(f.twistStability)
    ensures r.twistStability.Some? ==> r.twistStability == f.twistStability
    ensures r.phases == PostedPhases(f)
    ensures r.durationMin == DurationOnSave(r.phases, stored.durationMin)
    ensures PhaseSum(PhaseList(r.phases)) <= 0 ==> r.durationMin == stored.durationMin
  {
    var phases := PostedPhases(f);
    Row(Created(stored.head.batchNumber,
                OrElse(SafeDecimal(f.temperature, None), stored.head.temperature),
                OrElse(SafeDecimal(f.weight, None), stored.head.weight)),
        SafeDecimal(f.steamPressure, None), SafeDecimal(f.vacuumLevel, None), SafeDecimal(f.humidity, None),
        phases, DurationOnSave(phases, stored.durationMin), SafeInt(f.packages, None),
        if Posted(f.qualityResult) then f.qualityResult else None, SafeDecimal(f.shrinkage, None),
        if Posted(f.twistStability) then f.twistStability else None,
        Strip(f.notes.GetOr("")))
  }

  /** Editing with every field left blank keeps the batch number, the
      temperature, the weight and the duration, and clears every other
      measurement and result. */
  lemma EditBlankKeeps(stored: Row)
    ensures Edit(stored, BlankForm).head == stored.head
    ensures Edit(stored, BlankForm).durationMin == stored.durationMin
    ensures Edit(stored, BlankForm).steamPressure.None? && Edit(stored, BlankForm).vacuumLevel.None?
    ensures Edit(stored, BlankForm).humidity.None? && Edit(stored, BlankForm).shrinkagePct.None?
    ensures Edit(stored, BlankForm).phases == Phases(None, None, None, None, None)
    ensures Edit(stored, BlankForm).packages.None?
    ensures Edit(stored, BlankForm).qualityResult.None? && Edit(stored, BlankForm).twistStability.None?
  {
  }

  /** The edit never reads the stored measurements: two rows with the same
      defaults-bearing fields and duration come out of the same form
      identical. */
  lemma EditIgnoresStoredMeasures(a: Row, b: Row, f: EditForm)
    requires a.head == b.head && a.durationMin == b.durationMin
    ensures Edit(a, f) == Edit(b, f)
  {
  }

  /** Posting the same form twice gives the row the first post gave. */
  lemma EditIdempotent(stored: Row, f: EditForm)
    ensures Edit(Edit(stored, f), f) == Edit(stored, f)
  {
  }

  /** The longest quality result and twist stability the columns hold. */
  const ResultColumnMax: nat := 15

  /** An optional whole number the unsigned column bounded by `max` holds. */
  predicate FitsUnsigned(x: Option<int>, max: int) {
    x.None? || 0 <= x.value <= max
  }

  /** A row the database accepts: every phase and the duration within the
      unsigned small integer, the package count within the unsigned
      integer, and both result words within their length. */
  predicate Storable(r: Row) {
    && FitsUnsigned(r.phases.preHeat, UnsignedSmallMax) && FitsUnsigned(r.phases.vacuum, UnsignedSmallMax)
    && FitsUnsigned(r.phases.steam, UnsignedSmallMax) && FitsUnsigned(r.phases.dwell, UnsignedSmallMax)
    && FitsUnsigned(r.phases.cooldown, UnsignedSmallMax) && FitsUnsigned(r.durationMin, UnsignedSmallMax)
    && FitsUnsigned(r.packages, UnsignedIntMax)
    && (r.qualityResult.None? || |r.qualityResult.value| <= ResultColumnMax)
    && (r.twistStability.None? || |r.twistStability.value| <= ResultColumnMax)
  }

  datatype EditError = MissingField | NotStored

  /** The edit view: a missing machine or shift key, or a row the save
      refuses, leaves the stored batch as it was; otherwise the edited row
      is stored. */
  function EditView(stored: Row, f: EditForm): (r: Result<Row, EditError>)
    ensures r.Ok? <==> f.machine.Some? && f.shift.Some? && Storable(Edit(stored, f))
    ensures r.Ok? ==> r.value == Edit(stored, f)
    ensures f.machine.None? || f.shift.None? ==> r == Err(MissingField)
  {
    if f.machine.None? || f.shift.None? then Err(MissingField)
    else
      var e := Edit(stored, f);
      if Storable(e) then Ok(e) else Err(NotStored)
  }

  /** Phase minutes whose sum does not fit the duration column make the
      save refuse the edit, though every phase fits on its own. */
  lemma EditViewLongCycle(stored: Row, f: EditForm)
    requires f.machine.Some? && f.shift.Some?
    requires f.preHeat == Some("40000") && f.vacuumTime == Some("40000")
    ensures EditView(stored, f) == Err(NotStored)
  {
    ReadsFortyThousand();
    var e := Edit(stored, f);
    LongCycleUnstorable(e.phases, stored.durationMin);
  }

  /** The posted text "40000" reads as that number. */
  lemma ReadsFortyThousand()
    ensures SafeInt(Some("40000"), None) == Some(40000)
  {
    var s := "40000";
    assert AllDigits(s);
    StripDigits(s);
    assert s[..4] == "4000" && "4000"[..3] == "400" && "400"[..2] == "40" && "40"[..1] == "4";
    assert "4"[..0] == "";
    assert DigitsValue(s) == 40000;
  }

  /** Two phases of 40000 minutes each fit their columns but not the
      duration column their sum goes to. */
  lemma LongCycleUnstorable(p: Phases, previous: Option<int>)
    requires p.preHeat == Some(40000) && p.vacuum == Some(40000)
    ensures !(FitsUnsigned(p.steam, UnsignedSmallMax) && FitsUnsigned(p.dwell, UnsignedSmallMax)
              && FitsUnsigned(p.cooldown, UnsignedSmallMax)
              && FitsUnsigned(DurationOnSave(p, previous), UnsignedSmallMax))
  {
    var l := PhaseList(p);
    if FitsUnsigned(p.steam, UnsignedSmallMax) && FitsUnsigned(p.dwell, UnsignedSmallMax)
       && FitsUnsigned(p.cooldown, UnsignedSmallMax) {
      assert l[2..] == [p.steam, p.dwell, p.cooldown];
      PhaseSumNonNegative(l[2..]);
      assert l[1..][1..] == l[2..];
      assert PhaseSum(l) >= 80000;
    }
  }
}

=== FILE: heatset_signals.dfy ===
/** Heat-set batch quality checks run around each save: the metadata
    skeleton before, and the alert list with a snapshot of the checked
    fields after. */
module HeatsetSignals {
  import opened Wrappers
  import opened Json

  /** Permitted setting temperature (°C) per fibre, inclusive. */
  function FiberTempRange(fiber: string): (r: Option<(int, int)>)
    ensures r.Some? <==> fiber in {"polyester", "acrylic", "nylon", "wool", "polypropylene", "blend"}
    ensures r.Some? ==> 100 <= r.value.0 < r.value.1 <= 180
  {
    if fiber == "polyester" then Some((130, 180))
    else if fiber == "acrylic" then Some((110, 135))
    else if fiber == "nylon" then Some((105, 125))
    else if fiber == "wool" then Some((100, 120))
    else if fiber == "polypropylene" then Some((125, 165))
    else if fiber == "blend" then Some((110, 135))
    else None
  }

  const ShrinkageMin: real := 0.5
  const ShrinkageMax: real := 3.5

  const QualityFail := Alert(Critical, "QUALITY_FAIL")
  const LowTemperature := Alert(Warning, "LOW_TEMPERATURE")
  const HighTemperature := Alert(Critical, "HIGH_TEMPERATURE")
  const LowShrinkage := Alert(Warning, "LOW_SHRINKAGE")
  const HighShrinkage := Alert(Warning, "HIGH_SHRINKAGE")

  /** The temperature check runs only for a non-zero temperature and a fibre
      with a known range; at most one of the two alerts results. */
  function TemperatureAlerts(fiber: string, temperature: real): (r: seq<Alert>)
    ensures |r| <= 1
    ensures LowTemperature in r <==>
      temperature != 0.0 && FiberTempRange(fiber).Some? && temperature < FiberTempRange(fiber).value.0 as real
    ensures HighTemperature in r <==>
      temperature != 0.0 && FiberTempRange(fiber).Some? && temperature > FiberTempRange(fiber).value.1 as real
    ensures forall a :: a in r ==> a == LowTemperature || a == HighTemperature
  {
    match FiberTempRange(fiber)
    case Some((lo, hi)) =>
      if temperature == 0.0 then []
      else if temperature < lo as real then [LowTemperature]
      else if temperature > hi as real then [HighTemperature]
      else []
    case None => []
  }

  /** Any recorded shrinkage outside [0.5, 3.5] gives one warning. */
  function ShrinkageAlerts(shrinkage: Option<real>): (r: seq<Alert>)
    ensures |r| <= 1
    ensures LowShrinkage in r <==> shrinkage.Some? && shrinkage.value < ShrinkageMin
    ensures HighShrinkage in r <==> shrinkage.Some? && shrinkage.value > ShrinkageMax
    ensures forall a :: a in r ==> a == LowShrinkage || a == HighShrinkage
  {
    if shrinkage.None? then []
    else if shrinkage.value < ShrinkageMin then [LowShrinkage]
    else if shrinkage.value > ShrinkageMax then [HighShrinkage]
    else []
  }

  /** The alerts of one save: quality failure, then temperature, then
      shrinkage. */
  function Alerts(qualityResult: Option<string>, fiber: string, temperature: real, shrinkage: Option<real>)
    : (r: seq<Alert>)
    ensures |r| <= 3
    ensures QualityFail in r <==> qualityResult == Some("fail")
    ensures LowTemperature in r <==> LowTemperature in TemperatureAlerts(fiber, temperature)
    ensures HighTemperature in r <==> HighTemperature in TemperatureAlerts(fiber, temperature)
    ensures LowShrinkage in r <==> LowShrinkage in ShrinkageAlerts(shrinkage)
    ensures HighShrinkage in r <==> HighShrinkage in ShrinkageAlerts(shrinkage)
    ensures forall a :: a in r ==> a in {QualityFail, LowTemperature, HighTemperature, LowShrinkage, HighShrinkage}
  {
    (if qualityResult == Some("fail") then [QualityFail] else [])
    + TemperatureAlerts(fiber, temperature)
    + ShrinkageAlerts(shrinkage)
  }

  /** A temperature inside its fibre's range never raises a temperature
      alert. */
  lemma InRangeNoTemperatureAlert(fiber: string, temperature: real)
    requires FiberTempRange(fiber).Some?
    requires FiberTempRange(fiber).value.0 as real <= temperature <= FiberTempRange(fiber).value.1 as real
    ensures TemperatureAlerts(fiber, temperature) == []
  {
  }

  /** Low and high temperature never occur together. */
  lemma AtMostOneTemperatureAlert(q: Option<string>, fiber: string, temperature: real, shrinkage: Option<real>)
    ensures !(LowTemperature in Alerts(q, fiber, temperature, shrinkage)
              && HighTemperature in Alerts(q, fiber, temperature, shrinkage))
  {
  }

  function Skeleton(): (s: Object)
    ensures s.Keys == {"temp_curve", "pressure_curve", "humidity_log", AlertsKey}
  {
    map["temp_curve" := JArr([]), "pressure_curve" := JArr([]), "humidity_log" := JArr([]), AlertsKey := JArr([])]
  }

  /** Before saving: the metadata becomes an object holding the skeleton. */
  function PreSave(meta: JsonValue): (r: Object)
    ensures SkeletonKey in r
    ensures meta.JObj? && SkeletonKey in meta.fields ==> r == meta.fields
    ensures !(meta.JObj? && SkeletonKey in meta.fields) ==> r[SkeletonKey] == JObj(Skeleton())
  {
    EnsureSkeleton(meta, Skeleton())
  }

  /** After saving: the alert list replaces the previous one, `has_alerts`
      follows it, and the checked fields are copied in. Shrinkage is copied
      only when non-zero, so an earlier copy otherwise stays. The write
      always happens. */
  function PostSave(meta: Object, qualityResult: Option<string>, fiber: string,
                    temperature: Decimal, shrinkage: Option<Decimal>): (r: Update)
    ensures r.Raise? <==> SkeletonKey in meta && !meta[SkeletonKey].JObj?
    ensures r.Write? ==> var alerts := Alerts(qualityResult, fiber, temperature.value,
                                               if shrinkage.Some? then Some(shrinkage.value.value) else None);
      SkeletonKey in r.meta && r.meta[SkeletonKey].JObj? && AlertsKey in r.meta[SkeletonKey].fields
      && r.meta[SkeletonKey].fields[AlertsKey] == AlertsJson(alerts)
      && HasAlertsKey in r.meta && r.meta[HasAlertsKey] == JBool(|alerts| > 0)
    ensures r.Write? ==>
      "quality_result" in r.meta
      && r.meta["quality_result"] == (if qualityResult.Some? then JStr(qualityResult.value) else JNull)
    ensures r.Write? ==> "fiber_type" in r.meta && r.meta["fiber_type"] == JStr(fiber)
    ensures r.Write? ==> "temperature_c" in r.meta && r.meta["temperature_c"] == JStr(temperature.text)
    ensures r.Write? && shrinkage.Some? && shrinkage.value.value != 0.0 ==>
      "shrinkage_pct" in r.meta && r.meta["shrinkage_pct"] == JStr(shrinkage.value.text)
    ensures r.Write? && !(shrinkage.Some? && shrinkage.value.value != 0.0) ==>
      ("shrinkage_pct" in r.meta <==> "shrinkage_pct" in meta)
      && ("shrinkage_pct" in meta ==> r.meta["shrinkage_pct"] == meta["shrinkage_pct"])
  {
    var shrink := if shrinkage.Some? then Some(shrinkage.value.value) else None;
    var alerts := Alerts(qualityResult, fiber, temperature.value, shrink);
    match WithAlerts(meta, Skeleton(), alerts)
    case Write(m) =>
      var m' := Snapshot(m, qualityResult, fiber, temperature, shrinkage);
      SnapshotSpares();
      Write(m')
    case other => other
  }

  /** The keys the snapshot of checked fields writes. */
  const SnapshotKeys: set<string> := {"quality_result", "fiber_type", "temperature_c", "shrinkage_pct"}

  lemma SnapshotSpares()
    ensures SkeletonKey !in SnapshotKeys && HasAlertsKey !in SnapshotKeys
  {
  }

  /** The checked fields copied into the metadata; shrinkage only when
      non-zero. Every other key is left as it was. */
  function Snapshot(m: Object, qualityResult: Option<string>, fiber: string,
                    temperature: Decimal, shrinkage: Option<Decimal>): (r: Object)
    ensures "quality_result" in r && r["quality_result"] == (if qualityResult.Some? then JStr(qualityResult.value) else JNull)
    ensures "fiber_type" in r && r["fiber_type"] == JStr(fiber)
    ensures "temperature_c" in r && r["temperature_c"] == JStr(temperature.text)
    ensures shrinkage.Some? && shrinkage.value.value != 0.0 ==>
      "shrinkage_pct" in r && r["shrinkage_pct"] == JStr(shrinkage.value.text)
    ensures !(shrinkage.Some? && shrinkage.value.value != 0.0) ==>
      ("shrinkage_pct" in r <==> "shrinkage_pct" in m) && ("shrinkage_pct" in m ==> r["shrinkage_pct"] == m["shrinkage_pct"])
    ensures forall k :: k !in SnapshotKeys ==> (k in r <==> k in m) && (k in m ==> r[k] == m[k])
  {
    var m1 := m["quality_result" := if qualityResult.Some? then JStr(qualityResult.value) else JNull]
               ["fiber_type" := JStr(fiber)]
               ["temperature_c" := JStr(temperature.text)];
    if shrinkage.Some? && shrinkage.value.value != 0.0 then m1["shrinkage_pct" := JStr(shrinkage.value.text)] else m1
  }
}

=== FILE: inventory.dfy ===
/** Fibre stock: lots received into the store, issued to production and
    adjusted by count, each movement logged as one transaction; the consumed
    share of a lot; and FIFO order by receipt date. */
module Inventory {
  import opened Wrappers
  import opened Numeric
  import opened Text
  import opened Forms
  import opened Sorting
  import opened BatchIds

  datatype StockStatus = Available | Reserved | Consumed | Returned

  /** A lot of fibre; weights in kilograms, the receipt date a day number. */
  datatype Lot = Lot(batchNumber: string, receivedDate: int, initial: real, current: real, status: StockStatus)

  function ConsumedWeight(l: Lot): real {
    l.initial - l.current
  }

  /** Share of the lot already used, percent to one decimal; 0 for a lot
      with no positive initial weight. */
  function ConsumedPct(l: Lot): (r: real)
    ensures l.initial <= 0.0 ==> r == 0.0
    ensures l.initial > 0.0 ==> WithinHalfStep(r, ConsumedWeight(l) / l.initial * 100.0, 1)
  {
    if l.initial > 0.0 then RoundTo(ConsumedWeight(l) / l.initial * 100.0, 1) else 0.0
  }

  /** A lot whose weight lies between nothing and its initial weight has
      used between 0 and 100 percent: 0 when untouched, 100 when empty. */
  lemma ConsumedPctBounds(l: Lot)
    requires l.initial > 0.0 && 0.0 <= l.current <= l.initial
    ensures 0.0 <= ConsumedPct(l) <= 100.0
    ensures l.current == l.initial ==> ConsumedPct(l) == 0.0
    ensures l.current == 0.0 ==> ConsumedPct(l) == 100.0
  {
    RoundedPercent(ConsumedWeight(l), l.initial);
  }

  function FifoKey(l: Lot): Key {
    Key(l.receivedDate, 0)
  }

  /** Lots in first-in-first-out order: ascending receipt date. */
  function Fifo(lots: seq<Lot>): (r: seq<Lot>)
    ensures |r| == |lots| && multiset(r) == multiset(lots)
    ensures forall i, j :: 0 <= i < j < |r| ==> r[i].receivedDate <= r[j].receivedDate
  {
    SortBy(lots, FifoKey)
  }

  /** The head of the FIFO order is a lot received no later than any other. */
  lemma FifoHeadOldest(lots: seq<Lot>, l: Lot)
    requires l in lots
    ensures |Fifo(lots)| > 0 && Fifo(lots)[0].receivedDate <= l.receivedDate
  {
    var r := Fifo(lots);
    assert l in multiset(r);
    var j :| 0 <= j < |r| && r[j] == l;
    if j > 0 {
      assert r[0].receivedDate <= r[j].receivedDate;
    }
  }

  datatype TxnKind = TxnReceive | TxnIssue | TxnAdjust

  /** One stock transaction: its kind, the lot (by position in the store)
      and the quantity moved. */
  datatype Txn = Txn(kind: TxnKind, lot: nat, qty: real)

  datatype Store = Store(lots: seq<Lot>, log: seq<Txn>)

  /** A lot's weight is never negative and it is consumed exactly when empty. */
  predicate LotValid(l: Lot) {
    l.current >= 0.0 && (l.status == Consumed <==> l.current == 0.0)
  }

  function BatchNumbers(lots: seq<Lot>): (r: seq<string>)
    ensures |r| == |lots| && forall i :: 0 <= i < |lots| ==> r[i] == lots[i].batchNumber
  {
    seq(|lots|, i requires 0 <= i < |lots| => lots[i].batchNumber)
  }

  /** The store invariant: valid lots, unique batch numbers, and a log that
      refers only to lots in the store. */
  predicate Valid(st: Store) {
    (forall i :: 0 <= i < |st.lots| ==> LotValid(st.lots[i]))
    && (forall i, j :: 0 <= i < j < |st.lots| ==> st.lots[i].batchNumber != st.lots[j].batchNumber)
    && (forall k :: 0 <= k < |st.log| ==> st.log[k].lot < |st.lots|)
  }

  /** Total issued from lot `i` according to the log. */
  function Issued(log: seq<Txn>, i: nat): real
    decreases |log|
  {
    if |log| == 0 then 0.0
    else Issued(log[..|log| - 1], i) + (if log[|log| - 1].kind == TxnIssue && log[|log| - 1].lot == i then log[|log| - 1].qty else 0.0)
  }

  predicate Adjusted(log: seq<Txn>, i: nat) {
    exists k :: 0 <= k < |log| && log[k].kind == TxnAdjust && log[k].lot == i
  }

  /** The ledger: a lot never adjusted holds its initial weight less
      everything issued from it. */
  predicate Ledger(st: Store) {
    forall i :: 0 <= i < |st.lots| && !Adjusted(st.log, i) ==>
      st.lots[i].current == st.lots[i].initial - Issued(st.log, i)
  }

  lemma {:induction false} IssuedOutOfStore(log: seq<Txn>, i: nat)
    requires forall k :: 0 <= k < |log| ==> log[k].lot < i
    ensures Issued(log, i) == 0.0
    decreases |log|
  {
    if |log| > 0 {
      IssuedOutOfStore(log[..|log| - 1], i);
    }
  }

  datatype StockError =
    | MissingWeight | NonPositiveWeight | DuplicateBatch | MissingCategory
    | NotFound | NonPositiveQuantity | InsufficientStock | InvalidWeight | NotStored

  /** The length of the batch number column. */
  const BatchColumnMax: nat := 50

  /** A weight the `DECIMAL(12, 3)` weight and quantity columns hold. */
  predicate FitsWeight(w: real) {
    FitsDecimal(w, 12, 3)
  }

  /** The code of the posted fibre category, or empty when the key is
      missing or names no category (the lookup's failure is ignored). */
  function CategoryCode(category: Option<string>, categories: map<int, string>): (c: string)
    ensures KnownKey(category, categories.Keys).Some? ==> c == categories[KnownKey(category, categories.Keys).value]
    ensures KnownKey(category, categories.Keys).None? ==> c == ""
  {
    match KnownKey(category, categories.Keys)
    case Some(id) => categories[id]
    case None => ""
  }

  /** The batch number a receipt uses: the posted one without surrounding
      whitespace, or the next identifier for the category's prefix. */
  function ReceiptBatchNumber(st: Store, posted: string, categoryCode: string, bucket: string): (b: string)
    ensures Strip(posted) != "" ==> b == Strip(posted)
    ensures Strip(posted) == "" ==>
      StartsWith(b, Pattern(FiberPrefix(categoryCode), bucket)) && b !in BatchNumbers(st.lots)
  {
    if Strip(posted) != "" then Strip(posted) else NextFiberBatch(categoryCode, bucket, BatchNumbers(st.lots))
  }

  /** Receipt: the initial weight must be posted and positive; a new
      available lot holding its full weight is added and one `receive`
      transaction of that weight is logged. The insert is refused for a
      batch number already in the store (the unique constraint), a missing
      category key, a category that is not a known one, and a weight or
      batch number that does not fit its column. `categories` maps each
      category's id to its code. */
  function Receive(st: Store, weight: Option<string>, posted: string, category: Option<string>,
                   categories: map<int, string>, bucket: string, date: int): (r: Result<Store, StockError>)
    ensures weight.None? ==> r == Err(MissingWeight)
    ensures weight.Some? && !(Truthy(SafeDecimal(weight, None)) && SafeDecimal(weight, None).value > 0.0) ==>
      r == Err(NonPositiveWeight)
    ensures r == Err(DuplicateBatch) <==>
      weight.Some? && Truthy(SafeDecimal(weight, None)) && SafeDecimal(weight, None).value > 0.0 &&
      ReceiptBatchNumber(st, posted, CategoryCode(category, categories), bucket) in BatchNumbers(st.lots)
    ensures Strip(posted) == "" ==> r != Err(DuplicateBatch)
    ensures r.Ok? <==>
      weight.Some? && Truthy(SafeDecimal(weight, None)) && SafeDecimal(weight, None).value > 0.0 &&
      ReceiptBatchNumber(st, posted, CategoryCode(category, categories), bucket) !in BatchNumbers(st.lots) &&
      KnownKey(category, categories.Keys).Some? &&
      FitsWeight(SafeDecimal(weight, None).value) &&
      |ReceiptBatchNumber(st, posted, CategoryCode(category, categories), bucket)| <= BatchColumnMax
    ensures r == Err(MissingCategory) ==> category.None?
    ensures (weight.Some? && Truthy(SafeDecimal(weight, None)) && SafeDecimal(weight, None).value > 0.0 &&
             category.None? && r != Err(DuplicateBatch)) ==> r == Err(MissingCategory)
    ensures r.Ok? ==> var w := SafeDecimal(weight, None).value;
      |r.value.lots| == |st.lots| + 1 && r.value.lots[..|st.lots|] == st.lots &&
      r.value.lots[|st.lots|] == Lot(ReceiptBatchNumber(st, posted, CategoryCode(category, categories), bucket), date, w, w, Available) &&
      r.value.log == st.log + [Txn(TxnReceive, |st.lots|, w)]
    ensures r.Ok? && Valid(st) ==> Valid(r.value)
    ensures r.Ok? && Valid(st) && Ledger(st) ==> Ledger(r.value)
  {
    var w := SafeDecimal(weight, None);
    if weight.None? then Err(MissingWeight)
    else if !(Truthy(w) && w.value > 0.0) then Err(NonPositiveWeight)
    else
      var b := ReceiptBatchNumber(st, posted, CategoryCode(category, categories), bucket);
      if b in BatchNumbers(st.lots) then Err(DuplicateBatch)
      else if category.None? then Err(MissingCategory)
      else if KnownKey(category, categories.Keys).None? || !FitsWeight(w.value) || |b| > BatchColumnMax then Err(NotStored)
      else
        var st' := Store(st.lots + [Lot(b, date, w.value, w.value, Available)],
                         st.log + [Txn(TxnReceive, |st.lots|, w.value)]);
        ReceiveKeepsValid(st, st', b, date, w.value);
        ReceiveKeepsLedger(st, st', w.value);
        Ok(st')
  }

  lemma ReceiveKeepsValid(st: Store, st': Store, b: string, date: int, w: real)
    requires b !in BatchNumbers(st.lots) && w > 0.0
    requires st'.lots == st.lots + [Lot(b, date, w, w, Available)]
    requires st'.log == st.log + [Txn(TxnReceive, |st.lots|, w)]
    ensures Valid(st) ==> Valid(st')
  {
    if Valid(st) {
      forall i, j | 0 <= i < j < |st'.lots|
        ensures st'.lots[i].batchNumber != st'.lots[j].batchNumber
      {
        if j == |st.lots| {
          assert BatchNumbers(st.lots)[i] == st.lots[i].batchNumber;
        }
      }
    }
  }

  lemma ReceiveKeepsLedger(st: Store, st': Store, w: real)
    requires |st'.lots| == |st.lots| + 1 && st'.lots[..|st.lots|] == st.lots
    requires st'.lots[|st.lots|].current == w && st'.lots[|st.lots|].initial == w
    requires st'.log == st.log + [Txn(TxnReceive, |st.lots|, w)]
    ensures Valid(st) && Ledger(st) ==> Ledger(st')
  {
    if Valid(st) && Ledger(st) {
      assert st'.log[..|st.log|] == st.log;
      forall i | 0 <= i < |st'.lots| && !Adjusted(st'.log, i)
        ensures st'.lots[i].current == st'.lots[i].initial - Issued(st'.log, i)
      {
        if i < |st.lots| {
          assert st'.lots[i] == st.lots[i];
        } else {
          IssuedOutOfStore(st.log, i);
        }
      }
    }
  }

  /** Lot `l` after `q` kilograms are taken from it: consumed once empty. */
  function Take(l: Lot, q: real): (r: Lot)
    requires 0.0 < q <= l.current
    ensures r.batchNumber == l.batchNumber && r.receivedDate == l.receivedDate && r.initial == l.initial
    ensures r.current == l.current - q && 0.0 <= r.current < l.current
    ensures LotValid(l) ==> LotValid(r)
  {
    l.(current := l.current - q, status := if l.current - q == 0.0 then Consumed else l.status)
  }

  /** The reference an issue posts: the kind of record the fibre went to
      (empty when not posted) and that record's id as posted text. */
  datatype Reference = Reference(refType: string, refId: Option<string>)

  /** An issue form with no reference fields. */
  const NoReference := Reference("", None)

  /** The length of the reference type column. */
  const ReferenceTypeColumnMax: nat := 50

  /** A reference the transaction row accepts: the type within its column,
      and the id empty (stored as null) or an integer the big integer
      column holds. */
  predicate ReferenceStorable(ref: Reference) {
    && |ref.refType| <= ReferenceTypeColumnMax
    && (ref.refId.None? || ref.refId.value == ""
        || (ParseInt(Strip(ref.refId.value)).Some?
            && BigIntColumnMin <= ParseInt(Strip(ref.refId.value)).value <= BigIntColumnMax))
  }

  /** Issue: the quantity must be positive and at most the lot's weight,
      otherwise nothing changes. The weight drops by exactly the quantity,
      the lot becomes consumed when nothing is left, and one `issue`
      transaction is logged. A reference the transaction row cannot hold
      refuses the issue before anything is written, so the lot and its
      transaction are written together or not at all. */
  function Issue(st: Store, i: int, quantity: Option<string>, ref: Reference): (r: Result<Store, StockError>)
    ensures !(0 <= i < |st.lots|) ==> r == Err(NotFound)
    ensures 0 <= i < |st.lots| && !(Truthy(SafeDecimal(quantity, None)) && SafeDecimal(quantity, None).value > 0.0) ==>
      r == Err(NonPositiveQuantity)
    ensures r == Err(InsufficientStock) <==>
      0 <= i < |st.lots| && Truthy(SafeDecimal(quantity, None)) && SafeDecimal(quantity, None).value > 0.0 &&
      SafeDecimal(quantity, None).value > st.lots[i].current
    ensures r == Err(NotStored) <==>
      0 <= i < |st.lots| && Truthy(SafeDecimal(quantity, None)) &&
      0.0 < SafeDecimal(quantity, None).value <= st.lots[i].current && !ReferenceStorable(ref)
    ensures r.Ok? ==> ReferenceStorable(ref)
    ensures r.Ok? ==> var q := SafeDecimal(quantity, None).value;
      0 <= i < |st.lots| && 0.0 < q <= st.lots[i].current &&
      r.value.lots == st.lots[i := Take(st.lots[i], q)] &&
      r.value.log == st.log + [Txn(TxnIssue, i, q)]
    ensures r.Ok? && Valid(st) ==> Valid(r.value)
    ensures r.Ok? && Valid(st) && Ledger(st) ==> Ledger(r.value)
  {
    if !(0 <= i < |st.lots|) then Err(NotFound)
    else
      var q := SafeDecimal(quantity, None);
      if !(Truthy(q) && q.value > 0.0) then Err(NonPositiveQuantity)
      else if q.value > st.lots[i].current then Err(InsufficientStock)
      else if !ReferenceStorable(ref) then Err(NotStored)
      else Ok(Issued1(st, i, q.value))
  }

  /** What a request leaves behind: the rows the database then holds, and
      the error the view answers with, if any. */
  datatype Response = Response(stored: Store, error: Option<StockError>)

  /** The issue view as written: the lot's new weight is saved first, then
      the transaction is inserted, with no database transaction around the
      two. A reference the transaction row cannot hold makes the insert
      fail after the lot was saved: the view answers with an error, yet the
      lot has lost the quantity and no transaction records it. */
  function IssueAsWritten(st: Store, i: int, quantity: Option<string>, ref: Reference): (w: Response)
    ensures Issue(st, i, quantity, ref).Ok? ==> w == Response(Issue(st, i, quantity, ref).value, None)
    ensures Issue(st, i, quantity, ref).Err? && Issue(st, i, quantity, ref) != Err(NotStored) ==>
      w == Response(st, Some(Issue(st, i, quantity, ref).error))
    ensures Issue(st, i, quantity, ref) == Err(NotStored) ==> var q := SafeDecimal(quantity, None).value;
      && w.error == Some(NotStored)
      && w.stored.lots == st.lots[i := Take(st.lots[i], q)]
      && w.stored.log == st.log
  {
    if !(0 <= i < |st.lots|) then Response(st, Some(NotFound))
    else
      var q := SafeDecimal(quantity, None);
      if !(Truthy(q) && q.value > 0.0) then Response(st, Some(NonPositiveQuantity))
      else if q.value > st.lots[i].current then Response(st, Some(InsufficientStock))
      else
        var saved := st.(lots := st.lots[i := Take(st.lots[i], q.value)]);
        if ReferenceStorable(ref) then Response(Issued1(st, i, q.value), None)
        else Response(saved, Some(NotStored))
  }

  /** The failed insert breaks the ledger: issuing from a lot never
      adjusted, with a reference the transaction row cannot hold, leaves a
      lot whose weight no longer equals its initial weight less what the
      log says was issued, although the view reported a failure. */
  lemma {:induction false} IssueLosesLedger(st: Store, i: nat, quantity: Option<string>, ref: Reference)
    requires Ledger(st) && i < |st.lots| && !Adjusted(st.log, i)
    requires Truthy(SafeDecimal(quantity, None))
    requires 0.0 < SafeDecimal(quantity, None).value <= st.lots[i].current
    requires !ReferenceStorable(ref)
    ensures IssueAsWritten(st, i, quantity, ref).error.Some?
    ensures !Ledger(IssueAsWritten(st, i, quantity, ref).stored)
  {
    var w := IssueAsWritten(st, i, quantity, ref);
    var q := SafeDecimal(quantity, None).value;
    assert w.stored.lots[i].current == st.lots[i].current - q;
    assert w.stored.lots[i].current != w.stored.lots[i].initial - Issued(w.stored.log, i);
  }

  /** A reference id posted as the text `abc` is not an integer, so the
      transaction row cannot hold it. */
  lemma TextReferenceUnstorable(refType: string)
    ensures !ReferenceStorable(Reference(refType, Some("abc")))
  {
    var s := "abc";
    StripUnpadded(s);
    assert !AllDigits(s) by { assert !IsDigit(s[0]); }
    assert !AllDigits(s[1..]) by { assert !IsDigit(s[1..][0]); }
  }

  /** The store after a validated issue of `q` from lot `i`. */
  function Issued1(st: Store, i: nat, q: real): (st': Store)
    requires i < |st.lots| && 0.0 < q <= st.lots[i].current
    ensures st'.lots == st.lots[i := Take(st.lots[i], q)]
    ensures st'.log == st.log + [Txn(TxnIssue, i, q)]
    ensures Valid(st) ==> Valid(st')
    ensures Valid(st) && Ledger(st) ==> Ledger(st')
  {
    var st' := Store(st.lots[i := Take(st.lots[i], q)], st.log + [Txn(TxnIssue, i, q)]);
    IssueKeepsValid(st, st', i, q);
    IssueKeepsLedger(st, st', i, q);
    st'
  }

  lemma IssueKeepsValid(st: Store, st': Store, i: nat, q: real)
    requires i < |st.lots| && 0.0 < q <= st.lots[i].current
    requires st'.lots == st.lots[i := Take(st.lots[i], q)]
    requires st'.log == st.log + [Txn(TxnIssue, i, q)]
    ensures Valid(st) ==> Valid(st')
  {
  }

  lemma IssueKeepsLedger(st: Store, st': Store, i: nat, q: real)
    requires i < |st.lots| && 0.0 < q <= st.lots[i].current
    requires st'.lots == st.lots[i := Take(st.lots[i], q)]
    requires st'.log == st.log + [Txn(TxnIssue, i, q)]
    ensures Valid(st) && Ledger(st) ==> Ledger(st')
  {
    if Valid(st) && Ledger(st) {
      assert st'.log[..|st.log|] == st.log;
      forall j | 0 <= j < |st'.lots| && !Adjusted(st'.log, j)
        ensures st'.lots[j].current == st'.lots[j].initial - Issued(st'.log, j)
      {
      }
    }
  }

  /** Lot `l` counted at `w` kilograms: empty means consumed, a consumed
      lot given weight is available again, any other status stays. */
  function Reweigh(l: Lot, w: real): (r: Lot)
    requires w >= 0.0
    ensures r.batchNumber == l.batchNumber && r.receivedDate == l.receivedDate && r.initial == l.initial
    ensures r.current == w && LotValid(r)
    ensures r.status == Consumed <==> w == 0.0
    ensures w > 0.0 && l.status != Consumed ==> r.status == l.status
  {
    l.(current := w, status := if w == 0.0 then Consumed else if l.status == Consumed then Available else l.status)
  }

  /** The absolute difference the adjust transaction records. */
  function Gap(a: real, b: real): (r: real)
    ensures r >= 0.0 && (r == a - b || r == b - a)
  {
    var d := a - b;
    if d >= 0.0 then d else -d
  }

  /** Adjustment: the new weight must be posted, not negative, and one the
      weight column holds (the save refuses a larger one; both refusals
      count as an invalid weight). The weight is set; an empty lot becomes
      consumed, a consumed lot given weight becomes available again, any
      other status stays; one `adjust` transaction of the absolute
      difference is logged. */
  function Adjust(st: Store, i: int, weight: Option<string>): (r: Result<Store, StockError>)
    ensures !(0 <= i < |st.lots|) ==> r == Err(NotFound)
    ensures r.Ok? <==> 0 <= i < |st.lots| && SafeDecimal(weight, None).Some? && SafeDecimal(weight, None).value >= 0.0
                       && FitsWeight(SafeDecimal(weight, None).value)
    ensures !r.Ok? && 0 <= i < |st.lots| ==> r == Err(InvalidWeight)
    ensures r.Ok? ==> var w := SafeDecimal(weight, None).value;
      0 <= i < |st.lots| &&
      r.value.lots == st.lots[i := Reweigh(st.lots[i], w)] &&
      r.value.log == st.log + [Txn(TxnAdjust, i, Gap(w, st.lots[i].current))]
    ensures r.Ok? && Valid(st) ==> Valid(r.value)
  {
    if !(0 <= i < |st.lots|) then Err(NotFound)
    else
      var w := SafeDecimal(weight, None);
      if w.None? || w.value < 0.0 || !FitsWeight(w.value) then Err(InvalidWeight)
      else Ok(Adjusted1(st, i, w.value))
  }

  /** The store after a validated count of `w` for lot `i`. */
  function Adjusted1(st: Store, i: nat, w: real): (st': Store)
    requires i < |st.lots| && w >= 0.0
    ensures st'.lots == st.lots[i := Reweigh(st.lots[i], w)]
    ensures st'.log == st.log + [Txn(TxnAdjust, i, Gap(w, st.lots[i].current))]
    ensures Valid(st) ==> Valid(st')
  {
    Store(st.lots[i := Reweigh(st.lots[i], w)], st.log + [Txn(TxnAdjust, i, Gap(w, st.lots[i].current))])
  }

  /** Every successful movement logs exactly one transaction, naming the lot
      it touched. */
  lemma OneTransactionPerMovement(st: Store, i: int, quantity: Option<string>, ref: Reference, weight: Option<string>)
    ensures Issue(st, i, quantity, ref).Ok? ==>
      |Issue(st, i, quantity, ref).value.log| == |st.log| + 1 && Issue(st, i, quantity, ref).value.log[|st.log|].lot == i
    ensures Adjust(st, i, weight).Ok? ==>
      |Adjust(st, i, weight).value.log| == |st.log| + 1 && Adjust(st, i, weight).value.log[|st.log|].lot == i
  {
  }

  /** Issuing a lot's whole weight empties and consumes it. */
  lemma IssueAllConsumes(st: Store, i: nat, n: nat)
    requires i < |st.lots| && n > 0 && st.lots[i].current == n as real
    ensures Issue(st, i, Some(NatToString(n)), NoReference).Ok?
    ensures Issue(st, i, Some(NatToString(n)), NoReference).value.lots[i].current == 0.0
    ensures Issue(st, i, Some(NatToString(n)), NoReference).value.lots[i].status == Consumed
  {
    SafeParsersRoundTrip(n, None, None);
    assert ReferenceStorable(NoReference);
  }
}

=== FILE: json.dfy ===
/** JSON metadata documents as stored in the records' `metadata` column, and
    the two edits the quality signal handlers make to them: the pre-save
    skeleton and the post-save alert list. */
module Json {
  import opened Wrappers
  import opened Numeric

  datatype JsonValue =
    | JNull
    | JBool(b: bool)
    | JNum(n: real)
    | JStr(s: string)
    | JArr(items: seq<JsonValue>)
    | JObj(fields: map<string, JsonValue>)

  type Object = map<string, JsonValue>

  /** A decimal column value together with its `str()` rendering. */
  datatype Decimal = Decimal(value: real, text: string)

  datatype Level = Critical | Warning

  function LevelName(l: Level): string {
    match l
    case Critical => "critical"
    case Warning => "warning"
  }

  /** A quality alert; the human-readable message is not modelled. */
  datatype Alert = Alert(level: Level, code: string)

  function AlertJson(a: Alert): (j: JsonValue)
    ensures j.JObj? && j.fields.Keys == {"level", "code"}
    ensures j.fields["level"] == JStr(LevelName(a.level)) && j.fields["code"] == JStr(a.code)
  {
    JObj(map["level" := JStr(LevelName(a.level)), "code" := JStr(a.code)])
  }

  function AlertsJson(alerts: seq<Alert>): (j: JsonValue)
    ensures j.JArr? && |j.items| == |alerts|
    ensures forall i :: 0 <= i < |alerts| ==> j.items[i] == AlertJson(alerts[i])
  {
    JArr(seq(|alerts|, i requires 0 <= i < |alerts| => AlertJson(alerts[i])))
  }

  /** Decoding an alert list gives the alerts back. */
  function AlertOf(j: JsonValue): Option<Alert> {
    if j.JObj? && "level" in j.fields && "code" in j.fields && j.fields["code"].JStr? then
      match j.fields["level"]
      case JStr(l) =>
        if l == "critical" then Some(Alert(Critical, j.fields["code"].s))
        else if l == "warning" then Some(Alert(Warning, j.fields["code"].s))
        else None
      case _ => None
    else None
  }

  lemma AlertRoundTrip(a: Alert)
    ensures AlertOf(AlertJson(a)) == Some(a)
  {
  }

  const SkeletonKey := "ai_quality"
  const AlertsKey := "alerts"
  const HasAlertsKey := "has_alerts"

  /** Pre-save normalisation: anything that is not an object (or is empty)
      becomes `{}`, then the skeleton is added under `ai_quality` only when
      that key is missing. Every other key is kept as it is. */
  function EnsureSkeleton(meta: JsonValue, skeleton: Object): (r: Object)
    ensures SkeletonKey in r
    ensures meta.JObj? ==> forall k :: k in meta.fields ==> k in r && r[k] == meta.fields[k]
    ensures forall k :: k in r ==> k == SkeletonKey || (meta.JObj? && k in meta.fields)
    ensures !(meta.JObj? && SkeletonKey in meta.fields) ==> r[SkeletonKey] == JObj(skeleton)
  {
    var base := if meta.JObj? then meta.fields else map[];
    if SkeletonKey in base then base else base[SkeletonKey := JObj(skeleton)]
  }

  /** Running the pre-save step on its own output changes nothing. */
  lemma EnsureSkeletonIdempotent(meta: JsonValue, skeleton: Object)
    ensures EnsureSkeleton(JObj(EnsureSkeleton(meta, skeleton)), skeleton) == EnsureSkeleton(meta, skeleton)
  {
  }

  /** What a post-save handler does to the stored metadata. */
  datatype Update = Keep | Write(meta: Object) | Raise

  /** Post-save alert write-back: the `ai_quality` object (or `fallback` when
      the key is missing) gets `alerts` replaced by the new list, and
      `has_alerts` records whether that list is non-empty. An `ai_quality`
      value that is not an object cannot take an item assignment. */
  function WithAlerts(meta: Object, fallback: Object, alerts: seq<Alert>): (r: Update)
    ensures r != Keep
    ensures r.Raise? <==> SkeletonKey in meta && !meta[SkeletonKey].JObj?
    ensures r.Write? ==> SkeletonKey in r.meta && r.meta[SkeletonKey].JObj?
    ensures r.Write? ==> var q := r.meta[SkeletonKey].fields;
      AlertsKey in q && q[AlertsKey] == AlertsJson(alerts)
    ensures r.Write? ==> HasAlertsKey in r.meta && r.meta[HasAlertsKey] == JBool(|alerts| > 0)
    ensures r.Write? ==> forall k :: k in meta && k != SkeletonKey && k != HasAlertsKey ==>
      k in r.meta && r.meta[k] == meta[k]
    ensures r.Write? ==> r.meta.Keys == meta.Keys + {SkeletonKey, HasAlertsKey}
  {
    var q := if SkeletonKey in meta then meta[SkeletonKey] else JObj(fallback);
    if !q.JObj? then Raise
    else Write(meta[SkeletonKey := JObj(q.fields[AlertsKey := AlertsJson(alerts)])][HasAlertsKey := JBool(|alerts| > 0)])
  }

  /** The skeleton of a stage that logs two curves: both logs and the alert
      list, empty. */
  function LogSkeleton(first: string, second: string): (s: Object)
    ensures s.Keys == {first, second, AlertsKey}
    ensures forall k :: k in s ==> s[k] == JArr([])
  {
    map[first := JArr([]), second := JArr([]), AlertsKey := JArr([])]
  }

  /** The pre-save step of the winding and two-for-one stages: the metadata
      normalised with the stage's skeleton, and `waste_pct_calculated`
      (waste over input, percent, two decimals) set when both weights are
      non-zero; otherwise an earlier value stays. */
  function WastePreSave(skeleton: Object, meta: JsonValue, input: Option<real>, waste: Option<real>): (r: Object)
    ensures SkeletonKey in r
    ensures !(meta.JObj? && SkeletonKey in meta.fields) ==> r[SkeletonKey] == JObj(skeleton)
    ensures Truthy(input) && Truthy(waste) ==>
      "waste_pct_calculated" in r && r["waste_pct_calculated"].JNum?
      && WithinHalfStep(r["waste_pct_calculated"].n, waste.value / input.value * 100.0, 2)
    ensures !(Truthy(input) && Truthy(waste)) ==> r == EnsureSkeleton(meta, skeleton)
  {
    var m := EnsureSkeleton(meta, skeleton);
    if Truthy(input) && Truthy(waste) then m["waste_pct_calculated" := JNum(RoundTo(waste.value / input.value * 100.0, 2))]
    else m
  }

  /** The post-save step of the winding and two-for-one stages: written back
      only when there are alerts, so a clean save leaves earlier alerts and
      `has_alerts` in place. */
  function AlertsPostSave(meta: Object, alerts: seq<Alert>): (r: Update)
    ensures r.Keep? <==> alerts == []
    ensures alerts != [] ==> r == WithAlerts(meta, map[AlertsKey := JArr([])], alerts)
    ensures r.Write? ==> HasAlertsKey in r.meta && r.meta[HasAlertsKey] == JBool(true)
  {
    if alerts == [] then Keep else WithAlerts(meta, map[AlertsKey := JArr([])], alerts)
  }

  /** Alerts are replaced, not appended: writing a second list over the first
      gives the same document as writing the second list alone. */
  lemma WithAlertsReplaces(meta: Object, fallback: Object, first: seq<Alert>, second: seq<Alert>)
    requires WithAlerts(meta, fallback, first).Write?
    ensures WithAlerts(WithAlerts(meta, fallback, first).meta, fallback, second) == WithAlerts(meta, fallback, second)
  {
    var q := if SkeletonKey in meta then meta[SkeletonKey] else JObj(fallback);
    var f1 := q.fields[AlertsKey := AlertsJson(first)];
    var m1 := meta[SkeletonKey := JObj(f1)][HasAlertsKey := JBool(|first| > 0)];
    assert WithAlerts(meta, fallback, first).meta == m1;
    assert m1[SkeletonKey] == JObj(f1) by {
      assert SkeletonKey != HasAlertsKey;
    }
    RewriteTwice(q.fields, AlertsKey, AlertsJson(first), AlertsJson(second));
    OverwriteTwice(meta, SkeletonKey, HasAlertsKey, JObj(f1), JBool(|first| > 0),
                   JObj(q.fields[AlertsKey := AlertsJson(second)]), JBool(|second| > 0));
  }

  lemma RewriteTwice<K, V>(m: map<K, V>, k: K, a: V, b: V)
    ensures m[k := a][k := b] == m[k := b]
  {
  }

  /** Writing two keys and then the same two keys again leaves only the
      second writes. */
  lemma OverwriteTwice<K, V>(m: map<K, V>, k1: K, k2: K, a1: V, b1: V, a2: V, b2: V)
    ensures m[k1 := a1][k2 := b1][k1 := a2][k2 := b2] == m[k1 := a2][k2 := b2]
  {
  }
}

=== FILE: lineage.dfy ===
/** Merge-stage lineage: which carding or earlier passage batches feed each
    passage (drawing) production, one edge per input position. */
module Lineage {
  import opened Wrappers

  /** First passage is fed from carding, second from the first passage. */
  datatype PassageNumber = First | Second

  function PassageValue(n: PassageNumber): (v: nat)
    ensures v == 1 || v == 2
  {
    match n
    case First => 1
    case Second => 2
  }

  /** The stored integer read back as a passage number. */
  function PassageNumberOf(v: int): (r: Option<PassageNumber>)
    ensures r.Some? <==> v == 1 || v == 2
    ensures r.Some? ==> PassageValue(r.value) == v
  {
    if v == 1 then Some(First) else if v == 2 then Some(Second) else None
  }

  lemma PassageNumberRoundTrip(n: PassageNumber)
    ensures PassageNumberOf(PassageValue(n)) == Some(n)
  {
  }

  /** A passage production; a new one is a first passage with six inputs
      unless told otherwise. */
  datatype Production = Production(passageNumber: PassageNumber, numInputs: nat)

  const DefaultNumInputs: nat := 6

  function NewProduction(passageNumber: Option<PassageNumber>, numInputs: Option<nat>): (p: Production)
    ensures passageNumber.None? ==> p.passageNumber == First
    ensures numInputs.None? ==> p.numInputs == 6
    ensures passageNumber.Some? ==> p.passageNumber == passageNumber.value
    ensures numInputs.Some? ==> p.numInputs == numInputs.value
  {
    Production(passageNumber.GetOr(First), numInputs.GetOr(DefaultNumInputs))
  }

  /** The two kinds of batch a passage input can come from. */
  datatype SourceKind = FromCarding | FromPassage

  /** The stored tag of a source kind. */
  function SourceTag(k: SourceKind): string {
    match k
    case FromCarding => "carding"
    case FromPassage => "passage"
  }

  function ParseSourceTag(s: string): (r: Option<SourceKind>)
    ensures r.Some? <==> s == "carding" || s == "passage"
    ensures r.Some? ==> SourceTag(r.value) == s
  {
    if s == "carding" then Some(FromCarding)
    else if s == "passage" then Some(FromPassage)
    else None
  }

  lemma SourceTagRoundTrip(k: SourceKind)
    ensures ParseSourceTag(SourceTag(k)) == Some(k)
  {
  }

  /** The batch an input comes from. */
  datatype SourceBatch = SourceBatch(kind: SourceKind, id: int, batchNumber: string)

  /** A stored input edge: the position it occupies, the source's tag and
      id, a copy of the source batch number, and the weight used. */
  datatype Edge = Edge(
    position: nat,
    sourceType: string,
    sourceId: int,
    sourceBatchNumber: string,
    weightUsed: Option<real>)

  /** The edge recording that `src` feeds position `position`. */
  function EdgeFor(position: nat, src: SourceBatch, weightUsed: Option<real>): (e: Edge)
    ensures e.position == position && e.weightUsed == weightUsed
    ensures e.sourceType == "carding" || e.sourceType == "passage"
  {
    Edge(position, SourceTag(src.kind), src.id, src.batchNumber, weightUsed)
  }

  /** The source an edge refers to, when its tag is a known one. */
  function SourceOf(e: Edge): (r: Option<SourceBatch>)
    ensures r.Some? <==> e.sourceType == "carding" || e.sourceType == "passage"
    ensures r.Some? ==> r.value.id == e.sourceId && r.value.batchNumber == e.sourceBatchNumber
  {
    match ParseSourceTag(e.sourceType)
    case Some(k) => Some(SourceBatch(k, e.sourceId, e.sourceBatchNumber))
    case None => None
  }

  /** An edge keeps its source's kind, id and batch number. */
  lemma EdgeRoundTrip(position: nat, src: SourceBatch, w: Option<real>)
    ensures SourceOf(EdgeFor(position, src, w)) == Some(src)
  {
    SourceTagRoundTrip(src.kind);
  }

  /** The lowest and highest input position a drawing frame has. */
  const MinPosition: nat := 1
  const MaxPosition: nat := 8

  /** Productions by id and, for each, its input edges by position. */
  datatype Store = Store(productions: map<int, Production>, inputs: map<int, map<nat, Edge>>)

  /** The store's invariant: edges belong to existing productions, each is
      filed under its own position, positions are in range and tags known. */
  predicate Valid(s: Store) {
    s.inputs.Keys <= s.productions.Keys
    && forall id :: id in s.inputs ==> ValidEdges(s.inputs[id])
  }

  predicate ValidEdges(m: map<nat, Edge>) {
    forall pos :: pos in m ==>
      m[pos].position == pos && MinPosition <= pos <= MaxPosition
      && (m[pos].sourceType == "carding" || m[pos].sourceType == "passage")
  }

  /** The edges of one production by position (none when it has no inputs). */
  function InputsOf(s: Store, id: int): map<nat, Edge> {
    if id in s.inputs then s.inputs[id] else map[]
  }

  const Empty: Store := Store(map[], map[])

  lemma EmptyValid()
    ensures Valid(Empty)
  {
  }

  /** Records a new production under a fresh id. */
  function AddProduction(s: Store, id: int, p: Production): (r: Store)
    requires id !in s.productions
    ensures Valid(s) ==> Valid(r)
    ensures id in r.productions && r.productions[id] == p
    ensures Valid(s) ==> InputsOf(r, id) == map[]
    ensures forall other :: other != id ==> InputsOf(r, other) == InputsOf(s, other)
  {
    Store(s.productions[id := p], s.inputs)
  }

  datatype AttachError = UnknownProduction | PositionTaken

  /** Attaches `src` at `position` of production `id`. Refused when the
      production does not exist or the position already holds an edge. */
  function Attach(s: Store, id: int, position: nat, src: SourceBatch, weightUsed: Option<real>)
    : (r: Result<Store, AttachError>)
    requires MinPosition <= position <= MaxPosition
    ensures id !in s.productions ==> r == Err(UnknownProduction)
    ensures id in s.productions && position in InputsOf(s, id) ==> r == Err(PositionTaken)
    ensures r.Ok? <==> id in s.productions && position !in InputsOf(s, id)
    ensures r.Ok? ==> Valid(s) ==> Valid(r.value)
    ensures r.Ok? ==> InputsOf(r.value, id) == InputsOf(s, id)[position := EdgeFor(position, src, weightUsed)]
    ensures r.Ok? ==> r.value.productions == s.productions
    ensures r.Ok? ==> forall other :: other != id ==> InputsOf(r.value, other) == InputsOf(s, other)
  {
    if id !in s.productions then Err(UnknownProduction)
    else if position in InputsOf(s, id) then Err(PositionTaken)
    else
      var edges := InputsOf(s, id)[position := EdgeFor(position, src, weightUsed)];
      Ok(Store(s.productions, s.inputs[id := edges]))
  }

  /** A position can be filled only once: after a successful attach, a second
      attach at the same position is refused, whatever the source. */
  lemma AttachTwiceRefused(s: Store, id: int, position: nat, a: SourceBatch, b: SourceBatch, wa: Option<real>, wb: Option<real>)
    requires MinPosition <= position <= MaxPosition
    requires Attach(s, id, position, a, wa).Ok?
    ensures Attach(Attach(s, id, position, a, wa).value, id, position, b, wb) == Err(PositionTaken)
  {
  }

  /** Deletes a production; its input edges go with it. */
  function RemoveProduction(s: Store, id: int): (r: Store)
    ensures id !in r.productions && InputsOf(r, id) == map[]
    ensures Valid(s) ==> Valid(r)
    ensures forall other :: other != id ==> InputsOf(r, other) == InputsOf(s, other)
    ensures forall other :: other != id && other in s.productions ==>
      other in r.productions && r.productions[other] == s.productions[other]
  {
    Store(s.productions - {id}, s.inputs - {id})
  }
}

=== FILE: maintenance.dfy ===
/** Maintenance: overdue schedules, work orders with their cost total, and
    the downtime reason categories. */
module Maintenance {
  import opened Wrappers

  /** A preventive maintenance schedule: whether it is active and when it
      is next due (seconds). */
  datatype Schedule = Schedule(isActive: bool, nextDueAt: int)

  /** A schedule is overdue while it is active and its due time has passed. */
  predicate IsOverdue(s: Schedule, now: int) {
    s.isActive && s.nextDueAt < now
  }

  /** The dashboard's count of overdue schedules: the active ones due
      before now. */
  function OverdueCount(ss: seq<Schedule>, now: int): (n: nat)
    ensures n <= |ss|
    ensures n == 0 <==> forall i :: 0 <= i < |ss| ==> !IsOverdue(ss[i], now)
    ensures n == |ss| <==> forall i :: 0 <= i < |ss| ==> IsOverdue(ss[i], now)
  {
    if |ss| == 0 then 0
    else
      var init := ss[..|ss| - 1];
      var rest := OverdueCount(init, now);
      assert forall i :: 0 <= i < |init| ==> init[i] == ss[i];
      rest + (if IsOverdue(ss[|ss| - 1], now) then 1 else 0)
  }

  /** As time passes the overdue count never falls: nothing becomes due
      again until its schedule is moved. */
  lemma {:induction false} OverdueCountGrows(ss: seq<Schedule>, now: int, later: int)
    requires now <= later
    ensures OverdueCount(ss, now) <= OverdueCount(ss, later)
    decreases |ss|
  {
    if |ss| > 0 {
      OverdueCountGrows(ss[..|ss| - 1], now, later);
    }
  }

  /** Once every due time has passed, the count is the number of active
      schedules. */
  lemma {:induction false} OverdueCountEventually(ss: seq<Schedule>, now: int)
    requires forall i :: 0 <= i < |ss| ==> ss[i].nextDueAt < now
    ensures OverdueCount(ss, now) == ActiveCount(ss)
    decreases |ss|
  {
    if |ss| > 0 {
      OverdueCountEventually(ss[..|ss| - 1], now);
    }
  }

  function ActiveCount(ss: seq<Schedule>): nat {
    if |ss| == 0 then 0 else ActiveCount(ss[..|ss| - 1]) + (if ss[|ss| - 1].isActive then 1 else 0)
  }

  datatype WoType = Preventive | Corrective | Emergency
  datatype Priority = Low | Medium | High | Critical
  datatype WoStatus = Open | InProgress | WaitingParts | Completed | Cancelled

  /** Costs are whole rials. */
  datatype WorkOrder = WorkOrder(number: string, woType: WoType, priority: Priority, status: WoStatus,
                                 costParts: int, costLabor: int)

  function TotalCost(w: WorkOrder): int {
    w.costParts + w.costLabor
  }

  /** A new work order is open and, with both costs at their default of
      zero, costs nothing. */
  function NewWorkOrder(number: string, woType: WoType, priority: Priority): (w: WorkOrder)
    ensures w.status == Open && TotalCost(w) == 0
    ensures w.number == number && w.woType == woType && w.priority == priority
  {
    WorkOrder(number, woType, priority, Open, 0, 0)
  }

  /** Work orders the dashboard counts as open: open or in progress. */
  predicate Pending(w: WorkOrder) {
    w.status == Open || w.status == InProgress
  }

  function OpenCount(wos: seq<WorkOrder>): (n: nat)
    ensures n <= |wos|
  {
    if |wos| == 0 then 0 else OpenCount(wos[..|wos| - 1]) + (if Pending(wos[|wos| - 1]) then 1 else 0)
  }

  function CompletedCount(wos: seq<WorkOrder>): (n: nat)
    ensures n <= |wos|
  {
    if |wos| == 0 then 0 else CompletedCount(wos[..|wos| - 1]) + (if wos[|wos| - 1].status == Completed then 1 else 0)
  }

  /** `Sum(F('cost_parts') + F('cost_labor'))`: no rows give NULL. */
  function CostSum(wos: seq<WorkOrder>): (r: Option<int>)
    ensures r.None? <==> |wos| == 0
  {
    if |wos| == 0 then None
    else Some(CostSum(wos[..|wos| - 1]).GetOr(0) + TotalCost(wos[|wos| - 1]))
  }

  /** The two cost columns summed on their own. */
  function PartsSum(wos: seq<WorkOrder>): int {
    if |wos| == 0 then 0 else PartsSum(wos[..|wos| - 1]) + wos[|wos| - 1].costParts
  }

  function LaborSum(wos: seq<WorkOrder>): int {
    if |wos| == 0 then 0 else LaborSum(wos[..|wos| - 1]) + wos[|wos| - 1].costLabor
  }

  /** The report's work-order figures: the count, the completed count and
      the cost total. */
  datatype WoStats = WoStats(total: nat, completed: nat, totalCost: Option<int>)

  function Stats(wos: seq<WorkOrder>): (r: WoStats)
    ensures r.total == |wos| && r.completed <= r.total
    ensures r.totalCost.None? <==> r.total == 0
    ensures r.totalCost.Some? ==> r.totalCost.value == PartsSum(wos) + LaborSum(wos)
  {
    CostSumColumns(wos);
    WoStats(|wos|, CompletedCount(wos), CostSum(wos))
  }

  /** Summing the per-order totals is summing each cost column and adding. */
  lemma {:induction false} CostSumColumns(wos: seq<WorkOrder>)
    ensures CostSum(wos).GetOr(0) == PartsSum(wos) + LaborSum(wos)
    decreases |wos|
  {
    if |wos| > 0 {
      CostSumColumns(wos[..|wos| - 1]);
    }
  }

  /** No work order is both open and completed, so the two counts together
      never exceed the total. */
  lemma {:induction false} OpenAndCompletedApart(wos: seq<WorkOrder>)
    ensures OpenCount(wos) + CompletedCount(wos) <= |wos|
    decreases |wos|
  {
    if |wos| > 0 {
      OpenAndCompletedApart(wos[..|wos| - 1]);
    }
  }

  /** Opening a new work order adds one to the open count and nothing to
      the cost total. */
  lemma NewWorkOrderCounted(wos: seq<WorkOrder>, number: string, woType: WoType, priority: Priority)
    ensures var w := NewWorkOrder(number, woType, priority);
      && OpenCount(wos + [w]) == OpenCount(wos) + 1
      && CompletedCount(wos + [w]) == CompletedCount(wos)
      && CostSum(wos + [w]) == Some(CostSum(wos).GetOr(0))
  {
    var w := NewWorkOrder(number, woType, priority);
    assert (wos + [w])[..|wos|] == wos;
  }

  datatype ReasonCategory = Mechanical | Electrical | Material | OperatorReason | Quality | Planned | Other

  function ReasonName(r: ReasonCategory): string {
    match r
    case Mechanical => "mechanical"
    case Electrical => "electrical"
    case Material => "material"
    case OperatorReason => "operator"
    case Quality => "quality"
    case Planned => "planned"
    case Other => "other"
  }

  function ParseReason(s: string): (r: Option<ReasonCategory>)
    ensures r.Some? ==> ReasonName(r.value) == s
    ensures r.None? ==> forall c: ReasonCategory :: ReasonName(c) != s
  {
    if s == "mechanical" then Some(Mechanical)
    else if s == "electrical" then Some(Electrical)
    else if s == "material" then Some(Material)
    else if s == "operator" then Some(OperatorReason)
    else if s == "quality" then Some(Quality)
    else if s == "planned" then Some(Planned)
    else if s == "other" then Some(Other)
    else None
  }
}

=== FILE: numeric.dfy ===
/** Numeric helpers shared by every calculator: Python truthiness of numbers,
    clamps, and `round(x, n)` on exact reals. */
module Numeric {
  import opened Wrappers

  /** The largest values of the unsigned small and regular integer columns
      that Django's positive integer fields become on MySQL; strict mode
      refuses anything outside 0 to these. */
  const UnsignedSmallMax: int := 65535
  const UnsignedIntMax: int := 4294967295

  /** The range of the signed integer and big integer columns on MySQL. */
  const IntColumnMin: int := -2147483648
  const IntColumnMax: int := 2147483647
  const BigIntColumnMin: int := -9223372036854775808
  const BigIntColumnMax: int := 9223372036854775807

  /** An optional integer the signed integer column accepts. */
  predicate FitsIntColumn(x: Option<int>) {
    x.None? || IntColumnMin <= x.value <= IntColumnMax
  }

  /** Python truthiness of an optional number: `None` and `0` are falsy. */
  predicate Truthy(x: Option<real>) {
    x.Some? && x.value != 0.0
  }

  /** Python truthiness of an optional integer. */
  predicate TruthyInt(x: Option<int>) {
    x.Some? && x.value != 0
  }

  /** `x or default` for an optional number. */
  function OrElse(x: Option<real>, default: real): (r: real)
    ensures Truthy(x) ==> r == x.value
    ensures !Truthy(x) ==> r == default
  {
    if Truthy(x) then x.value else default
  }

  /** `x or default` for an optional integer. */
  function OrElseInt(x: Option<int>, default: int): (r: int)
    ensures TruthyInt(x) ==> r == x.value
    ensures !TruthyInt(x) ==> r == default
  {
    if TruthyInt(x) then x.value else default
  }

  function Max(a: real, b: real): real {
    if a >= b then a else b
  }

  function Min(a: real, b: real): real {
    if a <= b then a else b
  }

  /** `max(lo, min(hi, x))`, the clamp the report formulas use. */
  function Clamp(lo: real, hi: real, x: real): (r: real)
    requires lo <= hi
    ensures lo <= r <= hi
    ensures lo <= x <= hi ==> r == x
    ensures x < lo ==> r == lo
    ensures x > hi ==> r == hi
  {
    Max(lo, Min(hi, x))
  }

  function Pow10(n: nat): (r: nat)
    ensures r >= 1
  {
    if n == 0 then 1 else 10 * Pow10(n - 1)
  }

  /** The rounding step of `round(x, places)` is `1/Scale(places)`. */
  function Scale(places: nat): (s: real)
    ensures s >= 1.0
  {
    Pow10(places) as real
  }

  /** The first magnitude a `DECIMAL(digits, places)` column refuses: one
      that rounds to `places` decimals with more than `digits - places`
      integer digits. */
  function DecimalLimit(digits: nat, places: nat): (l: real)
    requires places <= digits
    ensures l > 0.0
  {
    Pow10(digits - places) as real - 0.5 / Scale(places)
  }

  /** A value a `DECIMAL(digits, places)` column accepts in strict mode:
      rounded to `places` decimals (half-up by the database, half-even by
      the driver, which agree at the limit) it keeps at most
      `digits - places` integer digits. */
  predicate FitsDecimal(x: real, digits: nat, places: nat) {
    places <= digits && -DecimalLimit(digits, places) < x < DecimalLimit(digits, places)
  }

  /** The weight and quantity columns, `DECIMAL(12, 3)`, refuse a billion
      kilograms and anything from 999999999.9995 up. */
  lemma {:induction false} DecimalLimitWeight()
    ensures DecimalLimit(12, 3) == 999999999.9995
  {
    assert Pow10(3) == 1000 by {
      assert Pow10(1) == 10;
      assert Pow10(2) == 100;
    }
    assert Pow10(9) == 1000000000 by {
      assert Pow10(6) == 1000 * Pow10(3);
    }
  }

  /** `r` is within half a step `1/10^places` of `x`. */
  predicate WithinHalfStep(r: real, x: real, places: nat) {
    -0.5 <= (r - x) * Scale(places) <= 0.5
  }

  /** The multiple of `1/10^places` nearest to `x`, ties to the even
      multiple: Python's `round(x, places)` applied to the exact value. */
  function RoundTo(x: real, places: nat): (r: real)
    ensures WithinHalfStep(r, x, places)
  {
    RoundAtFacts(x, Scale(places));
    RoundAt(x, Scale(places))
  }

  /** The multiple of `1/s` nearest to `x`, ties to the even multiple. */
  function RoundAt(x: real, s: real): real
    requires s >= 1.0
  {
    RoundHalfEven(x * s) as real / s
  }

  lemma {:induction false} RoundAtFacts(x: real, s: real)
    requires s >= 1.0
    ensures RoundAt(x, s) * s == RoundHalfEven(x * s) as real
    ensures -0.5 <= (RoundAt(x, s) - x) * s <= 0.5
  {
    var k := RoundHalfEven(x * s);
    assert (k as real / s) * s == k as real;
    assert (k as real / s - x) * s == k as real - x * s;
  }

  /** The integer nearest to `y`, ties to the even integer. */
  function RoundHalfEven(y: real): (k: int)
    ensures -0.5 <= k as real - y <= 0.5
  {
    var f := y.Floor;
    var frac := y - f as real;
    if frac < 0.5 then f
    else if frac > 0.5 then f + 1
    else if f % 2 == 0 then f else f + 1
  }

  lemma {:induction false} RoundHalfEvenMonotone(y1: real, y2: real)
    requires y1 <= y2
    ensures RoundHalfEven(y1) <= RoundHalfEven(y2)
  {
  }

  lemma {:induction false} RoundHalfEvenInt(k: int)
    ensures RoundHalfEven(k as real) == k
  {
  }

  lemma {:induction false} RoundAtMonotone(x1: real, x2: real, s: real)
    requires x1 <= x2 && s >= 1.0
    ensures RoundAt(x1, s) <= RoundAt(x2, s)
  {
    assert x1 * s <= x2 * s;
    RoundHalfEvenMonotone(x1 * s, x2 * s);
    RoundAtFacts(x1, s);
    RoundAtFacts(x2, s);
  }

  /** Rounding never reverses the order of two values. */
  lemma {:induction false} RoundToMonotone(x1: real, x2: real, places: nat)
    requires x1 <= x2
    ensures RoundTo(x1, places) <= RoundTo(x2, places)
  {
    RoundAtMonotone(x1, x2, Scale(places));
  }

  /** Whole numbers are fixed points of rounding. */
  lemma {:induction false} RoundToInt(k: int, places: nat)
    ensures RoundTo(k as real, places) == k as real
  {
    RoundAtWhole(k, Pow10(places));
  }

  lemma {:induction false} RoundAtWhole(k: int, n: nat)
    requires n >= 1
    ensures RoundAt(k as real, n as real) == k as real
  {
    var s := n as real;
    var x := k as real;
    var m := n * k;
    assert x * s == m as real;
    RoundHalfEvenInt(m);
    var y := x * s;
    assert RoundHalfEven(y) == m;
    RoundAtFacts(x, s);
    var q := RoundAt(x, s);
    assert q * s == RoundHalfEven(y) as real;
    assert q * s == x * s;
    Cancel(q, x, s);
  }

  lemma {:induction false} Cancel(a: real, b: real, s: real)
    requires s > 0.0 && a * s == b * s
    ensures a == b
  {
    assert (a - b) * s == 0.0;
  }

  /** Rounding keeps a value inside any whole-number interval containing it. */
  lemma {:induction false} RoundToBetween(x: real, lo: int, hi: int, places: nat)
    requires lo as real <= x <= hi as real
    ensures lo as real <= RoundTo(x, places) <= hi as real
  {
    RoundToMonotone(lo as real, x, places);
    RoundToMonotone(x, hi as real, places);
    RoundToInt(lo, places);
    RoundToInt(hi, places);
  }

  /** A value closer than half a step to a multiple of the step rounds to it. */
  lemma {:induction false} RoundToNear(x: real, places: nat, k: int)
    requires -0.5 < k as real - x * Scale(places) < 0.5
    ensures RoundTo(x, places) * Scale(places) == k as real
  {
    var s := Scale(places);
    RoundAtFacts(x, s);
    var j := RoundHalfEven(x * s);
    assert -1.0 < (j - k) as real < 1.0;
  }

  /** A positive quantity is all of itself. */
  lemma WholeShare(t: real)
    requires t > 0.0
    ensures t / t == 1.0
  {
  }

  /** Dividing bounds through by a positive divisor. */
  lemma DivBetween(t: real, n: real, lo: real, hi: real)
    requires n > 0.0 && n * lo <= t <= n * hi
    ensures lo <= t / n <= hi
  {
    var q := t / n;
    assert q * n == t;
    if q < lo {
      MulLess(q, lo, n);
    }
    if q > hi {
      MulLess(hi, q, n);
    }
  }

  lemma MulLess(a: real, b: real, n: real)
    requires a < b && n > 0.0
    ensures a * n < b * n
  {
    assert (b - a) * n > 0.0;
  }

  lemma DivAtLeast(t: real, n: real, lo: real)
    requires n > 0.0 && n * lo <= t
    ensures lo <= t / n
  {
    var q := t / n;
    assert q * n == t;
    if q < lo {
      MulLess(q, lo, n);
    }
  }

  lemma DivAtMost(t: real, n: real, hi: real)
    requires n > 0.0 && t <= n * hi
    ensures t / n <= hi
  {
    var q := t / n;
    assert q * n == t;
    if q > hi {
      MulLess(hi, q, n);
    }
  }

  /** `round(part / whole * 100, 2)` when the whole is positive and the
      part is recorded and non-zero; no figure otherwise. Yields and waste
      shares of the production stages are both computed this way. */
  function Percentage(part: Option<real>, whole: Option<real>): (r: Option<real>)
    ensures r.Some? <==> whole.Some? && whole.value > 0.0 && Truthy(part)
    ensures r.Some? ==> WithinHalfStep(r.value, part.value / whole.value * 100.0, 2)
  {
    if whole.Some? && whole.value > 0.0 && Truthy(part) then Some(RoundTo(part.value / whole.value * 100.0, 2))
    else None
  }

  /** A part of a positive whole, as a percentage rounded to one decimal,
      lies in [0, 100]: 0 for no part, 100 for the whole. */
  lemma RoundedPercent(part: real, whole: real)
    requires whole > 0.0 && 0.0 <= part <= whole
    ensures 0.0 <= RoundTo(part / whole * 100.0, 1) <= 100.0
    ensures part == 0.0 ==> RoundTo(part / whole * 100.0, 1) == 0.0
    ensures part == whole ==> RoundTo(part / whole * 100.0, 1) == 100.0
  {
    DivBetween(part, whole, 0.0, 1.0);
    RoundToBetween(part / whole * 100.0, 0, 100, 1);
    if part == 0.0 {
      RoundToInt(0, 1);
    }
    if part == whole {
      WholeShare(whole);
      RoundToInt(100, 1);
    }
  }
}

=== FILE: oee.dfy ===
/** Overall equipment effectiveness of a ring-spinning machine for one day,
    the per-day time series the analytics expose, and the date handling of
    the OEE endpoints. */
module Oee {
  import opened Wrappers
  import opened Numeric
  import opened Records
  import Core
  import Text
  import Forms

  /** One shift of planned running time. */
  const PlannedMinutes: int := 480

  // ── Availability, performance, quality ───────────────────

  /** The machine's stops that started on `day`. */
  function DayStops(stops: seq<Stop>, machine: int, day: int): (r: seq<Stop>)
    ensures forall s :: s in r <==> s in stops && s.machine == machine && s.day == day
  {
    Filter(stops, (s: Stop) => s.machine == machine && s.day == day)
  }

  function Durations(stops: seq<Stop>): (r: seq<Option<int>>)
    ensures |r| == |stops|
    ensures forall i :: 0 <= i < |stops| ==> r[i] == stops[i].durationMin
  {
    seq(|stops|, i requires 0 <= i < |stops| => stops[i].durationMin)
  }

  /** The day's downtime minutes: `SUM(duration_min) or 0`. */
  function DayDowntime(stops: seq<Stop>, machine: int, day: int): (d: int)
    ensures (forall s :: s in stops ==> s.durationMin.None?) ==> d == 0
  {
    var sel := DayStops(stops, machine, day);
    OrElseInt(SqlSum(Durations(sel)), 0)
  }

  /** Running time left of the planned shift, as a percentage, never
      negative. */
  function Availability(downtime: int): (a: real)
    ensures 0.0 <= a
    ensures downtime >= 0 ==> a <= 100.0
    ensures downtime == 0 ==> a == 100.0
    ensures downtime >= PlannedMinutes ==> a == 0.0
  {
    Max(0.0, ((PlannedMinutes - downtime) as real / PlannedMinutes as real) * 100.0)
  }

  /** More downtime never raises availability, and inside the shift every
      minute of downtime costs the same 100/480 points. */
  lemma AvailabilityNonIncreasing(d1: int, d2: int)
    requires d1 <= d2
    ensures Availability(d2) <= Availability(d1)
    ensures d2 <= PlannedMinutes ==>
      Availability(d1) - Availability(d2) == (d2 - d1) as real * 100.0 / PlannedMinutes as real
  {
  }

  /** Breakages per thousand spindles. */
  function BreakageRate(breakage: int, spindles: int): real
    requires spindles != 0
  {
    (breakage as real / spindles as real) * 1000.0
  }

  /** Each breakage per thousand spindles costs one point, within [0, 100]. */
  function Quality(rate: real): (q: real)
    ensures 0.0 <= q <= 100.0
    ensures rate <= 0.0 ==> q == 100.0
    ensures rate >= 100.0 ==> q == 0.0
    ensures 0.0 <= rate <= 100.0 ==> q + rate == 100.0
  {
    Clamp(0.0, 100.0, 100.0 - rate)
  }

  lemma QualityNonIncreasing(r1: real, r2: real)
    requires r1 <= r2
    ensures Quality(r2) <= Quality(r1)
  {
  }

  /** The product of the three percentages, as a percentage. */
  function OeeOf(a: real, p: real, q: real): real {
    (a * p * q) / 10000.0
  }

  /** With every factor in [0, 100] the OEE is in [0, 100]; a zero factor
      makes it zero. */
  lemma OeeBounds(a: real, p: real, q: real)
    requires 0.0 <= a <= 100.0 && 0.0 <= p <= 100.0 && 0.0 <= q <= 100.0
    ensures 0.0 <= OeeOf(a, p, q) <= 100.0
    ensures a == 0.0 || p == 0.0 || q == 0.0 ==> OeeOf(a, p, q) == 0.0
  {
    OeeWithin(a, p, q);
    if a == 0.0 || p == 0.0 || q == 0.0 {
      OeeZero(a, p, q);
    }
  }

  lemma OeeWithin(a: real, p: real, q: real)
    requires 0.0 <= a <= 100.0 && 0.0 <= p <= 100.0 && 0.0 <= q <= 100.0
    ensures 0.0 <= OeeOf(a, p, q) <= 100.0
  {
    var ap := a * p;
    MulBounds(a, p, 100.0, 100.0);
    MulBounds(ap, q, 10000.0, 100.0);
    assert OeeOf(a, p, q) == ap * q / 10000.0;
  }

  lemma OeeZero(a: real, p: real, q: real)
    requires a == 0.0 || p == 0.0 || q == 0.0
    ensures OeeOf(a, p, q) == 0.0
  {
    var ap := a * p;
    if q != 0.0 {
      assert ap == 0.0;
    }
    assert ap * q == 0.0;
  }

  /** Bounds multiply for non-negative factors. */
  lemma MulBounds(x: real, y: real, hx: real, hy: real)
    requires 0.0 <= x <= hx && 0.0 <= y <= hy
    ensures 0.0 <= x * y <= hx * hy
  {
    assert (hx - x) * y >= 0.0;
    assert hx * (hy - y) >= 0.0;
  }

  // ── calculate_oee ────────────────────────────────────────

  /** The machine's completed spinning records of `day`. */
  function DayBatches(batches: seq<SpinningBatch>, machine: int, day: int): (r: seq<SpinningBatch>)
    ensures forall b :: b in r <==> b in batches && b.machine == machine && b.day == day && b.status == Core.Completed
  {
    Filter(batches, (b: SpinningBatch) => b.machine == machine && b.day == day && b.status == Core.Completed)
  }

  function Efficiencies(bs: seq<SpinningBatch>): (r: seq<Option<real>>)
    ensures |r| == |bs|
    ensures forall i :: 0 <= i < |bs| ==> r[i] == bs[i].efficiency
  {
    seq(|bs|, i requires 0 <= i < |bs| => bs[i].efficiency)
  }

  function Breakages(bs: seq<SpinningBatch>): (r: seq<Option<int>>)
    ensures |r| == |bs|
  {
    seq(|bs|, i requires 0 <= i < |bs| => bs[i].breakage)
  }

  function Spindles(bs: seq<SpinningBatch>): (r: seq<Option<int>>)
    ensures |r| == |bs|
  {
    seq(|bs|, i requires 0 <= i < |bs| => bs[i].spindlesActive)
  }

  datatype OeeReport = OeeReport(
    machine: int,
    day: int,
    availability: real,
    performance: real,
    quality: real,
    oee: real,
    downtimeMin: int,
    breakageRate: real,
    batchCount: nat)

  /** No recorded stop has a negative duration. */
  predicate DurationsNonNegative(stops: seq<Stop>) {
    forall s :: s in stops && s.durationMin.Some? ==> s.durationMin.value >= 0
  }

  /** Every recorded efficiency is a percentage. */
  predicate EfficienciesArePercent(batches: seq<SpinningBatch>) {
    forall b :: b in batches && b.efficiency.Some? ==> 0.0 <= b.efficiency.value <= 100.0
  }

  /** The day's OEE report: availability from the downtime minutes,
      performance the mean efficiency of the completed records (0 without
      one), quality from the breakage rate with the spindle total taken as 1
      when zero or absent, all rounded for display. */
  function Calculate(stops: seq<Stop>, batches: seq<SpinningBatch>, machine: int, day: int): (r: OeeReport)
    ensures r.machine == machine && r.day == day
  {
    var downtime := DayDowntime(stops, machine, day);
    var sel := DayBatches(batches, machine, day);
    var performance := OrElse(SqlAvg(Efficiencies(sel)), 0.0);
    var rate := BreakageRate(OrElseInt(SqlSum(Breakages(sel)), 0), OrElseInt(SqlSum(Spindles(sel)), 1));
    var availability, quality := Availability(downtime), Quality(rate);
    OeeReport(machine, day, RoundTo(availability, 2), RoundTo(performance, 2), RoundTo(quality, 2),
              RoundTo(OeeOf(availability, performance, quality), 2), downtime, RoundTo(rate, 1), |sel|)
  }

  /** What a day's report promises: availability is the downtime's,
      rounded; quality is a percentage; a day without completed records has
      zero performance and zero OEE; and with non-negative durations and
      efficiencies that are percentages, every figure is a percentage. */
  lemma CalculateBounds(stops: seq<Stop>, batches: seq<SpinningBatch>, machine: int, day: int)
    ensures var r := Calculate(stops, batches, machine, day);
      && r.downtimeMin == DayDowntime(stops, machine, day)
      && r.batchCount == |DayBatches(batches, machine, day)|
      && WithinHalfStep(r.availability, Availability(r.downtimeMin), 2)
      && 0.0 <= r.quality <= 100.0
      && (r.batchCount == 0 ==> r.performance == 0.0 && r.oee == 0.0)
      && (DurationsNonNegative(stops) ==> 0.0 <= r.availability <= 100.0)
      && (DurationsNonNegative(stops) && EfficienciesArePercent(batches) ==>
            0.0 <= r.performance <= 100.0 && 0.0 <= r.oee <= 100.0)
  {
    var downtime := DayDowntime(stops, machine, day);
    var sel := DayBatches(batches, machine, day);
    var performance := OrElse(SqlAvg(Efficiencies(sel)), 0.0);
    var rate := BreakageRate(OrElseInt(SqlSum(Breakages(sel)), 0), OrElseInt(SqlSum(Spindles(sel)), 1));
    CalculateFacts(stops, batches, machine, day, Quality(rate));
  }

  /** The bounds `Calculate` promises, before and after rounding. */
  lemma CalculateFacts(stops: seq<Stop>, batches: seq<SpinningBatch>, machine: int, day: int, quality: real)
    requires 0.0 <= quality <= 100.0
    ensures 0.0 <= RoundTo(quality, 2) <= 100.0
    ensures var sel := DayBatches(batches, machine, day);
      var availability := Availability(DayDowntime(stops, machine, day));
      var performance := OrElse(SqlAvg(Efficiencies(sel)), 0.0);
      && (|sel| == 0 ==> RoundTo(performance, 2) == 0.0 && RoundTo(OeeOf(availability, performance, quality), 2) == 0.0)
      && (DurationsNonNegative(stops) ==> 0.0 <= RoundTo(availability, 2) <= 100.0)
      && (DurationsNonNegative(stops) && EfficienciesArePercent(batches) ==>
            0.0 <= RoundTo(performance, 2) <= 100.0 && 0.0 <= RoundTo(OeeOf(availability, performance, quality), 2) <= 100.0)
  {
    var sel := DayBatches(batches, machine, day);
    var availability := Availability(DayDowntime(stops, machine, day));
    var performance := OrElse(SqlAvg(Efficiencies(sel)), 0.0);
    RoundToBetween(quality, 0, 100, 2);
    if |sel| == 0 {
      assert SqlAvg(Efficiencies(sel)).None?;
      assert OeeOf(availability, performance, quality) == 0.0;
      RoundToInt(0, 2);
    }
    if DurationsNonNegative(stops) {
      DowntimeNonNegative(stops, machine, day);
      RoundToBetween(availability, 0, 100, 2);
      if EfficienciesArePercent(batches) {
        var effs := Efficiencies(sel);
        forall i | 0 <= i < |effs| && effs[i].Some?
          ensures 0.0 <= effs[i].value <= 100.0
        {
          assert sel[i] in sel;
        }
        AvgBetween(effs, 0.0, 100.0);
        RoundToBetween(performance, 0, 100, 2);
        OeeBounds(availability, performance, quality);
        RoundToBetween(OeeOf(availability, performance, quality), 0, 100, 2);
      }
    }
  }

  lemma {:induction false} SqlSumNonNegative(xs: seq<Option<int>>)
    requires forall i :: 0 <= i < |xs| && xs[i].Some? ==> xs[i].value >= 0
    ensures SqlSum(xs).Some? ==> SqlSum(xs).value >= 0
    decreases |xs|
  {
    if |xs| > 0 {
      SqlSumNonNegative(xs[..|xs| - 1]);
    }
  }

  lemma DowntimeNonNegative(stops: seq<Stop>, machine: int, day: int)
    requires DurationsNonNegative(stops)
    ensures DayDowntime(stops, machine, day) >= 0
  {
    var sel := DayStops(stops, machine, day);
    var ds := Durations(sel);
    forall i | 0 <= i < |ds| && ds[i].Some?
      ensures ds[i].value >= 0
    {
      assert sel[i] in sel;
    }
    SqlSumNonNegative(ds);
  }

  /** A day with no stop of the machine has full availability. */
  lemma NoStopFullAvailability(stops: seq<Stop>, batches: seq<SpinningBatch>, machine: int, day: int)
    requires forall s :: s in stops ==> s.machine != machine || s.day != day
    ensures Calculate(stops, batches, machine, day).availability == 100.0
  {
    var sel := DayStops(stops, machine, day);
    FilterNone(stops, (s: Stop) => s.machine == machine && s.day == day);
    RoundToInt(100, 2);
  }

  // ── Time series ──────────────────────────────────────────

  datatype Metric = OutputWeight | EfficiencyPct | BreakageCount

  function MetricName(m: Metric): string {
    match m
    case OutputWeight => "output_weight"
    case EfficiencyPct => "efficiency_pct"
    case BreakageCount => "breakage_count"
  }

  /** The `metric` query parameter: a name outside the allow-list, or none,
      becomes `output_weight`. */
  function ParseMetric(param: Option<string>): (m: Metric)
    ensures param.Some? && param.value == "efficiency_pct" ==> m == EfficiencyPct
    ensures param.Some? && param.value == "breakage_count" ==> m == BreakageCount
    ensures param.None? || param.value !in {"efficiency_pct", "breakage_count"} ==> m == OutputWeight
  {
    match param
    case Some("efficiency_pct") => EfficiencyPct
    case Some("breakage_count") => BreakageCount
    case _ => OutputWeight
  }

  /** Every metric survives being named and read back. */
  lemma MetricRoundTrip(m: Metric)
    ensures ParseMetric(Some(MetricName(m))) == m
  {
  }

  function MetricOf(b: SpinningBatch, m: Metric): Option<real> {
    match m
    case OutputWeight => b.outputWeight
    case EfficiencyPct => b.efficiency
    case BreakageCount => if b.breakage.Some? then Some(b.breakage.value as real) else None
  }

  datatype Point = Point(day: int, value: real)

  predicate HasDay(sel: seq<SpinningBatch>, d: int) {
    exists i :: 0 <= i < |sel| && sel[i].day == d
  }

  function MetricCells(sel: seq<SpinningBatch>, d: int, m: Metric): (r: seq<Option<real>>)
    ensures forall v :: v in r ==> exists b :: b in sel && b.day == d && v == MetricOf(b, m)
    ensures forall i :: 0 <= i < |sel| && sel[i].day == d ==> MetricOf(sel[i], m) in r
  {
    if |sel| == 0 then []
    else
      var last := sel[|sel| - 1];
      MetricCells(sel[..|sel| - 1], d, m) + (if last.day == d then [MetricOf(last, m)] else [])
  }

  /** One day's value: the mean efficiency, or the sum of the other metric;
      a day whose cells are all `NULL` shows 0. */
  function DayValue(sel: seq<SpinningBatch>, d: int, m: Metric): real {
    var cells := MetricCells(sel, d, m);
    if m == EfficiencyPct then OrElse(SqlAvg(cells), 0.0) else OrElse(SqlSumReal(cells), 0.0)
  }

  /** The average efficiency of a day stays inside the range of the day's
      efficiencies. */
  lemma EfficiencyPointBetween(sel: seq<SpinningBatch>, d: int, lo: real, hi: real)
    requires lo <= 0.0 <= hi
    requires forall b :: b in sel && b.efficiency.Some? ==> lo <= b.efficiency.value <= hi
    ensures lo <= DayValue(sel, d, EfficiencyPct) <= hi
  {
    var cells := MetricCells(sel, d, EfficiencyPct);
    forall i | 0 <= i < |cells| && cells[i].Some?
      ensures lo <= cells[i].value <= hi
    {
      assert cells[i] in cells;
    }
    AvgBetween(cells, lo, hi);
  }

  /** The dates in `d..end` that have records, ascending (the `GROUP BY`
      date, `ORDER BY` date of the query). */
  function RecordDays(sel: seq<SpinningBatch>, d: int, end: int): (r: seq<int>)
    ensures forall i :: 0 <= i < |r| ==> d <= r[i] <= end && HasDay(sel, r[i])
    ensures forall i, j :: 0 <= i < j < |r| ==> r[i] < r[j]
    decreases end - d
  {
    if d > end then []
    else
      var rest := RecordDays(sel, d + 1, end);
      if HasDay(sel, d) then [d] + rest else rest
  }

  /** Every record dated inside `d..end` has its date listed. */
  lemma {:induction false} RecordDaysComplete(sel: seq<SpinningBatch>, d: int, end: int, k: int)
    requires 0 <= k < |sel| && d <= sel[k].day <= end
    ensures sel[k].day in RecordDays(sel, d, end)
    decreases end - d
  {
    if sel[k].day == d {
      assert HasDay(sel, d);
    } else {
      RecordDaysComplete(sel, d + 1, end, k);
    }
  }

  function LastDay(sel: seq<SpinningBatch>, start: int): (e: int)
    ensures forall k :: 0 <= k < |sel| ==> sel[k].day <= e
  {
    if |sel| == 0 then start
    else
      var e := LastDay(sel[..|sel| - 1], start);
      var last := sel[|sel| - 1].day;
      if last > e then last else e
  }

  /** The machine's completed records dated on or after `start`. */
  function SeriesRecords(batches: seq<SpinningBatch>, machine: int, start: int): (r: seq<SpinningBatch>)
    ensures forall b :: b in r <==> b in batches && b.machine == machine && b.day >= start && b.status == Core.Completed
  {
    Filter(batches, (b: SpinningBatch) => b.machine == machine && b.day >= start && b.status == Core.Completed)
  }

  /** The per-date series of the machine's completed records dated on or
      after `start` (today minus the requested days). */
  function TimeSeries(batches: seq<SpinningBatch>, machine: int, start: int, m: Metric): (r: seq<Point>)
    ensures forall i, j :: 0 <= i < j < |r| ==> r[i].day < r[j].day
  {
    var sel := SeriesRecords(batches, machine, start);
    Points(sel, RecordDays(sel, start, LastDay(sel, start)), m)
  }

  /** Every point is a date on or after `start` on which the machine has a
      completed record, and carries that date's value. */
  lemma TimeSeriesSound(batches: seq<SpinningBatch>, machine: int, start: int, m: Metric)
    ensures var r := TimeSeries(batches, machine, start, m);
      forall i :: 0 <= i < |r| ==>
        r[i].day >= start && CompletedOn(batches, machine, r[i].day)
        && r[i].value == DayValue(SeriesRecords(batches, machine, start), r[i].day, m)
  {
    SeriesDays(batches, machine, start);
  }

  /** Every completed record of the machine dated on or after `start` has
      its date in the series. */
  lemma TimeSeriesComplete(batches: seq<SpinningBatch>, machine: int, start: int, m: Metric, b: SpinningBatch)
    requires b in batches && b.machine == machine && b.status == Core.Completed && b.day >= start
    ensures exists i :: 0 <= i < |TimeSeries(batches, machine, start, m)| && TimeSeries(batches, machine, start, m)[i].day == b.day
  {
    var sel := SeriesRecords(batches, machine, start);
    var ds := RecordDays(sel, start, LastDay(sel, start));
    SeriesDays(batches, machine, start);
    var i :| 0 <= i < |ds| && ds[i] == b.day;
    assert TimeSeries(batches, machine, start, m)[i].day == b.day;
  }

  /** Each listed date with its value. */
  function Points(sel: seq<SpinningBatch>, ds: seq<int>, m: Metric): (r: seq<Point>)
    ensures |r| == |ds|
    ensures forall i :: 0 <= i < |ds| ==> r[i].day == ds[i] && r[i].value == DayValue(sel, ds[i], m)
  {
    seq(|ds|, i requires 0 <= i < |ds| => Point(ds[i], DayValue(sel, ds[i], m)))
  }

  /** The machine has a completed record dated `d`. */
  predicate CompletedOn(batches: seq<SpinningBatch>, machine: int, d: int) {
    exists b :: b in batches && b.machine == machine && b.status == Core.Completed && b.day == d
  }

  /** The listed dates are exactly the dates of the selected records. */
  lemma SeriesDays(batches: seq<SpinningBatch>, machine: int, start: int)
    ensures var sel := SeriesRecords(batches, machine, start);
      var ds := RecordDays(sel, start, LastDay(sel, start));
      && (forall i :: 0 <= i < |ds| ==> ds[i] >= start && CompletedOn(batches, machine, ds[i]))
      && (forall b :: b in batches && b.machine == machine && b.status == Core.Completed && b.day >= start ==>
            b.day in ds)
  {
    var sel := SeriesRecords(batches, machine, start);
    var ds := RecordDays(sel, start, LastDay(sel, start));
    forall i | 0 <= i < |ds|
      ensures CompletedOn(batches, machine, ds[i])
    {
      assert HasDay(sel, ds[i]);
      var k :| 0 <= k < |sel| && sel[k].day == ds[i];
      assert sel[k] in sel;
    }
    forall b | b in batches && b.machine == machine && b.status == Core.Completed && b.day >= start
      ensures b.day in ds
    {
      assert b in sel;
      var k :| 0 <= k < |sel| && sel[k] == b;
      RecordDaysComplete(sel, start, LastDay(sel, start), k);
    }
  }

  // ── Endpoints ────────────────────────────────────────────

  /** The `date` parameter of the OEE endpoint. `parsed` is its ISO reading,
      `None` when it does not parse; a missing, blank or unreadable date
      means today. */
  function RequestedDay(param: Option<string>, parsed: Option<int>, today: int): (d: int)
    ensures param.None? || param.value == "" || parsed.None? ==> d == today
    ensures d == today || (param.Some? && param.value != "" && parsed == Some(d))
  {
    if param.Some? && param.value != "" && parsed.Some? then parsed.value else today
  }

  /** A `days` query parameter: the default when absent, `int()` of it
      otherwise; `None` stands for the server error an unreadable number
      raises. */
  function DaysParam(param: Option<string>, default: int): (r: Option<int>)
    ensures param.None? ==> r == Some(default)
    ensures param.Some? && |Text.Strip(param.value)| >= 1 && Text.AllDigits(Text.Strip(param.value)) ==>
      r == Some(Text.DigitsValue(Text.Strip(param.value)))
  {
    match param
    case None => Some(default)
    case Some(s) => Forms.ParseInt(Text.Strip(s))
  }

  /** The OEE range endpoint: exactly `days` daily reports (none for a
      non-positive count), oldest first, ending today. */
  function OeeRange(stops: seq<Stop>, batches: seq<SpinningBatch>, machine: int, today: int, days: int): (r: seq<OeeReport>)
    ensures |r| == if days > 0 then days else 0
    ensures forall i :: 0 <= i < |r| ==> r[i].day == today - (|r| - 1 - i)
    ensures forall i :: 0 <= i < |r| ==> r[i] == Calculate(stops, batches, machine, r[i].day)
    ensures |r| > 0 ==> r[|r| - 1].day == today
    ensures forall i, j :: 0 <= i < j < |r| ==> r[i].day < r[j].day
  {
    DailyReports(stops, batches, machine, today, if days > 0 then days else 0)
  }

  /** The reports of the `n` days ending today, oldest first. */
  function DailyReports(stops: seq<Stop>, batches: seq<SpinningBatch>, machine: int, today: int, n: nat): (r: seq<OeeReport>)
    ensures |r| == n
    ensures forall i :: 0 <= i < n ==> r[i].day == today - (n - 1 - i)
    ensures forall i :: 0 <= i < n ==> r[i] == Calculate(stops, batches, machine, r[i].day)
  {
    Each(Window(today, n), (d: int) => Calculate(stops, batches, machine, d))
  }

  /** The `n` days ending with `today`, oldest first. */
  function Window(today: int, n: nat): (ds: seq<int>)
    ensures |ds| == n && forall i :: 0 <= i < n ==> ds[i] == today - (n - 1 - i)
  {
    seq(n, i requires 0 <= i < n => today - (n - 1 - i))
  }
}

=== FILE: orders.dfy ===
/** Customer orders: the status vocabulary, the status-change view with its
    production guard and progress table, cancellation, the edit guard, the
    customer deactivation guard, overdue orders and display strings. The
    stored status is a plain string: the edit form writes the posted value
    without checking it. */
module Orders {
  import opened Wrappers
  import opened Text
  import opened Forms
  import opened BatchIds
  import Numeric

  datatype OrderStatus =
    | Draft | SampleSent | CustomerApproved | Confirmed | InProduction
    | QualityCheck | Ready | Delivered | Cancelled

  function StatusName(s: OrderStatus): string {
    match s
    case Draft => "draft"
    case SampleSent => "sample_sent"
    case CustomerApproved => "customer_approved"
    case Confirmed => "confirmed"
    case InProduction => "in_production"
    case QualityCheck => "quality_check"
    case Ready => "ready"
    case Delivered => "delivered"
    case Cancelled => "cancelled"
  }

  const StatusNames: set<string> :=
    {"draft", "sample_sent", "customer_approved", "confirmed", "in_production",
     "quality_check", "ready", "delivered", "cancelled"}

  lemma StatusNamesComplete(s: OrderStatus)
    ensures StatusName(s) in StatusNames
  {
  }

  /** An order row with the columns the edit form writes. Dates are day
      numbers. */
  datatype Order = Order(
    number: string, customer: string, yarnType: string, yarnCount: string,
    quantityKg: real, deliveryDate: Option<int>, priority: string,
    status: string, progress: int, notes: string)

  /** A new order: the next order number of the day, draft, no progress. */
  function NewOrder(bucket: string, existing: seq<string>, customer: string, quantityKg: real,
                    deliveryDate: Option<int>, priority: string): (o: Order)
    ensures o.status == StatusName(Draft) && o.progress == 0
    ensures StartsWith(o.number, "ORD-" + bucket + "-") && o.number !in existing
    ensures o.customer == customer && o.quantityKg == quantityKg && o.deliveryDate == deliveryDate
  {
    Order(NextOrderNumber(bucket, existing), customer, "", "", quantityKg, deliveryDate, priority, "draft", 0, "")
  }

  /** Why a change is refused. `MissingField` is a required form key that is
      absent, `BadProgress` a progress that is not an integer, and
      `NotStored` a row the database refuses to save. */
  datatype OrderError =
    | InvalidStatus | NeedsApproval | InProductionNow | NotEditable
    | MissingField | BadProgress | NotStored

  /** The progress the status-change view sets, as written: a table keyed
      partly by names the status list no longer has (`shade_sent`,
      `shade_approved`); other statuses keep the current progress. */
  function ProgressAsWritten(status: string, current: int): (p: int)
    ensures status in StatusNames && status != "sample_sent" && status != "customer_approved" ==>
      p == Progress(status, current)
    ensures status == "sample_sent" || status == "customer_approved" ==> p == current
  {
    if status == "draft" then 0
    else if status == "shade_sent" then 5
    else if status == "shade_approved" then 10
    else if status == "confirmed" then 15
    else if status == "quality_check" then 90
    else if status == "ready" then 95
    else if status == "delivered" then 100
    else current
  }

  /** The status change as written: an unknown status is refused; moving to
      `in_production` needs the order to be `confirmed` or `shade_approved`,
      a name not in the status list; otherwise the status is set and,
      except for `in_production`, the progress comes from the table. */
  function ChangeStatusAsWritten(o: Order, posted: Option<string>): (r: Result<Order, OrderError>)
    ensures posted.None? || posted.value !in StatusNames ==> r == Err(InvalidStatus)
    ensures r == Err(NeedsApproval) <==>
      posted == Some("in_production") && o.status != "confirmed" && o.status != "shade_approved"
    ensures r.Ok? ==>
      r.value.status == posted.value && r.value.number == o.number && r.value.deliveryDate == o.deliveryDate
    ensures r.Ok? && posted.value == "in_production" ==> r.value.progress == o.progress
    ensures r.Ok? && posted.value != "in_production" ==> r.value.progress == ProgressAsWritten(posted.value, o.progress)
  {
    if posted.None? || posted.value !in StatusNames then Err(InvalidStatus)
    else if posted.value == "in_production" && o.status != "confirmed" && o.status != "shade_approved" then Err(NeedsApproval)
    else if posted.value == "in_production" then Ok(o.(status := posted.value))
    else Ok(o.(status := posted.value, progress := ProgressAsWritten(posted.value, o.progress)))
  }

  /** An order the customer has approved cannot be put into production,
      although the refusal asks for exactly that approval. */
  lemma ApprovedOrderRefused(o: Order)
    requires o.status == "customer_approved"
    ensures ChangeStatusAsWritten(o, Some("in_production")) == Err(NeedsApproval)
    ensures ChangeStatus(o, Some("in_production")).Ok?
  {
  }

  /** The progress table with the current status names. */
  function Progress(status: string, current: int): (p: int)
    ensures status == "draft" ==> p == 0
    ensures status == "sample_sent" ==> p == 5
    ensures status == "customer_approved" ==> p == 10
    ensures status == "confirmed" ==> p == 15
    ensures status == "quality_check" ==> p == 90
    ensures status == "ready" ==> p == 95
    ensures status == "delivered" ==> p == 100
    ensures status !in {"draft", "sample_sent", "customer_approved", "confirmed", "quality_check", "ready", "delivered"} ==>
      p == current
  {
    if status == "draft" then 0
    else if status == "sample_sent" then 5
    else if status == "customer_approved" then 10
    else if status == "confirmed" then 15
    else if status == "quality_check" then 90
    else if status == "ready" then 95
    else if status == "delivered" then 100
    else current
  }

  /** The status change as intended: production may start from a confirmed
      or customer-approved order. */
  function ChangeStatus(o: Order, posted: Option<string>): (r: Result<Order, OrderError>)
    ensures posted.None? || posted.value !in StatusNames ==> r == Err(InvalidStatus)
    ensures r == Err(NeedsApproval) <==>
      posted == Some("in_production") && o.status != "confirmed" && o.status != "customer_approved"
    ensures r.Ok? ==>
      r.value.status == posted.value && r.value.number == o.number && r.value.deliveryDate == o.deliveryDate
    ensures r.Ok? && posted.value == "in_production" ==> r.value.progress == o.progress
    ensures r.Ok? && posted.value != "in_production" ==> r.value.progress == Progress(posted.value, o.progress)
  {
    if posted.None? || posted.value !in StatusNames then Err(InvalidStatus)
    else if posted.value == "in_production" && o.status != "confirmed" && o.status != "customer_approved" then Err(NeedsApproval)
    else if posted.value == "in_production" then Ok(o.(status := posted.value))
    else Ok(o.(status := posted.value, progress := Progress(posted.value, o.progress)))
  }

  /** Every status change the written version allows from a status in the
      list is also allowed by the corrected one, with the same status. */
  lemma CorrectedAllowsMore(o: Order, posted: Option<string>)
    requires o.status in StatusNames
    ensures ChangeStatusAsWritten(o, posted).Ok? ==>
      ChangeStatus(o, posted).Ok? &&
      ChangeStatus(o, posted).value.status == ChangeStatusAsWritten(o, posted).value.status
  {
  }

  /** Cancellation is refused while the order is in production. */
  function Cancel(o: Order): (r: Result<Order, OrderError>)
    ensures r.Err? <==> o.status == "in_production"
    ensures r.Ok? ==> r.value == o.(status := "cancelled")
  {
    if o.status == "in_production" then Err(InProductionNow) else Ok(o.(status := "cancelled"))
  }

  /** The status-change view cancels an order in production, which the
      cancel view refuses. */
  lemma CancelBypass(o: Order)
    requires o.status == "in_production"
    ensures Cancel(o).Err?
    ensures ChangeStatus(o, Some("cancelled")).Ok? && ChangeStatus(o, Some("cancelled")).value.status == "cancelled"
    ensures ChangeStatusAsWritten(o, Some("cancelled")).Ok?
  {
  }

  predicate Editable(o: Order) {
    o.status != "delivered" && o.status != "cancelled"
  }

  /** The largest progress the non-negative small integer column holds. */
  const ProgressColumnMax: int := Numeric.UnsignedSmallMax

  /** The lengths of the character columns the edit form writes; strict
      mode refuses a longer value instead of cutting it. */
  const StatusColumnMax: nat := 20
  const PriorityColumnMax: nat := 10
  const YarnTypeColumnMax: nat := 100
  const YarnCountColumnMax: nat := 50

  /** A row the database accepts: every character column within its length
      and the progress within the unsigned small integer. */
  predicate Storable(o: Order) {
    |o.status| <= StatusColumnMax && |o.priority| <= PriorityColumnMax
    && |o.yarnType| <= YarnTypeColumnMax && |o.yarnCount| <= YarnCountColumnMax
    && 0 <= o.progress <= ProgressColumnMax
  }

  /** The posted delivery date: missing or empty, a readable day, or text
      the date column cannot read. */
  datatype PostedDate = NoDate | OnDay(day: int) | UnreadableDate

  /** The fields of the edit form as posted; `None` is a missing key. */
  datatype EditForm = EditForm(
    customer: Option<string>, yarnType: Option<string>, yarnCount: Option<string>,
    quantity: Option<string>, deliveryDate: PostedDate, priority: Option<string>,
    status: Option<string>, progress: Option<string>, notes: Option<string>)

  /** The day the date column receives: an empty or missing date clears it. */
  function PostedDay(d: PostedDate): (r: Option<int>)
    ensures r.Some? <==> d.OnDay?
    ensures d.OnDay? ==> r.value == d.day
  {
    match d
    case OnDay(day) => Some(day)
    case _ => None
  }

  /** The progress the form asks for: the posted integer, or the current
      progress when none is posted; `None` when the posted text is not an
      integer. */
  function PostedProgress(o: Order, f: EditForm): (r: Option<int>)
    ensures f.progress.None? ==> r == Some(o.progress)
    ensures f.progress.Some? ==> r == ParseInt(Strip(f.progress.value))
  {
    if f.progress.None? then Some(o.progress) else ParseInt(Strip(f.progress.value))
  }

  /** The status the form asks for: the posted text, or the current status. */
  function PostedStatus(o: Order, f: EditForm): string {
    f.status.GetOr(o.status)
  }

  /** The edit form: delivered and cancelled orders are refused; a missing
      customer or quantity key is refused, and so is a progress that is not
      an integer; then the customer, yarn, quantity, date, priority, status,
      progress and notes are overwritten and the row is saved, which fails
      for an unknown customer, a quantity that is not a number, an
      unreadable date, or a value that does not fit its column. The status
      is the posted text unchecked. */
  function Edit(o: Order, f: EditForm, customers: set<string>): (r: Result<Order, OrderError>)
    ensures !Editable(o) ==> r == Err(NotEditable)
    ensures r.Ok? ==> Editable(o)
    ensures Editable(o) && (f.customer.None? || f.quantity.None?) ==> r == Err(MissingField)
    ensures (Editable(o) && f.customer.Some? && f.quantity.Some? && f.progress.Some?
             && ParseInt(Strip(f.progress.value)).None?) ==> r == Err(BadProgress)
    ensures f.status.Some? && |f.status.value| > StatusColumnMax ==> r.Err?
    ensures r.Ok? ==> Storable(r.value) && r.value.number == o.number
    ensures r.Ok? ==> r.value.customer == f.customer.value && r.value.customer in customers
    ensures r.Ok? ==> Some(r.value.quantityKg) == ParseDecimal(Strip(f.quantity.value))
    ensures r.Ok? ==> r.value.deliveryDate == PostedDay(f.deliveryDate)
    ensures r.Ok? ==> r.value.status == (if f.status.Some? then f.status.value else o.status)
    ensures r.Ok? ==> r.value.priority == (if f.priority.Some? then f.priority.value else "normal")
    ensures r.Ok? && f.progress.None? ==> r.value.progress == o.progress
    ensures r.Ok? && f.progress.Some? ==> Some(r.value.progress) == ParseInt(Strip(f.progress.value))
    ensures r.Ok? ==> 0 <= r.value.progress <= ProgressColumnMax
  {
    if !Editable(o) then Err(NotEditable)
    else if f.customer.None? || f.quantity.None? then Err(MissingField)
    else if PostedProgress(o, f).None? then Err(BadProgress)
    else
      var q := SafeDecimal(f.quantity, None);
      if q.None? || f.deliveryDate.UnreadableDate? || f.customer.value !in customers then Err(NotStored)
      else
        var e := Overwrite(o, f, f.customer.value, q.value, PostedProgress(o, f).value);
        if Storable(e) then Ok(e) else Err(NotStored)
  }

  /** The character columns the form writes all fit their lengths. */
  predicate FitsColumns(o: Order, f: EditForm) {
    && |Strip(f.yarnType.GetOr(""))| <= YarnTypeColumnMax
    && |Strip(f.yarnCount.GetOr(""))| <= YarnCountColumnMax
    && |f.priority.GetOr("normal")| <= PriorityColumnMax
    && |PostedStatus(o, f)| <= StatusColumnMax
  }

  /** The order after the form's fields are assigned and before the save. */
  function Overwrite(o: Order, f: EditForm, customer: string, quantity: real, progress: int): (e: Order)
    ensures e.number == o.number && e.customer == customer && e.quantityKg == quantity
    ensures e.deliveryDate == PostedDay(f.deliveryDate) && e.progress == progress
    ensures e.status == PostedStatus(o, f) && e.priority == f.priority.GetOr("normal")
    ensures Storable(e) <==> FitsColumns(o, f) && 0 <= progress <= ProgressColumnMax
  {
    o.(customer := customer,
       yarnType := Strip(f.yarnType.GetOr("")), yarnCount := Strip(f.yarnCount.GetOr("")),
       quantityKg := quantity, deliveryDate := PostedDay(f.deliveryDate),
       priority := f.priority.GetOr("normal"), status := PostedStatus(o, f),
       progress := progress, notes := Strip(f.notes.GetOr("")))
  }

  /** A posted progress the column can store. */
  predicate StorableProgress(progress: Option<string>) {
    progress.None? || (ParseInt(Strip(progress.value)).Some? && 0 <= ParseInt(Strip(progress.value)).value <= ProgressColumnMax)
  }

  /** Every condition the edit view and the save put on the form, one by
      one. */
  predicate FormAccepted(o: Order, f: EditForm, customers: set<string>) {
    && f.customer.Some? && f.customer.value in customers
    && f.quantity.Some? && SafeDecimal(f.quantity, None).Some?
    && !f.deliveryDate.UnreadableDate?
    && FitsColumns(o, f)
    && PostedProgress(o, f).Some? && 0 <= PostedProgress(o, f).value <= ProgressColumnMax
  }

  /** An edit succeeds exactly when the order is editable and the form meets
      every condition; a successful edit keeps the order number, stores a
      storable progress, and clears the delivery date when the posted date
      is empty. */
  lemma EditOutcome(o: Order, f: EditForm, customers: set<string>)
    ensures Edit(o, f, customers).Ok? <==> Editable(o) && FormAccepted(o, f, customers)
    ensures Edit(o, f, customers).Ok? ==> Editable(o) && StorableProgress(f.progress)
    ensures Edit(o, f, customers).Ok? ==> Edit(o, f, customers).value.number == o.number
    ensures Edit(o, f, customers).Ok? && f.deliveryDate == NoDate ==>
      Edit(o, f, customers).value.deliveryDate == None
    ensures Editable(o) && !StorableProgress(f.progress) ==> Edit(o, f, customers).Err?
  {
    EditAccepted(o, f, customers);
  }

  /** The acceptance condition alone. */
  lemma EditAccepted(o: Order, f: EditForm, customers: set<string>)
    ensures Edit(o, f, customers).Ok? <==> Editable(o) && FormAccepted(o, f, customers)
  {
    var r := Edit(o, f, customers);
    if !Editable(o) {
      assert r == Err(NotEditable);
    } else if f.customer.None? || f.quantity.None? {
      assert r == Err(MissingField);
    } else if PostedProgress(o, f).None? {
      assert r == Err(BadProgress);
    } else {
      var q := SafeDecimal(f.quantity, None);
      if q.None? || f.deliveryDate.UnreadableDate? || f.customer.value !in customers {
        assert r == Err(NotStored);
      } else {
        var e := Overwrite(o, f, f.customer.value, q.value, PostedProgress(o, f).value);
        assert r == (if Storable(e) then Ok(e) else Err(NotStored));
        assert FormAccepted(o, f, customers) <==> FitsColumns(o, f) && 0 <= PostedProgress(o, f).value <= ProgressColumnMax;
      }
    }
  }

  /** Posting the same form again to an order that is still editable
      changes nothing more. */
  lemma EditIdempotent(o: Order, f: EditForm, customers: set<string>)
    requires Edit(o, f, customers).Ok?
    requires Editable(Edit(o, f, customers).value)
    ensures Edit(Edit(o, f, customers).value, f, customers) == Edit(o, f, customers)
  {
  }

  /** Starting from a form the edit accepts without a progress, a progress
      written as a number is accepted exactly up to the column's maximum,
      and then stored as that number. */
  lemma EditProgressRange(o: Order, f: EditForm, customers: set<string>, n: nat)
    requires Edit(o, f.(progress := None), customers).Ok?
    ensures Edit(o, f.(progress := Some(NatToString(n))), customers).Ok? <==> n <= ProgressColumnMax
    ensures n <= ProgressColumnMax ==> Edit(o, f.(progress := Some(NatToString(n))), customers).value.progress == n
  {
    var g := f.(progress := Some(NatToString(n)));
    var h := f.(progress := None);
    PostedNatProgress(o, f, n);
    EditAccepted(o, h, customers);
    EditAccepted(o, g, customers);
    assert FitsColumns(o, g) == FitsColumns(o, h);
  }

  /** A rendered natural number posted as the progress reads as itself. */
  lemma PostedNatProgress(o: Order, f: EditForm, n: nat)
    ensures PostedProgress(o, f.(progress := Some(NatToString(n)))) == Some(n)
  {
    var t := NatToString(n);
    StripUnpadded(t);
    ParseNatToString(n);
  }

  /** The edit form can store a status outside the list, such as the old
      `shade_approved`, which fits the column. */
  lemma EditStoresUncheckedStatus(o: Order, f: EditForm, customers: set<string>)
    requires Edit(o, f, customers).Ok?
    ensures Edit(o, f.(status := Some("shade_approved")), customers).Ok?
    ensures Edit(o, f.(status := Some("shade_approved")), customers).value.status !in StatusNames
  {
    var g := f.(status := Some("shade_approved"));
    EditAccepted(o, f, customers);
    assert FitsColumns(o, g) by {
      assert PostedStatus(o, g) == "shade_approved";
    }
    assert FormAccepted(o, g, customers);
    EditAccepted(o, g, customers);
    ShadeApprovedUnlisted();
  }

  /** The old name `shade_approved` is not among the current statuses. */
  lemma ShadeApprovedUnlisted()
    ensures "shade_approved" !in StatusNames
  {
    var s := "shade_approved";
    assert s[1] == 'h';
    assert forall t | t in StatusNames :: |t| != |s| || t[1] != 'h';
  }

  /** Leaving the date empty on a form the edit accepts clears the delivery
      date, so the edited order is not overdue on any day. */
  lemma EditBlankDateClears(o: Order, f: EditForm, customers: set<string>, today: int)
    requires Edit(o, f, customers).Ok?
    ensures Edit(o, f.(deliveryDate := NoDate), customers).Ok?
    ensures !IsOverdue(Edit(o, f.(deliveryDate := NoDate), customers).value, today)
  {
    var g := f.(deliveryDate := NoDate);
    EditAccepted(o, f, customers);
    assert FitsColumns(o, g) == FitsColumns(o, f);
    assert FormAccepted(o, g, customers);
    EditAccepted(o, g, customers);
  }

  /** The statuses under which an order keeps its customer active. */
  predicate Blocking(status: string) {
    status == "confirmed" || status == "in_production"
  }

  /** A customer can be deactivated only when none of their orders is
      confirmed or in production: the orders are scanned one by one, as the
      `exists()` query does. */
  function CanDeactivate(orderStatuses: seq<string>): (ok: bool)
    ensures ok <==> forall i :: 0 <= i < |orderStatuses| ==>
      orderStatuses[i] != "confirmed" && orderStatuses[i] != "in_production"
  {
    if |orderStatuses| == 0 then true
    else !Blocking(orderStatuses[|orderStatuses| - 1]) && CanDeactivate(orderStatuses[..|orderStatuses| - 1])
  }

  /** A new order blocks the deactivation exactly when it is confirmed or in
      production; any other order leaves the answer as it was. */
  lemma CanDeactivateAppend(orderStatuses: seq<string>, status: string)
    ensures CanDeactivate(orderStatuses + [status]) <==> CanDeactivate(orderStatuses) && !Blocking(status)
  {
    assert (orderStatuses + [status])[..|orderStatuses|] == orderStatuses;
  }

  /** The answer does not depend on the order in which the orders are
      listed. */
  lemma CanDeactivateUnordered(a: seq<string>, b: seq<string>)
    requires multiset(a) == multiset(b)
    ensures CanDeactivate(a) == CanDeactivate(b)
  {
    CanDeactivateMembers(a);
    CanDeactivateMembers(b);
  }

  /** The answer in terms of the multiset of statuses. */
  lemma CanDeactivateMembers(s: seq<string>)
    ensures CanDeactivate(s) <==> forall x :: x in multiset(s) ==> !Blocking(x)
  {
    if !CanDeactivate(s) {
      var i :| 0 <= i < |s| && Blocking(s[i]);
      assert s[i] in multiset(s);
    }
  }

  /** Overdue: a delivery date strictly before today on an order neither
      delivered nor cancelled. */
  predicate IsOverdue(o: Order, today: int) {
    o.deliveryDate.Some? && o.status != "delivered" && o.status != "cancelled" && o.deliveryDate.value < today
  }

  /** An order stays overdue as days pass until it is delivered or cancelled. */
  lemma OverduePersists(o: Order, today: int, later: int)
    requires IsOverdue(o, today) && today <= later
    ensures IsOverdue(o, later)
    ensures !IsOverdue(o.(status := "delivered"), later)
  {
  }

  /** A customer is shown as "name (company)", or by name alone when the
      company is empty. */
  function CustomerLabel(name: string, company: string): (s: string)
    ensures company == "" ==> s == name
    ensures company != "" ==>
      StartsWith(s, name + " (") && s[|s| - 1] == ')' && s[|name| + 2..|s| - 1] == company
  {
    if company != "" then name + " (" + company + ")" else name
  }

  /** A shade is shown with a check mark when approved and a circle when not. */
  function ShadeLabel(approved: bool, code: string, name: string): (s: string)
    ensures |s| >= 2 && s[1] == ' '
    ensures s[0] == (if approved then '✓' else '○')
    ensures s[2..] == code + " - " + name
  {
    (if approved then "✓" else "○") + " " + code + " - " + name
  }
}

=== FILE: production.dfy ===
/** Rules shared by the production records of the winding and two-for-one
    stages: the status change with its completion stamp, the batch number
    defaulting on create, and the waste percentage. */
module ProductionRecords {
  import opened Wrappers
  import opened Numeric
  import opened Text
  import opened Core
  import opened BatchIds

  /** The part of a production record a status change touches; times are
      abstract instants. */
  datatype Record = Record(status: ProductionStatus, completedAt: Option<int>)

  datatype StatusError = InvalidStatus

  /** A posted status outside the choices is rejected and nothing changes;
      otherwise the status is set, and the completion time is stamped on the
      first move to completed only. */
  function ChangeStatus(r: Record, posted: Option<string>, now: int): (res: Result<Record, StatusError>)
    ensures res.Err? <==> ParseProductionStatus(posted).None?
    ensures res.Ok? ==> res.value.status == ParseProductionStatus(posted).value
    ensures res.Ok? && r.completedAt.Some? ==> res.value.completedAt == r.completedAt
    ensures res.Ok? && r.completedAt.None? ==>
      (res.value.completedAt == Some(now) <==> res.value.status == Completed)
    ensures res.Ok? && res.value.status != Completed ==> res.value.completedAt == r.completedAt
  {
    match ParseProductionStatus(posted)
    case None => Err(InvalidStatus)
    case Some(s) =>
      Ok(Record(s, if s == Completed && r.completedAt.None? then Some(now) else r.completedAt))
  }

  /** Applies a series of posted status changes, skipping rejected ones. */
  function ApplyAll(r: Record, moves: seq<(Option<string>, int)>): Record
    decreases |moves|
  {
    if |moves| == 0 then r
    else
      var next := match ChangeStatus(r, moves[0].0, moves[0].1)
                  case Ok(r') => r'
                  case Err(_) => r;
      ApplyAll(next, moves[1..])
  }

  /** Once stamped, the completion time survives any later status changes. */
  lemma {:induction false} CompletedAtStable(r: Record, moves: seq<(Option<string>, int)>)
    requires r.completedAt.Some?
    ensures ApplyAll(r, moves).completedAt == r.completedAt
    decreases |moves|
  {
    if |moves| > 0 {
      var next := match ChangeStatus(r, moves[0].0, moves[0].1)
                  case Ok(r') => r'
                  case Err(_) => r;
      CompletedAtStable(next, moves[1..]);
    }
  }

  /** The batch number of a new record: the posted value without surrounding
      whitespace, or a generated identifier of the stage when that is empty. */
  function BatchNumberOrNext(posted: string, prefix: string, bucket: string, existing: seq<string>): (r: string)
    ensures Strip(posted) != "" ==> r == Strip(posted)
    ensures Strip(posted) == "" ==> StartsWith(r, Pattern(prefix, bucket)) && r !in existing
  {
    if Strip(posted) != "" then Strip(posted) else NextIdentifierNumeric(prefix, bucket, existing)
  }

  /** Waste no larger than the input gives a percentage in [0, 100]. */
  lemma WastePctBounds(input: real, waste: real)
    requires 0.0 < waste <= input
    ensures var r := Percentage(Some(waste), Some(input));
      r.Some? && 0.0 <= r.value <= 100.0
  {
    var x := waste / input * 100.0;
    assert waste / input <= 1.0;
    RoundToBetween(x, 0, 100, 2);
  }
}

=== FILE: records.dfy ===
/** The rows the analytics read, and the SQL aggregates over them: `SUM`
    and `AVG` skip `NULL`s and yield `NULL` when nothing is left. */
module Records {
  import opened Wrappers
  import Core
  import opened Numeric

  /** A logged stop: machine, calendar day of its start, duration in
      minutes (may be missing) and the reason category as stored. */
  datatype Stop = Stop(machine: int, day: int, durationMin: Option<int>, reason: string)

  /** A ring-spinning production record with the columns the analytics use. */
  datatype SpinningBatch = SpinningBatch(
    machine: int,
    day: int,
    status: Core.ProductionStatus,
    efficiency: Option<real>,
    breakage: Option<int>,
    spindlesActive: Option<int>,
    outputWeight: Option<real>)

  /** `f` applied to every element of `s`, in order. */
  function Each<A, B>(s: seq<A>, f: A -> B): (r: seq<B>)
    ensures |r| == |s| && forall i :: 0 <= i < |s| ==> r[i] == f(s[i])
  {
    seq(|s|, i requires 0 <= i < |s| => f(s[i]))
  }

  /** `f` of the elements of `s` that satisfy `ok`, in order. */
  function Keep<A(!new), B>(s: seq<A>, ok: A -> bool, f: A -> B): (r: seq<B>)
    ensures |r| <= |s|
    ensures forall y :: y in r ==> exists x :: x in s && ok(x) && y == f(x)
    ensures forall x :: x in s && ok(x) ==> f(x) in r
  {
    if |s| == 0 then []
    else
      var p := s[..|s| - 1];
      var x := s[|s| - 1];
      assert s == p + [x];
      Keep(p, ok, f) + (if ok(x) then [f(x)] else [])
  }

  /** The elements of `s` that satisfy `p`, in order (a `filter()`). */
  function Filter<T(!new)>(s: seq<T>, p: T -> bool): (r: seq<T>)
    ensures |r| <= |s|
    ensures forall x :: x in r <==> x in s && p(x)
    ensures forall i :: 0 <= i < |r| ==> p(r[i])
  {
    if |s| == 0 then []
    else Filter(s[..|s| - 1], p) + (if p(s[|s| - 1]) then [s[|s| - 1]] else [])
  }

  lemma {:induction false} FilterAppend<T(!new)>(s: seq<T>, x: T, p: T -> bool)
    ensures Filter(s + [x], p) == Filter(s, p) + (if p(x) then [x] else [])
  {
    assert (s + [x])[..|s + [x]| - 1] == s;
  }

  /** Nothing passes a filter no element satisfies. */
  lemma {:induction false} FilterNone<T(!new)>(s: seq<T>, p: T -> bool)
    requires forall x :: x in s ==> !p(x)
    ensures Filter(s, p) == []
    decreases |s|
  {
    if |s| > 0 {
      assert forall x :: x in s[..|s| - 1] ==> x in s;
      FilterNone(s[..|s| - 1], p);
      assert s[|s| - 1] in s;
    }
  }

  /** `NULL + v` in a running SQL sum: `NULL`s are skipped. */
  function AddSql(acc: Option<int>, v: Option<int>): (r: Option<int>)
    ensures r.None? <==> acc.None? && v.None?
  {
    match (acc, v)
    case (None, _) => v
    case (Some(a), None) => acc
    case (Some(a), Some(b)) => Some(a + b)
  }

  /** `SUM(column)` over integer cells. */
  function SqlSum(xs: seq<Option<int>>): (r: Option<int>)
    ensures r.None? <==> forall i :: 0 <= i < |xs| ==> xs[i].None?
  {
    if |xs| == 0 then None else AddSql(SqlSum(xs[..|xs| - 1]), xs[|xs| - 1])
  }

  /** `SUM(column)` over decimal cells. */
  function SqlSumReal(xs: seq<Option<real>>): (r: Option<real>)
    ensures r.None? <==> forall i :: 0 <= i < |xs| ==> xs[i].None?
  {
    if |xs| == 0 then None
    else
      var acc := SqlSumReal(xs[..|xs| - 1]);
      match (acc, xs[|xs| - 1])
      case (None, v) => v
      case (Some(a), None) => acc
      case (Some(a), Some(b)) => Some(a + b)
  }

  /** The non-`NULL` cells, in order. */
  function Present(xs: seq<Option<real>>): (r: seq<real>)
    ensures |r| <= |xs|
    ensures |r| == 0 <==> forall i :: 0 <= i < |xs| ==> xs[i].None?
    ensures forall v :: v in r <==> Some(v) in xs
  {
    if |xs| == 0 then []
    else
      var init := Present(xs[..|xs| - 1]);
      assert forall v :: Some(v) in xs <==> Some(v) in xs[..|xs| - 1] || xs[|xs| - 1] == Some(v) by {
        assert xs == xs[..|xs| - 1] + [xs[|xs| - 1]];
      }
      match xs[|xs| - 1]
      case None => init
      case Some(v) => init + [v]
  }

  function Total(xs: seq<real>): real {
    if |xs| == 0 then 0.0 else Total(xs[..|xs| - 1]) + xs[|xs| - 1]
  }

  /** `AVG(column)`: the mean of the non-`NULL` cells. */
  function SqlAvg(xs: seq<Option<real>>): (r: Option<real>)
    ensures r.None? <==> forall i :: 0 <= i < |xs| ==> xs[i].None?
  {
    var p := Present(xs);
    if |p| == 0 then None else Some(Total(p) / |p| as real)
  }

  /** `Coalesce(SUM(column), 0)`: the sum of the non-`NULL` cells, 0 when
      there are none. */
  function SumOrZero(xs: seq<Option<real>>): (v: real)
    ensures v == Total(Present(xs))
  {
    SumIsTotal(xs);
    match SqlSumReal(xs)
    case None => 0.0
    case Some(w) => w
  }

  /** A SQL sum is the total of the cells that are present. */
  lemma {:induction false} SumIsTotal(xs: seq<Option<real>>)
    ensures SqlSumReal(xs).None? ==> Total(Present(xs)) == 0.0
    ensures SqlSumReal(xs).Some? ==> SqlSumReal(xs).value == Total(Present(xs))
    decreases |xs|
  {
    if |xs| > 0 {
      var init := xs[..|xs| - 1];
      SumIsTotal(init);
      var p := Present(init);
      match xs[|xs| - 1]
      case None =>
      case Some(v) =>
        assert Present(xs) == p + [v];
        assert (p + [v])[..|p + [v]| - 1] == p;
    }
  }

  /** A total of values in [lo, hi] lies between n·lo and n·hi. */
  lemma {:induction false} TotalBetween(xs: seq<real>, lo: real, hi: real)
    requires forall v :: v in xs ==> lo <= v <= hi
    ensures |xs| as real * lo <= Total(xs) <= |xs| as real * hi
    decreases |xs|
  {
    if |xs| > 0 {
      var init := xs[..|xs| - 1];
      var x := xs[|xs| - 1];
      assert forall v :: v in init ==> v in xs;
      TotalBetween(init, lo, hi);
      assert x in xs;
      var n := |init| as real;
      assert Total(xs) == Total(init) + x;
      assert |xs| as real * lo == n * lo + lo;
      assert |xs| as real * hi == n * hi + hi;
    }
  }

  /** The present cells of a column whose cells lie in [lo, hi]. */
  lemma PresentBetween(xs: seq<Option<real>>, lo: real, hi: real)
    requires forall i :: 0 <= i < |xs| && xs[i].Some? ==> lo <= xs[i].value <= hi
    ensures forall v :: v in Present(xs) ==> lo <= v <= hi
  {
    forall v | v in Present(xs)
      ensures lo <= v <= hi
    {
      assert Some(v) in xs;
      var i :| 0 <= i < |xs| && xs[i] == Some(v);
      assert xs[i].Some?;
    }
  }

  /** An average of cells in [lo, hi] stays in [lo, hi]. */
  lemma {:induction false} AvgBetween(xs: seq<Option<real>>, lo: real, hi: real)
    requires forall i :: 0 <= i < |xs| && xs[i].Some? ==> lo <= xs[i].value <= hi
    ensures SqlAvg(xs).Some? ==> lo <= SqlAvg(xs).value <= hi
  {
    var p := Present(xs);
    PresentBetween(xs, lo, hi);
    if |p| > 0 {
      MeanBetween(p, lo, hi);
    }
  }

  /** The mean of values in [lo, hi] lies in [lo, hi]. */
  lemma MeanBetween(p: seq<real>, lo: real, hi: real)
    requires |p| > 0 && forall v :: v in p ==> lo <= v <= hi
    ensures lo <= Total(p) / |p| as real <= hi
  {
    TotalBetween(p, lo, hi);
    DivBetween(Total(p), |p| as real, lo, hi);
  }
}

=== FILE: relative_date.dfy ===
/** The date filters of the templates: a value that cannot be read as a
    date is shown as itself, or `-` when empty; a date is shown relative to
    today by the whole number of days between them. Calendar conversion
    and formatting are not modelled: a date is a day number. */
module RelativeDate {
  import opened Wrappers

  /** A value given to a filter: nothing, a date, or text that may or may
      not read as an ISO date. */
  datatype Value = Missing | Date(day: int) | Written(s: string, isoDay: Option<int>)

  function DayOf(v: Value): (d: Option<int>)
    ensures v.Missing? ==> d.None?
    ensures v.Date? ==> d == Some(v.day)
    ensures v.Written? ==> d == v.isoDay
  {
    match v
    case Missing => None
    case Date(d) => Some(d)
    case Written(_, iso) => iso
  }

  datatype Display = Formatted(day: int) | Raw(s: string)

  /** `to_jalali`: the formatted date, or the value itself when it is not a
      date, or `-` when that value is empty. */
  function ToJalali(v: Value): (r: Display)
    ensures DayOf(v).Some? ==> r == Formatted(DayOf(v).value)
    ensures DayOf(v).None? && v.Written? && v.s != "" ==> r == Raw(v.s)
    ensures DayOf(v).None? && (v.Missing? || v.s == "") ==> r == Raw("-")
  {
    match DayOf(v)
    case Some(d) => Formatted(d)
    case None => if v.Written? && v.s != "" then Raw(v.s) else Raw("-")
  }

  datatype Relative =
    | Today | Yesterday | Tomorrow
    | DaysAgo(n: int) | DaysLater(n: int)
    | LastWeek | WeeksAgo(n: int) | MonthsAgo(n: int)
    | FullDate

  /** The bucket of a day difference (today minus the date). */
  function Bucket(delta: int): (r: Relative)
    ensures r == Today <==> delta == 0
    ensures r == Yesterday <==> delta == 1
    ensures r == Tomorrow <==> delta == -1
    ensures r.DaysAgo? <==> 2 <= delta <= 6
    ensures r.DaysAgo? ==> r.n == delta
    ensures r.DaysLater? <==> -6 <= delta <= -2
    ensures r.DaysLater? ==> r.n == -delta
    ensures r == LastWeek <==> 7 <= delta <= 13
    ensures r.WeeksAgo? <==> 14 <= delta <= 29
    ensures r.WeeksAgo? ==> r.n == delta / 7 && 2 <= r.n <= 4
    ensures r.MonthsAgo? <==> delta >= 30
    ensures r.MonthsAgo? ==> r.n == delta / 30 && r.n >= 1
    ensures r == FullDate <==> delta <= -7
  {
    if delta == 0 then Today
    else if delta == 1 then Yesterday
    else if delta == -1 then Tomorrow
    else if 2 <= delta <= 6 then DaysAgo(delta)
    else if -6 <= delta <= -2 then DaysLater(-delta)
    else if 7 <= delta <= 13 then LastWeek
    else if 14 <= delta <= 29 then WeeksAgo(delta / 7)
    else if delta >= 30 then MonthsAgo(delta / 30)
    else FullDate
  }

  /** Older dates never land in a more recent bucket: the month count grows
      with the distance. */
  lemma MonthsMonotone(a: int, b: int)
    requires 30 <= a <= b
    ensures Bucket(a).n <= Bucket(b).n
  {
  }

  datatype RelativeDisplay = Shown(bucket: Relative) | Unreadable(s: string)

  /** `to_jalali_relative`: the bucket of today minus the date, with the
      same fallback as `to_jalali` for values that are not dates. */
  function ToJalaliRelative(v: Value, today: int): (r: RelativeDisplay)
    ensures DayOf(v).Some? ==> r == Shown(Bucket(today - DayOf(v).value))
    ensures DayOf(v).None? ==> r == Unreadable(ToJalali(v).s)
  {
    match DayOf(v)
    case Some(d) => Shown(Bucket(today - d))
    case None => Unreadable(ToJalali(v).s)
  }
}

=== FILE: reports.dfy ===
/** The management reports: the date range read from the query string, the
    daily ring-output chart, the period OEE formulas of the winding,
    two-for-one twisting and heat-set sections, the period comparison and
    the rows of the chain-loss table. */
module Reports {
  import opened Wrappers
  import opened Numeric
  import opened Records
  import Core
  import Oee
  import Heatset

  /** A closed range of calendar days; nothing forces `from <= to`. */
  datatype DateRange = DateRange(from: int, to: int)

  /** The number of days the range walks over: none when it is inverted. */
  function DaysIn(r: DateRange): nat {
    if r.to >= r.from then r.to - r.from + 1 else 0
  }

  /** The report range: each bound is the parsed date, or a week before
      today for `from` and today for `to`. `None` stands for a missing
      parameter or one `date.fromisoformat` rejects; the bounds are never
      compared with each other. */
  function ParseDateRange(from: Option<int>, to: Option<int>, today: int): (r: DateRange)
    ensures from.Some? ==> r.from == from.value
    ensures to.Some? ==> r.to == to.value
    ensures from.None? && to.None? ==> DaysIn(r) == 8 && r.to == today
  {
    DateRange(from.GetOr(today - 7), to.GetOr(today))
  }

  // ---------------------------------------------------------------
  // The daily ring-output chart
  // ---------------------------------------------------------------

  /** A completed spinning record of day `d`. */
  predicate ChartRecord(b: SpinningBatch, d: int) {
    b.status == Core.Completed && b.day == d
  }

  /** The output cells the chart sums for day `d`, in record order. */
  function DayCells(s: seq<SpinningBatch>, d: int): seq<Option<real>> {
    if |s| == 0 then []
    else DayCells(s[..|s| - 1], d) + (if ChartRecord(s[|s| - 1], d) then [s[|s| - 1].outputWeight] else [])
  }

  /** `Sum('output_weight') or 0` over the day's completed records. */
  function DayWeight(s: seq<SpinningBatch>, d: int): real {
    SumOrZero(DayCells(s, d))
  }

  /** A record's recorded output, a missing one counting nothing. */
  function Weight(b: SpinningBatch): real {
    match b.outputWeight
    case None => 0.0
    case Some(w) => w
  }

  /** The output of the completed records dated in [lo, hi]: the reference
      the chart is checked against. */
  function RangeTotal(s: seq<SpinningBatch>, lo: int, hi: int): real {
    if |s| == 0 then 0.0 else RangeTotal(s[..|s| - 1], lo, hi) + InRange(s[|s| - 1], lo, hi)
  }

  /** What one record adds to the output of [lo, hi]. */
  function InRange(b: SpinningBatch, lo: int, hi: int): real {
    if b.status == Core.Completed && lo <= b.day <= hi then Weight(b) else 0.0
  }

  datatype ChartPoint = ChartPoint(day: int, weight: real)

  /** The chart: one point per day from `from` to `to`, oldest first. */
  function DailyOutput(s: seq<SpinningBatch>, r: DateRange): (c: seq<ChartPoint>)
    ensures |c| == DaysIn(r)
    ensures forall i :: 0 <= i < |c| ==> c[i].day == r.from + i
    ensures forall i :: 0 <= i < |c| ==> c[i].weight == DayWeight(s, c[i].day)
  {
    var n := DaysIn(r);
    seq(n, i requires 0 <= i < n => ChartPoint(r.from + i, DayWeight(s, r.from + i)))
  }

  function ChartSum(c: seq<ChartPoint>): real {
    if |c| == 0 then 0.0 else ChartSum(c[..|c| - 1]) + c[|c| - 1].weight
  }

  /** A day's point is that day's completed output. */
  lemma {:induction false} DayWeightIsTotal(s: seq<SpinningBatch>, d: int)
    ensures DayWeight(s, d) == RangeTotal(s, d, d)
    decreases |s|
  {
    if |s| > 0 {
      var init, b := s[..|s| - 1], s[|s| - 1];
      DayWeightIsTotal(init, d);
      var xs := DayCells(init, d);
      if ChartRecord(b, d) {
        var ys := xs + [b.outputWeight];
        assert DayCells(s, d) == ys;
        assert ys[..|ys| - 1] == xs && ys[|ys| - 1] == b.outputWeight;
        assert RangeTotal(s, d, d) == RangeTotal(init, d, d) + Weight(b);
      } else {
        assert DayCells(s, d) == xs;
        assert RangeTotal(s, d, d) == RangeTotal(init, d, d);
      }
    }
  }

  /** Splitting off the last day of a non-empty range. */
  lemma {:induction false} RangeSplit(s: seq<SpinningBatch>, lo: int, hi: int)
    requires lo <= hi
    ensures RangeTotal(s, lo, hi) == RangeTotal(s, lo, hi - 1) + RangeTotal(s, hi, hi)
    decreases |s|
  {
    if |s| > 0 {
      RangeSplit(s[..|s| - 1], lo, hi);
    }
  }

  lemma {:induction false} RangeInverted(s: seq<SpinningBatch>, lo: int, hi: int)
    requires hi < lo
    ensures RangeTotal(s, lo, hi) == 0.0
    decreases |s|
  {
    if |s| > 0 {
      RangeInverted(s[..|s| - 1], lo, hi);
    }
  }

  /** The chart's bars add up to the completed output of the whole range,
      and an inverted range shows nothing. */
  lemma ChartTotal(s: seq<SpinningBatch>, r: DateRange)
    ensures ChartSum(DailyOutput(s, r)) == RangeTotal(s, r.from, r.to)
  {
    ChartIsDaySum(s, r);
    DaySumIsTotal(s, r.from, r.to);
  }

  /** The chart values of the days `lo` to `hi`, added up. */
  function DaySum(s: seq<SpinningBatch>, lo: int, hi: int): real
    decreases hi - lo
  {
    if hi < lo then 0.0 else DaySum(s, lo, hi - 1) + DayWeight(s, hi)
  }

  lemma {:induction false} ChartIsDaySum(s: seq<SpinningBatch>, r: DateRange)
    ensures ChartSum(DailyOutput(s, r)) == DaySum(s, r.from, r.to)
    decreases r.to - r.from
  {
    if r.to < r.from {
      ChartNone(s, r);
    } else {
      ChartIsDaySum(s, DateRange(r.from, r.to - 1));
      ChartDaySumStep(s, r);
    }
  }

  lemma ChartDaySumStep(s: seq<SpinningBatch>, r: DateRange)
    requires r.from <= r.to
    requires ChartSum(DailyOutput(s, DateRange(r.from, r.to - 1))) == DaySum(s, r.from, r.to - 1)
    ensures ChartSum(DailyOutput(s, r)) == DaySum(s, r.from, r.to)
  {
    ChartLast(s, r);
  }

  lemma ChartNone(s: seq<SpinningBatch>, r: DateRange)
    requires r.to < r.from
    ensures ChartSum(DailyOutput(s, r)) == DaySum(s, r.from, r.to) == 0.0
  {
    assert DailyOutput(s, r) == [];
  }

  lemma {:induction false} DaySumIsTotal(s: seq<SpinningBatch>, lo: int, hi: int)
    ensures DaySum(s, lo, hi) == RangeTotal(s, lo, hi)
    decreases hi - lo
  {
    if hi < lo {
      RangeInverted(s, lo, hi);
    } else {
      DaySumIsTotal(s, lo, hi - 1);
      RangeStep(s, lo, hi);
    }
  }

  /** The output of a non-empty range is that of the range without its last
      day plus the last day's chart value. */
  lemma RangeStep(s: seq<SpinningBatch>, lo: int, hi: int)
    requires lo <= hi
    ensures RangeTotal(s, lo, hi) == RangeTotal(s, lo, hi - 1) + DayWeight(s, hi)
  {
    DayWeightIsTotal(s, hi);
    RangeSplit(s, lo, hi);
  }

  /** The last bar of a non-empty chart is its last day's output. */
  lemma ChartLast(s: seq<SpinningBatch>, r: DateRange)
    requires r.from <= r.to
    ensures ChartSum(DailyOutput(s, r)) == ChartSum(DailyOutput(s, DateRange(r.from, r.to - 1))) + DayWeight(s, r.to)
  {
    var init := DailyOutput(s, DateRange(r.from, r.to - 1));
    var c := DailyOutput(s, r);
    var n := |c| - 1;
    assert c[..n] == init by {
      assert |init| == n;
      forall i | 0 <= i < n ensures c[i] == init[i] {
        assert c[i].day == init[i].day;
      }
    }
    assert c[n].weight == DayWeight(s, r.to);
  }

  /** Without parameters the chart shows the last eight days, ending today. */
  lemma DefaultChart(s: seq<SpinningBatch>, today: int)
    ensures var c := DailyOutput(s, ParseDateRange(None, None, today));
      |c| == 8 && c[0].day == today - 7 && c[7].day == today
  {
  }

  // ---------------------------------------------------------------
  // Period OEE of the winding, twisting and heat-set sections
  // ---------------------------------------------------------------

  /** Eight planned hours a day, and at least one day even for an
      inverted range. */
  function PlannedMinutes(r: DateRange): (m: int)
    ensures m == 480 * (if DaysIn(r) >= 1 then DaysIn(r) else 1)
  {
    var days := if r.to - r.from + 1 >= 1 then r.to - r.from + 1 else 1;
    days * 8 * 60
  }

  /** The share of the planned minutes not lost to logged downtime, clamped
      to a percentage; a missing sum is no downtime. */
  function PeriodAvailability(r: DateRange, downtime: Option<int>): (a: real)
    ensures 0.0 <= a <= 100.0
    ensures OrElseInt(downtime, 0) <= 0 ==> a == 100.0
    ensures OrElseInt(downtime, 0) >= PlannedMinutes(r) ==> a == 0.0
    ensures 0 <= OrElseInt(downtime, 0) <= PlannedMinutes(r) ==>
      a * PlannedMinutes(r) as real == 100.0 * (PlannedMinutes(r) - OrElseInt(downtime, 0)) as real
  {
    var planned := PlannedMinutes(r) as real;
    var d := OrElseInt(downtime, 0) as real;
    var x := (planned - d) / planned * 100.0;
    ShareFacts(planned, d);
    Clamp(0.0, 100.0, x)
  }

  lemma ShareAntitone(planned: real, d1: real, d2: real)
    requires planned > 0.0 && d1 <= d2
    ensures (planned - d2) / planned * 100.0 <= (planned - d1) / planned * 100.0
  {
    var q1, q2 := (planned - d1) / planned, (planned - d2) / planned;
    assert q1 * planned == planned - d1;
    assert q2 * planned == planned - d2;
    if q1 < q2 {
      MulLess(q1, q2, planned);
    }
    assert q2 <= q1;
  }

  lemma ShareFacts(planned: real, d: real)
    requires planned > 0.0
    ensures (planned - d) / planned * 100.0 * planned == 100.0 * (planned - d)
    ensures d <= 0.0 ==> (planned - d) / planned * 100.0 >= 100.0
    ensures d >= planned ==> (planned - d) / planned * 100.0 <= 0.0
    ensures 0.0 <= d <= planned ==> 0.0 <= (planned - d) / planned * 100.0 <= 100.0
  {
    var x := (planned - d) / planned * 100.0;
    assert x * planned == 100.0 * (planned - d);
    if d <= 0.0 && x < 100.0 {
      MulLess(x, 100.0, planned);
    }
    if d >= planned && x > 0.0 {
      MulLess(0.0, x, planned);
    }
    if 0.0 <= d <= planned {
      if x < 0.0 {
        MulLess(x, 0.0, planned);
      }
      if x > 100.0 {
        MulLess(100.0, x, planned);
      }
    }
  }

  /** More downtime over the same range never raises availability. */
  lemma PeriodAvailabilityNonIncreasing(r: DateRange, d1: int, d2: int)
    requires d1 <= d2
    ensures PeriodAvailability(r, Some(d2)) <= PeriodAvailability(r, Some(d1))
  {
    var planned := PlannedMinutes(r) as real;
    var e1, e2 := OrElseInt(Some(d1), 0) as real, OrElseInt(Some(d2), 0) as real;
    assert e1 <= e2;
    var x1 := (planned - e1) / planned * 100.0;
    var x2 := (planned - e2) / planned * 100.0;
    ShareAntitone(planned, e1, e2);
    assert PeriodAvailability(r, Some(d1)) == Clamp(0.0, 100.0, x1);
    assert PeriodAvailability(r, Some(d2)) == Clamp(0.0, 100.0, x2);
  }

  /** An inverted range is planned as a single day. */
  lemma InvertedRangeIsOneDay(r: DateRange, downtime: Option<int>)
    requires r.to < r.from
    ensures PlannedMinutes(r) == 480
    ensures PeriodAvailability(r, downtime) == PeriodAvailability(DateRange(r.from, r.from), downtime)
  {
  }

  /** Winding quality from the average cuts per 100 km: full up to 20 cuts,
      then 80 points lost over the next 60 cuts, never below 20. */
  function WindingQuality(avgCuts: real): (q: real)
    ensures 20.0 <= q <= 100.0
    ensures q == 100.0 <==> avgCuts <= 20.0
    ensures avgCuts >= 80.0 ==> q == 20.0
    ensures 20.0 <= avgCuts <= 80.0 ==> (100.0 - q) * 3.0 == (avgCuts - 20.0) * 4.0
  {
    if avgCuts > 20.0 then Clamp(20.0, 100.0, 100.0 - (avgCuts - 20.0) * (80.0 / 60.0)) else 100.0
  }

  /** More cuts never score a better quality. */
  lemma WindingQualityNonIncreasing(c1: real, c2: real)
    requires c1 <= c2
    ensures WindingQuality(c2) <= WindingQuality(c1)
  {
  }

  /** Breaks per batch: the breakage total over the batch count, a count of
      zero read as one, and a missing or zero total giving 0. */
  function BreaksPerBatch(totalBreakage: Option<int>, batchCount: nat): (b: real)
    ensures !TruthyInt(totalBreakage) ==> b == 0.0
    ensures TruthyInt(totalBreakage) && batchCount <= 1 ==> b == totalBreakage.value as real
    ensures TruthyInt(totalBreakage) && batchCount >= 1 ==> b * batchCount as real == totalBreakage.value as real
  {
    var n := if batchCount == 0 then 1 else batchCount;
    if TruthyInt(totalBreakage) then totalBreakage.value as real / n as real else 0.0
  }

  /** Two-for-one twisting quality: full up to 5 breaks per batch, then 50
      points lost over the next 15, never below 50. */
  function TfoQuality(perBatch: real): (q: real)
    ensures 50.0 <= q <= 100.0
    ensures q == 100.0 <==> perBatch <= 5.0
    ensures perBatch >= 20.0 ==> q == 50.0
    ensures 5.0 <= perBatch <= 20.0 ==> (100.0 - q) * 3.0 == (perBatch - 5.0) * 10.0
  {
    if perBatch > 5.0 then Clamp(50.0, 100.0, 100.0 - (perBatch - 5.0) * (50.0 / 15.0)) else 100.0
  }

  lemma TfoQualityNonIncreasing(b1: real, b2: real)
    requires b1 <= b2
    ensures TfoQuality(b2) <= TfoQuality(b1)
  {
  }

  /** The number of heat-set batches whose result is `pass`. */
  function PassCount(results: seq<Option<string>>): (n: nat)
    ensures n <= |results|
    ensures n == |results| <==> forall i :: 0 <= i < |results| ==> Heatset.IsPassed(results[i])
  {
    if |results| == 0 then 0
    else PassCount(results[..|results| - 1]) + (if Heatset.IsPassed(results[|results| - 1]) then 1 else 0)
  }

  /** Heat-set quality: the pass rate in percent to one decimal, or 0 for a
      period without batches. */
  function PassRate(results: seq<Option<string>>): (q: real)
    ensures |results| == 0 ==> q == 0.0
    ensures 0.0 <= q <= 100.0
    ensures |results| > 0 ==> WithinHalfStep(q, PassCount(results) as real / |results| as real * 100.0, 1)
    ensures |results| > 0 && PassCount(results) == |results| ==> q == 100.0
  {
    if |results| > 0 then
      var x := PassCount(results) as real / |results| as real * 100.0;
      RoundedPercent(PassCount(results) as real, |results| as real);
      RoundTo(x, 1)
    else 0.0
  }

  /** The standard heat-set cycle, in minutes. */
  const StandardCycleMin: real := 120.0

  /** Heat-set performance: the standard cycle over the average cycle, in
      percent to one decimal, capped at 100; 0 without a positive average. */
  function HeatsetPerformance(avgDuration: Option<real>): (p: real)
    ensures 0.0 <= p <= 100.0
    ensures OrElse(avgDuration, 0.0) <= 0.0 ==> p == 0.0
    ensures 0.0 < OrElse(avgDuration, 0.0) <= StandardCycleMin ==> p == 100.0
  {
    var d := OrElse(avgDuration, 0.0);
    if d > 0.0 then
      CycleRatio(d);
      Min(100.0, RoundTo(StandardCycleMin / d * 100.0, 1))
    else 0.0
  }

  lemma CycleRatio(d: real)
    requires d > 0.0
    ensures RoundTo(StandardCycleMin / d * 100.0, 1) >= 0.0
    ensures d <= StandardCycleMin ==> RoundTo(StandardCycleMin / d * 100.0, 1) >= 100.0
  {
    DivAtLeast(StandardCycleMin, d, 0.0);
    RoundToInt(0, 1);
    RoundToMonotone(0.0, StandardCycleMin / d * 100.0, 1);
    if d <= StandardCycleMin {
      DivAtLeast(StandardCycleMin, d, 1.0);
      RoundToInt(100, 1);
      RoundToMonotone(100.0, StandardCycleMin / d * 100.0, 1);
    }
  }

  /** A longer cycle gives a smaller ratio to the standard one. */
  lemma CycleRatioAntitone(d1: real, d2: real)
    requires 0.0 < d1 <= d2
    ensures StandardCycleMin / d2 <= StandardCycleMin / d1
  {
    var q1, q2 := StandardCycleMin / d1, StandardCycleMin / d2;
    assert q1 * d1 == StandardCycleMin && q2 * d2 == StandardCycleMin;
    if q1 < q2 {
      MulLess(q1, q2, d1);
      MulLe(d1, d2, q2);
    }
  }

  lemma MulLe(x: real, bound: real, y: real)
    requires x <= bound && 0.0 <= y
    ensures x * y <= bound * y
  {
    assert (bound - x) * y >= 0.0;
  }

  /** Longer average cycles never score a better performance. */
  lemma HeatsetPerformanceNonIncreasing(d1: real, d2: real)
    requires 0.0 < d1 <= d2
    ensures HeatsetPerformance(Some(d2)) <= HeatsetPerformance(Some(d1))
  {
    CycleRatioAntitone(d1, d2);
    RoundToMonotone(StandardCycleMin / d2 * 100.0, StandardCycleMin / d1 * 100.0, 1);
    assert OrElse(Some(d1), 0.0) == d1 && OrElse(Some(d2), 0.0) == d2;
  }

  /** The period OEE: the product of the three factors as a percentage, to
      one decimal. */
  function PeriodOee(a: real, p: real, q: real): real {
    RoundTo(Oee.OeeOf(a, p, q), 1)
  }

  /** One section row of the OEE report, every figure to one decimal. */
  datatype SectionOee = SectionOee(availability: real, performance: real, quality: real, oee: real)

  predicate Percent(x: real) {
    0.0 <= x <= 100.0
  }

  predicate RowInRange(s: SectionOee) {
    Percent(s.availability) && Percent(s.performance) && Percent(s.quality) && Percent(s.oee)
  }

  /** The row for three unrounded factors. */
  function SectionRow(a: real, p: real, q: real): (s: SectionOee)
    ensures Percent(a) && Percent(p) && Percent(q) ==> RowInRange(s)
    ensures WithinHalfStep(s.availability, a, 1) && WithinHalfStep(s.performance, p, 1)
    ensures WithinHalfStep(s.quality, q, 1) && WithinHalfStep(s.oee, Oee.OeeOf(a, p, q), 1)
  {
    SectionRowFacts(a, p, q);
    SectionOee(RoundTo(a, 1), RoundTo(p, 1), RoundTo(q, 1), PeriodOee(a, p, q))
  }

  lemma SectionRowFacts(a: real, p: real, q: real)
    ensures Percent(a) && Percent(p) && Percent(q) ==>
      Percent(RoundTo(a, 1)) && Percent(RoundTo(p, 1)) && Percent(RoundTo(q, 1)) && Percent(PeriodOee(a, p, q))
  {
    if Percent(a) && Percent(p) && Percent(q) {
      Oee.OeeBounds(a, p, q);
      RoundToBetween(a, 0, 100, 1);
      RoundToBetween(p, 0, 100, 1);
      RoundToBetween(q, 0, 100, 1);
      RoundToBetween(Oee.OeeOf(a, p, q), 0, 100, 1);
    }
  }

  /** Whether every recorded efficiency is a percentage. */
  predicate CellsArePercent(xs: seq<Option<real>>) {
    forall i :: 0 <= i < |xs| && xs[i].Some? ==> Percent(xs[i].value)
  }

  /** `float(Avg(column) or 0)`. */
  function AvgOrZero(xs: seq<Option<real>>): (v: real)
    ensures CellsArePercent(xs) ==> Percent(v)
  {
    AvgPercent(xs);
    OrElse(SqlAvg(xs), 0.0)
  }

  lemma AvgPercent(xs: seq<Option<real>>)
    ensures CellsArePercent(xs) && SqlAvg(xs).Some? ==> Percent(SqlAvg(xs).value)
  {
    if CellsArePercent(xs) {
      AvgBetween(xs, 0.0, 100.0);
    }
  }

  /** A winding machine's row: availability from downtime, performance the
      average efficiency, quality from the average cuts. */
  function WindingOee(r: DateRange, downtime: Option<int>, efficiencies: seq<Option<real>>, cuts: seq<Option<real>>): (s: SectionOee)
    ensures CellsArePercent(efficiencies) ==> RowInRange(s)
    ensures WithinHalfStep(s.quality, WindingQuality(OrElse(SqlAvg(cuts), 0.0)), 1)
  {
    SectionRow(PeriodAvailability(r, downtime), AvgOrZero(efficiencies), WindingQuality(OrElse(SqlAvg(cuts), 0.0)))
  }

  /** A twisting machine's row: quality from the breaks per batch. */
  function TfoOee(r: DateRange, downtime: Option<int>, efficiencies: seq<Option<real>>, totalBreakage: Option<int>, batchCount: nat): (s: SectionOee)
    ensures CellsArePercent(efficiencies) ==> RowInRange(s)
    ensures !TruthyInt(totalBreakage) ==> s.quality == 100.0
  {
    RoundToInt(100, 1);
    SectionRow(PeriodAvailability(r, downtime), AvgOrZero(efficiencies), TfoQuality(BreaksPerBatch(totalBreakage, batchCount)))
  }

  /** A heat-set machine's row: quality is the pass rate (already rounded)
      and performance comes from the average cycle. */
  function HeatsetOee(r: DateRange, downtime: Option<int>, results: seq<Option<string>>, avgDuration: Option<real>): (s: SectionOee)
    ensures RowInRange(s)
    ensures s.quality == PassRate(results)
    ensures |results| == 0 ==> s.oee == 0.0
  {
    var a := PeriodAvailability(r, downtime);
    var p := HeatsetPerformance(avgDuration);
    var q := PassRate(results);
    Oee.OeeBounds(a, p, q);
    RoundToBetween(a, 0, 100, 1);
    RoundToBetween(p, 0, 100, 1);
    RoundToBetween(Oee.OeeOf(a, p, q), 0, 100, 1);
    RoundToInt(0, 1);
    SectionOee(RoundTo(a, 1), RoundTo(p, 1), q, PeriodOee(a, p, q))
  }

  // ---------------------------------------------------------------
  // Period comparison
  // ---------------------------------------------------------------

  /** A compared period: both bounds parsed, or both defaults when either
      fails. */
  function ParsePeriod(from: Option<int>, to: Option<int>, fallback: DateRange): (r: DateRange)
    ensures from.Some? && to.Some? ==> r == DateRange(from.value, to.value)
    ensures from.None? || to.None? ==> r == fallback
  {
    if from.Some? && to.Some? then DateRange(from.value, to.value) else fallback
  }

  /** The default periods: the week before last, and the last week with today. */
  function DefaultA(today: int): DateRange {
    DateRange(today - 14, today - 8)
  }

  function DefaultB(today: int): DateRange {
    DateRange(today - 7, today)
  }

  /** The two default periods have seven and eight days, and A ends the day
      before B starts. */
  lemma DefaultPeriodsAdjacent(today: int)
    ensures DaysIn(DefaultA(today)) == 7 && DaysIn(DefaultB(today)) == 8
    ensures DefaultA(today).to + 1 == DefaultB(today).from
  {
  }

  datatype Comparison = Comparison(valA: real, valB: real, changePct: real, isBetter: bool, isSame: bool)

  /** One compared metric: the change from A to B in percent of |A| to one
      decimal (0 when A is 0); better when the sign of the change matches
      the direction that is good for the metric. */
  function Compare(a: real, b: real, higherIsBetter: bool): (c: Comparison)
    ensures c.valA == a && c.valB == b
    ensures a == 0.0 ==> c.changePct == 0.0
    ensures a != 0.0 ==> WithinHalfStep(c.changePct, (b - a) / Abs(a) * 100.0, 1)
    ensures c.changePct > 0.0 ==> b > a
    ensures c.changePct < 0.0 ==> b < a
    ensures c.isSame <==> c.changePct == 0.0
    ensures c.isBetter <==> (c.changePct > 0.0 <==> higherIsBetter)
  {
    var change := if a != 0.0 then RoundTo((b - a) / Abs(a) * 100.0, 1) else 0.0;
    ChangeSign(a, b);
    Comparison(a, b, change, (change > 0.0) == higherIsBetter, change == 0.0)
  }

  function Abs(x: real): (r: real)
    ensures r >= 0.0 && (r == x || r == -x)
  {
    if x < 0.0 then -x else x
  }

  /** Rounding keeps the sign of the relative change. */
  lemma ChangeSign(a: real, b: real)
    ensures a != 0.0 && RoundTo((b - a) / Abs(a) * 100.0, 1) > 0.0 ==> b > a
    ensures a != 0.0 && RoundTo((b - a) / Abs(a) * 100.0, 1) < 0.0 ==> b < a
  {
    if a == 0.0 {
      return;
    }
    var x := (b - a) / Abs(a) * 100.0;
    var q := (b - a) / Abs(a);
    assert q * Abs(a) == b - a;
    RoundToInt(0, 1);
    if b <= a {
      if q > 0.0 {
        MulLess(0.0, q, Abs(a));
      }
      RoundToMonotone(x, 0.0, 1);
    }
    if b >= a {
      if q < 0.0 {
        MulLess(q, 0.0, Abs(a));
      }
      RoundToMonotone(0.0, x, 1);
    }
  }

  /** Flipping the direction of a metric flips its verdict. */
  lemma BetterFlips(a: real, b: real, higherIsBetter: bool)
    ensures Compare(a, b, higherIsBetter).isBetter != Compare(a, b, !higherIsBetter).isBetter
  {
  }

  /** An unchanged metric for which lower is better is reported better. */
  lemma UnchangedLowerIsBetter(a: real)
    ensures Compare(a, a, false).isSame && Compare(a, a, false).isBetter
  {
    RoundToInt(0, 1);
  }

  // ---------------------------------------------------------------
  // Chain losses
  // ---------------------------------------------------------------

  datatype LossRow = LossRow(inputKg: real, outputKg: real, lossKg: real, lossPct: real)

  /** The loss row as the report computes it: the percentage divides the
      loss after it has been rounded to one decimal. It is never negative
      and is zero when the output covers the input, but it can exceed 100
      by up to `5/inp` plus the rounding. */
  function LossRowAsWritten(inp: real, out: real): (r: LossRow)
    ensures r.lossKg >= 0.0 && r.lossPct >= 0.0
    ensures WithinHalfStep(r.inputKg, inp, 1) && WithinHalfStep(r.outputKg, out, 1)
    ensures inp <= 0.0 ==> r.lossPct == 0.0
    ensures out >= inp ==> r.lossKg == 0.0 && r.lossPct == 0.0
    ensures inp > 0.0 && out >= 0.0 ==> r.lossPct <= 100.0 + 5.0 / inp + 0.05
  {
    var loss := Max(0.0, RoundTo(inp - out, 1));
    LossAsWrittenFacts(inp, out);
    LossRow(RoundTo(inp, 1), RoundTo(out, 1), loss, if inp > 0.0 then RoundTo(loss / inp * 100.0, 1) else 0.0)
  }

  lemma LossAsWrittenFacts(inp: real, out: real)
    ensures var loss := Max(0.0, RoundTo(inp - out, 1));
      && (out >= inp ==> loss == 0.0)
      && (inp > 0.0 ==> RoundTo(loss / inp * 100.0, 1) >= 0.0)
      && (0.0 < inp <= out ==> RoundTo(loss / inp * 100.0, 1) == 0.0)
      && (inp > 0.0 && out >= 0.0 ==> RoundTo(loss / inp * 100.0, 1) <= 100.0 + 5.0 / inp + 0.05)
  {
    var loss := Max(0.0, RoundTo(inp - out, 1));
    if out >= inp {
      RoundToInt(0, 1);
      RoundToMonotone(inp - out, 0.0, 1);
    }
    if inp > 0.0 {
      SharePctNonNegative(loss, inp);
      if out >= 0.0 {
        RoundedLossAtMost(inp, out);
        SharePctAtMost(loss, inp);
      }
    }
  }

  /** A non-negative part of a positive whole rounds to a non-negative
      percentage. */
  lemma SharePctNonNegative(part: real, whole: real)
    requires part >= 0.0 && whole > 0.0
    ensures RoundTo(part / whole * 100.0, 1) >= 0.0
  {
    DivAtLeast(part, whole, 0.0);
    RoundToInt(0, 1);
    RoundToMonotone(0.0, part / whole * 100.0, 1);
  }

  /** The loss rounded to 0.1 kg exceeds the input by at most 0.05 kg. */
  lemma RoundedLossAtMost(inp: real, out: real)
    requires out >= 0.0
    ensures Max(0.0, RoundTo(inp - out, 1)) <= Max(0.0, inp) + 0.05
  {
    assert Scale(1) == 10.0;
  }

  /** A part at most 0.05 above a positive whole is at most `100 + 5/whole`
      percent of it, plus the rounding. */
  lemma SharePctAtMost(part: real, whole: real)
    requires whole > 0.0 && part <= whole + 0.05
    ensures RoundTo(part / whole * 100.0, 1) <= 100.0 + 5.0 / whole + 0.05
  {
    var y := part / whole * 100.0;
    DivAtMost(part, whole, 1.0 + 0.05 / whole);
    assert y <= 100.0 + 5.0 / whole;
    assert Scale(1) == 10.0;
  }

  /** With 0.06 kg in and nothing out, the rounded loss is 0.1 kg and the
      loss is reported as more than the whole input. */
  lemma LossPctOverHundred()
    ensures LossRowAsWritten(0.06, 0.0).lossKg == 0.1
    ensures LossRowAsWritten(0.06, 0.0).lossPct > 100.0
  {
    RoundToNear(0.06, 1, 1);
    var x := 0.1 / 0.06 * 100.0;
    assert x * 0.06 == 10.0;
    assert x > 166.0;
  }

  /** The loss row with the percentage of the unrounded loss, which keeps
      it a share of the input. */
  function LossRowOf(inp: real, out: real): (r: LossRow)
    ensures r.lossKg >= 0.0
    ensures WithinHalfStep(r.inputKg, inp, 1) && WithinHalfStep(r.outputKg, out, 1)
    ensures out >= inp ==> r.lossKg == 0.0 && r.lossPct == 0.0
    ensures inp <= 0.0 ==> r.lossPct == 0.0
    ensures inp > 0.0 && out >= 0.0 ==> 0.0 <= r.lossPct <= 100.0
  {
    var loss := Max(0.0, inp - out);
    LossShare(inp, out);
    LossRow(RoundTo(inp, 1), RoundTo(out, 1), Max(0.0, RoundTo(inp - out, 1)),
            if inp > 0.0 then RoundTo(loss / inp * 100.0, 1) else 0.0)
  }

  lemma LossShare(inp: real, out: real)
    ensures out >= inp ==> Max(0.0, RoundTo(inp - out, 1)) == 0.0
    ensures 0.0 < inp <= out ==> RoundTo(Max(0.0, inp - out) / inp * 100.0, 1) == 0.0
    ensures 0.0 < inp && out >= 0.0 ==> 0.0 <= RoundTo(Max(0.0, inp - out) / inp * 100.0, 1) <= 100.0
  {
    var l := Max(0.0, inp - out);
    RoundToInt(0, 1);
    if out >= inp {
      RoundToMonotone(inp - out, 0.0, 1);
    }
    if inp > 0.0 && out >= 0.0 {
      assert l <= inp;
      DivBetween(l, inp, 0.0, 1.0);
      RoundToBetween(l / inp * 100.0, 0, 100, 1);
    }
  }

  /** The four rows of the chain from ring output to heat-set output, as
      the report computes them. */
  function ChainLosses(ring: real, windingIn: real, windingOut: real, tfoOut: real, heatsetOut: real): (rows: seq<LossRow>)
    ensures |rows| == 4
    ensures forall i :: 0 <= i < 3 ==> rows[i].outputKg == rows[i + 1].inputKg
    ensures forall i :: 0 <= i < 4 ==> rows[i].lossKg >= 0.0 && rows[i].lossPct >= 0.0
    ensures WithinHalfStep(rows[0].inputKg, ring, 1) && WithinHalfStep(rows[3].outputKg, heatsetOut, 1)
    ensures windingIn >= ring ==> rows[0].lossPct == 0.0
    ensures ring > 0.0 && windingIn > 0.0 && windingOut > 0.0 && tfoOut > 0.0 && heatsetOut >= 0.0 ==>
      && rows[0].lossPct <= 100.0 + 5.0 / ring + 0.05
      && rows[1].lossPct <= 100.0 + 5.0 / windingIn + 0.05
      && rows[2].lossPct <= 100.0 + 5.0 / windingOut + 0.05
      && rows[3].lossPct <= 100.0 + 5.0 / tfoOut + 0.05
  {
    [LossRowAsWritten(ring, windingIn), LossRowAsWritten(windingIn, windingOut),
     LossRowAsWritten(windingOut, tfoOut), LossRowAsWritten(tfoOut, heatsetOut)]
  }
}

=== FILE: sorting.dfy ===
/** Python's `list.sort(key=...)`: a stable sort by a key. Keys are pairs
    compared lexicographically, which covers the one- and two-part keys the
    source sorts by. */
module Sorting {

  /** A sort key: `major` first, then `minor`. */
  datatype Key = Key(major: int, minor: int)

  predicate KeyLe(a: Key, b: Key) {
    a.major < b.major || (a.major == b.major && a.minor <= b.minor)
  }

  predicate SortedBy<T>(s: seq<T>, key: T -> Key) {
    forall i, j :: 0 <= i < j < |s| ==> KeyLe(key(s[i]), key(s[j]))
  }

  /** The elements of `s` whose key is `k`, in their order in `s`. */
  function Bucket<T>(s: seq<T>, key: T -> Key, k: Key): (r: seq<T>)
    ensures |r| <= |s|
  {
    if |s| == 0 then []
    else Bucket(s[..|s| - 1], key, k) + (if key(s[|s| - 1]) == k then [s[|s| - 1]] else [])
  }

  lemma {:induction false} BucketAppend<T>(a: seq<T>, b: seq<T>, key: T -> Key, k: Key)
    ensures Bucket(a + b, key, k) == Bucket(a, key, k) + Bucket(b, key, k)
    decreases |b|
  {
    if |b| == 0 {
      assert a + b == a;
    } else {
      assert (a + b)[..|a + b| - 1] == a + b[..|b| - 1];
      BucketAppend(a, b[..|b| - 1], key, k);
    }
  }

  /** Places `x` after every element whose key is not greater than its own. */
  function Insert<T>(x: T, s: seq<T>, key: T -> Key): (r: seq<T>)
    requires SortedBy(s, key)
    ensures SortedBy(r, key)
    ensures multiset(r) == multiset(s) + multiset{x}
    decreases |s|
  {
    if |s| == 0 then [x]
    else if KeyLe(key(s[|s| - 1]), key(x)) then s + [x]
    else
      var ins := Insert(x, s[..|s| - 1], key);
      InsertStep(x, s, ins, key);
      ins + [s[|s| - 1]]
  }

  /** The step of `Insert` that puts the last element back after the
      insertion into the rest. */
  lemma InsertStep<T>(x: T, s: seq<T>, ins: seq<T>, key: T -> Key)
    requires SortedBy(s, key) && |s| > 0 && !KeyLe(key(s[|s| - 1]), key(x))
    requires SortedBy(ins, key) && multiset(ins) == multiset(s[..|s| - 1]) + multiset{x}
    ensures SortedBy(ins + [s[|s| - 1]], key)
    ensures multiset(ins + [s[|s| - 1]]) == multiset(s) + multiset{x}
  {
    var init, last := s[..|s| - 1], s[|s| - 1];
    assert s == init + [last];
    forall y | y in ins
      ensures KeyLe(key(y), key(last))
    {
      assert y in multiset(ins);
      if y != x {
        assert y in multiset(init);
        var i :| 0 <= i < |init| && init[i] == y;
        assert s[i] == y;
      }
    }
    SortedAppend(ins, last, key);
  }

  lemma SortedAppend<T>(s: seq<T>, last: T, key: T -> Key)
    requires SortedBy(s, key) && forall y :: y in s ==> KeyLe(key(y), key(last))
    ensures SortedBy(s + [last], key)
  {
    var r := s + [last];
    forall i, j | 0 <= i < j < |r|
      ensures KeyLe(key(r[i]), key(r[j]))
    {
      if j == |s| {
        assert r[i] in s;
      }
    }
  }

  /** Stable sort: insertion of each element in input order. */
  function SortBy<T>(s: seq<T>, key: T -> Key): (r: seq<T>)
    ensures SortedBy(r, key)
    ensures multiset(r) == multiset(s)
    ensures |r| == |s|
  {
    if |s| == 0 then []
    else
      var r := Insert(s[|s| - 1], SortBy(s[..|s| - 1], key), key);
      SameCount(r, s);
      r
  }

  lemma SameCount<T>(r: seq<T>, s: seq<T>)
    requires |s| > 0 && multiset(r) == multiset(s[..|s| - 1]) + multiset{s[|s| - 1]}
    ensures multiset(r) == multiset(s) && |r| == |s|
  {
    assert s == s[..|s| - 1] + [s[|s| - 1]];
    assert |r| == |multiset(r)|;
  }

  /** The part of a bucket contributed by one element. */
  function Single<T>(y: T, key: T -> Key, k: Key): seq<T> {
    if key(y) == k then [y] else []
  }

  lemma {:induction false} BucketSingleton<T>(y: T, key: T -> Key, k: Key)
    ensures Bucket([y], key, k) == Single(y, key, k)
  {
    assert [y][..0] == [];
  }

  lemma {:induction false} InsertUnfold<T>(x: T, s: seq<T>, key: T -> Key)
    requires SortedBy(s, key) && |s| > 0 && !KeyLe(key(s[|s| - 1]), key(x))
    ensures Insert(x, s, key) == Insert(x, s[..|s| - 1], key) + [s[|s| - 1]]
  {
  }

  /** Moving `x` past an element with a different key leaves every bucket
      unchanged. */
  lemma {:induction false} BucketShift<T>(ins: seq<T>, init: seq<T>, x: T, last: T, key: T -> Key, k: Key)
    requires Bucket(ins, key, k) == Bucket(init, key, k) + Single(x, key, k)
    requires key(x) != key(last)
    ensures Bucket(ins + [last], key, k) == Bucket(init, key, k) + Single(last, key, k) + Single(x, key, k)
  {
    BucketAppend(ins, [last], key, k);
    BucketSingleton(last, key, k);
  }

  lemma {:induction false} InsertBucket<T>(x: T, s: seq<T>, key: T -> Key, k: Key)
    requires SortedBy(s, key)
    ensures Bucket(Insert(x, s, key), key, k) == Bucket(s, key, k) + Single(x, key, k)
    decreases |s|
  {
    BucketSingleton(x, key, k);
    if |s| == 0 {
    } else if KeyLe(key(s[|s| - 1]), key(x)) {
      BucketAppend(s, [x], key, k);
    } else {
      InsertBucket(x, s[..|s| - 1], key, k);
      InsertBucketStep(x, s, key, k);
    }
  }

  lemma InsertBucketStep<T>(x: T, s: seq<T>, key: T -> Key, k: Key)
    requires SortedBy(s, key) && |s| > 0 && !KeyLe(key(s[|s| - 1]), key(x))
    requires Bucket(Insert(x, s[..|s| - 1], key), key, k) == Bucket(s[..|s| - 1], key, k) + Single(x, key, k)
    ensures Bucket(Insert(x, s, key), key, k) == Bucket(s, key, k) + Single(x, key, k)
  {
    var init, last := s[..|s| - 1], s[|s| - 1];
    var ins := Insert(x, init, key);
    assert Bucket(s, key, k) == Bucket(init, key, k) + Single(last, key, k);
    InsertUnfold(x, s, key);
    assert Insert(x, s, key) == ins + [last];
    BucketShift(ins, init, x, last, key, k);
  }

  /** Stability: elements with equal keys keep their input order. */
  lemma {:induction false} SortByStable<T>(s: seq<T>, key: T -> Key, k: Key)
    ensures Bucket(SortBy(s, key), key, k) == Bucket(s, key, k)
    decreases |s|
  {
    if |s| > 0 {
      var init, last := s[..|s| - 1], s[|s| - 1];
      SortByStable(init, key, k);
      InsertBucket(last, SortBy(init, key), key, k);
    }
  }
}

=== FILE: stage_metrics.dfy ===
/** The analytics metadata computed after each production record is saved:
    yields, simple OEE, quality metrics and anomaly flags per stage, plus the
    thirty-day downtime health of a machine. */
module StageMetrics {
  import opened Wrappers
  import opened Numeric

  /** Version tag and computation time carried by every bundle. */
  datatype Stamp = Stamp(aiVersion: string, computedAt: string)

  function StampAt(now: string): (s: Stamp)
    ensures s.aiVersion == "1.0" && s.computedAt == now
  {
    Stamp("1.0", now)
  }

  /** A metadata key: missing, present with a null value, or a number. */
  datatype Field = Absent | Null | Val(v: real)

  datatype Flag =
    | HighWaste | HighNeps | HighCv | LowEfficiency | HighBreakage | LowOee
    | QualityFail | HighTemperature | ExtremePh | FrequentDowntime | ExcessiveDowntime

  predicate Distinct<T(==)>(s: seq<T>) {
    forall i, j :: 0 <= i < j < |s| ==> s[i] != s[j]
  }

  // ── Blowroom ─────────────────────────────────────────────

  datatype BlowroomMeta = BlowroomMeta(stamp: Stamp, yieldPct: Field, wastePct: Field, flags: seq<Flag>)

  /** Waste percentage is taken from the recorded waste weight only; with no
      waste weight it is null, never derived from input minus output. */
  function BlowroomMetrics(now: string, inp: Option<real>, out: Option<real>, waste: Option<real>): (m: BlowroomMeta)
    ensures m.stamp == StampAt(now)
    ensures m.yieldPct == Absent <==> !(inp.Some? && inp.value > 0.0)
    ensures m.wastePct == Absent <==> !(inp.Some? && inp.value > 0.0)
    ensures m.yieldPct == Null <==> inp.Some? && inp.value > 0.0 && !Truthy(out)
    ensures m.wastePct == Null <==> inp.Some? && inp.value > 0.0 && !Truthy(waste)
    ensures m.yieldPct.Val? ==> WithinHalfStep(m.yieldPct.v, out.value / inp.value * 100.0, 2)
    ensures m.wastePct.Val? ==> WithinHalfStep(m.wastePct.v, waste.value / inp.value * 100.0, 2)
    ensures HighWaste in m.flags <==> m.wastePct.Val? && m.wastePct.v > 8.0
    ensures forall f :: f in m.flags ==> f == HighWaste
    ensures |m.flags| <= 1
  {
    var positive := inp.Some? && inp.value > 0.0;
    var y := if !positive then Absent
             else if Truthy(out) then Val(RoundTo(out.value / inp.value * 100.0, 2)) else Null;
    var w := if !positive then Absent
             else if Truthy(waste) then Val(RoundTo(waste.value / inp.value * 100.0, 2)) else Null;
    BlowroomMeta(StampAt(now), y, w, if w.Val? && w.v != 0.0 && w.v > 8.0 then [HighWaste] else [])
  }

  // ── Carding ──────────────────────────────────────────────

  datatype CardingMeta = CardingMeta(stamp: Stamp, yieldPct: Option<real>, neps: Option<int>, flags: seq<Flag>)

  function CardingMetrics(now: string, inp: Option<real>, out: Option<real>, neps: Option<int>): (m: CardingMeta)
    ensures m.stamp == StampAt(now)
    ensures m.yieldPct == Percentage(out, inp)
    ensures m.neps == neps
    ensures HighNeps in m.flags <==> neps.Some? && neps.value > 200
    ensures forall f :: f in m.flags ==> f == HighNeps
    ensures |m.flags| <= 1
  {
    var flags := if neps.Some? && neps.value > 200 then [HighNeps] else [];
    CardingMeta(StampAt(now), Percentage(out, inp), neps, flags)
  }

  // ── Passage (drawing) ────────────────────────────────────

  datatype PassageMeta = PassageMeta(stamp: Stamp, evennessCv: Option<real>, draftRatio: Option<real>, flags: seq<Flag>)

  function PassageMetrics(now: string, cv: Option<real>, draft: Option<real>): (m: PassageMeta)
    ensures m.stamp == StampAt(now)
    ensures m.evennessCv == cv
    ensures m.draftRatio.Some? <==> Truthy(draft)
    ensures m.draftRatio.Some? ==> m.draftRatio == draft
    ensures HighCv in m.flags <==> cv.Some? && cv.value > 5.0
    ensures forall f :: f in m.flags ==> f == HighCv
    ensures |m.flags| <= 1
  {
    var flags := if cv.Some? && cv.value > 5.0 then [HighCv] else [];
    PassageMeta(StampAt(now), cv, if Truthy(draft) then draft else None, flags)
  }

  // ── Finisher ─────────────────────────────────────────────

  datatype FinisherMeta = FinisherMeta(stamp: Stamp, yieldPct: Option<real>, flags: seq<Flag>)

  function FinisherMetrics(now: string, inp: Option<real>, out: Option<real>): (m: FinisherMeta)
    ensures m.stamp == StampAt(now)
    ensures m.yieldPct == Percentage(out, inp)
    ensures m.flags == []
  {
    FinisherMeta(StampAt(now), Percentage(out, inp), [])
  }

  // ── Ring spinning ────────────────────────────────────────

  datatype SpinningOee = SpinningOee(performance: Option<real>, availability: Option<real>, oeeSimple: Option<real>)

  datatype SpinningMeta = SpinningMeta(
    stamp: Stamp,
    yieldPct: Option<real>,
    oee: SpinningOee,
    breakageCount: int,
    breakagePer1000: real,
    flags: seq<Flag>)

  function MaxInt(a: int, b: int): int {
    if a >= b then a else b
  }

  /** Simple OEE of a spinning record. Availability is active over total
      spindles (total falling back to active when missing or zero); the
      simple OEE multiplies the already rounded availability by the
      efficiency. */
  function SpinningMetrics(now: string, inp: Option<real>, out: Option<real>, eff: Option<real>,
                    breakage: Option<int>, active: Option<int>, total: Option<int>): (m: SpinningMeta)
    ensures m.stamp == StampAt(now)
    ensures m.yieldPct == Percentage(out, inp)
    ensures m.oee.performance.Some? <==> Truthy(eff)
    ensures m.oee.performance.Some? ==> m.oee.performance == eff
    ensures m.oee.availability.Some? <==> OrElseInt(active, 0) > 0
    ensures m.oee.availability.Some? ==>
      WithinHalfStep(m.oee.availability.value,
                     OrElseInt(active, 0) as real / OrElseInt(total, OrElseInt(active, 0)) as real * 100.0, 2)
    ensures m.oee.oeeSimple.Some? <==> Truthy(eff) && OrElseInt(active, 0) > 0
    ensures OeeFromRoundedAvailability(m.oee, eff)
    ensures m.breakageCount == OrElseInt(breakage, 0)
    ensures WithinHalfStep(m.breakagePer1000,
                           OrElseInt(breakage, 0) as real / MaxInt(OrElseInt(active, 0), 1) as real * 1000.0, 1)
    ensures LowEfficiency in m.flags <==> Truthy(eff) && eff.value < 70.0
    ensures HighBreakage in m.flags <==> OrElseInt(breakage, 0) > 50
    ensures LowOee in m.flags <==> m.oee.oeeSimple.Some? && m.oee.oeeSimple.value != 0.0 && m.oee.oeeSimple.value < 60.0
    ensures forall f :: f in m.flags ==> f in {LowEfficiency, HighBreakage, LowOee}
    ensures Distinct(m.flags)
  {
    var brk := OrElseInt(breakage, 0);
    var spindles := OrElseInt(active, 0);
    var oee := SpinningOeeOf(eff, spindles, total);
    var m := SpinningMeta(StampAt(now), Percentage(out, inp), oee, brk, BreakagePer1000(brk, spindles),
                          SpinningFlags(eff, brk, oee.oeeSimple));
    m
  }

  /** The simple OEE is the rounded availability times the efficiency. */
  predicate OeeFromRoundedAvailability(o: SpinningOee, eff: Option<real>) {
    OeeNear(o.oeeSimple, o.availability, eff)
  }

  predicate OeeNear(oee: Option<real>, availability: Option<real>, eff: Option<real>) {
    oee.Some? && availability.Some? && eff.Some? ==>
      WithinHalfStep(oee.value, availability.value * eff.value / 100.0, 2)
  }

  function SpinningOeeOf(eff: Option<real>, spindles: int, total: Option<int>): (o: SpinningOee)
    ensures o.performance.Some? <==> Truthy(eff)
    ensures o.performance.Some? ==> o.performance == eff
    ensures o.availability.Some? <==> spindles > 0
    ensures o.availability.Some? ==>
      WithinHalfStep(o.availability.value, spindles as real / OrElseInt(total, spindles) as real * 100.0, 2)
    ensures o.oeeSimple.Some? <==> Truthy(eff) && spindles > 0
    ensures OeeFromRoundedAvailability(o, eff)
  {
    var availability := SpindleAvailability(spindles, total);
    SpinningOee(if Truthy(eff) then eff else None, availability, OeeSimple(eff, availability))
  }

  function BreakagePer1000(brk: int, spindles: int): (r: real)
    ensures WithinHalfStep(r, brk as real / MaxInt(spindles, 1) as real * 1000.0, 1)
  {
    RoundTo(brk as real / MaxInt(spindles, 1) as real * 1000.0, 1)
  }

  function SpindleAvailability(spindles: int, total: Option<int>): (r: Option<real>)
    ensures r.Some? <==> spindles > 0
    ensures r.Some? ==> WithinHalfStep(r.value, spindles as real / OrElseInt(total, spindles) as real * 100.0, 2)
  {
    if spindles > 0 then Some(RoundTo(spindles as real / OrElseInt(total, spindles) as real * 100.0, 2))
    else None
  }

  function OeeSimple(eff: Option<real>, availability: Option<real>): (r: Option<real>)
    ensures r.Some? <==> Truthy(eff) && availability.Some?
    ensures OeeNear(r, availability, eff)
  {
    if Truthy(eff) && availability.Some? then
      var x := availability.value * eff.value / 10000.0 * 100.0;
      assert x == availability.value * eff.value / 100.0;
      Some(RoundTo(x, 2))
    else None
  }

  function SpinningFlags(eff: Option<real>, brk: int, oeeSimple: Option<real>): (flags: seq<Flag>)
    ensures LowEfficiency in flags <==> Truthy(eff) && eff.value < 70.0
    ensures HighBreakage in flags <==> brk > 50
    ensures LowOee in flags <==> oeeSimple.Some? && oeeSimple.value != 0.0 && oeeSimple.value < 60.0
    ensures forall f :: f in flags ==> f in {LowEfficiency, HighBreakage, LowOee}
    ensures Distinct(flags)
  {
    (if Truthy(eff) && eff.value < 70.0 then [LowEfficiency] else [])
    + (if brk > 50 then [HighBreakage] else [])
    + (if oeeSimple.Some? && oeeSimple.value != 0.0 && oeeSimple.value < 60.0 then [LowOee] else [])
  }

  /** 400 of 480 spindles at 92% efficiency: availability 83.33 and simple
      OEE 76.66, because the OEE is computed from the rounded availability
      (the unrounded product would give 76.67). */
  lemma SpinningExample(now: string)
    ensures var m := SpinningMetrics(now, None, None, Some(92.0), None, Some(400), Some(480));
      m.oee.availability == Some(83.33) && m.oee.oeeSimple == Some(76.66)
  {
    var x := 400 as real / 480 as real * 100.0;
    assert Scale(2) == 100.0;
    RoundToNear(x, 2, 8333);
    var a := RoundTo(x, 2);
    assert a == 83.33;
    var y := a * 92.0 / 10000.0 * 100.0;
    RoundToNear(y, 2, 7666);
  }

  // ── Dyeing ───────────────────────────────────────────────

  datatype DyeingMeta = DyeingMeta(
    stamp: Stamp,
    temperature: Option<real>,
    ph: Option<real>,
    liquorRatio: Option<real>,
    durationMin: Option<int>,
    flags: seq<Flag>)

  /** A pH of exactly 0 is falsy and therefore never flagged, although it is
      below 3. */
  function DyeingMetrics(now: string, qualityResult: Option<string>, temperature: Option<real>, ph: Option<real>,
                  liquorRatio: Option<real>, durationMin: Option<int>): (m: DyeingMeta)
    ensures m.stamp == StampAt(now)
    ensures m.temperature == temperature && m.ph == ph
    ensures m.liquorRatio == liquorRatio && m.durationMin == durationMin
    ensures QualityFail in m.flags <==> qualityResult == Some("fail")
    ensures HighTemperature in m.flags <==> temperature.Some? && temperature.value > 130.0
    ensures ExtremePh in m.flags <==> ph.Some? && ph.value != 0.0 && (ph.value < 3.0 || ph.value > 11.0)
    ensures forall f :: f in m.flags ==> f in {QualityFail, HighTemperature, ExtremePh}
    ensures Distinct(m.flags)
  {
    var flags :=
      (if qualityResult == Some("fail") then [QualityFail] else [])
      + (if Truthy(temperature) && temperature.value > 130.0 then [HighTemperature] else [])
      + (if Truthy(ph) && (ph.value < 3.0 || ph.value > 11.0) then [ExtremePh] else []);
    DyeingMeta(StampAt(now), temperature, ph, liquorRatio, durationMin, flags)
  }

  // ── Downtime ─────────────────────────────────────────────

  /** A logged stop: machine, start time in seconds, duration in minutes. */
  datatype DowntimeEvent = DowntimeEvent(machine: int, startTime: int, durationMin: Option<int>)

  const ThirtyDays: int := 30 * 24 * 60 * 60

  predicate InWindow(e: DowntimeEvent, machine: int, since: int) {
    e.machine == machine && e.startTime >= since
  }

  /** The machine's stops starting at or after `since`. */
  function Recent(log: seq<DowntimeEvent>, machine: int, since: int): (r: seq<DowntimeEvent>)
    ensures |r| <= |log|
    ensures forall e :: e in r <==> e in log && InWindow(e, machine, since)
  {
    if |log| == 0 then []
    else Recent(log[..|log| - 1], machine, since)
         + (if InWindow(log[|log| - 1], machine, since) then [log[|log| - 1]] else [])
  }

  /** The sum of the recorded durations; missing durations add nothing. */
  function MinutesOf(events: seq<DowntimeEvent>): int {
    if |events| == 0 then 0
    else MinutesOf(events[..|events| - 1]) + events[|events| - 1].durationMin.GetOr(0)
  }

  datatype DowntimeMeta = DowntimeMeta(stamp: Stamp, count30d: nat, totalMin30d: int, flags: seq<Flag>)

  /** Thirty-day health of the machine of a stop that has just been saved
      (`log` includes that stop). */
  function Downtime(now: string, nowTime: int, machine: int, log: seq<DowntimeEvent>): (m: DowntimeMeta)
    ensures m.stamp == StampAt(now)
    ensures m.count30d == |Recent(log, machine, nowTime - ThirtyDays)|
    ensures m.totalMin30d == MinutesOf(Recent(log, machine, nowTime - ThirtyDays))
    ensures FrequentDowntime in m.flags <==> m.count30d > 10
    ensures ExcessiveDowntime in m.flags <==> m.totalMin30d > 500
    ensures forall f :: f in m.flags ==> f in {FrequentDowntime, ExcessiveDowntime}
    ensures Distinct(m.flags)
  {
    var recent := Recent(log, machine, nowTime - ThirtyDays);
    var count := |recent|;
    var total := MinutesOf(recent);
    var flags := (if count > 10 then [FrequentDowntime] else []) + (if total > 500 then [ExcessiveDowntime] else []);
    DowntimeMeta(StampAt(now), count, total, flags)
  }

  /** One more stop of the machine inside the window raises the count by one
      and the minute sum by its duration; a stop outside changes neither. */
  lemma {:induction false} DowntimeAppend(log: seq<DowntimeEvent>, e: DowntimeEvent, machine: int, since: int)
    ensures InWindow(e, machine, since) ==>
      |Recent(log + [e], machine, since)| == |Recent(log, machine, since)| + 1
      && MinutesOf(Recent(log + [e], machine, since)) == MinutesOf(Recent(log, machine, since)) + e.durationMin.GetOr(0)
    ensures !InWindow(e, machine, since) ==> Recent(log + [e], machine, since) == Recent(log, machine, since)
  {
    assert (log + [e])[..|log + [e]| - 1] == log;
    var r := Recent(log, machine, since);
    if InWindow(e, machine, since) {
      assert Recent(log + [e], machine, since) == r + [e];
      assert (r + [e])[..|r + [e]| - 1] == r;
    }
  }

  /** Stops of other machines never count towards a machine's health. */
  lemma {:induction false} DowntimeOtherMachine(log: seq<DowntimeEvent>, other: seq<DowntimeEvent>, machine: int, since: int)
    requires forall i :: 0 <= i < |other| ==> other[i].machine != machine
    ensures Recent(log + other, machine, since) == Recent(log, machine, since)
    decreases |other|
  {
    if |other| == 0 {
      assert log + other == log;
    } else {
      var o' := other[..|other| - 1];
      assert log + other == (log + o') + [other[|other| - 1]];
      DowntimeAppend(log + o', other[|other| - 1], machine, since);
      DowntimeOtherMachine(log, o', machine, since);
    }
  }

  // ── Write-back ───────────────────────────────────────────

  /** Stored metadata after the handler, and whether it issued a write. */
  datatype Saved<M> = Saved(metadata: M, wrote: bool)

  /** The computed bundle is written only when it differs from the stored
      one, through an update that does not re-enter the handler. */
  function Persist<M(==)>(stored: M, computed: M): (r: Saved<M>)
    ensures r.metadata == computed
    ensures r.wrote <==> stored != computed
  {
    if stored != computed then Saved(computed, true) else Saved(stored, false)
  }

  /** Persisting the same bundle again issues no write. */
  lemma PersistIdempotent<M>(stored: M, computed: M)
    ensures !Persist(Persist(stored, computed).metadata, computed).wrote
  {
  }

  /** Recomputing a bundle at another time changes only its stamp. */
  lemma RecomputeChangesOnlyStamp(now1: string, now2: string, inp: Option<real>, out: Option<real>,
                                  eff: Option<real>, breakage: Option<int>, active: Option<int>, total: Option<int>)
    ensures SpinningMetrics(now1, inp, out, eff, breakage, active, total).(stamp := StampAt(now2))
         == SpinningMetrics(now2, inp, out, eff, breakage, active, total)
    ensures SpinningMetrics(now1, inp, out, eff, breakage, active, total) != SpinningMetrics(now2, inp, out, eff, breakage, active, total)
        <==> now1 != now2
  {
  }
}

=== FILE: tablet.dfy ===
/** The shop-floor tablet forms: the values a form fills in by itself
    (blow-room waste, ring efficiency, the blend recipe, a stop's end time)
    and the work order a breakdown raises. Posted fields arrive as text and
    go through the safe parsers of `Forms`. */
module Tablet {
  import opened Wrappers
  import opened Numeric
  import opened Text
  import opened Forms
  import Maintenance
  import BatchIds
  import Records
  import Core

  // ---------------------------------------------------------------------
  // Blow-room waste.

  /** Whether the form computes the waste itself: input and output are both
      given and non-zero and no (or a zero) waste weight was posted. */
  predicate WasteFilled(input: Option<real>, output: Option<real>, waste: Option<real>) {
    Truthy(input) && Truthy(output) && !Truthy(waste)
  }

  /** The waste weight stored with a blow-room batch. */
  function AutoWaste(input: Option<real>, output: Option<real>, waste: Option<real>): (r: Option<real>)
    ensures !WasteFilled(input, output, waste) ==> r == waste
    ensures WasteFilled(input, output, waste) ==> r.Some? && r.value >= 0.0
    ensures WasteFilled(input, output, waste) && output.value <= input.value ==>
      output.value + r.value == input.value
    ensures WasteFilled(input, output, waste) && output.value > input.value ==> r.value == 0.0
  {
    if WasteFilled(input, output, waste) then Some(Max(0.0, input.value - output.value)) else waste
  }

  // ---------------------------------------------------------------------
  // Fiber lots of a blow-room batch.

  /** A fiber lot taken into the batch: its stock id, the code of its fiber
      category and the weight used. */
  datatype Lot = Lot(stockId: string, category: string, weight: real)

  /** The weight posted on a fiber row, through the decimal parser. */
  function RowWeight(weight: string): Option<real> {
    SafeDecimal(Some(weight), None)
  }

  /** One posted fiber row: the stock id and the weight, as text. */
  datatype Row = Row(id: string, weight: string)

  /** The two posted lists paired up position by position; the longer
      one's tail is ignored. */
  function Zip(ids: seq<string>, weights: seq<string>): (rows: seq<Row>)
    ensures |rows| <= |ids| && |rows| <= |weights|
    ensures |rows| == |ids| || |rows| == |weights|
    ensures forall i :: 0 <= i < |rows| ==> rows[i] == Row(ids[i], weights[i])
  {
    var n := if |ids| <= |weights| then |ids| else |weights|;
    seq(n, i requires 0 <= i < n => Row(ids[i], weights[i]))
  }

  /** A row counts when its stock id is non-blank, its weight parses to a
      positive number, and the id names an available lot; `available` maps
      the id of every available lot to its category code. */
  predicate Accepted(r: Row, available: map<string, string>) {
    Strip(r.id) != "" && Truthy(RowWeight(r.weight)) && RowWeight(r.weight).value > 0.0 && Strip(r.id) in available
  }

  /** The lot an accepted row takes. */
  function LotOf(r: Row, available: map<string, string>): Lot {
    var id := Strip(r.id);
    Lot(id, if id in available then available[id] else "", RowWeight(r.weight).GetOr(0.0))
  }

  /** The lot comes from one of the accepted rows. */
  predicate FromRow(l: Lot, rows: seq<Row>, available: map<string, string>) {
    exists r :: r in rows && Accepted(r, available) && l == LotOf(r, available)
  }

  /** The lots of the accepted rows, in row order. */
  function AcceptedLots(rows: seq<Row>, available: map<string, string>): (lots: seq<Lot>)
    ensures |lots| <= |rows|
    ensures forall l :: l in lots ==> l.weight > 0.0 && l.stockId in available && available[l.stockId] == l.category
    ensures forall l :: l in lots ==> FromRow(l, rows, available)
    ensures forall r :: r in rows && Accepted(r, available) ==> LotOf(r, available) in lots
  {
    var lots := Records.Keep(rows, (r: Row) => Accepted(r, available), (r: Row) => LotOf(r, available));
    forall l | l in lots
      ensures FromRow(l, rows, available)
      ensures l.weight > 0.0 && l.stockId in available && available[l.stockId] == l.category
    {
      var r :| r in rows && Accepted(r, available) && l == LotOf(r, available);
    }
    lots
  }

  /** The weights of `lots`, added up. */
  function TotalWeight(lots: seq<Lot>): real {
    if |lots| == 0 then 0.0 else TotalWeight(lots[..|lots| - 1]) + lots[|lots| - 1].weight
  }

  /** With positive weights, every lot's weight is at most the total, and
      the total is positive exactly when there is a lot. */
  lemma {:induction false} WeightWithinTotal(lots: seq<Lot>)
    requires forall l :: l in lots ==> l.weight > 0.0
    ensures forall l :: l in lots ==> l.weight <= TotalWeight(lots)
    ensures TotalWeight(lots) > 0.0 <==> |lots| > 0
  {
    if |lots| > 0 {
      var p := lots[..|lots| - 1];
      assert forall l :: l in p ==> l in lots;
      WeightWithinTotal(p);
      assert TotalWeight(p) >= 0.0;
    }
  }

  // ---------------------------------------------------------------------
  // The blend recipe: an insertion-ordered mapping from category code to
  // an amount.

  datatype Share = Share(category: string, amount: real)

  /** Position of the entry for `c`, or |d| when there is none. */
  function Find(d: seq<Share>, c: string): (i: nat)
    ensures i <= |d|
    ensures i < |d| ==> d[i].category == c
    ensures forall j :: 0 <= j < i ==> d[j].category != c
  {
    if |d| == 0 then 0
    else if d[0].category == c then 0
    else 1 + Find(d[1..], c)
  }

  function Lookup(d: seq<Share>, c: string): (r: Option<real>)
    ensures r.Some? <==> exists j :: 0 <= j < |d| && d[j].category == c
  {
    var i := Find(d, c);
    if i < |d| then Some(d[i].amount) else None
  }

  /** `d[c] = v`: an existing key keeps its place, a new one goes last. */
  function Put(d: seq<Share>, c: string, v: real): seq<Share> {
    var i := Find(d, c);
    if i < |d| then d[i := Share(c, v)] else d + [Share(c, v)]
  }

  predicate DistinctKeys(d: seq<Share>) {
    forall i, j :: 0 <= i < j < |d| ==> d[i].category != d[j].category
  }

  function Amounts(d: seq<Share>): real {
    if |d| == 0 then 0.0 else Amounts(d[..|d| - 1]) + d[|d| - 1].amount
  }

  lemma {:induction false} AmountsAppend(d: seq<Share>, x: Share)
    ensures Amounts(d + [x]) == Amounts(d) + x.amount
  {
    assert (d + [x])[..|d|] == d;
  }

  /** Replacing one entry changes the sum by the difference. */
  lemma {:induction false} AmountsUpdate(d: seq<Share>, i: nat, x: Share)
    requires i < |d|
    ensures Amounts(d[i := x]) == Amounts(d) - d[i].amount + x.amount
    decreases |d|
  {
    var e := d[i := x];
    if i < |d| - 1 {
      assert e[..|e| - 1] == d[..|d| - 1][i := x];
      AmountsUpdate(d[..|d| - 1], i, x);
    } else {
      assert e[..|e| - 1] == d[..|d| - 1];
    }
  }

  /** What `Put` does to the mapping and to the sum of its amounts. */
  lemma PutFacts(d: seq<Share>, c: string, v: real)
    requires DistinctKeys(d)
    ensures DistinctKeys(Put(d, c, v))
    ensures Lookup(Put(d, c, v), c) == Some(v)
    ensures forall k :: k != c ==> Lookup(Put(d, c, v), k) == Lookup(d, k)
    ensures Amounts(Put(d, c, v)) == Amounts(d) - Lookup(d, c).GetOr(0.0) + v
    ensures |Put(d, c, v)| == |d| || Put(d, c, v) == d + [Share(c, v)]
  {
    var i := Find(d, c);
    var e := Put(d, c, v);
    if i < |d| {
      AmountsUpdate(d, i, Share(c, v));
      forall k | k != c ensures Lookup(e, k) == Lookup(d, k) {
        FindSame(d, e, k);
      }
      FindHere(e, i, c);
    } else {
      AmountsAppend(d, Share(c, v));
      forall k | k != c ensures Lookup(e, k) == Lookup(d, k) {
        FindPrefix(d, Share(c, v), k);
      }
      FindPrefix(d, Share(c, v), c);
    }
  }

  /** Entries keyed `c` first occur at the same place in two mappings that
      agree on every key equal to `c`. */
  lemma {:induction false} FindSame(d: seq<Share>, e: seq<Share>, c: string)
    requires |d| == |e|
    requires forall j :: 0 <= j < |d| ==> (d[j].category == c <==> e[j].category == c)
    requires forall j :: 0 <= j < |d| && d[j].category == c ==> d[j] == e[j]
    ensures Find(d, c) == Find(e, c)
    ensures Lookup(d, c) == Lookup(e, c)
    decreases |d|
  {
    if |d| > 0 && d[0].category != c {
      FindSame(d[1..], e[1..], c);
    }
  }

  lemma {:induction false} FindHere(d: seq<Share>, i: nat, c: string)
    requires DistinctKeys(d) && i < |d| && d[i].category == c
    ensures Find(d, c) == i
  {
  }

  lemma {:induction false} FindPrefix(d: seq<Share>, x: Share, c: string)
    ensures Find(d, c) < |d| ==> Find(d + [x], c) == Find(d, c)
    ensures Find(d, c) == |d| && x.category == c ==> Find(d + [x], c) == |d|
    ensures Find(d, c) == |d| && x.category != c ==> Find(d + [x], c) == |d| + 1
    ensures Lookup(d + [x], c) == (if Lookup(d, c).Some? then Lookup(d, c) else if x.category == c then Some(x.amount) else None)
    decreases |d|
  {
    if |d| > 0 && d[0].category != c {
      assert (d + [x])[1..] == d[1..] + [x];
      FindPrefix(d[1..], x, c);
    }
  }

  /** Keys of a mapping: the categories it holds an entry for. */
  predicate Holds(d: seq<Share>, c: string) {
    Lookup(d, c).Some?
  }

  /** Some lot of the list belongs to category `c`. */
  predicate HasCategory(lots: seq<Lot>, c: string) {
    exists l :: l in lots && l.category == c
  }

  /** Reference definition: the weight of the lots of category `c`. */
  function CategoryWeight(lots: seq<Lot>, c: string): real {
    if |lots| == 0 then 0.0
    else CategoryWeight(lots[..|lots| - 1], c) + (if lots[|lots| - 1].category == c then lots[|lots| - 1].weight else 0.0)
  }

  /** Reference definition: the weight of the last lot of category `c`. */
  function LastWeight(lots: seq<Lot>, c: string): Option<real> {
    if |lots| == 0 then None
    else if lots[|lots| - 1].category == c then Some(lots[|lots| - 1].weight)
    else LastWeight(lots[..|lots| - 1], c)
  }

  /** The recipe as the blow-room form builds it: every lot stores its
      weight under its category, replacing what an earlier lot of the same
      category stored. */
  function RecipeAsWritten(lots: seq<Lot>): seq<Share> {
    if |lots| == 0 then []
    else
      var l := lots[|lots| - 1];
      Put(RecipeAsWritten(lots[..|lots| - 1]), l.category, l.weight)
  }

  /** The recipe with every lot's weight added to its category's entry. */
  function Recipe(lots: seq<Lot>): seq<Share> {
    if |lots| == 0 then []
    else
      Add(Recipe(lots[..|lots| - 1]), lots[|lots| - 1])
  }

  /** `d[c] = d.get(c, 0) + w` for the category `c` and weight `w` of `l`. */
  function Add(d: seq<Share>, l: Lot): seq<Share> {
    Put(d, l.category, Lookup(d, l.category).GetOr(0.0) + l.weight)
  }

  /** The recipe as written keeps only the last weight of each category. */
  lemma {:induction false} RecipeAsWrittenKeepsLast(lots: seq<Lot>)
    ensures DistinctKeys(RecipeAsWritten(lots))
    ensures forall c :: Lookup(RecipeAsWritten(lots), c) == LastWeight(lots, c)
  {
    if |lots| > 0 {
      var l := lots[|lots| - 1];
      RecipeAsWrittenKeepsLast(lots[..|lots| - 1]);
      PutFacts(RecipeAsWritten(lots[..|lots| - 1]), l.category, l.weight);
    }
  }

  /** The corrected recipe holds, for each category of the accepted lots
      and for no other, the weight of that category's lots; its amounts add
      up to the total weight. */
  lemma RecipeIsPerCategory(lots: seq<Lot>)
    ensures DistinctKeys(Recipe(lots))
    ensures forall c :: Holds(Recipe(lots), c) <==> HasCategory(lots, c)
    ensures forall c :: Lookup(Recipe(lots), c).GetOr(0.0) == CategoryWeight(lots, c)
    ensures Amounts(Recipe(lots)) == TotalWeight(lots)
  {
    RecipeDistinct(lots);
    RecipeHolds(lots);
    RecipeWeights(lots);
    RecipeTotal(lots);
  }

  /** What counting lot `l` into `d` does to the keys, the entries and the
      sum of the amounts. */
  lemma AddFacts(d: seq<Share>, l: Lot)
    requires DistinctKeys(d)
    ensures DistinctKeys(Add(d, l))
    ensures Lookup(Add(d, l), l.category).Some?
    ensures forall c :: c != l.category ==> Lookup(Add(d, l), c) == Lookup(d, c)
    ensures Lookup(Add(d, l), l.category).GetOr(0.0) == Lookup(d, l.category).GetOr(0.0) + l.weight
  {
    PutFacts(d, l.category, Lookup(d, l.category).GetOr(0.0) + l.weight);
  }

  lemma AddAmounts(d: seq<Share>, l: Lot)
    requires DistinctKeys(d)
    ensures Amounts(Add(d, l)) == Amounts(d) + l.weight
  {
    PutFacts(d, l.category, Lookup(d, l.category).GetOr(0.0) + l.weight);
  }

  lemma {:induction false} RecipeDistinct(lots: seq<Lot>)
    ensures DistinctKeys(Recipe(lots))
  {
    if |lots| > 0 {
      RecipeDistinct(lots[..|lots| - 1]);
      AddFacts(Recipe(lots[..|lots| - 1]), lots[|lots| - 1]);
    }
  }

  lemma {:induction false} RecipeHolds(lots: seq<Lot>)
    ensures forall c :: Holds(Recipe(lots), c) <==> HasCategory(lots, c)
  {
    if |lots| > 0 {
      var p, l := lots[..|lots| - 1], lots[|lots| - 1];
      RecipeHolds(p);
      RecipeDistinct(p);
      AddFacts(Recipe(p), l);
      assert lots == p + [l];
      forall c ensures Holds(Recipe(lots), c) <==> HasCategory(lots, c) {
        if HasCategory(p, c) {
          var x :| x in p && x.category == c;
          assert x in lots;
        }
        if HasCategory(lots, c) && c != l.category {
          var x :| x in lots && x.category == c;
          assert x in p;
        }
      }
    }
  }

  lemma {:induction false} RecipeWeights(lots: seq<Lot>)
    ensures forall c :: Lookup(Recipe(lots), c).GetOr(0.0) == CategoryWeight(lots, c)
  {
    if |lots| > 0 {
      var p, l := lots[..|lots| - 1], lots[|lots| - 1];
      RecipeWeights(p);
      RecipeDistinct(p);
      AddFacts(Recipe(p), l);
    }
  }

  lemma {:induction false} RecipeTotal(lots: seq<Lot>)
    ensures Amounts(Recipe(lots)) == TotalWeight(lots)
  {
    if |lots| > 0 {
      var p, l := lots[..|lots| - 1], lots[|lots| - 1];
      RecipeTotal(p);
      RecipeDistinct(p);
      AddAmounts(Recipe(p), l);
    }
  }

  /** Two lots of one category, 60 and 40: the recipe as written records 40
      against a total of 100, so its only category shows 40 % of the blend,
      while the corrected recipe shows 100 %. */
  lemma OverwriteLosesWeight()
    ensures var lots := [Lot("1", "PES", 60.0), Lot("2", "PES", 40.0)];
      && TotalWeight(lots) == 100.0
      && RecipeAsWritten(lots) == [Share("PES", 40.0)]
      && Percentages(RecipeAsWritten(lots), TotalWeight(lots)) == [Share("PES", 40.0)]
      && Recipe(lots) == [Share("PES", 100.0)]
      && Percentages(Recipe(lots), TotalWeight(lots)) == [Share("PES", 100.0)]
  {
    var lots := [Lot("1", "PES", 60.0), Lot("2", "PES", 40.0)];
    assert lots[..1] == [Lot("1", "PES", 60.0)];
    assert RecipeAsWritten(lots[..1]) == [Share("PES", 60.0)];
    assert Recipe(lots[..1]) == [Share("PES", 60.0)];
    RoundToInt(40, 1);
    RoundToInt(100, 1);
  }

  // ---------------------------------------------------------------------
  // Percentages.

  /** Each amount as a percentage of `total`, to one decimal. */
  function Percentages(d: seq<Share>, total: real): (p: seq<Share>)
    requires total > 0.0
    ensures |p| == |d|
    ensures forall i :: 0 <= i < |p| ==> p[i].category == d[i].category
    ensures forall i :: 0 <= i < |p| ==> WithinHalfStep(p[i].amount, d[i].amount / total * 100.0, 1)
  {
    seq(|d|, i requires 0 <= i < |d| => Share(d[i].category, RoundTo(d[i].amount / total * 100.0, 1)))
  }

  /** The exact shares before rounding, added up. */
  function ShareSum(d: seq<Share>, total: real): real
    requires total > 0.0
  {
    if |d| == 0 then 0.0 else ShareSum(d[..|d| - 1], total) + d[|d| - 1].amount / total * 100.0
  }

  lemma {:induction false} ShareSumScales(d: seq<Share>, total: real)
    requires total > 0.0
    ensures ShareSum(d, total) * total == Amounts(d) * 100.0
  {
    if |d| > 0 {
      var a := d[|d| - 1].amount;
      ShareSumScales(d[..|d| - 1], total);
      assert a / total * 100.0 * total == a * 100.0;
    }
  }

  /** Rounded shares differ from exact ones by at most 0.05 each. */
  lemma {:induction false} RoundedNearExact(d: seq<Share>, total: real)
    requires total > 0.0
    ensures -0.05 * |d| as real <= Amounts(Percentages(d, total)) - ShareSum(d, total) <= 0.05 * |d| as real
  {
    if |d| > 0 {
      var p := Percentages(d, total);
      var q := d[..|d| - 1];
      RoundedNearExact(q, total);
      assert p[..|p| - 1] == Percentages(q, total);
      assert WithinHalfStep(p[|p| - 1].amount, d[|d| - 1].amount / total * 100.0, 1);
      assert Scale(1) == 10.0;
    }
  }

  /** The percentages of a recipe whose amounts make up the whole total add
      up to 100 within the rounding of each entry. */
  lemma SharesMakeHundred(d: seq<Share>, total: real)
    requires total > 0.0 && Amounts(d) == total
    ensures ShareSum(d, total) == 100.0
    ensures -0.05 * |d| as real <= Amounts(Percentages(d, total)) - 100.0 <= 0.05 * |d| as real
  {
    ShareSumScales(d, total);
    Cancel(ShareSum(d, total), 100.0, total);
    RoundedNearExact(d, total);
  }

  // ---------------------------------------------------------------------
  // The blend of a blow-room batch.

  /** A `BatchInput`: a lot used in the batch with its share of the fiber
      weight to two decimals. */
  datatype BatchInput = BatchInput(stockId: string, weight: real, percentage: Option<real>)

  /** The recipe is stored only when some fiber was accepted; otherwise the
      batch keeps its empty default. */
  datatype Blend = Blend(recipe: Option<seq<Share>>, inputs: seq<BatchInput>, totalFiber: real)

  function InputOf(l: Lot, total: real): BatchInput {
    BatchInput(l.stockId, l.weight, if total != 0.0 then Some(RoundTo(l.weight / total * 100.0, 2)) else None)
  }

  /** The inputs of the accepted lots; every share is Some and a
      percentage, since the total of positive weights covers each. */
  function Inputs(lots: seq<Lot>): (inputs: seq<BatchInput>)
    requires forall l :: l in lots ==> l.weight > 0.0
    ensures |inputs| == |lots|
    ensures forall i :: 0 <= i < |lots| ==> inputs[i].stockId == lots[i].stockId && inputs[i].weight == lots[i].weight
    ensures forall i :: 0 <= i < |lots| ==> inputs[i].percentage.Some? && 0.0 <= inputs[i].percentage.value <= 100.0
  {
    var total := TotalWeight(lots);
    WeightWithinTotal(lots);
    var inputs := seq(|lots|, i requires 0 <= i < |lots| => InputOf(lots[i], total));
    forall i | 0 <= i < |lots| ensures inputs[i].percentage.Some? && 0.0 <= inputs[i].percentage.value <= 100.0 {
      assert lots[i] in lots;
      PercentOfTotal(lots[i].weight, total);
    }
    inputs
  }

  /** The blend of the posted fiber rows, with the recipe as the form
      builds it: each category holds the share of its last lot. */
  function BlendOf(ids: seq<string>, weights: seq<string>, available: map<string, string>): (b: Blend)
    ensures var lots := AcceptedLots(Zip(ids, weights), available);
      && b.totalFiber == TotalWeight(lots)
      && (b.recipe.Some? <==> |lots| > 0)
      && b.inputs == Inputs(lots)
    ensures var lots := AcceptedLots(Zip(ids, weights), available);
      b.recipe.Some? ==> b.totalFiber > 0.0 && LastLotShares(b.recipe.value, lots, b.totalFiber)
  {
    var lots := AcceptedLots(Zip(ids, weights), available);
    var total := TotalWeight(lots);
    WeightWithinTotal(lots);
    if total > 0.0 then
      var d := RecipeAsWritten(lots);
      RecipeAsWrittenShares(lots, total);
      Blend(Some(Percentages(d, total)), Inputs(lots), total)
    else Blend(None, Inputs(lots), total)
  }

  /** The last lot of a category exists exactly when some lot has it. */
  lemma {:induction false} LastWeightPresent(lots: seq<Lot>, c: string)
    ensures LastWeight(lots, c).Some? <==> HasCategory(lots, c)
  {
    if |lots| > 0 {
      var p, l := lots[..|lots| - 1], lots[|lots| - 1];
      LastWeightPresent(p, c);
      assert lots == p + [l];
      if HasCategory(p, c) {
        var x :| x in p && x.category == c;
        assert x in lots;
      }
      if HasCategory(lots, c) && l.category != c {
        var x :| x in lots && x.category == c;
        assert x in p;
      }
    }
  }

  /** Entries are found by category alone, so two mappings with the same
      categories in the same places hold the same keys. */
  lemma {:induction false} HoldsSameKeys(d: seq<Share>, e: seq<Share>, c: string)
    requires |d| == |e|
    requires forall j :: 0 <= j < |d| ==> d[j].category == e[j].category
    ensures Holds(d, c) <==> Holds(e, c)
  {
    if Holds(d, c) {
      var j :| 0 <= j < |d| && d[j].category == c;
      assert e[j].category == c;
    }
    if Holds(e, c) {
      var j :| 0 <= j < |e| && e[j].category == c;
      assert d[j].category == c;
    }
  }

  /** A recipe with one entry per category of the lots, each the rounded
      share of that category's last lot in `total`. */
  ghost predicate LastLotShares(p: seq<Share>, lots: seq<Lot>, total: real)
    requires total > 0.0
  {
    && DistinctKeys(p)
    && (forall c :: Holds(p, c) <==> HasCategory(lots, c))
    && (forall i :: 0 <= i < |p| ==>
          LastWeight(lots, p[i].category).Some?
          && WithinHalfStep(p[i].amount, LastWeight(lots, p[i].category).value / total * 100.0, 1))
  }

  /** The percentages of the recipe as written: one per category of the
      lots, each the share of that category's last lot. */
  lemma RecipeAsWrittenShares(lots: seq<Lot>, total: real)
    requires total > 0.0
    ensures LastLotShares(Percentages(RecipeAsWritten(lots), total), lots, total)
  {
    var d := RecipeAsWritten(lots);
    var p := Percentages(d, total);
    RecipeAsWrittenKeepsLast(lots);
    assert DistinctKeys(p);
    RecipeAsWrittenKeys(lots, total);
    RecipeAsWrittenAmounts(lots, total);
  }

  lemma RecipeAsWrittenKeys(lots: seq<Lot>, total: real)
    requires total > 0.0
    ensures forall c :: Holds(Percentages(RecipeAsWritten(lots), total), c) <==> HasCategory(lots, c)
  {
    var d := RecipeAsWritten(lots);
    var p := Percentages(d, total);
    RecipeAsWrittenKeepsLast(lots);
    forall c ensures Holds(p, c) <==> HasCategory(lots, c) {
      HoldsSameKeys(d, p, c);
      LastWeightPresent(lots, c);
    }
  }

  lemma RecipeAsWrittenAmounts(lots: seq<Lot>, total: real)
    requires total > 0.0
    ensures var p := Percentages(RecipeAsWritten(lots), total);
      forall i :: 0 <= i < |p| ==>
        LastWeight(lots, p[i].category).Some?
        && WithinHalfStep(p[i].amount, LastWeight(lots, p[i].category).value / total * 100.0, 1)
  {
    var d := RecipeAsWritten(lots);
    var p := Percentages(d, total);
    RecipeAsWrittenKeepsLast(lots);
    forall i | 0 <= i < |p|
      ensures LastWeight(lots, p[i].category).Some?
      ensures WithinHalfStep(p[i].amount, LastWeight(lots, p[i].category).value / total * 100.0, 1)
    {
      FindHere(d, i, d[i].category);
      assert Lookup(d, d[i].category) == Some(d[i].amount);
    }
  }

  /** A positive part of a total is between 0 and 100 % of it, rounded. */
  lemma PercentOfTotal(w: real, total: real)
    requires 0.0 < w <= total
    ensures 0.0 <= RoundTo(w / total * 100.0, 2) <= 100.0
  {
    DivBetween(w, total, 0.0, 1.0);
    RoundToBetween(w / total * 100.0, 0, 100, 2);
  }

  // ---------------------------------------------------------------------
  // Ring efficiency.

  /** Whether the ring form computes the efficiency itself: none (or zero)
      was posted and both spindle counts are given, non-zero, the total
      positive. */
  predicate EfficiencyFilled(posted: Option<real>, active: Option<int>, total: Option<int>) {
    !Truthy(posted) && TruthyInt(active) && TruthyInt(total) && total.value > 0
  }

  /** The efficiency stored with a ring batch: the posted one, or the share
      of active spindles to two decimals. */
  function AutoEfficiency(posted: Option<real>, active: Option<int>, total: Option<int>): (r: Option<real>)
    ensures !EfficiencyFilled(posted, active, total) ==> r == posted
    ensures EfficiencyFilled(posted, active, total) ==>
      r.Some? && WithinHalfStep(r.value, active.value as real / total.value as real * 100.0, 2)
    ensures EfficiencyFilled(posted, active, total) && 0 < active.value <= total.value ==>
      0.0 <= r.value <= 100.0 && (active.value == total.value ==> r.value == 100.0)
  {
    if EfficiencyFilled(posted, active, total) then
      var x := active.value as real / total.value as real * 100.0;
      SpindleShare(active.value, total.value);
      Some(RoundTo(x, 2))
    else posted
  }

  lemma SpindleShare(active: int, total: int)
    requires 0 < total && active != 0
    ensures 0 < active <= total ==> 0.0 <= RoundTo(active as real / total as real * 100.0, 2) <= 100.0
    ensures active == total ==> RoundTo(active as real / total as real * 100.0, 2) == 100.0
  {
    var t := total as real;
    var q := active as real / t;
    var x := q * 100.0;
    if 0 < active <= total {
      DivBetween(active as real, t, 0.0, 1.0);
      RoundToBetween(x, 0, 100, 2);
    }
    if active == total {
      WholeShare(t);
      RoundToInt(100, 2);
    }
  }
  /** More active spindles never give a lower computed efficiency. */
  lemma AutoEfficiencyMonotone(active1: int, active2: int, total: int)
    requires 0 < active1 <= active2 && 0 < total
    ensures AutoEfficiency(None, Some(active1), Some(total)).value <= AutoEfficiency(None, Some(active2), Some(total)).value
  {
    var t := total as real;
    assert active1 as real / t <= active2 as real / t;
    RoundToMonotone(active1 as real / t * 100.0, active2 as real / t * 100.0, 2);
  }

  // ---------------------------------------------------------------------
  // The shift of a form.

  /** The word a shift's name carries for each part of the day. */
  function ShiftWord(n: Core.ShiftName): string {
    match n
    case Morning => "صبح"
    case Evening => "عصر"
    case Night => "شب"
  }

  /** A defined shift: its name and the line it belongs to, if any. */
  datatype ShiftRow = ShiftRow(name: string, line: Option<int>)

  /** `w` occurs in `s` starting at position `i`. */
  predicate OccursAt(s: string, w: string, i: int) {
    0 <= i <= |s| - |w| && s[i..i + |w|] == w
  }

  /** Python's `w in s`. */
  predicate Contains(s: string, w: string) {
    exists i :: 0 <= i <= |s| - |w| && OccursAt(s, w, i)
  }

  /** The shift's name carries the word of the hour's part of the day. */
  predicate Named(row: ShiftRow, hour: int)
    requires 0 <= hour < 24
  {
    Contains(row.name, ShiftWord(Core.ShiftByHour(hour)))
  }

  /** Position of the first row satisfying `p`, or |rows| when none does. */
  function FirstWhere(rows: seq<ShiftRow>, p: ShiftRow -> bool): (i: nat)
    ensures i <= |rows|
    ensures i < |rows| ==> p(rows[i])
    ensures forall j :: 0 <= j < i ==> !p(rows[j])
  {
    if |rows| == 0 then 0
    else if p(rows[0]) then 0
    else
      var k := FirstWhere(rows[1..], p);
      assert forall j :: 1 <= j < 1 + k ==> rows[j] == rows[1..][j - 1];
      1 + k
  }

  /** The shift a form records: the first shift of the form's line named
      for the hour, else the first such shift of no line, else the first
      such shift of any line, else the first shift there is. */
  function GetShift(hour: int, line: Option<int>, rows: seq<ShiftRow>): (r: Option<ShiftRow>)
    requires 0 <= hour < 24
    ensures r.None? <==> |rows| == 0
    ensures r.Some? ==> r.value in rows
    ensures (exists k :: 0 <= k < |rows| && Named(rows[k], hour)) ==> r.Some? && Named(r.value, hour)
    ensures line.Some? && (exists k :: 0 <= k < |rows| && rows[k].line == line && Named(rows[k], hour)) ==>
      r.Some? && r.value.line == line
    ensures (exists k :: 0 <= k < |rows| && rows[k].line.None? && Named(rows[k], hour)) &&
            !(line.Some? && exists k :: 0 <= k < |rows| && rows[k].line == line && Named(rows[k], hour)) ==>
      r.Some? && r.value.line.None?
  {
    var onLine := FirstWhere(rows, (s: ShiftRow) => line.Some? && s.line == line && Named(s, hour));
    var unlinked := FirstWhere(rows, (s: ShiftRow) => s.line.None? && Named(s, hour));
    var any := FirstWhere(rows, (s: ShiftRow) => Named(s, hour));
    if onLine < |rows| then Some(rows[onLine])
    else if unlinked < |rows| then Some(rows[unlinked])
    else if any < |rows| then Some(rows[any])
    else if |rows| > 0 then Some(rows[0])
    else None
  }

  /** An evening form of a line with its own evening shift records that
      shift, even when a shift of no line comes first. */
  lemma LineShiftPreferred()
    ensures var rows := [ShiftRow("شیفت عصر", None), ShiftRow("شیفت عصر خط ۲", Some(2))];
      GetShift(15, Some(2), rows) == Some(rows[1]) && GetShift(15, None, rows) == Some(rows[0])
  {
    var rows := [ShiftRow("شیفت عصر", None), ShiftRow("شیفت عصر خط ۲", Some(2))];
    assert Core.ShiftByHour(15) == Core.Evening;
    assert Named(rows[0], 15) by { assert OccursAt(rows[0].name, "عصر", 5); }
    assert Named(rows[1], 15) by { assert OccursAt(rows[1].name, "عصر", 5); }
  }

  // ---------------------------------------------------------------------
  // Recording a stop.

  /** The display labels of the stop reasons. */
  function ReasonLabel(r: Maintenance.ReasonCategory): string {
    match r
    case Mechanical => "مکانیکی"
    case Electrical => "برقی"
    case Material => "مواد اولیه"
    case OperatorReason => "اپراتور"
    case Quality => "کیفیت"
    case Planned => "برنامه\U{200C}ریزی شده"
    case Other => "سایر"
  }

  /** The stored reason detail: the posted text without surrounding
      blanks, or when that is empty the label of the reason category (the
      category code itself when it is not a known one). */
  function ReasonDetail(category: string, detail: string): (r: string)
    ensures Strip(detail) != "" ==> r == Strip(detail)
    ensures Strip(detail) == "" && Maintenance.ParseReason(category).Some? ==>
      r == ReasonLabel(Maintenance.ParseReason(category).value)
    ensures Strip(detail) == "" && Maintenance.ParseReason(category).None? ==> r == category
  {
    if Strip(detail) != "" then Strip(detail)
    else match Maintenance.ParseReason(category)
      case Some(c) => ReasonLabel(c)
      case None => category
  }

  /** Seconds in a minute; instants are counted in seconds. */
  const MinuteSeconds: int := 60

  /** Instants are seconds since the first moment Python's datetime can
      hold, 0001-01-01 00:00; the last one it can hold ends 3652059 days
      later, at the start of the year 10000. */
  const DatetimeSpan: int := 3652059 * 86400

  /** An instant Python's datetime can hold; adding a duration that leaves
      this range raises an overflow error. */
  predicate InDatetimeRange(t: int) {
    0 <= t < DatetimeSpan
  }

  /** The end of a stop: its start plus the posted duration, or none when no
      (or a zero) duration was posted. */
  function DowntimeEnd(start: int, durationMin: Option<int>): (end: Option<int>)
    ensures end.Some? <==> TruthyInt(durationMin)
    ensures end.Some? ==> end.value - start == durationMin.value * MinuteSeconds
  {
    if TruthyInt(durationMin) then Some(start + durationMin.value * MinuteSeconds) else None
  }

  /** The duration is recovered from the stored start and end. */
  lemma DurationRecovered(start: int, durationMin: Option<int>)
    requires TruthyInt(durationMin)
    ensures (DowntimeEnd(start, durationMin).value - start) / MinuteSeconds == durationMin.value
  {
    var d := durationMin.value;
    assert DowntimeEnd(start, durationMin).value - start == d * 60;
  }

  /** A stop as logged. */
  datatype DowntimeEntry = DowntimeEntry(
    machine: int,
    shift: string,
    start: int,
    end: Option<int>,
    durationMin: Option<int>,
    reason: string,
    detail: string,
    productionLoss: Option<real>)

  datatype Logged = Logged(log: DowntimeEntry, workOrder: Option<Maintenance.WorkOrder>)

  /** Mechanical and electrical stops are breakdowns: they raise a work
      order. */
  predicate Breakdown(reason: string) {
    reason == "mechanical" || reason == "electrical"
  }

  /** The lengths of the reason code and reason detail columns. */
  const ReasonColumnMax: nat := 15
  const DetailColumnMax: nat := 500

  /** A stop row the database accepts in strict mode: the character columns
      within their lengths, the duration within the signed integer column,
      the loss within `DECIMAL(12, 3)`, and the end an instant. */
  predicate LogStorable(e: DowntimeEntry) {
    && |e.reason| <= ReasonColumnMax
    && |e.detail| <= DetailColumnMax
    && FitsIntColumn(e.durationMin)
    && (e.productionLoss.None? || FitsDecimal(e.productionLoss.value, 12, 3))
    && (e.end.None? || InDatetimeRange(e.end.value))
  }

  /** Every condition the save puts on the posted stop, one by one: a known
      machine, a reason code present and within its column, a detail within
      its column, a duration within the integer column whose end is still an
      instant, and a loss within its column. */
  predicate StopAccepted(machine: Option<string>, machines: set<int>, reason: Option<string>,
                         detail: string, duration: Option<string>, loss: Option<string>, start: int)
  {
    && KnownKey(machine, machines).Some?
    && reason.Some? && |reason.value| <= ReasonColumnMax
    && |ReasonDetail(reason.value, detail)| <= DetailColumnMax
    && FitsIntColumn(SafeInt(duration, None))
    && (DowntimeEnd(start, SafeInt(duration, None)).None?
        || InDatetimeRange(DowntimeEnd(start, SafeInt(duration, None)).value))
    && (SafeDecimal(loss, None).None? || FitsDecimal(SafeDecimal(loss, None).value, 12, 3))
  }

  /** The downtime form: a duration whose end leaves the datetime range
      fails first; then the stop is refused when no shift is defined, and
      the save refuses an unknown or missing machine, a missing reason, and
      values that do not fit their columns. Otherwise the stop is logged and
      a breakdown raises one open, high-priority corrective work order whose
      number is the next of the day's bucket. */
  function RecordDowntime(machine: Option<string>, machines: set<int>, reason: Option<string>,
                          detail: string, duration: Option<string>, loss: Option<string>,
                          start: int, shift: Option<string>,
                          bucket: string, woNumbers: seq<string>): (r: Result<Logged, string>)
    ensures r.Err? <==> shift.None? || !StopAccepted(machine, machines, reason, detail, duration, loss, start)
    ensures r.Ok? ==> LogStorable(r.value.log) && r.value.log.machine in machines
    ensures r.Ok? ==> var e := r.value.log;
      && Some(e.machine) == ParseInt(Strip(machine.value))
      && e.shift == shift.value && e.start == start && e.reason == reason.value
      && e.durationMin == SafeInt(duration, None)
      && e.end == DowntimeEnd(start, SafeInt(duration, None))
      && e.detail == ReasonDetail(reason.value, detail)
      && e.productionLoss == SafeDecimal(loss, None)
    ensures r.Ok? ==> (r.value.workOrder.Some? <==> Breakdown(reason.value))
    ensures r.Ok? && r.value.workOrder.Some? ==> var w := r.value.workOrder.value;
      && w.status == Maintenance.Open && w.woType == Maintenance.Corrective && w.priority == Maintenance.High
      && Maintenance.TotalCost(w) == 0
      && StartsWith(w.number, "WO-" + bucket + "-") && w.number !in woNumbers
  {
    var d := SafeInt(duration, None);
    var end := DowntimeEnd(start, d);
    if end.Some? && !InDatetimeRange(end.value) then Err("date out of range")
    else if shift.None? then Err("no active shift")
    else if !StopAccepted(machine, machines, reason, detail, duration, loss, start) then Err("not stored")
    else
      var e := DowntimeEntry(KnownKey(machine, machines).value, shift.value, start, end, d, reason.value,
                             ReasonDetail(reason.value, detail), SafeDecimal(loss, None));
      var w := if Breakdown(reason.value) then
                 Some(Maintenance.NewWorkOrder(BatchIds.NextWorkOrderNumber(bucket, woNumbers),
                                               Maintenance.Corrective, Maintenance.High))
               else None;
      Ok(Logged(e, w))
  }

  /** A stop whose loss is a billion kilograms is never logged: the loss
      column holds less. */
  lemma BillionLossRefused(machine: Option<string>, machines: set<int>, reason: Option<string>,
                           detail: string, duration: Option<string>, start: int,
                           shift: Option<string>, bucket: string, woNumbers: seq<string>)
    ensures RecordDowntime(machine, machines, reason, detail, duration, Some("1000000000"),
                           start, shift, bucket, woNumbers).Err?
  {
    ReadsBillion();
    DecimalLimitWeight();
  }

  /** The posted text "1000000000" reads as a billion. */
  lemma ReadsBillion()
    ensures SafeDecimal(Some("1000000000"), None) == Some(1000000000.0)
  {
    var s := "1000000000";
    assert AllDigits(s);
    StripDigits(s);
    assert s == "1" + Zeros(9);
    DigitsValueZeros(9);
    DigitsValueAppend("1", Zeros(9));
    assert Numeric.Pow10(9) == 1000000000 by {
      assert Numeric.Pow10(3) == 1000 by { assert Numeric.Pow10(1) == 10; }
      assert Numeric.Pow10(6) == 1000 * Numeric.Pow10(3);
    }
  }

  /** Of the reason categories, exactly the mechanical and the electrical
      ones raise a work order. */
  lemma WorkOrderReasons(c: Maintenance.ReasonCategory)
    ensures Breakdown(Maintenance.ReasonName(c)) <==> c == Maintenance.Mechanical || c == Maintenance.Electrical
  {
  }
}

=== FILE: text.dfy ===
/** String helpers with the meaning Python gives them: decimal rendering of
    integers, `int()` on a digit string, zero padding, `split('-')[-1]`,
    code-point ordering, `strip()` and `upper()`. */
module Text {
  import opened Wrappers
  import opened Numeric

  predicate IsDigit(c: char) {
    '0' <= c <= '9'
  }

  predicate AllDigits(s: string) {
    forall i :: 0 <= i < |s| ==> IsDigit(s[i])
  }

  function DigitChar(d: nat): (c: char)
    requires d < 10
    ensures IsDigit(c)
    ensures c as int - '0' as int == d
  {
    ('0' as int + d) as char
  }

  function DigitValue(c: char): (d: nat)
    requires IsDigit(c)
    ensures d < 10
    ensures DigitChar(d) == c
  {
    (c as int - '0' as int) as nat
  }

  /** `str(n)` for a non-negative integer: decimal digits, no leading zero. */
  function NatToString(n: nat): (s: string)
    ensures |s| >= 1 && AllDigits(s)
    decreases n
  {
    if n < 10 then [DigitChar(n)] else NatToString(n / 10) + [DigitChar(n % 10)]
  }

  /** The value of a non-empty string of ASCII digits (leading zeros
      allowed), or `None`, as `int()` would raise. */
  function ParseDigits(s: string): (r: Option<nat>)
    ensures r.Some? <==> |s| >= 1 && AllDigits(s)
  {
    if |s| == 0 || !AllDigits(s) then None
    else Some(DigitsValue(s))
  }

  function DigitsValue(s: string): nat
    requires AllDigits(s)
  {
    if |s| == 0 then 0 else DigitsValue(s[..|s| - 1]) * 10 + DigitValue(s[|s| - 1])
  }

  /** Reading back a rendered number gives the number. */
  lemma {:induction false} ParseNatToString(n: nat)
    ensures ParseDigits(NatToString(n)) == Some(n)
    decreases n
  {
    var s := NatToString(n);
    if n >= 10 {
      ParseNatToString(n / 10);
      assert s[..|s| - 1] == NatToString(n / 10);
      assert DigitValue(s[|s| - 1]) == n % 10;
    } else {
      assert DigitValue(s[0]) == n;
      assert s[..|s| - 1] == "";
      assert DigitsValue(s) == DigitsValue("") * 10 + DigitValue(s[0]);
    }
  }

  /** `'0' * (width - |s|) + s`: left padding with zeros to `width`. */
  function ZeroPad(s: string, width: nat): (r: string)
    ensures |r| == if |s| >= width then |s| else width
  {
    if |s| >= width then s else Zeros(width - |s|) + s
  }

  function Zeros(k: nat): (z: string)
    ensures |z| == k && forall i :: 0 <= i < k ==> z[i] == '0'
  {
    seq(k, _ => '0')
  }

  /** `f"{n:0{width}d}"` for a non-negative integer. */
  function FormatPadded(n: nat, width: nat): (s: string)
    ensures AllDigits(s)
    ensures |s| >= width
  {
    ZeroPad(NatToString(n), width)
  }

  /** Zero padding is undone by parsing. */
  lemma {:induction false} ParseFormatPadded(n: nat, width: nat)
    ensures ParseDigits(FormatPadded(n, width)) == Some(n)
  {
    ParseNatToString(n);
    ParseZeroPad(NatToString(n), width);
  }

  lemma {:induction false} ParseZeroPad(s: string, width: nat)
    requires |s| >= 1 && AllDigits(s)
    ensures AllDigits(ZeroPad(s, width))
    ensures DigitsValue(ZeroPad(s, width)) == DigitsValue(s)
  {
    if |s| < width {
      var z := Zeros(width - |s|);
      assert ZeroPad(s, width) == z + s;
      DigitsValueZeros(width - |s|);
      DigitsValueAppend(z, s);
    }
  }

  lemma {:induction false} DigitsValueZeros(k: nat)
    ensures AllDigits(Zeros(k)) && DigitsValue(Zeros(k)) == 0
  {
    if k > 0 {
      assert Zeros(k)[..k - 1] == Zeros(k - 1);
      DigitsValueZeros(k - 1);
    }
  }

  /** The value of a concatenation of digit strings. */
  lemma {:induction false} DigitsValueAppend(a: string, b: string)
    requires AllDigits(a) && AllDigits(b)
    ensures AllDigits(a + b)
    ensures DigitsValue(a + b) == DigitsValue(a) * Pow10(|b|) + DigitsValue(b)
    decreases |b|
  {
    if |b| == 0 {
      assert a + b == a;
    } else {
      var b' := b[..|b| - 1];
      var d := DigitValue(b[|b| - 1]);
      assert (a + b)[..|a + b| - 1] == a + b';
      DigitsValueAppend(a, b');
      var A, B, P := DigitsValue(a), DigitsValue(b'), Pow10(|b'|);
      assert (a + b)[|a + b| - 1] == b[|b| - 1];
      assert DigitsValue(a + b) == (A * P + B) * 10 + d;
      assert b[..|b| - 1] == b';
      assert DigitsValue(b) == B * 10 + d;
      assert Pow10(|b|) == P * 10;
      ShiftDigit(A, P, B, d);
    }
  }

  lemma ShiftDigit(a: int, p: int, b: int, d: int)
    ensures (a * p + b) * 10 + d == a * (p * 10) + (b * 10 + d)
  {
  }

  /** A digit string of length m has value below 10^m. */
  lemma {:induction false} DigitsValueBound(s: string)
    requires AllDigits(s)
    ensures DigitsValue(s) < Pow10(|s|)
    decreases |s|
  {
    if |s| > 0 {
      DigitsValueBound(s[..|s| - 1]);
    }
  }

  /** `s.split(sep)[-1]`: the text after the last `sep`, or all of `s`. */
  function LastSegment(s: string, sep: char): (r: string)
    ensures |r| <= |s| && r == s[|s| - |r|..]
    ensures sep !in r
    ensures |r| < |s| ==> s[|s| - |r| - 1] == sep
  {
    if |s| == 0 then ""
    else if s[|s| - 1] == sep then ""
    else LastSegment(s[..|s| - 1], sep) + [s[|s| - 1]]
  }

  /** A segment that follows the separator is recovered by `LastSegment`. */
  lemma {:induction false} LastSegmentAfter(a: string, b: string, sep: char)
    requires |a| > 0 && a[|a| - 1] == sep
    requires sep !in b
    ensures LastSegment(a + b, sep) == b
    decreases |b|
  {
    if |b| > 0 {
      assert (a + b)[..|a + b| - 1] == a + b[..|b| - 1];
      LastSegmentAfter(a, b[..|b| - 1], sep);
    } else {
      assert a + b == a;
    }
  }

  predicate StartsWith(s: string, p: string) {
    |p| <= |s| && s[..|p|] == p
  }

  /** Python's `a < b` on strings: code-point lexicographic order (not a
      database collation). */
  predicate LexLess(a: string, b: string)
    decreases |a|
  {
    if |b| == 0 then false
    else if |a| == 0 then true
    else if a[0] != b[0] then a[0] < b[0]
    else LexLess(a[1..], b[1..])
  }

  lemma {:induction false} LexLessIrreflexive(a: string)
    ensures !LexLess(a, a)
    decreases |a|
  {
    if |a| > 0 {
      LexLessIrreflexive(a[1..]);
    }
  }

  lemma {:induction false} LexLessTrans(a: string, b: string, c: string)
    requires LexLess(a, b) && LexLess(b, c)
    ensures LexLess(a, c)
    decreases |a|
  {
    if |a| > 0 && a[0] == b[0] && b[0] == c[0] {
      LexLessTrans(a[1..], b[1..], c[1..]);
    }
  }

  /** Any two different strings are ordered one way or the other. */
  lemma {:induction false} LexLessTotal(a: string, b: string)
    requires a != b
    ensures LexLess(a, b) || LexLess(b, a)
    decreases |a|
  {
    if |a| > 0 && |b| > 0 && a[0] == b[0] {
      assert a == [a[0]] + a[1..];
      assert b == [b[0]] + b[1..];
      LexLessTotal(a[1..], b[1..]);
    }
  }

  /** A common prefix does not affect the order. */
  lemma {:induction false} LexLessCommonPrefix(p: string, a: string, b: string)
    ensures LexLess(p + a, p + b) == LexLess(a, b)
    decreases |p|
  {
    if |p| > 0 {
      assert (p + a)[0] == (p + b)[0];
      assert (p + a)[1..] == p[1..] + a;
      assert (p + b)[1..] == p[1..] + b;
      LexLessCommonPrefix(p[1..], a, b);
    } else {
      assert p + a == a && p + b == b;
    }
  }

  predicate IsSpace(c: char) {
    c == ' ' || c == '\t' || c == '\n' || c == '\r' || c == '\U{B}' || c == '\U{C}'
  }

  /** `s.strip()`: without leading and trailing whitespace. */
  function Strip(s: string): (r: string)
    ensures |r| <= |s|
    ensures |r| > 0 ==> !IsSpace(r[0]) && !IsSpace(r[|r| - 1])
    ensures forall i :: 0 <= i < |s| && !IsSpace(s[i]) ==> |r| > 0
  {
    StripRight(StripLeft(s))
  }

  function StripLeft(s: string): (r: string)
    ensures |r| <= |s| && r == s[|s| - |r|..]
    ensures |r| > 0 ==> !IsSpace(r[0])
    ensures forall i :: 0 <= i < |s| - |r| ==> IsSpace(s[i])
  {
    if |s| > 0 && IsSpace(s[0]) then StripLeft(s[1..]) else s
  }

  function StripRight(s: string): (r: string)
    ensures |r| <= |s| && r == s[..|r|]
    ensures |r| > 0 ==> !IsSpace(r[|r| - 1])
    ensures forall i :: |r| <= i < |s| ==> IsSpace(s[i])
  {
    if |s| > 0 && IsSpace(s[|s| - 1]) then StripRight(s[..|s| - 1]) else s
  }

  /** Text that neither starts nor ends with whitespace is left as it is. */
  lemma StripUnpadded(s: string)
    requires |s| == 0 || (!IsSpace(s[0]) && !IsSpace(s[|s| - 1]))
    ensures Strip(s) == s
  {
  }

  /** One space on each side is stripped off. */
  lemma StripPadded(s: string)
    requires |s| > 0 && !IsSpace(s[0]) && !IsSpace(s[|s| - 1])
    ensures Strip(" " + s + " ") == s
  {
    var u := " " + s + " ";
    assert u[1..] == s + " ";
    assert StripLeft(u) == s + " ";
    assert (s + " ")[..|s|] == s;
    assert StripRight(s + " ") == StripRight(s);
  }

  /** Stripping never brings in a character the text did not hold. */
  lemma StripKeepsOut(s: string, c: char)
    requires c !in s
    ensures c !in Strip(s)
  {
    var l := StripLeft(s);
    assert c !in l;
  }

  function UpperChar(c: char): char {
    if 'a' <= c <= 'z' then (c as int - 32) as char else c
  }

  /** `s.upper()` on ASCII letters. */
  function Upper(s: string): (r: string)
    ensures |r| == |s|
    ensures forall i :: 0 <= i < |s| ==> r[i] == UpperChar(s[i])
  {
    seq(|s|, i requires 0 <= i < |s| => UpperChar(s[i]))
  }
}

=== FILE: tfo.dfy ===
/** Two-for-one twisting records: theoretical output count, twist direction
    and the form defaults of create and edit. */
module Tfo {
  import opened Wrappers
  import opened Numeric
  import opened Forms

  datatype TwistDirection = S | Z

  const DefaultTwistDirection := S
  const DefaultPlyCount: nat := 2
  const DefaultBreakageCount: nat := 0

  /** Input yarn count divided by the number of plies, three decimals; none
      when the input count is missing or zero or there are no plies. */
  function CalculatedOutputCount(inputNe: Option<real>, plyCount: int): (r: Option<real>)
    ensures r.Some? <==> Truthy(inputNe) && plyCount != 0
    ensures r.Some? ==> WithinHalfStep(r.value, inputNe.value / plyCount as real, 3)
  {
    if Truthy(inputNe) && plyCount != 0 then Some(RoundTo(inputNe.value / plyCount as real, 3)) else None
  }

  /** Plying never raises the count: for a stored input count (three
      decimals) and a positive ply, the output count is at most the input. */
  lemma OutputCountAtMostInput(thousandths: nat, plyCount: nat)
    requires thousandths > 0 && plyCount >= 1
    ensures var ne := thousandths as real / 1000.0;
      CalculatedOutputCount(Some(ne), plyCount).value <= ne
  {
    var ne := thousandths as real / 1000.0;
    var x := ne / plyCount as real;
    assert x <= ne;
    RoundToMonotone(x, ne, 3);
    assert Scale(3) == 1000.0;
    RoundToNear(ne, 3, thousandths);
  }

  /** The yarn fields as create and edit store them: a missing, unparseable
      or zero ply count becomes 2, and missing twist and breakage become 0. */
  datatype YarnFields = YarnFields(plyCount: int, twistTpm: real, breakageCount: int)

  function FormYarnFields(ply: Option<string>, twist: Option<string>, breakage: Option<string>): (f: YarnFields)
    ensures f.plyCount != 0
    ensures SafeInt(ply, None).None? ==> f.plyCount == 2
    ensures SafeInt(ply, None).Some? && SafeInt(ply, None).value != 0 ==> f.plyCount == SafeInt(ply, None).value
    ensures SafeDecimal(twist, None).None? ==> f.twistTpm == 0.0
    ensures SafeDecimal(twist, None).Some? ==> f.twistTpm == SafeDecimal(twist, None).value
    ensures SafeInt(breakage, None).None? ==> f.breakageCount == 0
    ensures SafeInt(breakage, None).Some? ==> f.breakageCount == SafeInt(breakage, None).value
  {
    YarnFields(OrElseInt(SafeInt(ply, None), 2), OrElse(SafeDecimal(twist, None), 0.0), OrElseInt(SafeInt(breakage, None), 0))
  }
}

=== FILE: tfo_signals.dfy ===
/** Two-for-one twisting checks run around each save: metadata skeleton and
    waste percentage before, breakage and efficiency alerts after. */
module TfoSignals {
  import opened Wrappers
  import opened Numeric
  import opened Json

  const BreakageWarning: nat := 10
  const BreakageCritical: nat := 25
  const EfficiencyMin: real := 70.0

  const HighBreakage := Alert(Critical, "HIGH_BREAKAGE")
  const ElevatedBreakage := Alert(Warning, "ELEVATED_BREAKAGE")
  const LowEfficiency := Alert(Warning, "LOW_EFFICIENCY")

  /** The metadata skeleton of this stage; the save hooks are
      `WastePreSave` with it and `AlertsPostSave` with `Alerts`. */
  const Skeleton: Object := LogSkeleton("torque_log", "vibration_log")

  /** The alerts of one save; both breakage thresholds are inclusive. */
  function Alerts(breakage: Option<nat>, efficiency: Option<real>): (r: seq<Alert>)
    ensures |r| <= 2
    ensures HighBreakage in r <==> breakage.Some? && breakage.value >= BreakageCritical
    ensures ElevatedBreakage in r <==> breakage.Some? && BreakageWarning <= breakage.value < BreakageCritical
    ensures LowEfficiency in r <==> efficiency.Some? && efficiency.value < EfficiencyMin
    ensures forall a :: a in r ==> a in {HighBreakage, ElevatedBreakage, LowEfficiency}
  {
    (if breakage.None? then []
     else if breakage.value >= BreakageCritical then [HighBreakage]
     else if breakage.value >= BreakageWarning then [ElevatedBreakage]
     else [])
    + (if efficiency.Some? && efficiency.value < EfficiencyMin then [LowEfficiency] else [])
  }

  /** Exactly at a threshold the higher alert applies. */
  lemma ThresholdsInclusive(efficiency: Option<real>)
    ensures HighBreakage in Alerts(Some(25), efficiency)
    ensures ElevatedBreakage in Alerts(Some(10), efficiency)
    ensures ElevatedBreakage !in Alerts(Some(9), efficiency) && HighBreakage !in Alerts(Some(9), efficiency)
  {
  }
}

=== FILE: validators.dfy ===
/** Field validators: the Iranian national identity code with its check
    digit, and the machine code pattern. Patterns are matched the way
    Python's `re.match` does, where `$` also matches just before one
    trailing newline. */
module Validators {
  import opened Text

  datatype Verdict = Accepted | WrongFormat | BadCode

  /** `re.match(r'^<p>$', s)`: `s`, or `s` without one trailing newline,
      matches `p` in full. */
  predicate MatchToEnd(s: string, full: string -> bool) {
    full(s) || (|s| > 0 && s[|s| - 1] == '\n' && full(s[..|s| - 1]))
  }

  predicate TenDigits(s: string) {
    |s| == 10 && AllDigits(s)
  }

  /** Sum of the first `n` digits weighted 10, 9, 8, ... */
  function WeightedSum(s: string, n: nat): nat
    requires n <= |s| && n <= 10 && AllDigits(s[..n])
  {
    if n == 0 then 0
    else
      assert s[..n - 1] == s[..n][..n - 1];
      WeightedSum(s, n - 1) + DigitValue(s[n - 1]) * (10 - (n - 1))
  }

  /** The check digit the first nine digits call for: the remainder of the
      weighted sum modulo 11 when below 2, otherwise 11 minus it. */
  function CheckDigit(s: string): (d: nat)
    requires |s| >= 9 && AllDigits(s[..9])
    ensures d < 10
  {
    var r := WeightedSum(s, 9) % 11;
    if r < 2 then r else 11 - r
  }

  predicate AllSame(s: string) {
    forall i :: 0 <= i < |s| ==> s[i] == s[0]
  }

  /** The checks after the format test: a code of one repeated character is
      refused, then the tenth digit must be the check digit. */
  function CodeVerdict(s: string): (v: Verdict)
    requires |s| >= 10 && AllDigits(s[..10])
    ensures v != WrongFormat
    ensures v == Accepted <==> !AllSame(s) && DigitValue(s[9]) == CheckDigit(s)
  {
    assert s[..10][..9] == s[..9];
    assert IsDigit(s[..10][9]);
    if AllSame(s) then BadCode
    else if DigitValue(s[9]) != CheckDigit(s) then BadCode
    else Accepted
  }

  /** The national code validator as written: an empty value passes, a value
      the pattern rejects is the wrong format, and the rest are judged by
      `CodeVerdict`, on the value including any trailing newline. */
  function NationalCodeAsWritten(value: string): (v: Verdict)
    ensures value == "" ==> v == Accepted
    ensures value != "" && !MatchToEnd(value, TenDigits) ==> v == WrongFormat
    ensures value != "" && MatchToEnd(value, TenDigits) ==> v == CodeVerdict(value)
  {
    if value == "" then Accepted
    else if !MatchToEnd(value, TenDigits) then WrongFormat
    else
      assert value[..10] == value || value[..10] == value[..|value| - 1];
      CodeVerdict(value)
  }

  /** A trailing newline makes the one-repeated-digit test see two distinct
      characters, so a code of ten ones is accepted. */
  lemma RepeatedDigitsSlipThrough()
    ensures NationalCodeAsWritten("1111111111") == BadCode
    ensures NationalCodeAsWritten("1111111111\n") == Accepted
  {
    OnesRefused();
    OnesWithNewlineAccepted();
  }

  lemma OnesRefused()
    ensures NationalCodeAsWritten("1111111111") == BadCode
  {
    assert AllSame("1111111111");
  }

  lemma OnesWithNewlineAccepted()
    ensures NationalCodeAsWritten("1111111111\n") == Accepted
  {
    var s := "1111111111\n";
    assert s[..10] == "1111111111";
    assert !AllSame(s) by {
      assert s[10] != s[0];
    }
    WeightedOnes(s, 9);
    assert WeightedSum(s, 9) == 54;
  }

  /** Weighted digits 10, 9, ... over a run of ones. */
  lemma {:induction false} WeightedOnes(s: string, n: nat)
    requires n <= |s| && n <= 10 && forall i :: 0 <= i < n ==> s[i] == '1'
    ensures AllDigits(s[..n]) && WeightedSum(s, n) * 2 == n * (21 - n)
    decreases n
  {
    assert forall i :: 0 <= i < n ==> s[..n][i] == '1';
    if n > 0 {
      WeightedOnes(s, n - 1);
      assert DigitValue(s[n - 1]) == 1;
      assert WeightedSum(s, n) == WeightedSum(s, n - 1) + (11 - n);
      assert n * (21 - n) == (n - 1) * (22 - n) + 2 * (11 - n);
    }
  }

  /** The validator as intended: exactly ten digits, not all the same, with
      the right check digit; or empty. */
  function NationalCode(value: string): (v: Verdict)
    ensures value == "" ==> v == Accepted
    ensures value != "" && !TenDigits(value) ==> v == WrongFormat
    ensures v == Accepted <==>
      value == "" || (TenDigits(value) && !AllSame(value) && DigitValue(value[9]) == CheckDigit(value))
  {
    if value == "" then Accepted
    else if !TenDigits(value) then WrongFormat
    else
      assert value[..10] == value;
      CodeVerdict(value)
  }

  /** The two versions agree on every value without a trailing newline. */
  lemma NationalCodeAgrees(value: string)
    requires |value| == 0 || value[|value| - 1] != '\n'
    ensures NationalCode(value) == NationalCodeAsWritten(value)
  {
  }

  /** For any nine leading digits exactly one tenth digit passes the
      checksum. */
  lemma CheckDigitUnique(prefix: string, d: nat)
    requires |prefix| == 9 && AllDigits(prefix) && d < 10
    ensures var s := prefix + [DigitChar(d)];
      TenDigits(s) && s[..9] == prefix && (DigitValue(s[9]) == CheckDigit(s) <==> d == CheckDigit(prefix))
  {
    var s := prefix + [DigitChar(d)];
    assert s[..9] == prefix;
    WeightedSumPrefix(s, prefix, 9);
  }

  lemma {:induction false} WeightedSumPrefix(s: string, t: string, n: nat)
    requires n <= |s| && n <= |t| && n <= 10 && s[..n] == t[..n] && AllDigits(s[..n])
    ensures WeightedSum(s, n) == WeightedSum(t, n)
    decreases n
  {
    if n > 0 {
      assert s[..n - 1] == s[..n][..n - 1] && t[..n - 1] == t[..n][..n - 1];
      assert s[n - 1] == s[..n][n - 1] && t[n - 1] == t[..n][n - 1];
      WeightedSumPrefix(s, t, n - 1);
    }
  }

  predicate IsUpperLetter(c: char) {
    'A' <= c <= 'Z'
  }

  /** `[A-Z]{2}-\d{1,3}` in full. */
  predicate MachineCodeShape(s: string) {
    4 <= |s| <= 6 && IsUpperLetter(s[0]) && IsUpperLetter(s[1]) && s[2] == '-' && AllDigits(s[3..])
  }

  /** A machine code is two capital letters, a hyphen and one to three
      digits, as `re.match` with `$` reads the pattern. */
  function MachineCode(value: string): (v: Verdict)
    ensures v == Accepted <==> MatchToEnd(value, MachineCodeShape)
    ensures v != BadCode
  {
    if MatchToEnd(value, MachineCodeShape) then Accepted else WrongFormat
  }

  // ── A reference reading of the pattern ───────────────────

  /** The character classes the machine code pattern uses. */
  datatype CharClass = UpperLetters | Digits | Literal(c: char)

  predicate InClass(c: char, k: CharClass) {
    match k
    case UpperLetters => IsUpperLetter(c)
    case Digits => IsDigit(c)
    case Literal(x) => c == x
  }

  /** One element of a pattern: a class repeated `lo` to `hi` times. */
  datatype Piece = Piece(k: CharClass, lo: nat, hi: nat)

  predicate RunOf(s: string, k: CharClass) {
    forall i :: 0 <= i < |s| ==> InClass(s[i], k)
  }

  /** `s` is matched in full by the pieces in order, each taking between
      its bounds of characters of its class. */
  predicate Matches(pat: seq<Piece>, s: string)
    decreases |pat|
  {
    if |pat| == 0 then |s| == 0
    else exists n :: pat[0].lo <= n <= pat[0].hi && n <= |s| && RunOf(s[..n], pat[0].k) && Matches(pat[1..], s[n..])
  }

  /** `[A-Z]{2}-\d{1,3}` as pieces. */
  const MachineCodePattern: seq<Piece> := [Piece(UpperLetters, 2, 2), Piece(Literal('-'), 1, 1), Piece(Digits, 1, 3)]

  lemma MachineCodeShapeMatches(s: string)
    ensures MachineCodeShape(s) <==> Matches(MachineCodePattern, s)
  {
    if MachineCodeShape(s) {
      ShapeMatches(s);
    }
    if Matches(MachineCodePattern, s) {
      MatchesShape(s);
    }
  }

  /** One piece taking `n` characters, followed by the rest of the pattern. */
  lemma MatchesStep(pc: Piece, rest: seq<Piece>, s: string, n: nat)
    requires pc.lo <= n <= pc.hi && n <= |s| && RunOf(s[..n], pc.k) && Matches(rest, s[n..])
    ensures Matches([pc] + rest, s)
  {
    assert ([pc] + rest)[1..] == rest;
  }

  /** The characters the first piece of a match takes. */
  lemma MatchesFirst(pc: Piece, rest: seq<Piece>, s: string) returns (n: nat)
    requires Matches([pc] + rest, s)
    ensures pc.lo <= n <= pc.hi && n <= |s| && RunOf(s[..n], pc.k) && Matches(rest, s[n..])
  {
    assert ([pc] + rest)[1..] == rest;
    n :| pc.lo <= n <= pc.hi && n <= |s| && RunOf(s[..n], pc.k) && Matches(rest, s[n..]);
  }

  lemma ShapeMatches(s: string)
    requires MachineCodeShape(s)
    ensures Matches(MachineCodePattern, s)
  {
    var s2, s3 := s[2..], s[3..];
    assert s2[1..] == s3;
    assert s3[|s3|..] == [];
    assert s3[..|s3|] == s3;
    MatchesStep(Piece(Digits, 1, 3), [], s3, |s3|);
    assert s2[..1] == ['-'];
    MatchesStep(Piece(Literal('-'), 1, 1), [Piece(Digits, 1, 3)], s2, 1);
    assert s[..2] == [s[0], s[1]];
    MatchesStep(Piece(UpperLetters, 2, 2), [Piece(Literal('-'), 1, 1), Piece(Digits, 1, 3)], s, 2);
    assert [Piece(UpperLetters, 2, 2)] + [Piece(Literal('-'), 1, 1), Piece(Digits, 1, 3)] == MachineCodePattern;
  }

  lemma MatchesShape(s: string)
    requires Matches(MachineCodePattern, s)
    ensures MachineCodeShape(s)
  {
    assert MachineCodePattern == [Piece(UpperLetters, 2, 2)] + [Piece(Literal('-'), 1, 1), Piece(Digits, 1, 3)];
    var n0 := MatchesFirst(Piece(UpperLetters, 2, 2), [Piece(Literal('-'), 1, 1), Piece(Digits, 1, 3)], s);
    assert s[..2][0] == s[0] && s[..2][1] == s[1];
    MatchesShapeTail(s[2..]);
    assert s[2..][1..] == s[3..];
  }

  /** The hyphen and digits that follow the two letters. */
  lemma MatchesShapeTail(s2: string)
    requires Matches([Piece(Literal('-'), 1, 1), Piece(Digits, 1, 3)], s2)
    ensures 2 <= |s2| <= 4 && s2[0] == '-' && AllDigits(s2[1..])
  {
    assert [Piece(Literal('-'), 1, 1), Piece(Digits, 1, 3)] == [Piece(Literal('-'), 1, 1)] + [Piece(Digits, 1, 3)];
    var n1 := MatchesFirst(Piece(Literal('-'), 1, 1), [Piece(Digits, 1, 3)], s2);
    assert s2[..1][0] == s2[0];
    var s3 := s2[1..];
    assert [Piece(Digits, 1, 3)] == [Piece(Digits, 1, 3)] + [];
    var n2 := MatchesFirst(Piece(Digits, 1, 3), [], s3);
    assert n2 == |s3|;
    assert s3[..n2] == s3;
  }

  /** The validator accepts exactly what the pattern reading matches, with
      or without one trailing newline. */
  lemma MachineCodeAgrees(value: string)
    ensures MachineCode(value) == Accepted <==>
      Matches(MachineCodePattern, value)
      || (|value| > 0 && value[|value| - 1] == '\n' && Matches(MachineCodePattern, value[..|value| - 1]))
  {
    MachineCodeShapeMatches(value);
    if |value| > 0 {
      MachineCodeShapeMatches(value[..|value| - 1]);
    }
  }

  lemma MachineCodeExamples()
    ensures MachineCode("CR-01") == Accepted
    ensures MachineCode("RG-150") == Accepted
    ensures MachineCode("cr-01") == WrongFormat
    ensures MachineCode("CR-1234") == WrongFormat
    ensures MachineCode("CR-") == WrongFormat
  {
    assert MachineCodeShape("CR-01") by {
      assert "CR-01"[3..] == "01";
    }
    assert MachineCodeShape("RG-150") by {
      assert "RG-150"[3..] == "150";
    }
    assert !MachineCodeShape("cr-01");
  }
}

=== FILE: winding.dfy ===
/** Winding production records: the cut-based quality grade and the package
    type. */
module Winding {
  import opened Wrappers

  datatype PackageType = Cone | Cheese | Spool

  const DefaultPackageType := Cone

  datatype Grade = GradeA | GradeB | GradeC | GradeD | Unknown

  /** The cut counts per 100 km at which grades B, C and D begin; the API's
      grade distribution uses the same bands. */
  const GradeBFrom: nat := 20
  const GradeCFrom: nat := 40
  const GradeDFrom: nat := 60

  /** Grade by yarn-clearer cuts per 100 km: below 20, 40 and 60 give A, B
      and C, anything higher D, and no reading gives no grade. */
  function QualityGrade(cuts: Option<nat>): (g: Grade)
    ensures g == Unknown <==> cuts.None?
    ensures g == GradeA <==> cuts.Some? && cuts.value < 20
    ensures g == GradeB <==> cuts.Some? && 20 <= cuts.value < 40
    ensures g == GradeC <==> cuts.Some? && 40 <= cuts.value < 60
    ensures g == GradeD <==> cuts.Some? && cuts.value >= 60
  {
    match cuts
    case None => Unknown
    case Some(c) =>
      if c < GradeBFrom then GradeA else if c < GradeCFrom then GradeB else if c < GradeDFrom then GradeC else GradeD
  }

  function GradeOrdinal(g: Grade): nat {
    match g
    case GradeA => 0
    case GradeB => 1
    case GradeC => 2
    case GradeD => 3
    case Unknown => 4
  }

  /** More cuts never give a better grade. */
  lemma GradeMonotone(a: nat, b: nat)
    requires a <= b
    ensures GradeOrdinal(QualityGrade(Some(a))) <= GradeOrdinal(QualityGrade(Some(b)))
  {
  }
}

=== FILE: winding_signals.dfy ===
/** Winding production checks run around each save: metadata skeleton and
    waste percentage before, cut and efficiency alerts after. */
module WindingSignals {
  import opened Wrappers
  import opened Numeric
  import opened Json

  const CutsWarningThreshold: nat := 50
  const CutsCriticalThreshold: nat := 80
  const EfficiencyMin: real := 65.0

  const HighCuts := Alert(Critical, "HIGH_CUTS")
  const ElevatedCuts := Alert(Warning, "ELEVATED_CUTS")
  const LowEfficiency := Alert(Warning, "LOW_EFFICIENCY")

  /** The metadata skeleton of this stage; the save hooks are
      `WastePreSave` with it and `AlertsPostSave` with `Alerts`. */
  const Skeleton: Object := LogSkeleton("sensor_tension_log", "speed_log")

  /** The alerts of one save: at most one cut alert (critical from 80,
      warning from 50) and a warning for efficiency below 65. */
  function Alerts(cuts: Option<nat>, efficiency: Option<real>): (r: seq<Alert>)
    ensures |r| <= 2
    ensures HighCuts in r <==> cuts.Some? && cuts.value >= CutsCriticalThreshold
    ensures ElevatedCuts in r <==> cuts.Some? && CutsWarningThreshold <= cuts.value < CutsCriticalThreshold
    ensures LowEfficiency in r <==> efficiency.Some? && efficiency.value < EfficiencyMin
    ensures forall a :: a in r ==> a in {HighCuts, ElevatedCuts, LowEfficiency}
  {
    (if cuts.None? then []
     else if cuts.value >= CutsCriticalThreshold then [HighCuts]
     else if cuts.value >= CutsWarningThreshold then [ElevatedCuts]
     else [])
    + (if efficiency.Some? && efficiency.value < EfficiencyMin then [LowEfficiency] else [])
  }

  /** A clean save after an alerting one keeps the stale alerts. */
  lemma CleanSaveKeepsStaleAlerts(meta: Object, cuts: Option<nat>, efficiency: Option<real>)
    requires cuts.None? || cuts.value < CutsWarningThreshold
    requires efficiency.None? || efficiency.value >= EfficiencyMin
    ensures AlertsPostSave(meta, Alerts(cuts, efficiency)) == Keep
  {
  }
}

=== FILE: wrappers.dfy ===
/** Optional values and error-or-value results, used wherever the source
    returns `None` or rejects an input. */
module Wrappers {

  /** A value that may be missing: Python's `None` or a present value. */
  datatype Option<+T> = None | Some(value: T) {
    /** The present value, or `default` when missing (Python's `x or default`
        when only `None` is falsy). */
    function GetOr(default: T): T {
      match this
      case Some(v) => v
      case None => default
    }
  }

  /** The outcome of an operation that either succeeds with a value or is
      refused with a reason. */
  datatype Result<+T, +E> = Ok(value: T) | Err(error: E)
}
